=== FILE: README.md ===
# cmdbridge in Dafny

cmdbridge translates a command line of one program into the equivalent command
of another program of the same domain, for example a `pacman` package command
into an `apt` one. It also renders a named operation directly.

The engine it rests on has six parts, and this project models each of them:

- **Two parsers.** An argparse-style parser handles scoped subcommands, value
  counts and `--`. A getopt-style parser handles short-flag bundles,
  `--name=value`, repeat counting and `--`. Both turn an argument vector into
  a canonical command tree: a `CommandNode` with typed `CommandArg`s and at
  most one subcommand.
- **The grammar loader.** It reads a program's parser configuration and
  resolves template `id`s and their `include_arguments_and_subcmds`
  references.
- **Template synthesis.** Two generations of it, a cache-side one and an
  older config-side one. Each turns every `cmd_format` of an operation group
  into an example argument vector made of sentinel values, parses it, and
  records where each `{parameter}` ended up.
- **The structural matcher.** It compares a parsed command against those
  templates and extracts the parameter values.
- **The renderer.** It substitutes parameters into a destination program's
  `cmd_format`.
- **The operation index and glue.**
  - The index lists which program implements which operation, and each
    program's formats; the cache manager's lookups read it.
  - The path manager lists domains and operation groups.
  - `map_command` and `map_operation` tie everything together.

The model is purely functional:

- Exceptions are `Result` values.
- Loaded TOML and directory listings are inputs.
- Python dictionaries whose order matters are association lists (`Dicts`),
  with Python's update-in-place semantics.

The modules follow the source files:

| module | models |
|---|---|
| `Util`, `Text`, `Dicts`, `Sorting` | Python built-ins the code relies on: `str.split`, `str.join`, `str.replace`, the two regular expressions, `dict` update, `sorted`, `sorted(set(...))` |
| `Grammar`, `Tree` | the parser configuration and the command tree |
| `Argparse`, `Getopt`, `Parsers` | `parsers/argparse_parser.py`, `parsers/getopt_parser.py`, parser dispatch |
| `ConfigLoader` | `parsers/config_loader.py` |
| `Matcher` | `cmdbridge/core/cmd_mapping.py` |
| `Renderer` | `cmdbridge/core/operation_mapping.py` |
| `Synthesis`, `CmdMappingCache`, `CmdMappingCreator` | the shared synthesis steps, `cmdbridge/cache/cmd_mapping_mgr.py`, `cmdbridge/config/cmd_mapping_creator.py` |
| `OpIndex` | `cmdbridge/cache/operation_mapping_mgr.py` and `cmdbridge/config/operation_mapping_creator.py` |
| `CacheMgr` | `cmdbridge/cache/cache_mgr.py` |
| `Paths` | `cmdbridge/config/path_manager.py` |
| `Bridge` | `cmdbridge/cmdbridge.py` |

Some type definitions are missing from the source (`CommandNode`, `CommandArg`,
`CommandToken`, `TokenType`, `ArgumentConfig`, `ArgumentCount`,
`SubCommandConfig`, and `ParserType`, which `parsers/config_loader.py:8` imports
from `parsers/types.py` although that file does not define it). They are declared from how the code uses them.
The same holds for the parser configuration's `get_positional_arguments`, called at
`parsers/getopt_parser.py:287`: `Grammar.PositionalArguments` takes it to list the
positional configurations in declaration order, as `_get_positional_arg_config`
(`parsers/argparse_parser.py:354-358`) scans them.

The predicates of `ArgumentCount` (`validate_count`, `get_exact_count`,
`accepts_values` and the like) are not defined anywhere in the source. They are
given assumed definitions over the value counts `n`, `?`, `+` and `*` (see
`Grammar`):

- exactly `n` accepts `n` values;
- `?` accepts at most one;
- `+` accepts at least one;
- `*` accepts any number.

With these definitions, the argparse tokenizer's test that one more value
still fits (`validate_count(count + 1)`) has two consequences. An option with
an exact count of three or more is cleared after its first value. A positional
with an exact count of two or more rejects its first value. These are stated by
`Argparse.ExactCountValues` and `Argparse.PlainArgument`.

An option takes values unless its count is exactly `0`. The primary option
name is the first entry of `opt`.

## Model

| member | source | states |
|---|---|---|
| Grammar.ParseNArgs | parsers/config_loader.py:153-160 | a value count is read from digits, `?`, `+` or `*` and from nothing else; digits give that exact count |
| Grammar.ParseNArgsSpec | parsers/config_loader.py:153-160 | every value count reads back from its own textual form |
| Grammar.PositionalArguments | parsers/getopt_parser.py:286-289 | the positional configurations: exactly the positional ones, present iff one is declared, and led by the first one declared |
| Grammar.PositionalArgumentsAppend | parsers/getopt_parser.py:286-289 | the positional configurations keep declaration order: those of two runs are those of the first run followed by those of the second |
| Argparse.Tokenize | parsers/argparse_parser.py:177-194 | the first argument becomes the PROGRAM token and the rest are tokenized in the root scope, one token per argument |
| Argparse.TokenizeArguments | parsers/argparse_parser.py:196-337 | a successful tokenization of a scope gives one single-valued token per argument, with separators exactly at `--` and positional, value, extra and separator tokens carrying their argument verbatim |
| Argparse.Scan | parsers/argparse_parser.py:236-272 | a dash argument before `--` is an error while an option is still pending, or when no configuration of the current scope matches it |
| Argparse.DashArgument | parsers/argparse_parser.py:241-272 | a configured dash argument resets the positional count; a flag becomes FLAG under its primary name; an option becomes OPTION_NAME under its primary name and the current option, with a fixed count or `+` (one value) recorded as outstanding; any other configuration is a ValueError |
| Argparse.ScanAfterSeparator | parsers/argparse_parser.py:226-233 | once in pass-through, every argument becomes EXTRA_ARG except another literal `--` |
| Argparse.SeparatorStartsPassThrough | parsers/argparse_parser.py:217-233 | a `--` is emitted as a separator and puts the scope into pass-through, so everything after it is carried verbatim |
| Argparse.SubcommandScope | parsers/argparse_parser.py:290-302 | a plain argument with no exact value outstanding is checked as a subcommand first, even while an option is current; it is emitted under the configured name and the rest is tokenized in the subcommand's scope only, so an option only the parent knows is rejected after it |
| Argparse.ExactCountValues | parsers/argparse_parser.py:236-290 | an option with an exact count takes the following plain arguments as OPTION_VALUEs and is then cleared: two values for a count of two, one for a count of one, and (by the assumed count check) one for any larger count |
| Argparse.PendingOptionValue | parsers/argparse_parser.py:305-314 | a plain argument that is no subcommand, with an option current and no exact count outstanding, is that option's next OPTION_VALUE when its count allows one more, and a ValueError otherwise |
| Argparse.PlainArgument | parsers/argparse_parser.py:316-331 | a plain argument that is no subcommand and no option value is a ValueError when the scope has no positional configuration or its count is full, and otherwise a POSITIONAL_ARG counted towards it |
| Argparse.SplitAtSubcommand | parsers/argparse_parser.py:163-175 | tokens split at the first SUBCOMMAND token: a subcommand-free prefix, that token, and the rest, which concatenate back to the input |
| Argparse.RunOkIff | parsers/argparse_parser.py:131-135 | building a scope fails exactly when an OPTION_VALUE arrives before any OPTION_NAME |
| Argparse.RunGathers | parsers/argparse_parser.py:140-157 | all POSITIONAL (likewise EXTRA) tokens of a scope merge into the only argument of that kind, holding every value in input order |
| Argparse.ValuesOfIgnoresOthers | parsers/argparse_parser.py:140-148 | where a token of another kind sits does not change the merged positional values, so `install -y vim git` and `install vim -y git` agree |
| Argparse.RunFlagsCounted | parsers/argparse_parser.py:112-121 | same-named FLAG tokens become one FLAG argument, with repeat equal to the number of occurrences |
| Argparse.RunKeys | parsers/argparse_parser.py:106-157 | the arguments of a scope are one per flag name, option name, positional run and extra run, in the order in which each first occurs among the tokens |
| Argparse.RunOptionsTracked | parsers/argparse_parser.py:122-139 | a repeated option reuses its OPTION argument, and every OPTION_VALUE is appended, in order, to the option named most recently |
| Argparse.CurrentOptionGiven | parsers/argparse_parser.py:122-135 | the option receiving values is always one that was named in the scope |
| Argparse.OptionValuesGiven | parsers/argparse_parser.py:131-135 | only a named option can receive values |
| Argparse.BuildArguments | parsers/argparse_parser.py:86-161 | a scope's arguments: an error iff a value precedes every option name; exactly one positional and one extra argument when there are such tokens, holding all their values in order; counted flags and collected options; the arguments in order of their first tokens |
| Argparse.BuildNode | parsers/argparse_parser.py:76-84 | a node's own arguments come from the tokens before the first subcommand, its only child from the rest, so the chain of names is the subcommand tokens in order |
| Argparse.SplitNames | parsers/argparse_parser.py:163-175 | the first subcommand token names the child, and the later ones name the child's descendants |
| Argparse.BuildCommandTree | parsers/argparse_parser.py:52-74 | ValueError on no tokens or a first token that is not PROGRAM; otherwise the root is named by the program token and the chain by the subcommands |
| Argparse.Parse | parsers/argparse_parser.py:22-50 | an empty argument vector is a ValueError; a parse tree is rooted at the first argument with the subcommand tokens as its chain |
| Argparse.Validate | parsers/argparse_parser.py:360-371 | validation always passes, since tokenizing and building already checked everything |
| Getopt.PendingAtEnd | parsers/getopt_parser.py:63-179 | before `--`, when the last argument leaves an option pending, the token stream ends with it: a value-less OPTION_NAME if it takes values, else a FLAG |
| Getopt.DashFlushesPending | parsers/getopt_parser.py:78-90 | a dash argument arriving while an option is pending first emits that option as a FLAG, then scans as if nothing had been pending |
| Getopt.Flags | parsers/getopt_parser.py:113-133 | one `-x` FLAG per letter, in order |
| Getopt.BundleShape | parsers/getopt_parser.py:113-133 | a bundle `-abc` yields one FLAG per letter in order, except that a value-taking last letter is left pending; unknown and non-final value-taking letters are FLAGs |
| Getopt.LongOptionWithValue | parsers/getopt_parser.py:99-112 | `--name=value` splits at its first `=` into OPTION_NAME(name) and OPTION_VALUE(value) |
| Getopt.Scan | parsers/getopt_parser.py:61-182 | the token stream is well formed: every OPTION_VALUE follows an OPTION_NAME or another value |
| Getopt.ScanAfterSeparator | parsers/getopt_parser.py:67-76 | after `--` with nothing pending, every later argument, dash or not, is passed through as EXTRA_ARG |
| Getopt.PendingTakesNext | parsers/getopt_parser.py:140-152 | a pending value-taking option claims the next non-dash argument as its OPTION_VALUE |
| Getopt.PlainArgument | parsers/getopt_parser.py:138-161 | an argument that no pending value-taking option claims is a POSITIONAL_ARG before `--` and an EXTRA_ARG after it, and leaves any pending option pending |
| Getopt.Tokenize | parsers/getopt_parser.py:44-182 | `args[0]` always becomes the PROGRAM token, followed by a well-formed scan of the rest |
| Getopt.WalkCollects | parsers/getopt_parser.py:241-302 | the tree walk gives each OPTION_NAME its own OPTION argument with the values following it, each EXTRA token its own EXTRA argument, and collects every positional value in order |
| Getopt.FlagNamesSpec | parsers/getopt_parser.py:221-239 | the flag names added are exactly those flagged at least once, each once |
| Getopt.WalkFlags | parsers/getopt_parser.py:221-239 | flag arguments are created once per name in order of first occurrence, and every occurrence is counted |
| Getopt.SetRepeatsCounted | parsers/getopt_parser.py:277-281 | the final pass sets each flag argument's repeat to that name's occurrence count |
| Getopt.BuildCommandTree | parsers/getopt_parser.py:193-203 | ValueError exactly when there are no tokens or the first is not PROGRAM; otherwise a single root node named after the program, without subcommand |
| Getopt.BuildCommandTreeFlags | parsers/getopt_parser.py:221-239 | a built tree's flag arguments are one per name, in order of first occurrence, repeated as often as it occurs, so `-Syy` gives `-S` once and `-y` twice |
| Getopt.BuildCommandTreeCollects | parsers/getopt_parser.py:241-302 | a built tree has one OPTION argument per option name with the values right after it, one EXTRA argument per extra token, and one POSITIONAL argument with every positional value |
| Getopt.WalkOrder | parsers/getopt_parser.py:217-275 | the walk appends a flag argument at the first occurrence of each new name, an option argument at every option name and an extra argument at every extra token, in token order |
| Getopt.BuildCommandTreeOrder | parsers/getopt_parser.py:217-302 | a built tree's arguments are flags, options and extras interleaved in token order, then the merged positional argument last |
| Getopt.BuildCommandTreePositionalLast | parsers/getopt_parser.py:283-302 | positional values form one POSITIONAL argument, appended last and named after the first positional configuration |
| Getopt.PositionalName | parsers/getopt_parser.py:284-302 | the merged positional argument is unnamed exactly when the configuration declares no positional argument |
| Getopt.PositionalNameFirst | parsers/getopt_parser.py:284-294 | the merged positional argument is named after the first positional configuration declared, whatever follows it |
| Getopt.Parse | parsers/getopt_parser.py:27-42 | parsing fails exactly on an empty argument vector, with ValueError; the tree is rooted at the program name and has no subcommand |
| Getopt.FindFirstMatch | parsers/getopt_parser.py:317-340 | the argument checked for a configuration is the first root argument it matches, by option name or as a positional of its name, or unnamed for an option-less configuration |
| Getopt.Validate | parsers/getopt_parser.py:307-358 | validation fails iff some configuration's first matching argument has a value count it rejects, or a required configuration has no matching argument |
| Parsers.Parse | cmdbridge/cache/cmd_mapping_mgr.py:237-253 | parsing dispatches on the parser type; an empty vector fails, and a tree is rooted at the program name |
| Parsers.Validate | cmdbridge/core/cmd_mapping.py:144-150 | validation is the chosen parser's; an argparse tree always passes |
| ConfigLoader.ReadParserType | parsers/config_loader.py:54-61 | a missing or empty parser type means argparse; `argparse` and `getopt` are read as such, and anything else is a ValueError |
| ConfigLoader.ParseArgument | parsers/config_loader.py:149-174 | an argument needs a non-empty, readable `nargs` (ValueError otherwise); `name` defaults to "", `opt` to none, `required` to false |
| ConfigLoader.ParseArguments | parsers/config_loader.py:149-174 | arguments are parsed element by element and succeed iff every one does |
| ConfigLoader.CollectIsPutAll | parsers/config_loader.py:89-105 | collecting templates registers the `id` of every subcommand at any depth, in document order, each registration a dictionary update |
| ConfigLoader.CollectedTemplate | parsers/config_loader.py:89-105 | a template id names the last subcommand carrying it, so a later duplicate replaces an earlier one |
| ConfigLoader.Absorb | parsers/config_loader.py:127-141 | an includer takes the included template's arguments, subcommands and description where that one has them, and loses its include key |
| ConfigLoader.Preprocess | parsers/config_loader.py:111-143 | preprocessing keeps the template ids and fails only by unbounded recursion |
| ConfigLoader.PreprocessTemplates | parsers/config_loader.py:107-147 | all templates are preprocessed in registration order, keeping the ids |
| ConfigLoader.PreprocessKeepsInv | parsers/config_loader.py:111-143 | one preprocessing call resolves its template after the one it includes, marks it processed after the recursive call, and leaves processed templates alone |
| ConfigLoader.PreprocessedTemplatesResolved | parsers/config_loader.py:107-147 | after preprocessing, every template is include-free and holds what its (resolved) included template provides; an include of an unknown id is dropped |
| ConfigLoader.SelfIncludeRecurses | parsers/config_loader.py:111-143 | a template that includes itself recurses without bound |
| ConfigLoader.FinalSubData | parsers/config_loader.py:206-223 | an entry without an include is used as it is; an unknown include is a ValueError; otherwise a shallow merge in which the entry's own keys win and `id` and the include key are removed |
| ConfigLoader.ParseSubCommands | parsers/config_loader.py:176-184 | subcommands are parsed in declaration order and succeed iff each does |
| ConfigLoader.ParseSubCommand | parsers/config_loader.py:186-204 | a subcommand's final data must have a name (KeyError otherwise) and the merge must succeed (ValueError otherwise); alias defaults to none; its arguments are parsed; nesting past the limit is never accepted |
| ConfigLoader.ParseSubCommandOutcome | parsers/config_loader.py:186-204 | at the nesting limit the result is a RecursionError; it succeeds exactly when the nesting is within the limit, the final data exists and has a name, and its arguments and subcommands parse; a failing argument is a ValueError; the subcommands are the final data's subcommands parsed one level deeper |
| ConfigLoader.LoadParserConfig | parsers/config_loader.py:39-87 | a missing program section or `parser_config` is a ValueError, and so is an unknown parser type; a cyclic include makes loading fail with RecursionError; `program_name` defaults to the section key; the subcommands are the top-level entries parsed against the preprocessed templates; loading succeeds exactly when the section, the parser type, the templates, the arguments and the subcommands all are in order, and a failing argument is a ValueError |
| ConfigLoader.ArgumentWithoutNargsFailsLoading | parsers/config_loader.py:75-157 | a program argument without `nargs` makes loading fail with a ValueError |
| ConfigLoader.SelfIncludeFailsLoading | parsers/config_loader.py:39-147 | a program whose only subcommand template includes itself cannot be loaded: RecursionError |
| Matcher.CompareArgs | cmdbridge/core/cmd_mapping.py:265-291 | two arguments match iff their kinds agree and: flags agree on name and repeat; options on name; options and positionals on their value sets unless either side has a placeholder; extras always |
| Matcher.CompareArgsEquivalence | cmdbridge/core/cmd_mapping.py:265-291 | argument comparison is reflexive and symmetric |
| Matcher.CompareNodesChains | cmdbridge/core/cmd_mapping.py:238-263 | two nodes match iff their subcommand chains have the same length and, level by level, equal names, equally many arguments and position-wise matching arguments |
| Matcher.CompareNodesReflexive | cmdbridge/core/cmd_mapping.py:238-263 | every node matches itself |
| Matcher.CompareNodesSymmetric | cmdbridge/core/cmd_mapping.py:238-263 | node comparison does not depend on the order of its inputs |
| Matcher.CompareNodesOrderSensitive | cmdbridge/core/cmd_mapping.py:251-258 | arguments are compared by position: swapping a flag and a positional breaks the match |
| Matcher.FindMatchingMapping | cmdbridge/core/cmd_mapping.py:189-218 | only the templates listed under the root's name are candidates; the first matching one in list order is returned, and none when no template matches or the program is unknown |
| Matcher.ArgBindings | cmdbridge/core/cmd_mapping.py:298-309 | a level binds, for each position both nodes have, a placeholder with non-empty source values to those values joined by single spaces |
| Matcher.ExtractParameterValues | cmdbridge/core/cmd_mapping.py:293-314 | each parameter holds its last binding along the two chains, descended while both nodes have a child: a later binding overwrites an earlier one |
| Matcher.MapToOperation | cmdbridge/core/cmd_mapping.py:138-171 | a parse error propagates; a rejected command or no match gives none; otherwise the first matching entry's operation, in list order, with the parameters extracted against that entry's tree |
| Matcher.MapToOperationIgnoresGroup | cmdbridge/core/cmd_mapping.py:189-218 | the destination group never affects the result |
| Renderer.ReplaceOne | cmdbridge/core/operation_mapping.py:123-129 | every occurrence of `{name}` is replaced by the value, verbatim and even inside quotes, and an absent placeholder leaves the text unchanged |
| Renderer.ReplaceParametersSnoc | cmdbridge/core/operation_mapping.py:121-127 | parameters are applied one after another in dictionary order, each to the result of the ones before |
| Renderer.ReplaceParametersNone | cmdbridge/core/operation_mapping.py:119-139 | with no parameters the format is returned unchanged |
| Renderer.OtherPlaceholderSurvives | cmdbridge/core/operation_mapping.py:123-127 | substituting one parameter never removes another parameter's placeholder |
| Renderer.UnboundPlaceholderRemains | cmdbridge/core/operation_mapping.py:131-137 | a placeholder with no bound value remains literally in the output, without error |
| Renderer.KeyMatchesIff | cmdbridge/core/operation_mapping.py:95-104 | an operation key matches exactly when it is the operation, or the operation and the program joined by a dot |
| Renderer.FindOperationKey | cmdbridge/core/operation_mapping.py:95-104 | the first matching key wins, in file order |
| Renderer.LoadOperationConfig | cmdbridge/core/operation_mapping.py:71-117 | an operation's entry comes from the program's file, under a non-empty matching key; a missing file, or a file where no key matches, gives none |
| Renderer.LoadOperationConfigFirst | cmdbridge/core/operation_mapping.py:95-113 | the first matching key in file order decides: its entry is loaded when the key is non-empty, and nothing is loaded when it is empty, whatever later keys match |
| Renderer.GenerateCommand | cmdbridge/core/operation_mapping.py:29-69 | a ValueError exactly when the entry is missing or empty or lacks a non-empty `cmd_format`; otherwise the format with the parameters substituted |
| Synthesis.LastSegment | cmdbridge/cache/cmd_mapping_mgr.py:106-110 | a key's last dot-separated segment is the program exactly when the key ends in `.program` |
| Synthesis.OperationName | cmdbridge/cache/cmd_mapping_mgr.py:106-110 | the operation name is the key with a trailing `.<program>` removed when present, otherwise the whole key |
| Synthesis.OperationNameOfQualified | cmdbridge/config/cmd_mapping_creator.py:88-94 | qualifying an operation with the program and reading the name back gives the operation |
| Synthesis.NumberedSentinels | cmdbridge/cache/cmd_mapping_mgr.py:186-200 | the numbered sentinels `__param_<name>_<i>__` for i = 1 to k, in order |
| Synthesis.NumberedSentinelsDistinct | cmdbridge/cache/cmd_mapping_mgr.py:186-200 | the numbered sentinels of one parameter are pairwise different |
| Synthesis.FindParamConfig | cmdbridge/cache/cmd_mapping_mgr.py:206-219 | a configuration with the parameter's name, from the program's own arguments first, then from the first-level subcommands in order; deeper levels are never searched |
| Synthesis.ExampleValues | cmdbridge/cache/cmd_mapping_mgr.py:176-204 | two numbered sentinels for `+` and `*`, n for a count n, and the single `__param_<name>__` for anything else or when no configuration has the name |
| Synthesis.ExampleValuesAccepted | cmdbridge/cache/cmd_mapping_mgr.py:176-204 | a configured parameter gets as many example values as its configuration accepts |
| Synthesis.ExampleValuesDistinct | cmdbridge/cache/cmd_mapping_mgr.py:176-204 | a parameter's example values are pairwise different |
| Synthesis.ExampleCommand | cmdbridge/cache/cmd_mapping_mgr.py:159-174 | a blank format gives an empty example |
| Synthesis.ExpandLiterals | cmdbridge/cache/cmd_mapping_mgr.py:166-172 | format parts that are not whole-token placeholders are kept, in order |
| Synthesis.ExpandPlaceholder | cmdbridge/cache/cmd_mapping_mgr.py:166-172 | a whole-token `{name}` becomes that parameter's example values |
| Synthesis.ExampleCommandOfWords | cmdbridge/cache/cmd_mapping_mgr.py:159-174 | a format of single-space-separated words expands exactly those words, part by part |
| Synthesis.ParseExample | cmdbridge/cache/cmd_mapping_mgr.py:237-253 | the example's tree, or none exactly when the parser raises |
| Synthesis.FirstOnChain | cmdbridge/config/cmd_mapping_creator.py:274-290 | a lookup tries each node before its subcommand and returns the first answer down the chain |
| Synthesis.BindEach | cmdbridge/config/cmd_mapping_creator.py:258-272 | each placeholder name is bound to its lookup's answer, and names without an answer are absent |
| Synthesis.CollectEntriesSnoc | cmdbridge/cache/cmd_mapping_mgr.py:78-81 | operations are processed in table order, each adding its entry, if any, after the earlier ones |
| CmdMappingCache.FirstPositional | cmdbridge/cache/cmd_mapping_mgr.py:290-297 | the first positional argument of the node, else of its subcommand, and so on down the chain |
| CmdMappingCache.AnalyzeParameterMapping | cmdbridge/cache/cmd_mapping_mgr.py:271-305 | every placeholder name is bound to the first positional argument on the subcommand chain, and none is bound when there is no positional argument |
| CmdMappingCache.AllParametersShareOneArgument | cmdbridge/cache/cmd_mapping_mgr.py:271-305 | any two parameters of a format are bound to the same argument, whichever parameter it is |
| CmdMappingCache.FinalFormat | cmdbridge/cache/cmd_mapping_mgr.py:129-131 | `final_cmd_format` is copied only when present and non-empty |
| CmdMappingCache.ProcessOperation | cmdbridge/cache/cmd_mapping_mgr.py:85-134 | an entry exists iff there is a `cmd_format`, a parser configuration and an example that parses; it records the operation name, the quote-stripped format, the parsed tree and the final format |
| CmdMappingCache.QuotedPlaceholderStoredBare | cmdbridge/cache/cmd_mapping_mgr.py:96-99 | quotes directly around a placeholder are stripped, and the stored format is the stripped one |
| CmdMappingCache.GroupEntries | cmdbridge/cache/cmd_mapping_mgr.py:61-83 | a group gets at most one entry per operation, and none without a parser configuration |
| CmdMappingCache.CreateMappings | cmdbridge/cache/cmd_mapping_mgr.py:35-59 | a missing group file is a FileNotFoundError; a missing parser configuration or an unreadable file gives an empty result; otherwise exactly the group's entries, one per parsed mapping of the file |
| CmdMappingCache.OperationWithoutFormatSkipped | cmdbridge/cache/cmd_mapping_mgr.py:87-89 | an operation without `cmd_format` adds nothing |
| CmdMappingCache.OperationEntryAppended | cmdbridge/cache/cmd_mapping_mgr.py:133-134 | an operation whose example parses adds its entry after the earlier ones |
| CmdMappingCreator.MarkArg | cmdbridge/config/cmd_mapping_creator.py:239-250 | an argument with a value containing `__param_<p>` for a placeholder p gets the `__placeholder__` mark before its option name, once; any other argument is unchanged |
| CmdMappingCreator.MarkNode | cmdbridge/config/cmd_mapping_creator.py:233-256 | marking covers every argument of every node along the subcommand chain and keeps the chain's shape and names |
| CmdMappingCreator.MarkMatchesLongerName | cmdbridge/config/cmd_mapping_creator.py:243-247 | the test is a substring test: the parameter `pkg` marks an argument holding `pkgs`'s sentinel |
| CmdMappingCreator.LocateInArgs | cmdbridge/config/cmd_mapping_creator.py:277-288 | the first argument in order with a value containing the needle, and the index of that value |
| CmdMappingCreator.FindParameterInNode | cmdbridge/config/cmd_mapping_creator.py:274-290 | a parameter's location is the first argument, in node order and then value order, whose value contains `__param_<name>`, searching a node before its subcommand; none iff no node holds such a value |
| CmdMappingCreator.AnalyzeParameterMapping | cmdbridge/config/cmd_mapping_creator.py:258-272 | each placeholder is bound to its location, and placeholders with no located sentinel are absent |
| CmdMappingCreator.ExampleValueLocated | cmdbridge/config/cmd_mapping_creator.py:274-290 | an example value generated for a parameter, once in the tree, is always located |
| CmdMappingCreator.LocatedArgumentIsMarked | cmdbridge/config/cmd_mapping_creator.py:115-136 | the argument recorded for a parameter carries the mark, since marking runs before locating |
| CmdMappingCreator.ProcessOperation | cmdbridge/config/cmd_mapping_creator.py:77-113 | an entry exists iff there is a `cmd_format`, a parser configuration and an example that parses; the format is used as written and the stored tree is the marked one |
| CmdMappingCreator.ProgramEntries | cmdbridge/config/cmd_mapping_creator.py:69-73 | a program gets at most one entry per operation, none without a parser configuration, and none with a final format |
| CmdMappingCreator.OperationWithoutFormatSkipped | cmdbridge/config/cmd_mapping_creator.py:79-81 | an operation without `cmd_format` adds nothing |
| CmdMappingCreator.ProcessOpsFile | cmdbridge/config/cmd_mapping_creator.py:53-75 | an unparseable file changes nothing; otherwise the program named by the stem has an entry list, possibly empty, and no other program is touched |
| CmdMappingCreator.ProcessFilesKeys | cmdbridge/config/cmd_mapping_creator.py:45-48 | the programs in the result are exactly the stems of the files that parsed |
| CmdMappingCreator.CreateMappings | cmdbridge/config/cmd_mapping_creator.py:32-51 | a missing operations directory is a FileNotFoundError; otherwise every parsed `.toml` yields an entry |
| OpIndex.EntryFormats | cmdbridge/cache/operation_mapping_mgr.py:99-108 | an operation writes its `cmd_format` under its name, and its `final_cmd_format` under the name with `_final`, only when each exists |
| OpIndex.AddOperation | cmdbridge/cache/operation_mapping_mgr.py:85-108 | indexing an operation lists the program under its name at most once, and updates only that program's formats |
| OpIndex.AddTable | cmdbridge/cache/operation_mapping_mgr.py:78-109 | a file's operations are indexed in order: the program is added to each operation it implements unless already listed |
| OpIndex.BuildIndex | cmdbridge/cache/operation_mapping_mgr.py:72-113 | every operation's program list is duplicate-free and holds exactly the programs whose file implements it, even without `cmd_format` |
| OpIndex.BuildIndexSnoc | cmdbridge/cache/operation_mapping_mgr.py:92-96 | programs are listed in file order: a later file appends its program unless already listed |
| OpIndex.UnparseableFileSkipped | cmdbridge/cache/operation_mapping_mgr.py:111-113 | an unparseable file contributes nothing, and the other files are still indexed |
| OpIndex.BuildIndexFormatsSourced | cmdbridge/cache/operation_mapping_mgr.py:99-108 | every stored format was written by an operation of that program, as `cmd_format` or, with final formats, as `final_cmd_format` |
| OpIndex.NoFinalFormatsStored | cmdbridge/config/operation_mapping_creator.py:89-94 | the older builder stores only `cmd_format`s, under operation names |
| OpIndex.FinalFormatStored | cmdbridge/cache/operation_mapping_mgr.py:105-108 | example: for one file with one operation, the final format is stored under the operation name with `_final`, next to the command format |
| OpIndex.BuildIndexFormats | cmdbridge/cache/operation_mapping_mgr.py:72-113 | the format stored for a program under a key is the last one written under that key by the operations of that program's parseable files, in file order: the last writer wins |
| OpIndex.WrittenFormatStored | cmdbridge/cache/operation_mapping_mgr.py:99-108 | every format an operation writes leaves some format stored under its key for that program |
| OpIndex.CreateMappings | cmdbridge/cache/operation_mapping_mgr.py:31-145 | the result is empty iff the domain directory is missing or writing fails; otherwise it is the index with final formats, with both tables empty for an empty domain |
| OpIndex.CreateForDomain | cmdbridge/cache/operation_mapping_mgr.py:148-161 | the domain helper returns true iff the result is non-empty |
| OpIndex.CreatorWrites | cmdbridge/config/operation_mapping_creator.py:26-124 | the older builder writes the index without final formats, or nothing when the directory is missing or writing fails |
| OpIndex.CreatorCreateMappings | cmdbridge/config/operation_mapping_creator.py:128-139 | the older builder returns false on a missing domain directory and true iff it wrote the index |
| OpIndex.AllDomains | cmdbridge/config/operation_mapping_creator.py:141-164 | every domain is attempted, and the result is true iff every domain succeeds |
| CacheMgr.SupportedOperations | cmdbridge/cache/cache_mgr.py:220-238 | exactly the operations whose program list contains the program, sorted |
| CacheMgr.SupportedPrograms | cmdbridge/cache/cache_mgr.py:240-252 | an operation's program list, empty for an unknown operation |
| CacheMgr.IsOperationSupported | cmdbridge/cache/cache_mgr.py:254-267 | true iff the program is in the operation's list, which defaults to empty, iff the operation is among the program's supported operations |
| CacheMgr.CommandFormat | cmdbridge/cache/cache_mgr.py:269-282 | no format for a program without formats |
| CacheMgr.FinalCommandFormat | cmdbridge/cache/cache_mgr.py:284-297 | no final format for a program without formats |
| CacheMgr.FinalFormatWrittenByBuilder | cmdbridge/cache/cache_mgr.py:284-297 | a final format read back from a built index is an operation's `final_cmd_format`, or the `cmd_format` of an operation literally named with `_final` |
| CacheMgr.FinalFormatReadBack | cmdbridge/cache/cache_mgr.py:269-297 | over an index built from any files, the command and final formats read back for an operation are the last ones the program's files wrote under `op` and `op + "_final"` |
| CacheMgr.SingleOperationReadBack | cmdbridge/cache/cache_mgr.py:269-297 | example: for one file with one operation, both formats are read back exactly as written |
| CacheMgr.OperationParameters | cmdbridge/cache/cache_mgr.py:326-345 | the `{word}` names of the format in order, duplicates kept, and none when there is no format |
| CacheMgr.AllOperations | cmdbridge/cache/cache_mgr.py:299-310 | the sorted key set of the operation table |
| CacheMgr.AllPrograms | cmdbridge/cache/cache_mgr.py:312-324 | the sorted key set of the format table |
| CacheMgr.MergeCommandFiles | cmdbridge/cache/cache_mgr.py:169-183 | format maps are keyed by the file stem with `_commands` removed, and later files update earlier entries |
| CacheMgr.MergedFormat | cmdbridge/cache/cache_mgr.py:169-183 | a program's format for an operation is the one given by the last file that has one |
| CacheMgr.LoadOperationMappings | cmdbridge/cache/cache_mgr.py:152-190 | FileNotFoundError exactly when the cache directory is missing; otherwise the program table as loaded (empty when missing), and for every program and operation the format of the last command file giving one |
| CacheMgr.MergePrograms | cmdbridge/cache/cache_mgr.py:117-130 | program maps are merged left to right |
| CacheMgr.LoadGroup | cmdbridge/cache/cache_mgr.py:95-136 | no program list gives nothing; otherwise each key holds the value of the last program defining it |
| CacheMgr.GetCmdMappings | cmdbridge/cache/cache_mgr.py:84-136 | memoised under `domain.group`: a hit returns the stored entry unchanged, and a miss loads and stores it |
| CacheMgr.CmdMappingsMemoised | cmdbridge/cache/cache_mgr.py:95-98 | once loaded, a group's mappings are served from the memo whatever the files now hold |
| CacheMgr.GetOperationMappings | cmdbridge/cache/cache_mgr.py:138-190 | memoised under `operation_mappings.domain`: a hit returns the stored entry and memo unchanged; a miss fails with FileNotFoundError exactly when the cache directory is missing, and otherwise stores and returns the loaded index |
| CacheMgr.RefreshCache | cmdbridge/cache/cache_mgr.py:347-373 | no domain empties the memo; a domain removes only the entries keyed by the domain and by `operation_mappings.domain`; it returns true |
| CacheMgr.GroupMappingsSurviveRefresh | cmdbridge/cache/cache_mgr.py:360-368 | refreshing a domain keeps its `domain.group` entries |
| CacheMgr.RefreshReloadsOperations | cmdbridge/cache/cache_mgr.py:360-368 | after a domain is refreshed, fetching its operation index succeeds exactly when loading does and returns the freshly loaded index |
| Paths.Root | cmdbridge/config/path_manager.py:24-36 | a root is the explicit argument, else the XDG variable, else the fallback under the home directory, with `cmdbridge` appended |
| Paths.MakeDirs | cmdbridge/config/path_manager.py:11-39 | the configuration and cache roots resolve this way, and the parser directory defaults to `<config>/program_parser_configs` |
| Paths.DefaultDirs | cmdbridge/config/path_manager.py:24-36 | with no arguments and no XDG variables everything lives under `~/.config/cmdbridge` and `~/.cache/cmdbridge` |
| Paths.GroupConfigPath | cmdbridge/config/path_manager.py:174-185 | a group's file is `<config>/<domain>.domain/<group>.toml` |
| Paths.BaseConfigPath | cmdbridge/config/path_manager.py:200-210 | the base definitions are the group file of the group `base` |
| Paths.ParserConfigPath | cmdbridge/config/path_manager.py:150-160 | a parser configuration is `<parser dir>/<program>.toml` |
| Paths.DomainDirRoundTrip | cmdbridge/config/path_manager.py:126-136 | naming a domain's directory and stripping the 7-character suffix gives back the domain |
| Paths.GroupFileRoundTrip | cmdbridge/config/path_manager.py:174-185 | naming a non-empty group's file and taking its stem gives back the group |
| Paths.EmptyGroupListedAsFileName | cmdbridge/config/path_manager.py:67-89 | the empty group's file is named `.toml`, whose stem is `.toml` itself, so it is listed as the group `.toml` |
| Paths.ListDomains | cmdbridge/config/path_manager.py:47-65 | the sorted names of the directories ending in `.domain` with the suffix removed, and none when the configuration directory is missing |
| Paths.ListOperationGroups | cmdbridge/config/path_manager.py:67-89 | the sorted `*.toml` stems except `base`, and none when the directory is missing |
| Paths.GroupFileListed | cmdbridge/config/path_manager.py:67-89 | a non-empty group other than `base` whose file is in its domain's directory is listed |
| Paths.GroupsOfDomainsMembers | cmdbridge/config/path_manager.py:91-105 | a group is collected exactly when some listed domain lists it |
| Paths.ListAllOperationGroups | cmdbridge/config/path_manager.py:91-105 | the sorted, duplicate-free union of every listed domain's groups |
| Bridge.AutoDetectSourceGroup | cmdbridge/cmdbridge.py:60-76 | the listed group equal to the command's first word, and none for a blank command or an unlisted word |
| Bridge.MapCommand | cmdbridge/cmdbridge.py:101-103 | an empty command line maps to nothing |
| Bridge.MapCommandRenders | cmdbridge/cmdbridge.py:96-148 | the converse of MapCommandSucceeded: a non-empty command whose source group loads, matches an operation and renders maps to exactly the rendered command |
| Bridge.MapCommandAsWrittenLosesResult | cmdbridge/cmdbridge.py:141-153 | wherever the intended `map_command` renders a command, the code as written returns nothing |
| Bridge.MapCommandSucceeded | cmdbridge/cmdbridge.py:110-148 | a command that maps had a source group with a parser configuration, an operation matched under that configuration, and is the destination's format for that operation with the extracted parameters substituted |
| Bridge.MapCommandDefaults | cmdbridge/cmdbridge.py:52-58 | without global settings a missing domain and destination mean `package` and `pacman` |
| Bridge.MapCommandSettings | cmdbridge/cmdbridge.py:105-107 | configured defaults take the place of a missing domain and destination |
| Bridge.AutoDetectedSource | cmdbridge/cmdbridge.py:109-113 | without a source group, a command whose first word names a group of the domain maps as if that group were given |
| Bridge.UndetectedSourceGivesNothing | cmdbridge/cmdbridge.py:110-113 | without a source group, a command whose first word names no group maps to nothing |
| Bridge.ExplicitSourceIgnoresListing | cmdbridge/cmdbridge.py:109-116 | an explicit source group makes the group listing irrelevant |
| Bridge.NoParserConfigGivesNothing | cmdbridge/cmdbridge.py:121-125 | a source group without a parser configuration file maps to nothing |
| Bridge.OperationAndParams | cmdbridge/cmdbridge.py:172-178 | the first word is the operation; the remaining words, joined by spaces, are the only parameter `pkgs`; with no remaining words there are no parameters |
| Bridge.MapOperation | cmdbridge/cmdbridge.py:154-192 | nothing for an empty or blank line; a result is the destination's format for the first word with `pkgs` substituted, and every failure is no result |
| Bridge.MapOperationOfWords | cmdbridge/cmdbridge.py:158-186 | for an operation word followed by package words, the package words reach the renderer joined by single spaces under `pkgs` |
| Bridge.MapOperationWithoutPackages | cmdbridge/cmdbridge.py:177-186 | a lone operation word renders the destination's `cmd_format` unchanged, and nothing when that is missing |
| Renderer.GenerateCommandByKeywords | cmdbridge/core/operation_mapping.py:29-31 | a call by keyword names raises TypeError exactly when a name is not a declared parameter or a declared parameter is not given; otherwise it is the command itself |
| Renderer.DeclaredKeywordsBind | cmdbridge/core/operation_mapping.py:29-31 | naming the declared parameters calls the renderer; naming any other keyword raises TypeError |
| Bridge.CallKeywordsDoNotBind | cmdbridge/cmdbridge.py:140-145 | the keyword names `map_command` and `map_operation` pass never bind to the renderer |
| Bridge.MapCommandAsWritten | cmdbridge/cmdbridge.py:101-149 | as written, `map_command` maps no command line to anything |
| Bridge.MapOperationAsWritten | cmdbridge/cmdbridge.py:154-190 | as written, `map_operation` renders no operation line |
| Bridge.MapOperationAsWrittenLosesResult | cmdbridge/cmdbridge.py:181-190 | wherever the intended `map_operation` renders a lone operation word, the code as written returns nothing |
| Text.WordsOfJoin | cmdbridge/cmdbridge.py:159-168 | splitting on whitespace undoes joining non-empty words with single spaces |
| Text.PlaceholdersIff | cmdbridge/cache/cache_mgr.py:326-345 | the names the `\{(\w+)\}` pattern finds are exactly the words that occur in braces |
| Text.StripQuotesStep | cmdbridge/cache/cmd_mapping_mgr.py:96-99 | a quoted placeholder loses its quotes and the scan continues after it |
| Text.SplitPiecesFree | cmdbridge/cache/cmd_mapping_mgr.py:106 | no piece `str.split` returns contains the separator |
| Text.ReplaceIsJoinOfSplit | cmdbridge/core/operation_mapping.py:123-127 | `str.replace` replaces every non-overlapping occurrence, left to right, and nothing else |
| Dicts.GetPutAll | cmdbridge/cache/cache_mgr.py:117-130 | after a run of dictionary updates a key holds the value it was last set to, or what it held before |
| Sorting.SortUnique | cmdbridge/config/path_manager.py:47-65 | `sorted` is the unique ordered permutation of its input |

## Left out

- **I/O, TOML and logging.**
  - File reading and writing, TOML parsing, `write_to`, cache files and logging are not modelled.
  - Loaded TOML documents and directory listings are inputs.
  - Whether a write fails is a boolean input (`writeOk`). It stands for any exception during `mkdir` or writing.
- **The CLI, the completion helpers, `cmdbr_io`, `log`, `utils`, `cmdbridge_edit`, `config_mgr.py` and `parser_config_mgr.py`** are not part of this model.
- **`parsers/types.py` and `parsers/factory.py` are stale.** They are not modelled: the parser is chosen by dispatching on the parser type, as the cache-side synthesizer does.
- **Normalisations are the identity.**
  - `Utils.normalize_command_line` is not defined anywhere, so it is taken to be the identity.
  - `_normalize_option_name` is the identity, because `source_parser_config` is always `None` there.
- **ASCII only.** `\w` is modelled as ASCII letters, digits and `_`; the source's regular expressions also accept other Unicode word characters.
- **The argparse `AttributeError` path** raised on a missing token type is not modelled. Tokens carry their kind by construction.
- **Operation configurations** are modelled as maps from strings to strings. A non-string value in a TOML operation table is not modelled.
- **`description` fields** are carried through includes but are otherwise not modelled.
- **Missing `operations` tables.** An operations file without an `operations` table is modelled as an empty table.
- **Nesting limit.** Nested subcommand parsing stops with a RecursionError after `RecursionLimit` (1000) levels. This stands for Python's recursion limit, whose exact depth the model does not fix.
- **Reused loaders.** A `ConfigLoader` reused for a second program would keep the first program's templates. The model builds a fresh loader per call, as every caller does.
- **Partial updates.** An exception in the middle of an index file can leave partial updates in the index before `{}` is returned. The model returns the empty result without them.
- **Base definitions.** Operations missing from the base definitions only produce a warning, so the model does not check them at all.
- **Cache file locations.** The cache-side index builder and `CacheMgr` disagree about the cache file names. The model connects them through the in-memory index, not through files.
- **Group stems.** A directory entry named exactly `.toml` keeps `.toml` as its stem, as `pathlib` takes it, so it is listed as the group `.toml`; the empty group therefore does not round-trip (`Paths.EmptyGroupListedAsFileName`).
- **The end-to-end round trip is not stated.** Rendering an operation and matching the command back does not compose: neither synthesizer sets the `placeholder` field that the matcher relies on. So each part is modelled as written and no such lemma is proved.
- **Missing path-manager methods.** The modelled files call path-manager methods that `cmdbridge/config/path_manager.py` does not define, so each such call would raise AttributeError. The model does not compute these paths. It takes whether they exist, and what they hold, as inputs. The methods are:
  - `get_instance`, at `cmdbridge/cache/cache_mgr.py:29`, `cmdbridge/cache/cmd_mapping_mgr.py:30,363,381`, `cmdbridge/cache/operation_mapping_mgr.py:28,170`, `cmdbridge/config/operation_mapping_creator.py:23,148` and `cmdbridge/core/cmd_mapping.py:49,115`;
  - `get_domains_from_config`, at `cmdbridge/cmdbridge.py:206`, `cmdbridge/cache/cache_mgr.py:55,455`, `cmdbridge/cache/cmd_mapping_mgr.py:382` and `cmdbridge/cache/operation_mapping_mgr.py:171` (the model uses `list_domains` for it);
  - `get_operation_groups_from_config`, at `cmdbridge/cmdbridge.py:69,218`, `cmdbridge/cache/cache_mgr.py:67` and `cmdbridge/cache/cmd_mapping_mgr.py:364` (the model uses `list_operation_groups` for it);
  - `get_all_operation_groups_from_config`, at `cmdbridge/cache/cache_mgr.py:82` (the model uses `list_all_operation_groups`);
  - `get_cmd_mappings_domain_dir_of_cache`, at `cmdbridge/cmdbridge.py:83`, which `map_command` reaches through `_get_mapping_config` at `cmdbridge/cmdbridge.py:116`;
  - `get_cmd_mappings_domain_of_cache`, at `cmdbridge/cmdbridge.py:209` and `cmdbridge/cache/cache_mgr.py:388`;
  - `get_cmd_mappings_group_path_of_cache`, at `cmdbridge/cache/cmd_mapping_mgr.py:324`;
  - `get_cmd_mappings_group_program_path_of_cache`, at `cmdbridge/cache/cache_mgr.py:117` and `cmdbridge/core/cmd_mapping.py:77`;
  - `get_cmd_to_operation_path`, at `cmdbridge/cache/cache_mgr.py:100` and `cmdbridge/core/cmd_mapping.py:52,116`;
  - `get_operation_to_program_path`, at `cmdbridge/cache/cache_mgr.py:152`;
  - `get_operation_group_path_of_config`, at `cmdbridge/cache/cmd_mapping_mgr.py:45`;
  - `get_operation_domain_dir_of_config`, at `cmdbridge/cmdbridge.py:213`, `cmdbridge/cache/cache_mgr.py:459` and `cmdbridge/cache/operation_mapping_mgr.py:44`;
  - `get_operation_mappings_domain_dir_of_cache`, at `cmdbridge/cmdbridge.py:210`, `cmdbridge/cache/cache_mgr.py:166,392` and `cmdbridge/cache/operation_mapping_mgr.py:50`;
  - `get_operation_mappings_cache_path`, at `cmdbridge/config/operation_mapping_creator.py:41`;
  - `get_domain_base_config_path`, at `cmdbridge/cache/operation_mapping_mgr.py:58` and `cmdbridge/config/operation_mapping_creator.py:49`;
  - `rm_cmd_mappings_dir`, `rm_operation_mappings_dir`, `rm_program_parser_config_dir` and `rm_all_cache_dirs`, at `cmdbridge/cache/cache_mgr.py:432,436,440,444`.

  The command-line and completion modules call more such methods; they are not part of this model.
- **Constructor mismatch.** `cmdbridge.py:33` constructs `OperationMapping()` without its required `configs_dir`, which would raise TypeError when the bridge is created. The model takes the operation files as input instead.
- Bridge.MapCommandSucceeded: it describes the intended renderer call. As written, `map_command` raises AttributeError at the undefined path-manager call before that, and the renderer call would raise TypeError after it; either becomes no result, so no command maps (`Bridge.MapCommandAsWritten`; see Findings).
- Bridge.MapCommandRenders: it describes the intended renderer call, for the same reason.
- Bridge.MapOperation: it describes the intended renderer call. As written, the operation line never renders (`Bridge.MapOperationAsWritten`; see Findings).
- Bridge.MapOperationOfWords: it relates `map_operation` to the intended renderer call, not to the call as written.
- Bridge.MapOperationWithoutPackages: it relates `map_operation` to the intended renderer call, not to the call as written.
- **Stateful caches in `cmdbridge.py`.** `_mapping_config_cache` and the renderer's `operations_cache` only memoise loads, so the model reads the inputs directly.
- **`refresh_cmd_mappings` and `init_config`** in `cmdbridge.py` orchestrate file generation and copying. They are left out with the rest of the I/O.
- ConfigLoader.Preprocess: its contract says only that the keys are kept and that every failure is a RecursionError. That every acyclic include graph succeeds is not proved; the self-including template shows the cyclic case.
- CacheMgr.CommandFormat: its contract only states the missing-program case. What a present format is comes from `CacheMgr.FinalFormatReadBack`, over a built index, and from `CacheMgr.LoadOperationMappings`, over the merged command files.
- CacheMgr.FinalCommandFormat: its contract only states the missing-program case. What a present final format is comes from `CacheMgr.FinalFormatReadBack`, over a built index.
- Synthesis.ExampleCommand: its contract only covers the blank format. The part-by-part expansion is stated by `Synthesis.ExampleCommandOfWords`, `Synthesis.ExpandLiterals` and `Synthesis.ExpandPlaceholder` for formats of single-space-separated words; runs of other whitespace are not characterised.

## Findings

| source | as written | input that shows it | evidently intended | confidence | as-written member | corrected member |
|---|---|---|---|---|---|---|
| cmdbridge/cmdbridge.py:181-186 | `generate_command` is called with `dst_operation_domain_name=`, but the renderer declares `dst_operation_groups_name` (cmdbridge/core/operation_mapping.py:29-31); the call raises TypeError, which the handler turns into `None` | `map_operation(None, None, ["sync"])` with a `pacman` operation file whose `sync` entry has `cmd_format = "pacman -Sy"`: `None` instead of `pacman -Sy` | the domain is passed as the renderer's `dst_operation_groups_name`, so the destination domain and group select the operation file | not executed | Bridge.MapOperationAsWritten, Bridge.MapOperationAsWrittenLosesResult | Bridge.MapOperation |
| cmdbridge/cmdbridge.py:141-146 | the same keyword mismatch in `map_command`; as written it is never reached, because an undefined path-manager method raises AttributeError first (cmdbridge/cmdbridge.py:69 when the source group is detected, cmdbridge/cmdbridge.py:83 otherwise), which the same handler also turns into `None` | any command line: even one that matches a mapping and whose operation has a format maps to `None` | the matched operation is rendered into the destination's format | not executed | Bridge.MapCommandAsWritten, Bridge.MapCommandAsWrittenLosesResult | Bridge.MapCommand, Bridge.MapCommandRenders |

=== FILE: argparse.dfy ===
// The argparse-style parser: a tokenizer that is driven by the argument and
// subcommand configurations of the current scope, and a tree builder that
// merges the tokens of each scope into the arguments of one command node.

module Argparse {
  import opened Util
  import opened Text
  import opened Grammar
  import opened Tree

  // ---------------------------------------------------------------------------
  // Configuration lookups

  /** The first argument configuration that has `name` among its option strings. */
  function FindArgumentConfig(name: string, configs: seq<ArgumentConfig>): Option<ArgumentConfig>
  {
    FirstWhere(configs, (c: ArgumentConfig) => MatchesOption(c, name))
  }

  /** The first subcommand configuration called `name`, by name or alias. */
  function FindSubcmdConfig(name: string, subs: seq<SubCommandConfig>): Option<SubCommandConfig>
  {
    FirstWhere(subs, (c: SubCommandConfig) => MatchesSubcmdName(c, name))
  }

  /** The first positional argument configuration. */
  function PositionalArgConfig(configs: seq<ArgumentConfig>): Option<ArgumentConfig>
  {
    FirstWhere(configs, (c: ArgumentConfig) => IsPositional(c))
  }

  // ---------------------------------------------------------------------------
  // Tokenizer

  /** What the tokenizer remembers between arguments of one scope. */
  datatype ScanState = ScanState(
    afterSeparator: bool,
    option: Option<ArgumentConfig>,
    optionValues: nat,
    positionalValues: nat,
    exactRemaining: nat)

  const Fresh := ScanState(false, None, 0, 0, 0)

  function Prepend(t: Token, r: Result<seq<Token>>): Result<seq<Token>>
  {
    match r
    case Ok(ts) => Ok([t] + ts)
    case Err(e) => Err(e)
  }

  /** A token that carries the argument itself rather than a configured name. */
  predicate CarriesArgument(kind: TokenType)
  {
    kind == PositionalTok || kind == OptionValueTok || kind == ExtraTok || kind == SeparatorTok
  }

  /**
   * One token per argument, each with exactly one value; separators are
   * exactly the `--` arguments, and positional, option-value, extra and
   * separator tokens carry their argument verbatim.
   */
  predicate TokensFor(args: seq<string>, tokens: seq<Token>)
  {
    && |tokens| == |args|
    && SingleValued(tokens)
    && (forall k | 0 <= k < |tokens| :: tokens[k].kind != ProgramTok)
    && (forall k | 0 <= k < |tokens| :: CarriesArgument(tokens[k].kind) ==> tokens[k].values == [args[k]])
    && (forall k | 0 <= k < |tokens| :: tokens[k].kind == SeparatorTok <==> args[k] == "--")
  }

  /** Token `t` stands for the argument `a` as `TokensFor` demands. */
  predicate Fits(a: string, t: Token)
  {
    |t.values| == 1 && t.kind != ProgramTok
    && (CarriesArgument(t.kind) ==> t.values == [a])
    && (t.kind == SeparatorTok <==> a == "--")
  }

  /** `Prepend` for the token of argument `i`: a fitting token keeps the tokens in step with the arguments. */
  function Cons(args: seq<string>, i: nat, t: Token, r: Result<seq<Token>>): (p: Result<seq<Token>>)
    requires i < |args|
    ensures p.Ok? <==> r.Ok?
    ensures p.Ok? && Fits(args[i], t) && TokensFor(args[i + 1..], r.value) ==> TokensFor(args[i..], p.value)
  {
    match r
    case Err(e) => Err(e)
    case Ok(ts) =>
      var p := [t] + ts;
      assert TokensFor(args[i + 1..], ts) ==> forall k | 1 <= k < |p| :: p[k] == ts[k - 1] && args[i..][k] == args[i + 1..][k - 1];
      Ok(p)
  }

  /** Tokenizes the arguments of one scope (`_tokenize_arguments`). */
  function TokenizeArguments(args: seq<string>, configs: seq<ArgumentConfig>, subs: seq<SubCommandConfig>): (r: Result<seq<Token>>)
    ensures r.Ok? ==> TokensFor(args, r.value)
    decreases subs, 1
  {
    Scan(args, 0, configs, subs, Fresh)
  }

  /** The tokenizer loop from argument `i` on, in state `st`. */
  function Scan(args: seq<string>, i: nat, configs: seq<ArgumentConfig>, subs: seq<SubCommandConfig>, st: ScanState): (r: Result<seq<Token>>)
    requires i <= |args|
    ensures r.Ok? ==> TokensFor(args[i..], r.value)
    ensures (i < |args| && args[i] != "--" && !st.afterSeparator && StartsWith(args[i], "-")
             && (st.option.Some? || FindArgumentConfig(args[i], configs).None?)) ==> r.Err?
    decreases subs, 0, |args| - i
  {
    if i == |args| then Ok([])
    else
      var arg := args[i];
      if arg == "--" then
        Cons(args, i, Token(SeparatorTok, ["--"]), Scan(args, i + 1, configs, subs, st.(afterSeparator := true)))
      else if st.afterSeparator then
        Cons(args, i, Token(ExtraTok, [arg]), Scan(args, i + 1, configs, subs, st))
      else if StartsWith(arg, "-") then
        if st.option.Some? then Err(ValueError)
        else
          match FindArgumentConfig(arg, configs)
          case None => Err(ValueError)
          case Some(c) =>
            var st1 := st.(positionalValues := 0);
            if IsFlag(c) then
              Cons(args, i, Token(FlagTok, [PrimaryOptionName(c)]), Scan(args, i + 1, configs, subs, st1))
            else if IsOption(c) then
              var exact :=
                if ExactCount(c.nargs) > 0 then ExactCount(c.nargs)
                else if c.nargs == OneOrMore then 1
                else st.exactRemaining;
              var st2 := st1.(option := Some(c), optionValues := 0, exactRemaining := exact);
              Cons(args, i, Token(OptionNameTok, [PrimaryOptionName(c)]), Scan(args, i + 1, configs, subs, st2))
            else Err(ValueError)
      else if st.exactRemaining > 0 then
        // A value the option still needs; it cannot start with `-` here.
        match st.option
        case None => Err(AttributeError)
        case Some(c) =>
          var n := st.optionValues + 1;
          var st1 :=
            if ValidateCount(c.nargs, n + 1) then st.(optionValues := n, exactRemaining := st.exactRemaining - 1)
            else st.(option := None, optionValues := 0, exactRemaining := 0);
          Cons(args, i, Token(OptionValueTok, [arg]), Scan(args, i + 1, configs, subs, st1))
      else
        match FindSubcmdConfig(arg, subs)
        case Some(sc) =>
          assert sc in subs;
          Cons(args, i, Token(SubcommandTok, [sc.name]), TokenizeArguments(args[i + 1..], sc.arguments, sc.subCommands))
        case None =>
          if st.option.Some? then
            if !ValidateCount(st.option.value.nargs, st.optionValues + 1) then Err(ValueError)
            else Cons(args, i, Token(OptionValueTok, [arg]), Scan(args, i + 1, configs, subs, st.(optionValues := st.optionValues + 1)))
          else
            match PositionalArgConfig(configs)
            case None => Err(ValueError)
            case Some(p) =>
              if ValidateCount(p.nargs, st.positionalValues + 1) then
                Cons(args, i, Token(PositionalTok, [arg]), Scan(args, i + 1, configs, subs, st.(positionalValues := st.positionalValues + 1)))
              else Err(ValueError)
  }

  /** Once a `--` has been seen, the rest of the scope is passed through verbatim. */
  lemma {:induction false} ScanAfterSeparator(args: seq<string>, i: nat, configs: seq<ArgumentConfig>, subs: seq<SubCommandConfig>, st: ScanState)
    requires i <= |args| && st.afterSeparator
    ensures Scan(args, i, configs, subs, st) == Ok(PassThrough(args[i..]))
    decreases |args| - i
  {
    if i < |args| {
      assert st.(afterSeparator := true) == st;
      ScanAfterSeparator(args, i + 1, configs, subs, st);
      var t := Token(if args[i] == "--" then SeparatorTok else ExtraTok, [args[i]]);
      assert Scan(args, i, configs, subs, st) == Cons(args, i, t, Scan(args, i + 1, configs, subs, st));
      assert args[i..][1..] == args[i + 1..];
      assert PassThrough(args[i..]) == [t] + PassThrough(args[i + 1..]);
    }
  }

  /**
   * A `--` outside a passed-through run is emitted as a separator and
   * switches the scope to pass-through: every later argument, another `--`
   * included, is carried verbatim.
   */
  lemma {:induction false} SeparatorStartsPassThrough(args: seq<string>, i: nat, configs: seq<ArgumentConfig>, subs: seq<SubCommandConfig>, st: ScanState)
    requires i < |args| && args[i] == "--" && !st.afterSeparator
    ensures Scan(args, i, configs, subs, st) == Prepend(Token(SeparatorTok, ["--"]), Ok(PassThrough(args[i + 1..])))
    ensures Scan(args, i, configs, subs, st) == Ok(PassThrough(args[i..]))
  {
    ScanAfterSeparator(args, i + 1, configs, subs, st.(afterSeparator := true));
    assert args[i..][1..] == args[i + 1..];
    assert PassThrough(args[i..]) == [Token(SeparatorTok, ["--"])] + PassThrough(args[i + 1..]);
  }

  /** `Prepend` for a run of tokens, in order. */
  function PrependAll(ts: seq<Token>, r: Result<seq<Token>>): (p: Result<seq<Token>>)
    ensures p.Ok? <==> r.Ok?
    ensures p.Ok? ==> p.value == ts + r.value
  {
    if |ts| == 0 then
      assert r.Ok? ==> [] + r.value == r.value;
      r
    else
      var p := Prepend(ts[0], PrependAll(ts[1..], r));
      assert p.Ok? ==> [ts[0]] + (ts[1..] + r.value) == ts + r.value;
      p
  }

  /** One option-value token per argument. */
  function ValueTokens(values: seq<string>): (r: seq<Token>)
    ensures |r| == |values|
    ensures forall k | 0 <= k < |values| :: r[k] == Token(OptionValueTok, [values[k]])
  {
    if |values| == 0 then [] else [Token(OptionValueTok, [values[0]])] + ValueTokens(values[1..])
  }

  /**
   * A plain argument, with no option value outstanding, names a subcommand
   * before anything else is tried: it is emitted under the subcommand's
   * configured name, and everything after it is tokenized in that
   * subcommand's scope alone, so an option only the parent knows is rejected
   * there.
   */
  lemma {:induction false} SubcommandScope(args: seq<string>, i: nat, configs: seq<ArgumentConfig>, subs: seq<SubCommandConfig>,
                                           st: ScanState, sc: SubCommandConfig)
    requires i < |args| && args[i] != "--" && !st.afterSeparator && !StartsWith(args[i], "-")
    requires st.exactRemaining == 0 && FindSubcmdConfig(args[i], subs) == Some(sc)
    ensures Scan(args, i, configs, subs, st)
            == Prepend(Token(SubcommandTok, [sc.name]), TokenizeArguments(args[i + 1..], sc.arguments, sc.subCommands))
    ensures (i + 1 < |args| && args[i + 1] != "--" && StartsWith(args[i + 1], "-")
             && FindArgumentConfig(args[i + 1], sc.arguments).None?) ==> Scan(args, i, configs, subs, st).Err?
  {
    assert i + 1 < |args| ==> args[i + 1..][0] == args[i + 1];
  }

  /**
   * A dash argument the scope configures, with no option current, ends the
   * positional run. A flag is emitted as FLAG under its primary name. An
   * option is emitted as OPTION_NAME under its primary name and becomes the
   * current option with no values yet; a fixed count, or `+`, which needs
   * one value at least, is recorded as that many values outstanding, while
   * `?` and `*` leave the outstanding count as it was. Any other
   * configuration is a ValueError.
   */
  lemma {:induction false} DashArgument(args: seq<string>, i: nat, configs: seq<ArgumentConfig>, subs: seq<SubCommandConfig>,
                                        st: ScanState, c: ArgumentConfig)
    requires i < |args| && args[i] != "--" && !st.afterSeparator && StartsWith(args[i], "-")
    requires st.option.None? && FindArgumentConfig(args[i], configs) == Some(c)
    ensures IsFlag(c)
            ==> Scan(args, i, configs, subs, st)
                == Prepend(Token(FlagTok, [PrimaryOptionName(c)]), Scan(args, i + 1, configs, subs, st.(positionalValues := 0)))
    ensures (IsOption(c) && ExactCount(c.nargs) > 0)
            ==> Scan(args, i, configs, subs, st)
                == Prepend(Token(OptionNameTok, [PrimaryOptionName(c)]),
                           Scan(args, i + 1, configs, subs,
                                st.(positionalValues := 0, option := Some(c), optionValues := 0, exactRemaining := ExactCount(c.nargs))))
    ensures (IsOption(c) && c.nargs == OneOrMore)
            ==> Scan(args, i, configs, subs, st)
                == Prepend(Token(OptionNameTok, [PrimaryOptionName(c)]),
                           Scan(args, i + 1, configs, subs, st.(positionalValues := 0, option := Some(c), optionValues := 0, exactRemaining := 1)))
    ensures (IsOption(c) && (c.nargs == ZeroOrOne || c.nargs == ZeroOrMore))
            ==> Scan(args, i, configs, subs, st)
                == Prepend(Token(OptionNameTok, [PrimaryOptionName(c)]),
                           Scan(args, i + 1, configs, subs, st.(positionalValues := 0, option := Some(c), optionValues := 0)))
    ensures (!IsFlag(c) && !IsOption(c)) ==> Scan(args, i, configs, subs, st) == Err(ValueError)
  {
  }

  /**
   * An option with an exact value count turns the following plain arguments
   * into its values and is then cleared, so what comes next is tokenized as
   * if no option were current. With a count of one or two that is exactly
   * that many values; with a larger count the check that one more value fits
   * fails after the first value, so the option takes only one.
   */
  lemma {:induction false} ExactCountValues(args: seq<string>, i: nat, configs: seq<ArgumentConfig>, subs: seq<SubCommandConfig>,
                                            st: ScanState, c: ArgumentConfig, n: nat)
    requires i < |args| && args[i] != "--" && !st.afterSeparator && StartsWith(args[i], "-") && st.option.None?
    requires FindArgumentConfig(args[i], configs) == Some(c) && IsOption(c) && c.nargs == Exactly(n)
    requires var m := if n <= 2 then n else 1;
             i + m < |args| && forall k | i < k <= i + m :: args[k] != "--" && !StartsWith(args[k], "-")
    ensures var m := if n <= 2 then n else 1;
            Scan(args, i, configs, subs, st)
            == PrependAll([Token(OptionNameTok, [PrimaryOptionName(c)])] + ValueTokens(args[i + 1..i + 1 + m]),
                          Scan(args, i + 1 + m, configs, subs, st.(positionalValues := 0, option := None, optionValues := 0, exactRemaining := 0)))
  {
    var m := if n <= 2 then n else 1;
    var cleared := st.(positionalValues := 0, option := None, optionValues := 0, exactRemaining := 0);
    var name := Token(OptionNameTok, [PrimaryOptionName(c)]);
    var st2 := st.(positionalValues := 0, option := Some(c), optionValues := 0, exactRemaining := n);
    assert !IsFlag(c);
    assert Scan(args, i, configs, subs, st) == Prepend(name, Scan(args, i + 1, configs, subs, st2));
    var v1 := Token(OptionValueTok, [args[i + 1]]);
    if n == 2 {
      var st3 := st2.(optionValues := 1, exactRemaining := 1);
      assert Scan(args, i + 1, configs, subs, st2) == Prepend(v1, Scan(args, i + 2, configs, subs, st3));
      var v2 := Token(OptionValueTok, [args[i + 2]]);
      assert st3.(option := None, optionValues := 0, exactRemaining := 0) == cleared;
      assert Scan(args, i + 2, configs, subs, st3) == Prepend(v2, Scan(args, i + 3, configs, subs, cleared));
      assert ValueTokens(args[i + 1..i + 3]) == [v1, v2];
      assert [name] + [v1, v2] == [name, v1, v2];
      var rest := Scan(args, i + 3, configs, subs, cleared);
      assert [name, v1, v2][1..] == [v1, v2] && [v1, v2][1..] == [v2] && [v2][1..] == [];
      assert PrependAll([v2], rest) == Prepend(v2, PrependAll([], rest));
      assert PrependAll([v1, v2], rest) == Prepend(v1, PrependAll([v2], rest));
      assert PrependAll([name, v1, v2], rest) == Prepend(name, PrependAll([v1, v2], rest));
    } else {
      assert st2.(option := None, optionValues := 0, exactRemaining := 0) == cleared;
      assert Scan(args, i + 1, configs, subs, st2) == Prepend(v1, Scan(args, i + 2, configs, subs, cleared));
      assert ValueTokens(args[i + 1..i + 2]) == [v1];
      assert [name] + [v1] == [name, v1];
      var rest := Scan(args, i + 2, configs, subs, cleared);
      assert [name, v1][1..] == [v1] && [v1][1..] == [];
      assert PrependAll([v1], rest) == Prepend(v1, PrependAll([], rest));
      assert PrependAll([name, v1], rest) == Prepend(name, PrependAll([v1], rest));
    }
  }

  /**
   * A plain argument that is neither an outstanding option value, a
   * subcommand nor a value of the current option is a positional value: a
   * ValueError when the scope has no positional configuration or the
   * positional count is already full, and otherwise a POSITIONAL_ARG that
   * counts towards it.
   */
  lemma {:induction false} PlainArgument(args: seq<string>, i: nat, configs: seq<ArgumentConfig>, subs: seq<SubCommandConfig>, st: ScanState)
    requires i < |args| && args[i] != "--" && !st.afterSeparator && !StartsWith(args[i], "-")
    requires st.exactRemaining == 0 && FindSubcmdConfig(args[i], subs).None? && st.option.None?
    ensures var p := PositionalArgConfig(configs);
            (p.None? || !ValidateCount(p.value.nargs, st.positionalValues + 1)) ==> Scan(args, i, configs, subs, st) == Err(ValueError)
    ensures var p := PositionalArgConfig(configs);
            (p.Some? && ValidateCount(p.value.nargs, st.positionalValues + 1))
            ==> Scan(args, i, configs, subs, st)
                == Prepend(Token(PositionalTok, [args[i]]), Scan(args, i + 1, configs, subs, st.(positionalValues := st.positionalValues + 1)))
  {
  }

  /**
   * A plain argument that is no subcommand, while an option is current and
   * no exact count is outstanding, is the option's next value: an
   * OPTION_VALUE counted towards it when the option's count still allows one
   * more, and a ValueError otherwise.
   */
  lemma {:induction false} PendingOptionValue(args: seq<string>, i: nat, configs: seq<ArgumentConfig>, subs: seq<SubCommandConfig>, st: ScanState)
    requires i < |args| && args[i] != "--" && !st.afterSeparator && !StartsWith(args[i], "-")
    requires st.exactRemaining == 0 && FindSubcmdConfig(args[i], subs).None? && st.option.Some?
    ensures !ValidateCount(st.option.value.nargs, st.optionValues + 1) ==> Scan(args, i, configs, subs, st) == Err(ValueError)
    ensures ValidateCount(st.option.value.nargs, st.optionValues + 1)
            ==> Scan(args, i, configs, subs, st)
                == Prepend(Token(OptionValueTok, [args[i]]), Scan(args, i + 1, configs, subs, st.(optionValues := st.optionValues + 1)))
  {
  }

  /** `_tokenize`: the program name, then the arguments of the root scope. */
  function Tokenize(config: ParserConfig, argv: seq<string>): (r: Result<seq<Token>>)
    ensures |argv| == 0 ==> r == Ok([])
    ensures r.Ok? && |argv| > 0 ==> |r.value| == |argv| && r.value[0] == Token(ProgramTok, [argv[0]]) && TokensFor(argv[1..], r.value[1..])
  {
    if |argv| == 0 then Ok([])
    else Prepend(Token(ProgramTok, [argv[0]]), TokenizeArguments(argv[1..], config.arguments, config.subCommands))
  }

  // ---------------------------------------------------------------------------
  // Tree builder

  /** `_split_tokens_by_subcommand`: the tokens before the first subcommand token, that token, and the rest. */
  function SplitAtSubcommand(tokens: seq<Token>): (r: (seq<Token>, Option<Token>, seq<Token>))
    ensures forall k | 0 <= k < |r.0| :: r.0[k].kind != SubcommandTok
    ensures r.1.None? ==> r.0 == tokens && r.2 == []
    ensures r.1.Some? ==> r.1.value.kind == SubcommandTok && tokens == r.0 + [r.1.value] + r.2
  {
    if |tokens| == 0 then ([], None, [])
    else if tokens[0].kind == SubcommandTok then ([], Some(tokens[0]), tokens[1..])
    else
      var r := SplitAtSubcommand(tokens[1..]);
      assert tokens == [tokens[0]] + tokens[1..];
      ([tokens[0]] + r.0, r.1, r.2)
  }

  /**
   * The arguments built so far, and the positions of the positional and
   * extra arguments that later tokens extend and of the option that later
   * values go to.
   */
  datatype Builder = Builder(args: seq<CommandArg>, positional: Option<nat>, extra: Option<nat>, option: Option<nat>)

  predicate ValidIndex(args: seq<CommandArg>, i: Option<nat>, kind: ArgType)
  {
    i.Some? ==> i.value < |args| && args[i.value].kind == kind
  }

  predicate Valid(b: Builder)
  {
    ValidIndex(b.args, b.positional, PositionalArg) && ValidIndex(b.args, b.extra, ExtraArg)
    && ValidIndex(b.args, b.option, OptionArg)
  }

  /** `arg.option_name in token.values` for an argument of the given kind. */
  predicate Named(a: CommandArg, kind: ArgType, t: Token)
  {
    a.kind == kind && a.optionName.Some? && a.optionName.value in t.values
  }

  /** Position of the first argument of `kind` named by the token. */
  function FindNamedArg(args: seq<CommandArg>, kind: ArgType, t: Token): (r: Option<nat>)
    ensures r.Some? ==> r.value < |args| && Named(args[r.value], kind, t)
    ensures r.None? ==> forall j | 0 <= j < |args| :: !Named(args[j], kind, t)
  {
    if |args| == 0 then None
    else if Named(args[|args| - 1], kind, t) && FindNamedArg(args[..|args| - 1], kind, t).None? then Some(|args| - 1)
    else FindNamedArg(args[..|args| - 1], kind, t)
  }

  /** Adds values to the argument at `slot`, or starts that argument. */
  function Gather(args: seq<CommandArg>, slot: Option<nat>, kind: ArgType, values: seq<string>): (r: (seq<CommandArg>, Option<nat>))
    requires ValidIndex(args, slot, kind)
    ensures ValidIndex(r.0, r.1, kind) && r.1.Some?
  {
    match slot
    case Some(i) => (args[i := args[i].(values := args[i].values + values)], slot)
    case None => (args + [CommandArg(kind, None, values, DefaultRepeat, None)], Some(|args|))
  }

  /** One iteration of `_build_arguments_for_command_node`. */
  function Step(b: Builder, t: Token): (r: Result<Builder>)
    requires Valid(b)
    ensures r.Ok? ==> Valid(r.value)
  {
    if t.kind == FlagTok then
      match FindNamedArg(b.args, FlagArg, t)
      case Some(i) => Ok(b.(args := b.args[i := b.args[i].(repeat := b.args[i].repeat + 1)]))
      case None => Ok(b.(args := b.args + [CommandArg(FlagArg, FirstValue(t), [], 1, None)]))
    else if t.kind == OptionNameTok then
      match FindNamedArg(b.args, OptionArg, t)
      case Some(i) => Ok(b.(option := Some(i)))
      case None =>
        Ok(b.(args := b.args + [CommandArg(OptionArg, FirstValue(t), [], DefaultRepeat, None)], option := Some(|b.args|)))
    else if t.kind == OptionValueTok then
      match b.option
      case None => Err(ValueError)
      case Some(i) => Ok(b.(args := b.args[i := b.args[i].(values := b.args[i].values + t.values)]))
    else if t.kind == PositionalTok then
      var g := Gather(b.args, b.positional, PositionalArg, t.values);
      Ok(b.(args := g.0, positional := g.1))
    else if t.kind == ExtraTok then
      var g := Gather(b.args, b.extra, ExtraArg, t.values);
      Ok(b.(args := g.0, extra := g.1))
    else Ok(b)
  }

  const EmptyBuilder := Builder([], None, None, None)

  /** The builder after processing `tokens` left to right. */
  function Run(tokens: seq<Token>): (r: Result<Builder>)
    ensures r.Ok? ==> Valid(r.value)
    decreases |tokens|
  {
    if |tokens| == 0 then Ok(EmptyBuilder)
    else
      var b :- Run(tokens[..|tokens| - 1]);
      Step(b, tokens[|tokens| - 1])
  }

  // ---------------------------------------------------------------------------
  // What the builder computes, stated over the token list

  /** How many flag tokens name `n`. */
  function FlagCount(tokens: seq<Token>, n: string): nat
    decreases |tokens|
  {
    if |tokens| == 0 then 0
    else FlagCount(Init(tokens), n) + (if Last(tokens).kind == FlagTok && n in Last(tokens).values then 1 else 0)
  }

  /** The option named by the last option-name token. */
  function CurrentOption(tokens: seq<Token>): Option<string>
    decreases |tokens|
  {
    if |tokens| == 0 then None
    else if Last(tokens).kind == OptionNameTok then FirstValue(Last(tokens))
    else CurrentOption(Init(tokens))
  }

  /** The values given to option `n`: each value belongs to the option named last before it. */
  function OptionValues(tokens: seq<Token>, n: string): seq<string>
    decreases |tokens|
  {
    if |tokens| == 0 then []
    else
      OptionValues(Init(tokens), n)
      + (if Last(tokens).kind == OptionValueTok && CurrentOption(Init(tokens)) == Some(n) then Last(tokens).values else [])
  }

  /** Some option-name token names `n`. */
  predicate OptionGiven(tokens: seq<Token>, n: string)
  {
    exists k | 0 <= k < |tokens| :: tokens[k].kind == OptionNameTok && n in tokens[k].values
  }

  /** Every option value comes after some option name. */
  predicate ValuesFollowNames(tokens: seq<Token>)
  {
    forall k | 0 <= k < |tokens| && tokens[k].kind == OptionValueTok :: Occurs(tokens[..k], OptionNameTok)
  }

  lemma {:induction false} OccursSnoc(ts: seq<Token>, t: Token, kind: TokenType)
    ensures Occurs(ts + [t], kind) <==> Occurs(ts, kind) || t.kind == kind
  {
    if Occurs(ts, kind) {
      var k :| 0 <= k < |ts| && ts[k].kind == kind;
      assert (ts + [t])[k] == ts[k];
    }
    if t.kind == kind {
      assert (ts + [t])[|ts|] == t;
    }
    if Occurs(ts + [t], kind) && t.kind != kind {
      var k :| 0 <= k < |ts + [t]| && (ts + [t])[k].kind == kind;
      assert ts[k] == (ts + [t])[k];
    }
  }

  lemma {:induction false} OptionGivenSnoc(ts: seq<Token>, t: Token, n: string)
    ensures OptionGiven(ts + [t], n) <==> OptionGiven(ts, n) || (t.kind == OptionNameTok && n in t.values)
  {
    if OptionGiven(ts, n) {
      var k :| 0 <= k < |ts| && ts[k].kind == OptionNameTok && n in ts[k].values;
      assert (ts + [t])[k] == ts[k];
    }
    if OptionGiven(ts + [t], n) && !(t.kind == OptionNameTok && n in t.values) {
      var k :| 0 <= k < |ts + [t]| && (ts + [t])[k].kind == OptionNameTok && n in (ts + [t])[k].values;
      assert ts[k] == (ts + [t])[k];
    }
    if t.kind == OptionNameTok && n in t.values {
      assert (ts + [t])[|ts|] == t;
    }
  }

  lemma {:induction false} FollowSnoc(ts: seq<Token>, t: Token)
    ensures ValuesFollowNames(ts + [t])
            <==> ValuesFollowNames(ts) && (t.kind == OptionValueTok ==> Occurs(ts, OptionNameTok))
  {
    var s := ts + [t];
    assert s[..|ts|] == ts;
    forall k | 0 <= k < |ts|
      ensures s[k] == ts[k] && s[..k] == ts[..k]
    {
    }
  }

  /** Building fails exactly when some option value comes before every option name. */
  lemma {:induction false} RunOkIff(tokens: seq<Token>)
    ensures Run(tokens).Ok? <==> ValuesFollowNames(tokens)
    ensures Run(tokens).Ok? ==> (Run(tokens).value.option.Some? <==> Occurs(tokens, OptionNameTok))
    decreases |tokens|
  {
    if |tokens| > 0 {
      var ts, t := Init(tokens), Last(tokens);
      assert tokens == ts + [t];
      RunOkIff(ts);
      OccursSnoc(ts, t, OptionNameTok);
      FollowSnoc(ts, t);
    }
  }

  /** The slot a gathering kind keeps in the builder. */
  function Slot(b: Builder, kind: ArgType): Option<nat>
  {
    if kind == PositionalArg then b.positional else b.extra
  }

  /** The token kind that feeds a gathering argument kind. */
  function Feeder(kind: ArgType): TokenType
  {
    if kind == PositionalArg then PositionalTok else ExtraTok
  }

  /** The one gathered argument of `kind` after `tokens`, if any of its tokens occurred. */
  predicate Gathered(tokens: seq<Token>, b: Builder, kind: ArgType)
  {
    && OfKind(b.args, kind) == (if Occurs(tokens, Feeder(kind)) then [CommandArg(kind, None, ValuesOf(tokens, Feeder(kind)), DefaultRepeat, None)] else [])
    && (Slot(b, kind).Some? <==> Occurs(tokens, Feeder(kind)))
  }

  lemma {:induction false} ValuesOfAbsent(tokens: seq<Token>, kind: TokenType)
    requires !Occurs(tokens, kind)
    ensures ValuesOf(tokens, kind) == []
    decreases |tokens|
  {
    if |tokens| > 0 {
      OccursSnoc(Init(tokens), Last(tokens), kind);
      assert tokens == Init(tokens) + [Last(tokens)];
      ValuesOfAbsent(Init(tokens), kind);
    }
  }

  /** The argument kind a token of kind `tk` creates or extends in the builder. */
  function Touches(tk: TokenType): Option<ArgType>
  {
    if tk == FlagTok then Some(FlagArg)
    else if tk == OptionNameTok || tk == OptionValueTok then Some(OptionArg)
    else if tk == PositionalTok then Some(PositionalArg)
    else if tk == ExtraTok then Some(ExtraArg)
    else None
  }

  /** A step leaves the arguments of every kind its token does not touch alone. */
  lemma {:induction false} StepOtherKind(b: Builder, t: Token, kind: ArgType)
    requires Valid(b) && Step(b, t).Ok? && Touches(t.kind) != Some(kind)
    ensures OfKind(Step(b, t).value.args, kind) == OfKind(b.args, kind)
    ensures kind == PositionalArg ==> Step(b, t).value.positional == b.positional
    ensures kind == ExtraArg ==> Step(b, t).value.extra == b.extra
  {
    if t.kind == FlagTok {
      match FindNamedArg(b.args, FlagArg, t)
      case Some(i) =>
        OfKindUpdateOther(b.args, i, b.args[i].(repeat := b.args[i].repeat + 1), kind);
      case None =>
        OfKindAppend(b.args, CommandArg(FlagArg, FirstValue(t), [], 1, None), kind);
    } else if t.kind == OptionNameTok {
      if FindNamedArg(b.args, OptionArg, t).None? {
        OfKindAppend(b.args, CommandArg(OptionArg, FirstValue(t), [], DefaultRepeat, None), kind);
      }
    } else if t.kind == OptionValueTok {
      var i := b.option.value;
      OfKindUpdateOther(b.args, i, b.args[i].(values := b.args[i].values + t.values), kind);
    } else if t.kind == PositionalTok {
      GatherOtherKind(b.args, b.positional, PositionalArg, t.values, kind);
    } else if t.kind == ExtraTok {
      GatherOtherKind(b.args, b.extra, ExtraArg, t.values, kind);
    }
  }

  lemma {:induction false} GatherOtherKind(args: seq<CommandArg>, slot: Option<nat>, gk: ArgType, values: seq<string>, kind: ArgType)
    requires ValidIndex(args, slot, gk) && gk != kind
    ensures OfKind(Gather(args, slot, gk, values).0, kind) == OfKind(args, kind)
  {
    match slot
    case Some(i) =>
      OfKindUpdateOther(args, i, args[i].(values := args[i].values + values), kind);
    case None =>
      OfKindAppend(args, CommandArg(gk, None, values, DefaultRepeat, None), kind);
  }

  /** Gathering into the sole argument of its kind, or starting it. */
  lemma {:induction false} GatherSame(args: seq<CommandArg>, slot: Option<nat>, kind: ArgType, prior: seq<string>, values: seq<string>)
    requires ValidIndex(args, slot, kind)
    requires OfKind(args, kind) == (if slot.Some? then [CommandArg(kind, None, prior, DefaultRepeat, None)] else [])
    requires slot.None? ==> prior == []
    ensures OfKind(Gather(args, slot, kind, values).0, kind) == [CommandArg(kind, None, prior + values, DefaultRepeat, None)]
  {
    match slot
    case Some(i) =>
      var x := args[i].(values := args[i].values + values);
      OfKindReplaceSole(args, i, x, kind);
    case None =>
      OfKindAppend(args, CommandArg(kind, None, values, DefaultRepeat, None), kind);
      assert prior + values == values;
  }

  /** A token of a gathering kind goes to that kind's slot. */
  lemma {:induction false} StepFeeds(b: Builder, t: Token, kind: ArgType)
    requires kind == PositionalArg || kind == ExtraArg
    requires Valid(b) && t.kind == Feeder(kind)
    ensures Step(b, t).Ok?
    ensures Step(b, t).value.args == Gather(b.args, Slot(b, kind), kind, t.values).0
    ensures Slot(Step(b, t).value, kind).Some?
  {
  }

  lemma {:induction false} StepGathers(ts: seq<Token>, t: Token, b: Builder, kind: ArgType)
    requires kind == PositionalArg || kind == ExtraArg
    requires Valid(b) && Step(b, t).Ok? && Gathered(ts, b, kind)
    ensures Gathered(ts + [t], Step(b, t).value, kind)
  {
    var tokens := ts + [t];
    assert Init(tokens) == ts && Last(tokens) == t;
    var f := Feeder(kind);
    OccursSnoc(ts, t, f);
    if t.kind == f {
      assert ValuesOf(tokens, f) == ValuesOf(ts, f) + t.values;
      if !Occurs(ts, f) {
        ValuesOfAbsent(ts, f);
      }
      StepFeeds(b, t, kind);
      GatherSame(b.args, Slot(b, kind), kind, ValuesOf(ts, f), t.values);
    } else {
      assert ValuesOf(tokens, f) == ValuesOf(ts, f);
      StepOtherKind(b, t, kind);
    }
  }

  /**
   * Positional (and, alike, extra) tokens of a scope are merged into one
   * argument that appears at the first such token and holds all their
   * values in order, whatever tokens come between them.
   */
  lemma {:induction false} RunGathers(tokens: seq<Token>, kind: ArgType)
    requires kind == PositionalArg || kind == ExtraArg
    requires Run(tokens).Ok?
    ensures Gathered(tokens, Run(tokens).value, kind)
    decreases |tokens|
  {
    if |tokens| > 0 {
      var ts, t := Init(tokens), Last(tokens);
      assert tokens == ts + [t];
      RunGathers(ts, kind);
      StepGathers(ts, t, Run(ts).value, kind);
    } else {
      assert OfKind([], kind) == [];
    }
  }

  /** Arguments of `kind` keep their positions and contents, and none is added. */
  predicate KindPreserved(args: seq<CommandArg>, args': seq<CommandArg>, kind: ArgType)
  {
    && |args| <= |args'|
    && (forall i | 0 <= i < |args| :: (args[i].kind == kind || args'[i].kind == kind) ==> args'[i] == args[i])
    && (forall i | |args| <= i < |args'| :: args'[i].kind != kind)
  }

  lemma {:induction false} StepFrame(b: Builder, t: Token, kind: ArgType)
    requires Valid(b) && Step(b, t).Ok? && Touches(t.kind) != Some(kind)
    ensures KindPreserved(b.args, Step(b, t).value.args, kind)
    ensures kind == OptionArg ==> Step(b, t).value.option == b.option
  {
    var b' := Step(b, t).value;
    if t.kind == FlagTok {
      match FindNamedArg(b.args, FlagArg, t)
      case Some(i) =>
        assert b'.args == b.args[i := b.args[i].(repeat := b.args[i].repeat + 1)];
      case None =>
        assert b'.args == b.args + [CommandArg(FlagArg, FirstValue(t), [], 1, None)];
    } else if t.kind == PositionalTok || t.kind == ExtraTok {
      var slot := if t.kind == PositionalTok then b.positional else b.extra;
      var k := if t.kind == PositionalTok then PositionalArg else ExtraArg;
      assert b'.args == Gather(b.args, slot, k, t.values).0 && b'.option == b.option;
    } else if t.kind == OptionNameTok {
      match FindNamedArg(b.args, OptionArg, t)
      case Some(i) =>
        assert b'.args == b.args;
      case None =>
        assert b'.args == b.args + [CommandArg(OptionArg, FirstValue(t), [], DefaultRepeat, None)];
    } else if t.kind == OptionValueTok {
      var i := b.option.value;
      assert b'.args == b.args[i := b.args[i].(values := b.args[i].values + t.values)];
    } else {
      assert b' == b;
    }
  }

  /** Flag tokens accumulate: one flag argument per name, whose `repeat` counts that name's tokens. */
  ghost predicate FlagsCounted(tokens: seq<Token>, args: seq<CommandArg>)
  {
    && (forall i | 0 <= i < |args| && args[i].kind == FlagArg ::
          args[i].optionName.Some? && args[i].values == [] && args[i].repeat == FlagCount(tokens, args[i].optionName.value))
    && (forall i, j | 0 <= i < j < |args| && args[i].kind == FlagArg && args[j].kind == FlagArg ::
          args[i].optionName != args[j].optionName)
    && (forall n | FlagCount(tokens, n) > 0 ::
          exists i | 0 <= i < |args| :: args[i].kind == FlagArg && args[i].optionName == Some(n))
  }

  lemma {:induction false} FlagCountSnoc(ts: seq<Token>, t: Token, n: string)
    ensures FlagCount(ts + [t], n) == FlagCount(ts, n) + (if t.kind == FlagTok && n in t.values then 1 else 0)
  {
    assert Init(ts + [t]) == ts && Last(ts + [t]) == t;
  }

  lemma {:induction false} FlagsBump(ts: seq<Token>, v: string, args: seq<CommandArg>, i: nat)
    requires FlagsCounted(ts, args)
    requires i < |args| && args[i].kind == FlagArg && args[i].optionName == Some(v)
    ensures FlagsCounted(ts + [Token(FlagTok, [v])], args[i := args[i].(repeat := args[i].repeat + 1)])
  {
    var t := Token(FlagTok, [v]);
    var args' := args[i := args[i].(repeat := args[i].repeat + 1)];
    forall n ensures FlagCount(ts + [t], n) == FlagCount(ts, n) + (if n == v then 1 else 0) {
      FlagCountSnoc(ts, t, n);
    }
    forall j | 0 <= j < |args'| && args'[j].kind == FlagArg
      ensures args'[j].optionName.Some? && args'[j].values == []
      ensures args'[j].repeat == FlagCount(ts + [t], args'[j].optionName.value)
    {
      if j != i {
        assert args'[j] == args[j];
        assert args[j].optionName != Some(v) by {
          if j < i {
            assert args[j].optionName != args[i].optionName;
          } else {
            assert args[i].optionName != args[j].optionName;
          }
        }
      }
    }
    forall j, k | 0 <= j < k < |args'| && args'[j].kind == FlagArg && args'[k].kind == FlagArg
      ensures args'[j].optionName != args'[k].optionName
    {
      assert args'[j].optionName == args[j].optionName && args'[k].optionName == args[k].optionName;
      assert args[j].kind == FlagArg && args[k].kind == FlagArg;
    }
    forall n | FlagCount(ts + [t], n) > 0
      ensures exists j | 0 <= j < |args'| :: args'[j].kind == FlagArg && args'[j].optionName == Some(n)
    {
      if n == v {
        assert args'[i].optionName == Some(n);
      } else {
        var j :| 0 <= j < |args| && args[j].kind == FlagArg && args[j].optionName == Some(n);
        assert args'[j] == args[j];
      }
    }
  }

  lemma {:induction false} FlagsAdd(ts: seq<Token>, v: string, args: seq<CommandArg>)
    requires FlagsCounted(ts, args)
    requires forall i | 0 <= i < |args| && args[i].kind == FlagArg :: args[i].optionName != Some(v)
    ensures FlagsCounted(ts + [Token(FlagTok, [v])], args + [CommandArg(FlagArg, Some(v), [], 1, None)])
  {
    var t := Token(FlagTok, [v]);
    var x := CommandArg(FlagArg, Some(v), [], 1, None);
    var args' := args + [x];
    forall n ensures FlagCount(ts + [t], n) == FlagCount(ts, n) + (if n == v then 1 else 0) {
      FlagCountSnoc(ts, t, n);
    }
    assert FlagCount(ts, v) == 0;
    forall n | FlagCount(ts + [t], n) > 0
      ensures exists j | 0 <= j < |args'| :: args'[j].kind == FlagArg && args'[j].optionName == Some(n)
    {
      if n == v {
        assert args'[|args|] == x;
      } else {
        var j :| 0 <= j < |args| && args[j].kind == FlagArg && args[j].optionName == Some(n);
        assert args'[j] == args[j];
      }
    }
  }

  lemma {:induction false} FlagsFrame(ts: seq<Token>, t: Token, args: seq<CommandArg>, args': seq<CommandArg>)
    requires t.kind != FlagTok && FlagsCounted(ts, args) && KindPreserved(args, args', FlagArg)
    ensures FlagsCounted(ts + [t], args')
  {
    forall n ensures FlagCount(ts + [t], n) == FlagCount(ts, n) {
      FlagCountSnoc(ts, t, n);
    }
    forall n | FlagCount(ts + [t], n) > 0
      ensures exists j | 0 <= j < |args'| :: args'[j].kind == FlagArg && args'[j].optionName == Some(n)
    {
      var j :| 0 <= j < |args| && args[j].kind == FlagArg && args[j].optionName == Some(n);
      assert args'[j] == args[j];
    }
  }

  /** A flag token whose name has an argument bumps that argument's count. */
  lemma {:induction false} StepFlagsBump(ts: seq<Token>, t: Token, b: Builder, i: nat)
    requires |t.values| == 1 && t.kind == FlagTok
    requires Valid(b) && FlagsCounted(ts, b.args) && FindNamedArg(b.args, FlagArg, t) == Some(i)
    ensures Step(b, t).Ok? && FlagsCounted(ts + [t], Step(b, t).value.args)
  {
    var v := t.values[0];
    assert t == Token(FlagTok, [v]);
    FlagsBump(ts, v, b.args, i);
  }

  /** A flag token with a new name adds a flag argument counted once. */
  lemma {:induction false} StepFlagsNew(ts: seq<Token>, t: Token, b: Builder)
    requires |t.values| == 1 && t.kind == FlagTok
    requires Valid(b) && FlagsCounted(ts, b.args) && FindNamedArg(b.args, FlagArg, t).None?
    ensures Step(b, t).Ok? && FlagsCounted(ts + [t], Step(b, t).value.args)
  {
    var v := t.values[0];
    assert t == Token(FlagTok, [v]);
    assert FirstValue(t) == Some(v);
    forall i | 0 <= i < |b.args| && b.args[i].kind == FlagArg
      ensures b.args[i].optionName != Some(v)
    {
      assert !Named(b.args[i], FlagArg, t);
      assert v in t.values;
    }
    FlagsAdd(ts, v, b.args);
  }

  lemma {:induction false} StepFlags(ts: seq<Token>, t: Token, b: Builder)
    requires |t.values| == 1
    requires Valid(b) && Step(b, t).Ok? && FlagsCounted(ts, b.args)
    ensures FlagsCounted(ts + [t], Step(b, t).value.args)
  {
    if t.kind == FlagTok {
      match FindNamedArg(b.args, FlagArg, t)
      case Some(i) => StepFlagsBump(ts, t, b, i);
      case None => StepFlagsNew(ts, t, b);
    } else {
      StepFrame(b, t, FlagArg);
      FlagsFrame(ts, t, b.args, Step(b, t).value.args);
    }
  }

  lemma {:induction false} RunFlagsCounted(tokens: seq<Token>)
    requires SingleValued(tokens) && Run(tokens).Ok?
    ensures FlagsCounted(tokens, Run(tokens).value.args)
    decreases |tokens|
  {
    if |tokens| > 0 {
      var ts, t := Init(tokens), Last(tokens);
      assert tokens == ts + [t];
      assert |t.values| == 1;
      RunFlagsCounted(ts);
      StepFlags(ts, t, Run(ts).value);
    }
  }

  lemma {:induction false} CurrentOptionSnoc(ts: seq<Token>, t: Token)
    ensures CurrentOption(ts + [t]) == if t.kind == OptionNameTok then FirstValue(t) else CurrentOption(ts)
  {
    assert Init(ts + [t]) == ts && Last(ts + [t]) == t;
  }

  lemma {:induction false} OptionValuesSnoc(ts: seq<Token>, t: Token, n: string)
    ensures OptionValues(ts + [t], n)
            == OptionValues(ts, n) + (if t.kind == OptionValueTok && CurrentOption(ts) == Some(n) then t.values else [])
  {
    assert Init(ts + [t]) == ts && Last(ts + [t]) == t;
  }

  /** The current option is always one that was named. */
  lemma {:induction false} CurrentOptionGiven(tokens: seq<Token>, n: string)
    requires CurrentOption(tokens) == Some(n)
    ensures OptionGiven(tokens, n)
    decreases |tokens|
  {
    var ts, t := Init(tokens), Last(tokens);
    assert tokens == ts + [t];
    OptionGivenSnoc(ts, t, n);
    if t.kind != OptionNameTok {
      CurrentOptionGiven(ts, n);
    }
  }

  /** Only an option that was named can have received values. */
  lemma {:induction false} OptionValuesGiven(tokens: seq<Token>, n: string)
    requires OptionValues(tokens, n) != []
    ensures OptionGiven(tokens, n)
    decreases |tokens|
  {
    var ts, t := Init(tokens), Last(tokens);
    assert tokens == ts + [t];
    OptionGivenSnoc(ts, t, n);
    if OptionValues(ts, n) != [] {
      OptionValuesGiven(ts, n);
    } else {
      CurrentOptionGiven(ts, n);
    }
  }

  /**
   * One option argument per option name, holding every value given while
   * that option was the current one; the builder's current option is the
   * one named last.
   */
  ghost predicate OptionsTracked(tokens: seq<Token>, args: seq<CommandArg>, option: Option<nat>)
  {
    && (forall i | 0 <= i < |args| && args[i].kind == OptionArg ::
          args[i].optionName.Some? && args[i].repeat == DefaultRepeat && OptionGiven(tokens, args[i].optionName.value)
          && args[i].values == OptionValues(tokens, args[i].optionName.value))
    && (forall i, j | 0 <= i < j < |args| && args[i].kind == OptionArg && args[j].kind == OptionArg ::
          args[i].optionName != args[j].optionName)
    && (forall n | OptionGiven(tokens, n) ::
          exists i | 0 <= i < |args| :: args[i].kind == OptionArg && args[i].optionName == Some(n))
    && (option.Some? ==> option.value < |args| && args[option.value].kind == OptionArg && args[option.value].optionName == CurrentOption(tokens))
    && (option.None? ==> CurrentOption(tokens).None?)
  }

  lemma {:induction false} OptionsSelect(ts: seq<Token>, v: string, args: seq<CommandArg>, option: Option<nat>, i: nat)
    requires OptionsTracked(ts, args, option)
    requires i < |args| && args[i].kind == OptionArg && args[i].optionName == Some(v)
    ensures OptionsTracked(ts + [Token(OptionNameTok, [v])], args, Some(i))
  {
    var t := Token(OptionNameTok, [v]);
    CurrentOptionSnoc(ts, t);
    forall n ensures OptionValues(ts + [t], n) == OptionValues(ts, n) && (OptionGiven(ts + [t], n) <==> OptionGiven(ts, n) || n == v) {
      OptionValuesSnoc(ts, t, n);
      OptionGivenSnoc(ts, t, n);
    }
  }

  lemma {:induction false} OptionsAdd(ts: seq<Token>, v: string, args: seq<CommandArg>, option: Option<nat>)
    requires OptionsTracked(ts, args, option)
    requires forall i | 0 <= i < |args| && args[i].kind == OptionArg :: args[i].optionName != Some(v)
    ensures OptionsTracked(ts + [Token(OptionNameTok, [v])], args + [CommandArg(OptionArg, Some(v), [], DefaultRepeat, None)], Some(|args|))
  {
    var t := Token(OptionNameTok, [v]);
    var x := CommandArg(OptionArg, Some(v), [], DefaultRepeat, None);
    var args' := args + [x];
    CurrentOptionSnoc(ts, t);
    forall n ensures OptionValues(ts + [t], n) == OptionValues(ts, n) && (OptionGiven(ts + [t], n) <==> OptionGiven(ts, n) || n == v) {
      OptionValuesSnoc(ts, t, n);
      OptionGivenSnoc(ts, t, n);
    }
    assert !OptionGiven(ts, v);
    assert OptionValues(ts, v) == [] by {
      if OptionValues(ts, v) != [] {
        OptionValuesGiven(ts, v);
      }
    }
    forall i | 0 <= i < |args'| && args'[i].kind == OptionArg
      ensures args'[i].optionName.Some? && args'[i].repeat == DefaultRepeat && OptionGiven(ts + [t], args'[i].optionName.value)
              && args'[i].values == OptionValues(ts + [t], args'[i].optionName.value)
    {
      if i < |args| {
        assert args'[i] == args[i];
      }
    }
    forall i, j | 0 <= i < j < |args'| && args'[i].kind == OptionArg && args'[j].kind == OptionArg
      ensures args'[i].optionName != args'[j].optionName
    {
      assert args'[i] == args[i];
      if j < |args| {
        assert args'[j] == args[j];
      }
    }
    forall n | OptionGiven(ts + [t], n)
      ensures exists j | 0 <= j < |args'| :: args'[j].kind == OptionArg && args'[j].optionName == Some(n)
    {
      if n == v {
        assert args'[|args|] == x;
      } else {
        var j :| 0 <= j < |args| && args[j].kind == OptionArg && args[j].optionName == Some(n);
        assert args'[j] == args[j];
      }
    }
  }

  lemma {:induction false} OptionsExtend(ts: seq<Token>, t: Token, args: seq<CommandArg>, i: nat)
    requires t.kind == OptionValueTok && OptionsTracked(ts, args, Some(i))
    ensures OptionsTracked(ts + [t], args[i := args[i].(values := args[i].values + t.values)], Some(i))
  {
    var args' := args[i := args[i].(values := args[i].values + t.values)];
    var m := args[i].optionName.value;
    CurrentOptionSnoc(ts, t);
    forall k | 0 <= k < |args'| && args'[k].kind == OptionArg
      ensures args'[k].optionName.Some? && args'[k].repeat == DefaultRepeat && OptionGiven(ts + [t], args'[k].optionName.value)
              && args'[k].values == OptionValues(ts + [t], args'[k].optionName.value)
    {
      var n := args[k].optionName.value;
      OptionValuesSnoc(ts, t, n);
      OptionGivenSnoc(ts, t, n);
    }
    forall n | OptionGiven(ts + [t], n)
      ensures exists j | 0 <= j < |args'| :: args'[j].kind == OptionArg && args'[j].optionName == Some(n)
    {
      OptionGivenSnoc(ts, t, n);
      var j :| 0 <= j < |args| && args[j].kind == OptionArg && args[j].optionName == Some(n);
      assert args'[j].optionName == args[j].optionName;
    }
  }

  lemma {:induction false} OptionsFrame(ts: seq<Token>, t: Token, args: seq<CommandArg>, args': seq<CommandArg>, option: Option<nat>)
    requires t.kind != OptionNameTok && t.kind != OptionValueTok
    requires OptionsTracked(ts, args, option) && KindPreserved(args, args', OptionArg)
    ensures OptionsTracked(ts + [t], args', option)
  {
    CurrentOptionSnoc(ts, t);
    forall n ensures OptionValues(ts + [t], n) == OptionValues(ts, n) && (OptionGiven(ts + [t], n) <==> OptionGiven(ts, n)) {
      OptionValuesSnoc(ts, t, n);
      OptionGivenSnoc(ts, t, n);
    }
    forall n | OptionGiven(ts + [t], n)
      ensures exists j | 0 <= j < |args'| :: args'[j].kind == OptionArg && args'[j].optionName == Some(n)
    {
      var j :| 0 <= j < |args| && args[j].kind == OptionArg && args[j].optionName == Some(n);
      assert args'[j] == args[j];
    }
  }

  lemma {:induction false} StepOptions(ts: seq<Token>, t: Token, b: Builder)
    requires |t.values| == 1
    requires Valid(b) && Step(b, t).Ok? && OptionsTracked(ts, b.args, b.option)
    ensures OptionsTracked(ts + [t], Step(b, t).value.args, Step(b, t).value.option)
  {
    if t.kind == OptionNameTok {
      var v := t.values[0];
      assert t == Token(OptionNameTok, [v]);
      match FindNamedArg(b.args, OptionArg, t)
      case Some(i) =>
        OptionsSelect(ts, v, b.args, b.option, i);
      case None =>
        assert FirstValue(t) == Some(v);
        forall i | 0 <= i < |b.args| && b.args[i].kind == OptionArg
          ensures b.args[i].optionName != Some(v)
        {
          assert !Named(b.args[i], OptionArg, t);
          assert v in t.values;
        }
        OptionsAdd(ts, v, b.args, b.option);
    } else if t.kind == OptionValueTok {
      OptionsExtend(ts, t, b.args, b.option.value);
    } else {
      StepFrame(b, t, OptionArg);
      OptionsFrame(ts, t, b.args, Step(b, t).value.args, b.option);
    }
  }

  lemma {:induction false} RunOptionsTracked(tokens: seq<Token>)
    requires SingleValued(tokens) && Run(tokens).Ok?
    ensures OptionsTracked(tokens, Run(tokens).value.args, Run(tokens).value.option)
    decreases |tokens|
  {
    if |tokens| > 0 {
      var ts, t := Init(tokens), Last(tokens);
      assert tokens == ts + [t];
      assert |t.values| == 1;
      RunOptionsTracked(ts);
      StepOptions(ts, t, Run(ts).value);
    }
  }

  /**
   * Where a token of another kind sits does not change the gathered values:
   * `install -y vim git` and `install vim -y git` give the same positional values.
   */
  lemma {:induction false} ValuesOfIgnoresOthers(a: seq<Token>, t: Token, c: seq<Token>, kind: TokenType)
    requires t.kind != kind
    ensures ValuesOf(a + [t] + c, kind) == ValuesOf(a + c, kind)
  {
    ValuesOfAppend(a + [t], c, kind);
    ValuesOfAppend(a, [t], kind);
    ValuesOfAppend(a, c, kind);
    assert Init([t]) == [] && Last([t]) == t;
  }

  /** Whole-run summary of the builder, for single-valued tokens. */
  lemma {:induction false} RunSummary(tokens: seq<Token>)
    requires Run(tokens).Ok?
    ensures SingleValued(tokens) ==> FlagsCounted(tokens, Run(tokens).value.args)
    ensures SingleValued(tokens) ==> OptionsTracked(tokens, Run(tokens).value.args, Run(tokens).value.option)
    ensures SingleValued(tokens) ==> KeysTracked(tokens, Run(tokens).value)
  {
    if SingleValued(tokens) {
      RunFlagsCounted(tokens);
      RunOptionsTracked(tokens);
      RunKeys(tokens);
    }
  }

  // ---------------------------------------------------------------------------
  // The order of the arguments

  /** The argument a token creates or names in the builder, if any. */
  function TokenKey(t: Token): Option<ArgKey>
  {
    if t.kind == FlagTok then Some((FlagArg, FirstValue(t)))
    else if t.kind == OptionNameTok then Some((OptionArg, FirstValue(t)))
    else if t.kind == PositionalTok then Some((PositionalArg, None))
    else if t.kind == ExtraTok then Some((ExtraArg, None))
    else None
  }

  /** The keys of the tokens in order of first occurrence, each once. */
  function FirstKeys(tokens: seq<Token>): seq<ArgKey>
    decreases |tokens|
  {
    if |tokens| == 0 then []
    else
      var ks := FirstKeys(Init(tokens));
      var k := TokenKey(Last(tokens));
      if k.Some? && k.value !in ks then ks + [k.value] else ks
  }

  /** The builder holds one argument per first-occurring key, in that order, and its gathering slots exist exactly for the keys seen. */
  predicate KeysTracked(tokens: seq<Token>, b: Builder)
  {
    && ArgKeys(b.args) == FirstKeys(tokens)
    && (b.positional.Some? <==> (PositionalArg, None) in FirstKeys(tokens))
    && (b.extra.Some? <==> (ExtraArg, None) in FirstKeys(tokens))
  }

  lemma {:induction false} ArgKeysUpdate(args: seq<CommandArg>, i: nat, x: CommandArg)
    requires i < |args| && KeyOf(x) == KeyOf(args[i])
    ensures ArgKeys(args[i := x]) == ArgKeys(args)
  {
  }

  /** A single-valued token names an argument of `kind` exactly when its key is among the arguments' keys. */
  lemma {:induction false} NamedKey(args: seq<CommandArg>, kind: ArgType, t: Token)
    requires |t.values| == 1
    ensures FindNamedArg(args, kind, t).Some? <==> (kind, FirstValue(t)) in ArgKeys(args)
    ensures FindNamedArg(args, kind, t).Some? ==> KeyOf(args[FindNamedArg(args, kind, t).value]) == (kind, FirstValue(t))
  {
    var v := t.values[0];
    assert FirstValue(t) == Some(v);
    match FindNamedArg(args, kind, t)
    case Some(i) =>
      assert ArgKeys(args)[i] == KeyOf(args[i]);
    case None =>
      forall j | 0 <= j < |args|
        ensures ArgKeys(args)[j] != (kind, Some(v))
      {
        assert !Named(args[j], kind, t);
      }
  }

  lemma {:induction false} FirstKeysSnoc(ts: seq<Token>, t: Token)
    ensures FirstKeys(ts + [t])
            == if TokenKey(t).Some? && TokenKey(t).value !in FirstKeys(ts) then FirstKeys(ts) + [TokenKey(t).value] else FirstKeys(ts)
  {
    assert Init(ts + [t]) == ts && Last(ts + [t]) == t;
  }

  /** A flag or option-name token: the named argument is reused, or a new one is appended under the token's key. */
  lemma {:induction false} StepKeysNamed(ts: seq<Token>, t: Token, b: Builder)
    requires |t.values| == 1 && (t.kind == FlagTok || t.kind == OptionNameTok)
    requires Valid(b) && KeysTracked(ts, b)
    ensures Step(b, t).Ok? && KeysTracked(ts + [t], Step(b, t).value)
  {
    var kind := if t.kind == FlagTok then FlagArg else OptionArg;
    var key := (kind, FirstValue(t));
    assert TokenKey(t) == Some(key);
    FirstKeysSnoc(ts, t);
    NamedKey(b.args, kind, t);
    var b' := Step(b, t).value;
    assert b'.positional == b.positional && b'.extra == b.extra;
    match FindNamedArg(b.args, kind, t)
    case Some(i) =>
      if t.kind == FlagTok {
        ArgKeysUpdate(b.args, i, b.args[i].(repeat := b.args[i].repeat + 1));
      }
    case None =>
      var x := CommandArg(kind, FirstValue(t), [], if t.kind == FlagTok then 1 else DefaultRepeat, None);
      assert b'.args == b.args + [x];
      ArgKeysAppend(b.args, [x]);
  }

  /** A positional or extra token: its gathering slot is extended, or its argument is appended. */
  lemma {:induction false} StepKeysGathered(ts: seq<Token>, t: Token, b: Builder)
    requires t.kind == PositionalTok || t.kind == ExtraTok
    requires Valid(b) && KeysTracked(ts, b)
    ensures Step(b, t).Ok? && KeysTracked(ts + [t], Step(b, t).value)
  {
    var kind := if t.kind == PositionalTok then PositionalArg else ExtraArg;
    var slot := if t.kind == PositionalTok then b.positional else b.extra;
    assert TokenKey(t) == Some((kind, None));
    FirstKeysSnoc(ts, t);
    var b' := Step(b, t).value;
    assert b'.args == Gather(b.args, slot, kind, t.values).0;
    match slot
    case Some(i) =>
      ArgKeysUpdate(b.args, i, b.args[i].(values := b.args[i].values + t.values));
    case None =>
      ArgKeysAppend(b.args, [CommandArg(kind, None, t.values, DefaultRepeat, None)]);
  }

  lemma {:induction false} StepKeys(ts: seq<Token>, t: Token, b: Builder)
    requires |t.values| == 1
    requires Valid(b) && Step(b, t).Ok? && KeysTracked(ts, b)
    ensures KeysTracked(ts + [t], Step(b, t).value)
  {
    if t.kind == FlagTok || t.kind == OptionNameTok {
      StepKeysNamed(ts, t, b);
    } else if t.kind == PositionalTok || t.kind == ExtraTok {
      StepKeysGathered(ts, t, b);
    } else {
      FirstKeysSnoc(ts, t);
      if t.kind == OptionValueTok {
        var i := b.option.value;
        ArgKeysUpdate(b.args, i, b.args[i].(values := b.args[i].values + t.values));
      }
    }
  }

  /**
   * The arguments of a scope appear in the order in which their first
   * tokens appear: a repeated flag stays where it first occurred, an option
   * where it was first named, and the positional and extra arguments where
   * their first values were.
   */
  lemma {:induction false} RunKeys(tokens: seq<Token>)
    requires SingleValued(tokens) && Run(tokens).Ok?
    ensures KeysTracked(tokens, Run(tokens).value)
    decreases |tokens|
  {
    if |tokens| > 0 {
      var ts, t := Init(tokens), Last(tokens);
      assert tokens == ts + [t];
      assert |t.values| == 1;
      RunKeys(ts);
      StepKeys(ts, t, Run(ts).value);
    }
  }

  /** Every option given in a scope has one option argument, and no other option has one. */
  ghost predicate OptionsCollected(tokens: seq<Token>, args: seq<CommandArg>)
  {
    && (forall i | 0 <= i < |args| && args[i].kind == OptionArg ::
          args[i].optionName.Some? && OptionGiven(tokens, args[i].optionName.value)
          && args[i].values == OptionValues(tokens, args[i].optionName.value))
    && (forall i, j | 0 <= i < j < |args| && args[i].kind == OptionArg && args[j].kind == OptionArg ::
          args[i].optionName != args[j].optionName)
    && (forall n | OptionGiven(tokens, n) ::
          exists i | 0 <= i < |args| :: args[i].kind == OptionArg && args[i].optionName == Some(n))
  }

  /** `_build_arguments_for_command_node`: the arguments of one scope. */
  function BuildArguments(tokens: seq<Token>): (r: Result<seq<CommandArg>>)
    ensures r.Ok? <==> ValuesFollowNames(tokens)
    ensures r.Err? ==> r.fault == ValueError
    ensures r.Ok? ==> OfKind(r.value, PositionalArg)
                      == if Occurs(tokens, PositionalTok) then [CommandArg(PositionalArg, None, ValuesOf(tokens, PositionalTok), DefaultRepeat, None)] else []
    ensures r.Ok? ==> OfKind(r.value, ExtraArg)
                      == if Occurs(tokens, ExtraTok) then [CommandArg(ExtraArg, None, ValuesOf(tokens, ExtraTok), DefaultRepeat, None)] else []
    ensures r.Ok? && SingleValued(tokens) ==> FlagsCounted(tokens, r.value) && OptionsCollected(tokens, r.value)
    ensures r.Ok? && SingleValued(tokens) ==> ArgKeys(r.value) == FirstKeys(tokens)
  {
    var b := Run(tokens);
    RunOkIff(tokens);
    if b.Err? then Err(ValueError)
    else
      RunGathers(tokens, PositionalArg);
      RunGathers(tokens, ExtraArg);
      RunSummary(tokens);
      OptionsCollectedOfTracked(tokens, b.value);
      Ok(b.value.args)
  }

  lemma {:induction false} OptionsCollectedOfTracked(tokens: seq<Token>, b: Builder)
    requires SingleValued(tokens) ==> OptionsTracked(tokens, b.args, b.option)
    ensures SingleValued(tokens) ==> OptionsCollected(tokens, b.args)
  {
  }

  /** The names of the subcommand tokens, in order. */
  function SubNames(tokens: seq<Token>): seq<string>
  {
    if |tokens| == 0 then []
    else (if tokens[0].kind == SubcommandTok then [FirstValue(tokens[0]).GetOr("")] else []) + SubNames(tokens[1..])
  }

  lemma {:induction false} SubNamesAppend(a: seq<Token>, c: seq<Token>)
    ensures SubNames(a + c) == SubNames(a) + SubNames(c)
    decreases |a|
  {
    if |a| > 0 {
      assert (a + c)[1..] == a[1..] + c;
      SubNamesAppend(a[1..], c);
    } else {
      assert a + c == c;
    }
  }

  lemma {:induction false} SubNamesNone(tokens: seq<Token>)
    requires forall k | 0 <= k < |tokens| :: tokens[k].kind != SubcommandTok
    ensures SubNames(tokens) == []
    decreases |tokens|
  {
    if |tokens| > 0 {
      SubNamesNone(tokens[1..]);
    }
  }

  /**
   * `_build_arguments_command_node`: the tokens before the first subcommand
   * token are this node's arguments, and the rest form its only child, so
   * the chain of nodes is named by the subcommand tokens in order.
   */
  function BuildNode(name: string, tokens: seq<Token>): (r: Result<CommandNode>)
    ensures r.Ok? ==> ChainNames(r.value) == [name] + SubNames(tokens)
    ensures r.Ok? ==> BuildArguments(SplitAtSubcommand(tokens).0) == Ok(r.value.arguments)
    ensures r.Ok? ==> (r.value.subcommand.Some? <==> HasSubcommand(tokens))
    ensures r.Err? ==> r.fault == ValueError
    decreases |tokens|
  {
    var split := SplitAtSubcommand(tokens);
    var args :- BuildArguments(split.0);
    SplitNames(tokens);
    match split.1
    case None =>
      Ok(CommandNode(name, args, None))
    case Some(t) =>
      var child :- BuildNode(FirstValue(t).GetOr(""), split.2);
      Ok(CommandNode(name, args, Some(child)))
  }

  predicate HasSubcommand(tokens: seq<Token>)
  {
    exists k | 0 <= k < |tokens| :: tokens[k].kind == SubcommandTok
  }

  /** The subcommand names seen through the split at the first subcommand token. */
  lemma {:induction false} SplitNames(tokens: seq<Token>)
    ensures SplitAtSubcommand(tokens).1.None? ==> SubNames(tokens) == [] && !HasSubcommand(tokens)
    ensures SplitAtSubcommand(tokens).1.Some? ==>
              HasSubcommand(tokens)
              && SubNames(tokens) == [FirstValue(SplitAtSubcommand(tokens).1.value).GetOr("")] + SubNames(SplitAtSubcommand(tokens).2)
  {
    var split := SplitAtSubcommand(tokens);
    SubNamesNone(split.0);
    if split.1.Some? {
      var t := split.1.value;
      SubNamesAppend(split.0 + [t], split.2);
      SubNamesAppend(split.0, [t]);
      assert tokens[|split.0|] == t;
    }
  }

  /** `_build_command_tree`: the program token names the root, the rest builds it. */
  function BuildCommandTree(tokens: seq<Token>): (r: Result<CommandNode>)
    ensures |tokens| == 0 || tokens[0].kind != ProgramTok ==> r == Err(ValueError)
    ensures r.Ok? ==> ChainNames(r.value) == [FirstValue(tokens[0]).GetOr("")] + SubNames(tokens[1..])
    ensures r.Err? ==> r.fault == ValueError
  {
    if |tokens| == 0 then Err(ValueError)
    else if tokens[0].kind != ProgramTok then Err(ValueError)
    else BuildNode(FirstValue(tokens[0]).GetOr(""), tokens[1..])
  }

  /** `parse`: tokenize, then build the tree; the root is named by the first argument. */
  function Parse(config: ParserConfig, argv: seq<string>): (r: Result<CommandNode>)
    ensures |argv| == 0 ==> r == Err(ValueError)
    ensures r.Ok? ==> |argv| > 0 && r.value.name == argv[0]
    ensures r.Ok? ==> Tokenize(config, argv).Ok? && ChainNames(r.value) == [argv[0]] + SubNames(Tokenize(config, argv).value[1..])
  {
    var tokens :- Tokenize(config, argv);
    BuildCommandTree(tokens)
  }

  /** `validate`: every check was already made while tokenizing and building. */
  function Validate(node: CommandNode): (r: bool)
    ensures r
  {
    true
  }
}

=== FILE: bridge.dfy ===
// The top-level glue: `map_command` turns a command line of one program into
// the equivalent command of another, and `map_operation` renders a named
// operation with package arguments. Every failure along the way becomes "no
// result"; nothing is raised to the caller.

module Bridge {
  import opened Util
  import opened Text
  import opened Dicts
  import Grammar
  import ConfigLoader
  import Matcher
  import Renderer
  import Paths

  const DefaultDomainName := "package"
  const DefaultGroupName := "pacman"
  const DomainSetting := "default_operation_domain"
  const GroupSetting := "default_operation_group"
  const PackagesParam := "pkgs"

  /**
   * The loaded configuration the mapping reads: the cached command mappings
   * of each (domain, group), the parser configuration file of each program
   * that has one, and the operation file of each (domain, program).
   */
  datatype Files = Files(
    mappingConfigs: map<(string, string), Matcher.MappingConfig>,
    parserFiles: map<string, ConfigLoader.ConfigData>,
    operationFiles: map<(string, string), Renderer.OperationFile>)

  /**
   * What the glue reads from disk, as data: the `global_settings` table of the
   * global configuration (empty when the file is missing or unreadable), the
   * `*.toml` file names of each existing domain directory, and the loaded
   * configuration files.
   */
  datatype World = World(
    settings: map<string, string>,
    groupFiles: map<string, seq<string>>,
    files: Files)

  function DefaultDomain(settings: map<string, string>): string
  {
    if DomainSetting in settings then settings[DomainSetting] else DefaultDomainName
  }

  function DefaultGroup(settings: map<string, string>): string
  {
    if GroupSetting in settings then settings[GroupSetting] else DefaultGroupName
  }

  /** The operation groups of a domain, as the path manager lists them. */
  function GroupsOf(w: World, domain: string): seq<string>
  {
    Paths.ListOperationGroups(domain in w.groupFiles, Paths.FilesOf(w.groupFiles, domain))
  }

  /** `_get_mapping_config`: the cached mappings of a group, empty when there are none. */
  function MappingsOf(f: Files, domain: string, group: string): Matcher.MappingConfig
  {
    if (domain, group) in f.mappingConfigs then f.mappingConfigs[(domain, group)] else map[]
  }

  function OperationFileOf(f: Files, domain: string, program: string): Renderer.OperationFile
  {
    if (domain, program) in f.operationFiles then f.operationFiles[(domain, program)] else None
  }

  /** `_auto_detect_source_group`: the listed group equal to the command's first word, if any. */
  function AutoDetectSourceGroup(command: string, groups: seq<string>): (r: Option<string>)
    ensures r.Some? <==> |Words(command)| > 0 && Words(command)[0] in groups
    ensures r.Some? ==> r.value == Words(command)[0] && r.value != ""
  {
    var words := Words(command);
    if |words| == 0 then None
    else
      var first := words[0];
      FirstWhere(groups, g => g == first)
  }

  /** The source group: the explicit one when given, else the detected one. */
  function SourceGroup(w: World, domain: string, src: Option<string>, command: string): Option<string>
  {
    if Truthy(src) then src else AutoDetectSourceGroup(command, GroupsOf(w, domain))
  }

  /**
   * The keyword names both `map_command` and `map_operation` pass to
   * `generate_command`: the domain goes under a name the renderer does not
   * declare, and its declared `dst_operation_groups_name` is not given.
   */
  const CallKeywords := ["operation_name", "params", "dst_operation_domain_name", "dst_operation_group_name"]

  /**
   * The steps of `map_command` inside its `try`, with the renderer called by
   * the keyword names `keywords`: a raised exception is an `Err`, an early
   * `return None` is `Ok(None)`.
   */
  function MapCommandStepsBy(keywords: seq<string>, f: Files, domain: string, source: Option<string>, dest: string,
                             args: seq<string>): Result<Option<string>>
  {
    match source
    case None => Ok(None)
    case Some(group) =>
      if group !in f.parserFiles then Ok(None)
      else
        var config :- ConfigLoader.LoadParserConfig(f.parserFiles[group], group);
        var mapped :- Matcher.MapToOperation(MappingsOf(f, domain, group), config, args, dest);
        match mapped
        case None => Ok(None)
        case Some(op) =>
          var cmd :- Renderer.GenerateCommandByKeywords(keywords, OperationFileOf(f, domain, dest), op.operationName, op.params, dest);
          Ok(Some(cmd))
  }

  /** The steps as evidently intended: the renderer called with the parameter names it declares. */
  function MapCommandSteps(f: Files, domain: string, source: Option<string>, dest: string, args: seq<string>): Result<Option<string>>
  {
    MapCommandStepsBy(Renderer.GenerateCommandParameters, f, domain, source, dest, args)
  }

  /**
   * `map_command`: nothing for an empty command; the domain and destination
   * group default to the global settings, then to `package` and `pacman`;
   * every exception becomes no result.
   */
  function MapCommand(w: World, domain: Option<string>, src: Option<string>, dest: Option<string>, args: seq<string>): (r: Option<string>)
    ensures Join(args, " ") == "" ==> r.None?
  {
    MapCommandBy(Renderer.GenerateCommandParameters, w, domain, src, dest, args)
  }

  /** `map_command` with the renderer called by the keyword names `keywords`. */
  function MapCommandBy(keywords: seq<string>, w: World, domain: Option<string>, src: Option<string>, dest: Option<string>,
                        args: seq<string>): Option<string>
  {
    if Join(args, " ") == "" then None
    else
      var d := OrElse(domain, DefaultDomain(w.settings));
      var g := OrElse(dest, DefaultGroup(w.settings));
      match MapCommandStepsBy(keywords, w.files, d, SourceGroup(w, d, src, Join(args, " ")), g, args)
      case Ok(result) => result
      case Err(_) => None
  }

  /**
   * `map_command` as written: the renderer call raises TypeError, which the
   * handler turns into no result, so no command line maps to anything.
   */
  function MapCommandAsWritten(w: World, domain: Option<string>, src: Option<string>, dest: Option<string>, args: seq<string>): (r: Option<string>)
    ensures r == None
  {
    CallKeywordsDoNotBind();
    if Join(args, " ") == "" then MapCommandBy(CallKeywords, w, domain, src, dest, args)
    else
      var d := OrElse(domain, DefaultDomain(w.settings));
      var g := OrElse(dest, DefaultGroup(w.settings));
      UnboundStepsGiveNothing(CallKeywords, w.files, d, SourceGroup(w, d, src, Join(args, " ")), g, args);
      MapCommandBy(CallKeywords, w, domain, src, dest, args)
  }

  /** The domain keyword is not a parameter of the renderer, so the call never binds. */
  lemma {:induction false} CallKeywordsDoNotBind()
    ensures !Renderer.KeywordsBind(CallKeywords)
  {
    assert CallKeywords[2] !in Renderer.GenerateCommandParameters;
  }

  /** When the renderer call cannot bind, the steps never produce a command. */
  lemma {:induction false} UnboundStepsGiveNothing(keywords: seq<string>, f: Files, domain: string, source: Option<string>,
                                                   dest: string, args: seq<string>)
    requires !Renderer.KeywordsBind(keywords)
    ensures MapCommandStepsBy(keywords, f, domain, source, dest, args).Ok? ==> MapCommandStepsBy(keywords, f, domain, source, dest, args).value.None?
  {
    if source.Some? && source.value in f.parserFiles {
      var config := ConfigLoader.LoadParserConfig(f.parserFiles[source.value], source.value);
      if config.Ok? {
        var mapped := Matcher.MapToOperation(MappingsOf(f, domain, source.value), config.value, args, dest);
        if mapped.Ok? && mapped.value.Some? {
          var op := mapped.value.value;
          assert Renderer.GenerateCommandByKeywords(keywords, OperationFileOf(f, domain, dest), op.operationName, op.params, dest) == Err(TypeError);
        }
      }
    }
  }

  /** The steps produce a command only through a parser configuration, a matching operation and its rendered format. */
  lemma {:induction false} MapCommandStepsSucceeded(f: Files, domain: string, source: Option<string>, dest: string, args: seq<string>, cmd: string)
    requires MapCommandSteps(f, domain, source, dest, args) == Ok(Some(cmd))
    ensures && source.Some? && source.value in f.parserFiles
            && ConfigLoader.LoadParserConfig(f.parserFiles[source.value], source.value).Ok?
            && var mapped := Matcher.MapToOperation(MappingsOf(f, domain, source.value),
                               ConfigLoader.LoadParserConfig(f.parserFiles[source.value], source.value).value, args, dest);
               && mapped.Ok? && mapped.value.Some?
               && Renderer.GenerateCommand(OperationFileOf(f, domain, dest), mapped.value.value.operationName,
                                           mapped.value.value.params, dest) == Ok(cmd)
  {
  }

  /**
   * A command that maps has a source group with a parser configuration, a
   * matching operation, and the destination's format for that operation
   * rendered with the extracted parameters.
   */
  lemma {:induction false} MapCommandSucceeded(w: World, domain: Option<string>, src: Option<string>, dest: Option<string>, args: seq<string>)
    requires MapCommand(w, domain, src, dest, args).Some?
    ensures var r := MapCommand(w, domain, src, dest, args);
              var d := OrElse(domain, DefaultDomain(w.settings));
              var g := OrElse(dest, DefaultGroup(w.settings));
              var group := SourceGroup(w, d, src, Join(args, " "));
              && group.Some? && group.value in w.files.parserFiles
              && ConfigLoader.LoadParserConfig(w.files.parserFiles[group.value], group.value).Ok?
              && var mapped := Matcher.MapToOperation(MappingsOf(w.files, d, group.value),
                                 ConfigLoader.LoadParserConfig(w.files.parserFiles[group.value], group.value).value, args, g);
                 && mapped.Ok? && mapped.value.Some?
                 && Renderer.GenerateCommand(OperationFileOf(w.files, d, g), mapped.value.value.operationName,
                                             mapped.value.value.params, g) == Ok(r.value)
  {
    var d := OrElse(domain, DefaultDomain(w.settings));
    var g := OrElse(dest, DefaultGroup(w.settings));
    var group := SourceGroup(w, d, src, Join(args, " "));
    var r := MapCommand(w, domain, src, dest, args);
    assert MapCommandSteps(w.files, d, group, g, args) == Ok(Some(r.value));
    MapCommandStepsSucceeded(w.files, d, group, g, args, r.value);
  }

  /**
   * The converse of `MapCommandSucceeded`: a non-empty command whose source
   * group has a loadable parser configuration, matches an operation, and
   * whose operation renders in the destination's format maps to exactly that
   * rendered command.
   */
  lemma {:induction false} MapCommandRenders(w: World, domain: Option<string>, src: Option<string>, dest: Option<string>, args: seq<string>,
                                             group: string, config: Grammar.ParserConfig, op: Matcher.MappedOperation, cmd: string)
    requires Join(args, " ") != ""
    requires SourceGroup(w, OrElse(domain, DefaultDomain(w.settings)), src, Join(args, " ")) == Some(group)
    requires group in w.files.parserFiles && ConfigLoader.LoadParserConfig(w.files.parserFiles[group], group) == Ok(config)
    requires Matcher.MapToOperation(MappingsOf(w.files, OrElse(domain, DefaultDomain(w.settings)), group), config, args,
                                    OrElse(dest, DefaultGroup(w.settings))) == Ok(Some(op))
    requires Renderer.GenerateCommand(OperationFileOf(w.files, OrElse(domain, DefaultDomain(w.settings)), OrElse(dest, DefaultGroup(w.settings))),
                                      op.operationName, op.params, OrElse(dest, DefaultGroup(w.settings))) == Ok(cmd)
    ensures MapCommand(w, domain, src, dest, args) == Some(cmd)
  {
    var d := OrElse(domain, DefaultDomain(w.settings));
    var g := OrElse(dest, DefaultGroup(w.settings));
    StepsOfMatch(Renderer.GenerateCommandParameters, w.files, d, group, g, args, config, op);
    Renderer.DeclaredParametersBind(OperationFileOf(w.files, d, g), op.operationName, op.params, g);
    MapCommandOfSteps(w, domain, src, dest, args, Some(group), Ok(Some(cmd)));
  }

  /** A non-empty command maps to what the intended steps give, and to nothing when they raise. */
  lemma {:induction false} MapCommandOfSteps(w: World, domain: Option<string>, src: Option<string>, dest: Option<string>, args: seq<string>,
                                             group: Option<string>, steps: Result<Option<string>>)
    requires Join(args, " ") != ""
    requires SourceGroup(w, OrElse(domain, DefaultDomain(w.settings)), src, Join(args, " ")) == group
    requires MapCommandSteps(w.files, OrElse(domain, DefaultDomain(w.settings)), group, OrElse(dest, DefaultGroup(w.settings)), args) == steps
    ensures MapCommand(w, domain, src, dest, args) == if steps.Ok? then steps.value else None
  {
  }

  /**
   * Wherever the intended `map_command` renders a command, the code as
   * written returns nothing.
   */
  lemma {:induction false} MapCommandAsWrittenLosesResult(w: World, domain: Option<string>, src: Option<string>, dest: Option<string>,
                                                          args: seq<string>, group: string, config: Grammar.ParserConfig,
                                                          op: Matcher.MappedOperation, cmd: string)
    requires Join(args, " ") != ""
    requires SourceGroup(w, OrElse(domain, DefaultDomain(w.settings)), src, Join(args, " ")) == Some(group)
    requires group in w.files.parserFiles && ConfigLoader.LoadParserConfig(w.files.parserFiles[group], group) == Ok(config)
    requires Matcher.MapToOperation(MappingsOf(w.files, OrElse(domain, DefaultDomain(w.settings)), group), config, args,
                                    OrElse(dest, DefaultGroup(w.settings))) == Ok(Some(op))
    requires Renderer.GenerateCommand(OperationFileOf(w.files, OrElse(domain, DefaultDomain(w.settings)), OrElse(dest, DefaultGroup(w.settings))),
                                      op.operationName, op.params, OrElse(dest, DefaultGroup(w.settings))) == Ok(cmd)
    ensures MapCommand(w, domain, src, dest, args) == Some(cmd)
    ensures MapCommandAsWritten(w, domain, src, dest, args) == None
  {
    MapCommandRenders(w, domain, src, dest, args, group, config, op, cmd);
  }

  /** Once the configuration loads and an operation matches, the steps are the renderer call. */
  lemma {:induction false} StepsOfMatch(keywords: seq<string>, f: Files, domain: string, group: string, dest: string, args: seq<string>,
                                        config: Grammar.ParserConfig, op: Matcher.MappedOperation)
    requires group in f.parserFiles && ConfigLoader.LoadParserConfig(f.parserFiles[group], group) == Ok(config)
    requires Matcher.MapToOperation(MappingsOf(f, domain, group), config, args, dest) == Ok(Some(op))
    ensures MapCommandStepsBy(keywords, f, domain, Some(group), dest, args)
            == match Renderer.GenerateCommandByKeywords(keywords, OperationFileOf(f, domain, dest), op.operationName, op.params, dest)
               case Ok(cmd) => Ok(Some(cmd))
               case Err(e) => Err(e)
  {
  }

  /** With no global settings, a missing domain and destination mean `package` and `pacman`. */
  lemma {:induction false} MapCommandDefaults(w: World, src: Option<string>, args: seq<string>)
    requires DomainSetting !in w.settings && GroupSetting !in w.settings
    ensures MapCommand(w, None, src, None, args) == MapCommand(w, Some("package"), src, Some("pacman"), args)
  {
    assert OrElse(None, DefaultDomain(w.settings)) == DefaultDomainName == OrElse(Some("package"), DefaultDomain(w.settings));
    assert OrElse(None, DefaultGroup(w.settings)) == DefaultGroupName == OrElse(Some("pacman"), DefaultGroup(w.settings));
  }

  /** Configured defaults take the place of a missing domain and destination. */
  lemma {:induction false} MapCommandSettings(w: World, src: Option<string>, args: seq<string>)
    requires DomainSetting in w.settings && w.settings[DomainSetting] != ""
    requires GroupSetting in w.settings && w.settings[GroupSetting] != ""
    ensures MapCommand(w, None, src, None, args)
            == MapCommand(w, Some(w.settings[DomainSetting]), src, Some(w.settings[GroupSetting]), args)
  {
    var d, g := w.settings[DomainSetting], w.settings[GroupSetting];
    assert OrElse(None, DefaultDomain(w.settings)) == d == OrElse(Some(d), DefaultDomain(w.settings));
    assert OrElse(None, DefaultGroup(w.settings)) == g == OrElse(Some(g), DefaultGroup(w.settings));
  }

  /** Without a source group, a command whose first word names a group of the domain is mapped as if that group had been given. */
  lemma {:induction false} AutoDetectedSource(w: World, domain: string, dest: Option<string>, args: seq<string>)
    requires domain != ""
    requires |Words(Join(args, " "))| > 0
    requires Words(Join(args, " "))[0] in GroupsOf(w, domain)
    ensures MapCommand(w, Some(domain), None, dest, args)
            == MapCommand(w, Some(domain), Some(Words(Join(args, " "))[0]), dest, args)
  {
    var line := Join(args, " ");
    var first := Words(line)[0];
    assert line != "";
    var g := OrElse(dest, DefaultGroup(w.settings));
    assert OrElse(Some(domain), DefaultDomain(w.settings)) == domain;
    assert SourceGroup(w, domain, None, line) == Some(first) == SourceGroup(w, domain, Some(first), line);
  }

  /** Without a source group, a command whose first word names no group of the domain maps to nothing. */
  lemma {:induction false} UndetectedSourceGivesNothing(w: World, domain: string, dest: Option<string>, args: seq<string>)
    requires domain != ""
    requires |Words(Join(args, " "))| == 0 || Words(Join(args, " "))[0] !in GroupsOf(w, domain)
    ensures MapCommand(w, Some(domain), None, dest, args) == None
  {
  }

  /** An explicit source group makes the group listing irrelevant. */
  lemma {:induction false} ExplicitSourceIgnoresListing(w: World, groupFiles: map<string, seq<string>>, domain: Option<string>, src: string,
                                     dest: Option<string>, args: seq<string>)
    requires src != ""
    ensures MapCommand(w, domain, Some(src), dest, args) == MapCommand(w.(groupFiles := groupFiles), domain, Some(src), dest, args)
  {
    var w' := w.(groupFiles := groupFiles);
    var d := OrElse(domain, DefaultDomain(w.settings));
    var g := OrElse(dest, DefaultGroup(w.settings));
    var line := Join(args, " ");
    assert SourceGroup(w, d, Some(src), line) == Some(src) == SourceGroup(w', d, Some(src), line);
    assert w'.files == w.files && w'.settings == w.settings;
  }

  /** A source group without a parser configuration file maps to nothing. */
  lemma {:induction false} NoParserConfigGivesNothing(w: World, domain: Option<string>, src: string, dest: Option<string>, args: seq<string>)
    requires src != "" && src !in w.files.parserFiles
    ensures MapCommand(w, domain, Some(src), dest, args) == None
  {
  }

  /** The operation and its parameters from an operation line: the first word, and the remaining words joined by spaces under `pkgs`. */
  function OperationAndParams(words: seq<string>): (r: (string, Dict<string>))
    requires |words| > 0
    ensures r.0 == words[0]
    ensures |words| == 1 <==> r.1 == []
    ensures |words| > 1 ==> Keys(r.1) == [PackagesParam] && Get(r.1, PackagesParam) == Some(Join(words[1..], " "))
  {
    (words[0], if |words| > 1 then [(PackagesParam, Join(words[1..], " "))] else [])
  }

  /**
   * `map_operation`: nothing for an empty or blank line; otherwise the first
   * word names the operation and the rest become `pkgs`, rendered into the
   * destination group's format, with every exception becoming no result.
   */
  function MapOperation(w: World, domain: Option<string>, dest: Option<string>, args: seq<string>): (r: Option<string>)
    ensures |Words(Join(args, " "))| == 0 ==> r.None?
    ensures r.Some? ==>
              var words := Words(Join(args, " "));
              var g := OrElse(dest, DefaultGroup(w.settings));
              var (op, params) := OperationAndParams(words);
              Renderer.GenerateCommand(OperationFileOf(w.files, OrElse(domain, DefaultDomain(w.settings)), g), op, params, g) == Ok(r.value)
  {
    MapOperationBy(Renderer.GenerateCommandParameters, w, domain, dest, args)
  }

  /**
   * `map_operation` as written: the renderer call raises TypeError, which
   * the handler turns into no result, so no operation line renders.
   */
  function MapOperationAsWritten(w: World, domain: Option<string>, dest: Option<string>, args: seq<string>): (r: Option<string>)
    ensures r == None
  {
    CallKeywordsDoNotBind();
    MapOperationBy(CallKeywords, w, domain, dest, args)
  }

  /** `map_operation` with the renderer called by the keyword names `keywords`. */
  function MapOperationBy(keywords: seq<string>, w: World, domain: Option<string>, dest: Option<string>, args: seq<string>): Option<string>
  {
    var line := Join(args, " ");
    if line == "" then None
    else
      var d := OrElse(domain, DefaultDomain(w.settings));
      var g := OrElse(dest, DefaultGroup(w.settings));
      var words := Words(line);
      if |words| == 0 then None
      else
        var (op, params) := OperationAndParams(words);
        match Renderer.GenerateCommandByKeywords(keywords, OperationFileOf(w.files, d, g), op, params, g)
        case Ok(cmd) => Some(cmd)
        case Err(_) => None
  }

  /**
   * For an operation word followed by package words, the package words reach
   * the renderer joined by single spaces under `pkgs`, and with no package
   * words there are no parameters.
   */
  lemma {:induction false} MapOperationOfWords(w: World, domain: Option<string>, dest: Option<string>, op: string, pkgs: seq<string>)
    requires op != "" && NoSpace(op)
    requires forall k | 0 <= k < |pkgs| :: pkgs[k] != "" && NoSpace(pkgs[k])
    ensures var g := OrElse(dest, DefaultGroup(w.settings));
            var file := OperationFileOf(w.files, OrElse(domain, DefaultDomain(w.settings)), g);
            var params := if |pkgs| > 0 then [(PackagesParam, Join(pkgs, " "))] else [];
            MapOperation(w, domain, dest, [op] + pkgs)
            == match Renderer.GenerateCommand(file, op, params, g)
               case Ok(cmd) => Some(cmd)
               case Err(_) => None
  {
    var ws := [op] + pkgs;
    assert forall k | 0 <= k < |ws| :: ws[k] != "" && NoSpace(ws[k]) by {
      forall k | 0 <= k < |ws|
        ensures ws[k] != "" && NoSpace(ws[k])
      {
        if k > 0 {
          assert ws[k] == pkgs[k - 1];
        }
      }
    }
    WordsOfJoin(ws);
    assert ws[1..] == pkgs;
    assert Join(ws, " ") != "" by {
      if |pkgs| == 0 {
        assert Join(ws, " ") == op;
      } else {
        JoinCons(op, pkgs, " ");
      }
    }
    var g := OrElse(dest, DefaultGroup(w.settings));
    var file := OperationFileOf(w.files, OrElse(domain, DefaultDomain(w.settings)), g);
    var params := if |pkgs| > 0 then [(PackagesParam, Join(pkgs, " "))] else [];
    assert OperationAndParams(ws) == (op, params);
    assert Renderer.GenerateCommandByKeywords(Renderer.GenerateCommandParameters, file, op, params, g)
           == Renderer.GenerateCommand(file, op, params, g);
  }

  /** A single operation word renders the destination's format with no substitution at all. */
  lemma {:induction false} MapOperationWithoutPackages(w: World, domain: Option<string>, dest: Option<string>, op: string)
    requires op != "" && NoSpace(op)
    ensures var g := OrElse(dest, DefaultGroup(w.settings));
            var file := OperationFileOf(w.files, OrElse(domain, DefaultDomain(w.settings)), g);
            var config := Renderer.LoadOperationConfig(file, op, g);
            MapOperation(w, domain, dest, [op])
            == if config.Some? && |config.value| > 0 && "cmd_format" in config.value && config.value["cmd_format"] != ""
               then Some(config.value["cmd_format"])
               else None
  {
    MapOperationOfWords(w, domain, dest, op, []);
    assert [op] + [] == [op];
    var g := OrElse(dest, DefaultGroup(w.settings));
    var config := Renderer.LoadOperationConfig(OperationFileOf(w.files, OrElse(domain, DefaultDomain(w.settings)), g), op, g);
    if config.Some? && "cmd_format" in config.value {
      Renderer.ReplaceParametersNone(config.value["cmd_format"]);
    }
  }

  /**
   * Wherever the intended `map_operation` renders a single operation word,
   * the code as written returns nothing.
   */
  lemma {:induction false} MapOperationAsWrittenLosesResult(w: World, domain: Option<string>, dest: Option<string>, op: string)
    requires op != "" && NoSpace(op)
    requires var g := OrElse(dest, DefaultGroup(w.settings));
             var config := Renderer.LoadOperationConfig(OperationFileOf(w.files, OrElse(domain, DefaultDomain(w.settings)), g), op, g);
             config.Some? && |config.value| > 0 && "cmd_format" in config.value && config.value["cmd_format"] != ""
    ensures MapOperation(w, domain, dest, [op]).Some?
    ensures MapOperationAsWritten(w, domain, dest, [op]) == None
  {
    MapOperationWithoutPackages(w, domain, dest, op);
  }
}

=== FILE: cache_mgr.dfy ===
// The cache manager: lookups over a domain's loaded operation index, the
// loading of the index from the cached files, and the memo of loaded data
// keyed by `domain.group` and `operation_mappings.domain`.

module CacheMgr {
  import opened Util
  import opened Text
  import opened Dicts
  import opened Sorting
  import opened OpIndex
  import opened Synthesis

  // ---------------------------------------------------------------------------
  // Lookups over the operation index

  function ListingOf(keys: seq<string>, ix: OperationIndex, program: string): (r: seq<string>)
    ensures forall op :: op in r <==> op in keys && program in ProgramsOf(ix, op)
    ensures Distinct(keys) ==> Distinct(r)
  {
    if |keys| == 0 then []
    else
      var rest := ListingOf(keys[1..], ix, program);
      assert forall op | op in keys :: op == keys[0] || op in keys[1..];
      if program in ProgramsOf(ix, keys[0]) then [keys[0]] + rest else rest
  }

  lemma {:induction false} KeysIndexed<V>(d: Dict<V>, k: string)
    ensures k in Keys(d) <==> Get(d, k).Some?
  {
    if k in Keys(d) {
      var i :| 0 <= i < |Keys(d)| && Keys(d)[i] == k;
      assert d[i].0 == k;
    }
    if Get(d, k).Some? {
      var i := IndexOf(d, k).value;
      assert Keys(d)[i] == k;
    }
  }

  lemma {:induction false} DistinctKeysDistinct<V>(d: Dict<V>)
    requires DistinctKeys(d)
    ensures Distinct(Keys(d))
  {
    forall i, j | 0 <= i < j < |Keys(d)|
      ensures Keys(d)[i] != Keys(d)[j]
    {
      assert d[i].0 != d[j].0;
    }
  }

  /** `get_supported_operations`: the operations whose program list contains the program, sorted. */
  function SupportedOperations(ix: OperationIndex, program: string): (r: seq<string>)
    ensures Sorted(r)
    ensures forall op :: op in r <==> Get(ix.operationToProgram, op).Some? && program in Get(ix.operationToProgram, op).value
    ensures DistinctKeys(ix.operationToProgram) ==> Distinct(r)
  {
    var listed := ListingOf(Keys(ix.operationToProgram), ix, program);
    var r := Sort(listed);
    assert forall op :: (op in r <==> op in listed) && (op in Keys(ix.operationToProgram) <==> Get(ix.operationToProgram, op).Some?) by {
      forall op
        ensures op in r <==> op in listed
        ensures op in Keys(ix.operationToProgram) <==> Get(ix.operationToProgram, op).Some?
      {
        assert op in r <==> op in multiset(r);
        assert op in listed <==> op in multiset(listed);
        KeysIndexed(ix.operationToProgram, op);
      }
    }
    assert DistinctKeys(ix.operationToProgram) ==> Distinct(r) by {
      if DistinctKeys(ix.operationToProgram) {
        DistinctKeysDistinct(ix.operationToProgram);
        PermutationKeepsDistinct(listed, r);
      }
    }
    r
  }

  /** `get_supported_programs`: the operation's program list, none for an unknown operation. */
  function SupportedPrograms(ix: OperationIndex, op: string): (r: seq<string>)
    ensures Get(ix.operationToProgram, op).None? ==> r == []
    ensures Get(ix.operationToProgram, op).Some? ==> r == Get(ix.operationToProgram, op).value
  {
    ProgramsOf(ix, op)
  }

  /** `is_operation_supported`: exactly when the operation is among the program's supported operations. */
  function IsOperationSupported(ix: OperationIndex, op: string, program: string): (r: bool)
    ensures r <==> op in SupportedOperations(ix, program)
    ensures r <==> program in SupportedPrograms(ix, op)
  {
    program in SupportedPrograms(ix, op)
  }

  /** `get_command_format`: the program's format for the operation, if recorded. */
  function CommandFormat(ix: OperationIndex, op: string, program: string): (r: Option<string>)
    ensures Get(ix.commandFormats, program).None? ==> r.None?
  {
    Get(Get(ix.commandFormats, program).GetOr([]), op)
  }

  /** `get_final_command_format`: the format stored under the operation's `_final` key. */
  function FinalCommandFormat(ix: OperationIndex, op: string, program: string): (r: Option<string>)
    ensures Get(ix.commandFormats, program).None? ==> r.None?
  {
    Get(Get(ix.commandFormats, program).GetOr([]), op + FinalSuffix)
  }

  /**
   * In an index built from the domain's files, a final format read back was
   * written by an operation of that program as its `final_cmd_format`, or,
   * when an operation's own name ends in `_final`, as that operation's
   * `cmd_format`.
   */
  lemma {:induction false} FinalFormatWrittenByBuilder(files: seq<DomainFile>, op: string, program: string)
    requires FinalCommandFormat(BuildIndex(files, true), op, program).Some?
    ensures var v := FinalCommandFormat(BuildIndex(files, true), op, program).value;
            exists i, j | 0 <= i < |files| && files[i].0 == program && files[i].1.Some? && 0 <= j < |files[i].1.value| ::
              var entry := files[i].1.value[j];
              ("final_cmd_format" in entry.1 && OperationName(entry.0, program) == op && entry.1["final_cmd_format"] == v)
              || ("cmd_format" in entry.1 && OperationName(entry.0, program) == op + FinalSuffix && entry.1["cmd_format"] == v)
  {
    var ix := BuildIndex(files, true);
    BuildIndexFormatsSourced(files, true);
    var v := FinalCommandFormat(ix, op, program).value;
    assert Sourced(files, program, (op + FinalSuffix, v), true);
    var i, j :| 0 <= i < |files| && files[i].0 == program && files[i].1.Some? && 0 <= j < |files[i].1.value|
                && FormatFrom(program, files[i].1.value[j], true, (op + FinalSuffix, v));
    var entry := files[i].1.value[j];
    var name := OperationName(entry.0, program);
    if "final_cmd_format" in entry.1 && (op + FinalSuffix, v) == (name + FinalSuffix, entry.1["final_cmd_format"]) {
      assert op == (op + FinalSuffix)[..|op|] == (name + FinalSuffix)[..|name|] == name;
    }
  }

  /**
   * The lookups read back what the builder stored: a program's format for an
   * operation, and its final format under the `_final` key, are those the
   * last of its operations writing them wrote.
   */
  lemma {:induction false} FinalFormatReadBack(files: seq<DomainFile>, op: string, program: string)
    ensures var ix := BuildIndex(files, true);
            CommandFormat(ix, op, program) == LastFor(ProgramBindings(files, program, true), op)
            && FinalCommandFormat(ix, op, program) == LastFor(ProgramBindings(files, program, true), op + FinalSuffix)
  {
    BuildIndexFormats(files, true, program, op);
    BuildIndexFormats(files, true, program, op + FinalSuffix);
  }

  /**
   * An example, for a single operation: both formats are read back as
   * written, since builder and lookup both use `op + "_final"`.
   * `FinalFormatReadBack` states this for every index.
   */
  lemma {:induction false} SingleOperationReadBack(program: string, key: string, c: OpConfig)
    requires "cmd_format" in c && "final_cmd_format" in c
    ensures var ix := BuildIndex([(program, Some([(key, c)]))], true);
            var op := OperationName(key, program);
            CommandFormat(ix, op, program) == Some(c["cmd_format"])
            && FinalCommandFormat(ix, op, program) == Some(c["final_cmd_format"])
  {
    FinalFormatStored(program, key, c);
  }

  /** `get_operation_parameters`: the `{word}` names of the format in order, duplicates kept; none without a format. */
  function OperationParameters(ix: OperationIndex, op: string, program: string): (r: seq<string>)
    ensures CommandFormat(ix, op, program).None? ==> r == []
    ensures CommandFormat(ix, op, program).Some? ==> r == Placeholders(CommandFormat(ix, op, program).value)
    ensures forall w :: w in r <==> CommandFormat(ix, op, program).Some? && IsWord(w) && Contains(CommandFormat(ix, op, program).value, Braced(w))
  {
    match CommandFormat(ix, op, program)
    case None => []
    case Some(f) =>
      assert forall w :: w in Placeholders(f) <==> IsWord(w) && Contains(f, Braced(w)) by {
        forall w
          ensures w in Placeholders(f) <==> IsWord(w) && Contains(f, Braced(w))
        {
          PlaceholdersIff(f, w);
        }
      }
      if f == "" then [] else Placeholders(f)
  }

  /** `get_all_operations`: the indexed operations, sorted. */
  function AllOperations(ix: OperationIndex): (r: seq<string>)
    ensures Sorted(r)
    ensures multiset(r) == multiset(Keys(ix.operationToProgram))
    ensures forall op :: op in r <==> Get(ix.operationToProgram, op).Some?
  {
    var r := Sort(Keys(ix.operationToProgram));
    assert forall op :: op in r <==> Get(ix.operationToProgram, op).Some? by {
      forall op
        ensures op in r <==> Get(ix.operationToProgram, op).Some?
      {
        assert op in r <==> op in multiset(r);
        KeysIndexed(ix.operationToProgram, op);
      }
    }
    r
  }

  /** `get_all_programs`: the programs with command formats, sorted. */
  function AllPrograms(ix: OperationIndex): (r: seq<string>)
    ensures Sorted(r)
    ensures multiset(r) == multiset(Keys(ix.commandFormats))
    ensures forall p :: p in r <==> Get(ix.commandFormats, p).Some?
  {
    var r := Sort(Keys(ix.commandFormats));
    assert forall p :: p in r <==> Get(ix.commandFormats, p).Some? by {
      forall p
        ensures p in r <==> Get(ix.commandFormats, p).Some?
      {
        assert p in r <==> p in multiset(r);
        KeysIndexed(ix.commandFormats, p);
      }
    }
    r
  }

  // ---------------------------------------------------------------------------
  // Loading the index from the cache

  /**
   * A `*_commands.toml` file found under an operation group directory: its
   * stem, and its `commands` table (empty when it has none), or `None` when
   * it cannot be read.
   */
  type CommandFile = (string, Option<Dict<string>>)

  /** The program a command file belongs to: its stem with every `_commands` removed. */
  function ProgramOfStem(stem: string): string
  {
    Replace(stem, "_commands", "")
  }

  /** The formats of every readable file of `program`, in file order. */
  function CommandsFor(files: seq<CommandFile>, program: string): seq<(string, string)>
  {
    if |files| == 0 then []
    else
      var f := Last(files);
      CommandsFor(Init(files), program) + (if f.1.Some? && ProgramOfStem(f.0) == program then f.1.value else [])
  }

  /** The files' `commands` tables merged by program, each file updating what the earlier ones gave. */
  function MergeCommandFiles(files: seq<CommandFile>): (r: Dict<Dict<string>>)
    ensures forall p :: Get(r, p).Some? <==> exists i | 0 <= i < |files| :: files[i].1.Some? && ProgramOfStem(files[i].0) == p
    ensures forall p | Get(r, p).Some? :: Get(r, p).value == PutAll([], CommandsFor(files, p))
    decreases |files|
  {
    if |files| == 0 then []
    else
      var prior := MergeCommandFiles(Init(files));
      var f := Last(files);
      var r := match f.1
               case None => prior
               case Some(commands) => Put(prior, ProgramOfStem(f.0), PutAll(Get(prior, ProgramOfStem(f.0)).GetOr([]), commands));
      MergeStep(files, prior, r);
      r
  }

  lemma {:induction false} MergeStep(files: seq<CommandFile>, prior: Dict<Dict<string>>, r: Dict<Dict<string>>)
    requires |files| > 0
    requires forall p :: Get(prior, p).Some? <==> exists i | 0 <= i < |Init(files)| :: Init(files)[i].1.Some? && ProgramOfStem(Init(files)[i].0) == p
    requires forall p | Get(prior, p).Some? :: Get(prior, p).value == PutAll([], CommandsFor(Init(files), p))
    requires var f := Last(files);
             r == match f.1
                  case None => prior
                  case Some(commands) => Put(prior, ProgramOfStem(f.0), PutAll(Get(prior, ProgramOfStem(f.0)).GetOr([]), commands))
    ensures forall p :: Get(r, p).Some? <==> exists i | 0 <= i < |files| :: files[i].1.Some? && ProgramOfStem(files[i].0) == p
    ensures forall p | Get(r, p).Some? :: Get(r, p).value == PutAll([], CommandsFor(files, p))
  {
    forall p
      ensures Get(r, p).Some? <==> exists i | 0 <= i < |files| :: files[i].1.Some? && ProgramOfStem(files[i].0) == p
    {
      MergeStepProgram(files, prior, r, p);
    }
    forall p | Get(r, p).Some?
      ensures Get(r, p).value == PutAll([], CommandsFor(files, p))
    {
      MergeStepCommands(files, prior, r, p);
    }
  }

  /** After one more file, a program has commands exactly when some file so far supplied them. */
  lemma {:induction false} MergeStepProgram(files: seq<CommandFile>, prior: Dict<Dict<string>>, r: Dict<Dict<string>>, p: string)
    requires |files| > 0
    requires Get(prior, p).Some? <==> exists i | 0 <= i < |Init(files)| :: Init(files)[i].1.Some? && ProgramOfStem(Init(files)[i].0) == p
    requires var f := Last(files);
             r == match f.1
                  case None => prior
                  case Some(commands) => Put(prior, ProgramOfStem(f.0), PutAll(Get(prior, ProgramOfStem(f.0)).GetOr([]), commands))
    ensures Get(r, p).Some? <==> exists i | 0 <= i < |files| :: files[i].1.Some? && ProgramOfStem(files[i].0) == p
  {
    var f := Last(files);
    assert files[|files| - 1] == f;
    var here := f.1.Some? && ProgramOfStem(f.0) == p;
    assert Get(r, p).Some? <==> here || Get(prior, p).Some?;
    if Get(prior, p).Some? {
      var i :| 0 <= i < |Init(files)| && Init(files)[i].1.Some? && ProgramOfStem(Init(files)[i].0) == p;
      assert files[i] == Init(files)[i];
    }
    if exists i | 0 <= i < |files| :: files[i].1.Some? && ProgramOfStem(files[i].0) == p {
      var i :| 0 <= i < |files| && files[i].1.Some? && ProgramOfStem(files[i].0) == p;
      if i < |files| - 1 {
        assert Init(files)[i] == files[i];
      }
    }
  }

  /** After one more file, a program's commands are all its files' commands merged in order. */
  lemma {:induction false} MergeStepCommands(files: seq<CommandFile>, prior: Dict<Dict<string>>, r: Dict<Dict<string>>, p: string)
    requires |files| > 0
    requires Get(prior, p).Some? <==> exists i | 0 <= i < |Init(files)| :: Init(files)[i].1.Some? && ProgramOfStem(Init(files)[i].0) == p
    requires Get(prior, p).Some? ==> Get(prior, p).value == PutAll([], CommandsFor(Init(files), p))
    requires var f := Last(files);
             r == match f.1
                  case None => prior
                  case Some(commands) => Put(prior, ProgramOfStem(f.0), PutAll(Get(prior, ProgramOfStem(f.0)).GetOr([]), commands))
    requires Get(r, p).Some?
    ensures Get(r, p).value == PutAll([], CommandsFor(files, p))
  {
    var f := Last(files);
    var empty: Dict<string> := [];
    var mine := if f.1.Some? && ProgramOfStem(f.0) == p then f.1.value else [];
    assert CommandsFor(files, p) == CommandsFor(Init(files), p) + mine;
    PutAllAppend(empty, CommandsFor(Init(files), p), mine);
    if Get(prior, p).None? {
      assert forall i | 0 <= i < |Init(files)| :: !(Init(files)[i].1.Some? && ProgramOfStem(Init(files)[i].0) == p);
      NoCommandsBefore(Init(files), p);
      assert CommandsFor(Init(files), p) == [];
    }
  }

  lemma {:induction false} NoCommandsBefore(files: seq<CommandFile>, program: string)
    requires forall i | 0 <= i < |files| :: !(files[i].1.Some? && ProgramOfStem(files[i].0) == program)
    ensures CommandsFor(files, program) == []
    decreases |files|
  {
    if |files| > 0 {
      assert forall i | 0 <= i < |Init(files)| :: Init(files)[i] == files[i];
      assert files[|files| - 1] == Last(files);
      NoCommandsBefore(Init(files), program);
    }
  }

  /** A program's format for an operation is the one its last file giving one gave. */
  lemma {:induction false} MergedFormat(files: seq<CommandFile>, program: string, op: string)
    ensures Get(Get(MergeCommandFiles(files), program).GetOr([]), op) == LastFor(CommandsFor(files, program), op)
  {
    var empty: Dict<string> := [];
    var merged := MergeCommandFiles(files);
    if Get(merged, program).Some? {
      GetPutAll(empty, CommandsFor(files, program), op);
      assert IndexOf(empty, op).None?;
    } else {
      NoCommandsBefore(files, program);
    }
  }

  /**
   * `get_operation_mappings` on a cache miss: the `operation_to_program`
   * table (empty when its file is missing or unreadable) and the merged
   * command formats. Listing the domain's cache directory is not guarded,
   * so a missing directory is a FileNotFoundError.
   */
  function LoadOperationMappings(cacheDirExists: bool, operationToProgram: Option<Dict<seq<string>>>, files: seq<CommandFile>): (r: Result<OperationIndex>)
    ensures r.Err? <==> !cacheDirExists
    ensures r.Err? ==> r.fault == FileNotFound
    ensures r.Ok? && operationToProgram.None? ==> r.value.operationToProgram == []
    ensures r.Ok? && operationToProgram.Some? ==> r.value.operationToProgram == operationToProgram.value
    ensures r.Ok? ==> forall p, op :: CommandFormat(r.value, op, p) == LastFor(CommandsFor(files, p), op)
  {
    if !cacheDirExists then Err(FileNotFound)
    else
      var r := OperationIndex(operationToProgram.GetOr([]), MergeCommandFiles(files));
      assert forall p, op :: CommandFormat(r, op, p) == LastFor(CommandsFor(files, p), op) by {
        forall p, op
          ensures CommandFormat(r, op, p) == LastFor(CommandsFor(files, p), op)
        {
          MergedFormat(files, p, op);
        }
      }
      Ok(r)
  }

  // ---------------------------------------------------------------------------
  // The memo

  /** A memoised value: a group's command mappings, or a domain's operation index. */
  datatype CacheEntry<V> = GroupMappings(mappings: Dict<V>) | OperationMappings(index: OperationIndex)

  type Memo<V> = map<string, CacheEntry<V>>

  function GroupKey(domain: string, group: string): string
  {
    domain + "." + group
  }

  function OperationsKey(domain: string): string
  {
    "operation_mappings." + domain
  }

  /**
   * What loading a group's command mappings reads: the group's program list
   * from `cmd_to_operation.toml` (`None` when that file is missing or
   * unreadable; a missing entry is an empty list), and each program's
   * cached file (`None` when unreadable; absent when missing).
   */
  datatype GroupSource<V> = GroupSource(programs: Option<seq<string>>, programFiles: map<string, Option<Dict<V>>>)

  function ProgramData<V>(src: GroupSource<V>, program: string): Dict<V>
  {
    if program in src.programFiles && src.programFiles[program].Some? then src.programFiles[program].value else []
  }

  /** The readable programs' data, in program order. */
  function GroupData<V>(src: GroupSource<V>, programs: seq<string>): seq<(string, V)>
  {
    if |programs| == 0 then [] else GroupData(src, Init(programs)) + ProgramData(src, Last(programs))
  }

  /** `group_mappings.update(program_data)` for each program in turn. */
  function MergePrograms<V>(src: GroupSource<V>, programs: seq<string>): (r: Dict<V>)
    ensures r == PutAll([], GroupData(src, programs))
    decreases |programs|
  {
    if |programs| == 0 then []
    else
      var prior := MergePrograms(src, Init(programs));
      var empty: Dict<V> := [];
      PutAllAppend(empty, GroupData(src, Init(programs)), ProgramData(src, Last(programs)));
      PutAll(prior, ProgramData(src, Last(programs)))
  }

  /** A group's command mappings: nothing without a program list; otherwise the programs' data, later keys overriding earlier ones. */
  function LoadGroup<V>(src: GroupSource<V>): (r: Dict<V>)
    ensures src.programs.None? || src.programs.value == [] ==> r == []
    ensures src.programs.Some? ==> forall k :: Get(r, k) == LastFor(GroupData(src, src.programs.value), k)
  {
    match src.programs
    case None => []
    case Some(programs) =>
      var r := MergePrograms(src, programs);
      var empty: Dict<V> := [];
      assert forall k :: Get(r, k) == LastFor(GroupData(src, programs), k) by {
        forall k
          ensures Get(r, k) == LastFor(GroupData(src, programs), k)
        {
          GetPutAll(empty, GroupData(src, programs), k);
          assert IndexOf(empty, k).None?;
        }
      }
      r
  }

  /** `get_cmd_mappings`: the memoised entry under `domain.group`, loading and storing it on a miss. */
  function GetCmdMappings<V>(memo: Memo<V>, domain: string, group: string, src: GroupSource<V>): (r: (CacheEntry<V>, Memo<V>))
    ensures GroupKey(domain, group) in memo ==> r == (memo[GroupKey(domain, group)], memo)
    ensures GroupKey(domain, group) !in memo ==> r.1 == memo[GroupKey(domain, group) := r.0] && r.0 == GroupMappings(LoadGroup(src))
  {
    var key := GroupKey(domain, group);
    if key in memo then (memo[key], memo)
    else
      var entry := GroupMappings(LoadGroup(src));
      (entry, memo[key := entry])
  }

  /** Once loaded, a group's mappings are served from the memo whatever the files now hold. */
  lemma {:induction false} CmdMappingsMemoised<V>(memo: Memo<V>, domain: string, group: string, src: GroupSource<V>, later: GroupSource<V>)
    ensures var (entry, memo') := GetCmdMappings(memo, domain, group, src);
            GetCmdMappings(memo', domain, group, later) == (entry, memo')
  {
  }

  /**
   * `get_operation_mappings`: the memoised index under
   * `operation_mappings.domain`, loading and storing it on a miss; a failed
   * load stores nothing and its error propagates.
   */
  function GetOperationMappings<V>(memo: Memo<V>, domain: string, cacheDirExists: bool, operationToProgram: Option<Dict<seq<string>>>,
                                   files: seq<CommandFile>): (r: Result<(CacheEntry<V>, Memo<V>)>)
    ensures OperationsKey(domain) in memo ==> r == Ok((memo[OperationsKey(domain)], memo))
    ensures OperationsKey(domain) !in memo ==> (r.Err? <==> !cacheDirExists)
    ensures r.Err? ==> r.fault == FileNotFound
    ensures OperationsKey(domain) !in memo && r.Ok? ==>
              var loaded := LoadOperationMappings(cacheDirExists, operationToProgram, files);
              loaded.Ok? && r.value.1 == memo[OperationsKey(domain) := r.value.0] && r.value.0 == OperationMappings(loaded.value)
  {
    var key := OperationsKey(domain);
    if key in memo then Ok((memo[key], memo))
    else
      var index :- LoadOperationMappings(cacheDirExists, operationToProgram, files);
      var entry := OperationMappings(index);
      Ok((entry, memo[key := entry]))
  }

  /**
   * `refresh_cache`: without a domain (or with an empty one) the memo is
   * emptied; with one, only the entries keyed by the domain itself and by
   * `operation_mappings.domain` are dropped. It always reports success.
   */
  function RefreshCache<V>(memo: Memo<V>, domain: Option<string>): (r: (bool, Memo<V>))
    ensures r.0
    ensures !Truthy(domain) ==> r.1 == map[]
    ensures Truthy(domain) ==> forall k :: k in r.1 <==> k in memo && k != domain.value && k != OperationsKey(domain.value)
    ensures forall k | k in r.1 :: k in memo && r.1[k] == memo[k]
  {
    match domain
    case None => (true, map[])
    case Some(d) =>
      if d == "" then (true, map[])
      else (true, memo - {d, OperationsKey(d)})
  }

  /** Refreshing a domain keeps its groups' command mappings. */
  lemma {:induction false} GroupMappingsSurviveRefresh<V>(memo: Memo<V>, domain: string, group: string)
    requires domain != "" && GroupKey(domain, group) in memo
    requires GroupKey(domain, group) != OperationsKey(domain)
    ensures GroupKey(domain, group) in RefreshCache(memo, Some(domain)).1
  {
    assert |GroupKey(domain, group)| > |domain|;
  }

  /** After a domain is refreshed its operation index is loaded afresh, and fails again if its cache directory is missing. */
  lemma {:induction false} RefreshReloadsOperations<V>(memo: Memo<V>, domain: string, cacheDirExists: bool,
                                                       operationToProgram: Option<Dict<seq<string>>>, files: seq<CommandFile>)
    requires domain != ""
    ensures var memo' := RefreshCache(memo, Some(domain)).1;
            var r := GetOperationMappings(memo', domain, cacheDirExists, operationToProgram, files);
            var loaded := LoadOperationMappings(cacheDirExists, operationToProgram, files);
            (r.Ok? <==> loaded.Ok?) && (r.Ok? ==> r.value.0 == OperationMappings(loaded.value))
  {
  }
}

=== FILE: cmd_mapping_cache.dfy ===
// The cache-side template builder for one program group: each operation's
// format, with the quotes around its placeholders removed, is expanded into
// an example argument vector, parsed with the group's parser configuration,
// and every placeholder is bound to the first positional argument found.

module CmdMappingCache {
  import opened Util
  import opened Text
  import opened Tree
  import opened Dicts
  import opened Grammar
  import opened Synthesis
  import Parsers

  // ---------------------------------------------------------------------------
  // Binding placeholders

  /** The first positional argument of one node. */
  function PositionalIn(node: CommandNode): (r: Option<CommandArg>)
    ensures r.None? <==> forall i | 0 <= i < |node.arguments| :: node.arguments[i].kind != PositionalArg
    ensures r.Some? ==> r.value.kind == PositionalArg && r.value in node.arguments
  {
    FirstWhere(node.arguments, (a: CommandArg) => a.kind == PositionalArg)
  }

  /**
   * `find_first_positional`: the first positional argument of the node, or
   * else of its subcommand, and so on down the chain.
   */
  function FirstPositional(node: CommandNode): (r: Option<CommandArg>)
    ensures r.Some? ==> r.value.kind == PositionalArg
    ensures r.None? <==> forall d, i | 0 <= d < |Chain(node)| && 0 <= i < |Chain(node)[d].arguments| ::
                           Chain(node)[d].arguments[i].kind != PositionalArg
    ensures r.Some? ==> exists d | 0 <= d < |Chain(node)| ::
              r.value in Chain(node)[d].arguments
              && forall e, i | 0 <= e < d && 0 <= i < |Chain(node)[e].arguments| :: Chain(node)[e].arguments[i].kind != PositionalArg
  {
    var r := FirstOnChain(node, PositionalIn);
    assert r.None? ==> forall d, i | 0 <= d < |Chain(node)| && 0 <= i < |Chain(node)[d].arguments| ::
                         Chain(node)[d].arguments[i].kind != PositionalArg by {
      if r.None? {
        forall d, i | 0 <= d < |Chain(node)| && 0 <= i < |Chain(node)[d].arguments|
          ensures Chain(node)[d].arguments[i].kind != PositionalArg
        {
          assert PositionalIn(Chain(node)[d]).None?;
        }
      }
    }
    assert r.Some? ==> r.value.kind == PositionalArg && exists d | 0 <= d < |Chain(node)| ::
              r.value in Chain(node)[d].arguments
              && forall e, i | 0 <= e < d && 0 <= i < |Chain(node)[e].arguments| :: Chain(node)[e].arguments[i].kind != PositionalArg by {
      if r.Some? {
        var d :| 0 <= d < |Chain(node)| && PositionalIn(Chain(node)[d]) == r
                 && forall e | 0 <= e < d :: PositionalIn(Chain(node)[e]).None?;
        forall e, i | 0 <= e < d && 0 <= i < |Chain(node)[e].arguments|
          ensures Chain(node)[e].arguments[i].kind != PositionalArg
        {
          assert PositionalIn(Chain(node)[e]).None?;
        }
      }
    }
    r
  }

  /** What `_find_parameter_in_node` records: the first positional argument, found as a positional. */
  function PositionalInfo(node: CommandNode): Option<ParamInfo>
  {
    match FirstPositional(node)
    case None => None
    case Some(a) => Some(ParamInfo(a, None, PositionalArg))
  }

  /**
   * `_analyze_parameter_mapping`: every placeholder of the format is bound to
   * the first positional argument on the chain, whichever parameter it is;
   * with no positional argument nothing is bound.
   */
  function AnalyzeParameterMapping(node: CommandNode, format: string): (r: Dict<ParamInfo>)
    ensures forall p :: Get(r, p).Some? <==> p in Placeholders(format) && FirstPositional(node).Some?
    ensures forall p | Get(r, p).Some? :: Get(r, p).value == ParamInfo(FirstPositional(node).value, None, PositionalArg)
    ensures DistinctKeys(r)
  {
    BindEach(Placeholders(format), (p: string) => PositionalInfo(node))
  }

  /** Any two parameters of a format are bound to the same argument. */
  lemma {:induction false} AllParametersShareOneArgument(node: CommandNode, format: string, p: string, q: string)
    requires p in Placeholders(format) && q in Placeholders(format)
    ensures Get(AnalyzeParameterMapping(node, format), p) == Get(AnalyzeParameterMapping(node, format), q)
  {
    var r := AnalyzeParameterMapping(node, format);
    if FirstPositional(node).Some? {
      assert Get(r, p).Some? && Get(r, q).Some?;
    } else {
      assert Get(r, p).None? && Get(r, q).None?;
    }
  }

  // ---------------------------------------------------------------------------
  // One operation

  /** `final_cmd_format`, kept only when present and non-empty. */
  function FinalFormat(c: map<string, string>): (r: Option<string>)
    ensures r.Some? <==> "final_cmd_format" in c && c["final_cmd_format"] != ""
    ensures r.Some? ==> r.value == c["final_cmd_format"]
  {
    if "final_cmd_format" in c && c["final_cmd_format"] != "" then Some(c["final_cmd_format"]) else None
  }

  /** The format actually analysed and stored: quotes around placeholders removed. */
  function StoredFormat(c: map<string, string>): string
    requires "cmd_format" in c
  {
    StripQuotes(c["cmd_format"])
  }

  /**
   * `_process_operation` for the operation under `key`; `parser` is the
   * group's parser configuration, or none when it cannot be loaded. No entry
   * for an operation without `cmd_format`, without a parser configuration, or
   * whose example does not parse.
   */
  function ProcessOperation(group: string, key: string, c: map<string, string>, parser: Option<ParserConfig>): (r: Option<MappingEntry>)
    ensures r.Some? <==> "cmd_format" in c && parser.Some?
                         && Parsers.Parse(parser.value, ExampleCommand(StoredFormat(c), parser.value)).Ok?
    ensures r.Some? ==> r.value.operation == OperationName(key, group)
                        && r.value.cmdFormat == StoredFormat(c)
                        && Parsers.Parse(parser.value, ExampleCommand(StoredFormat(c), parser.value)) == Ok(r.value.cmdNode)
                        && r.value.finalCmdFormat == FinalFormat(c)
    ensures r.Some? ==> forall p :: Get(r.value.params, p).Some? <==> p in Placeholders(r.value.cmdFormat) && FirstPositional(r.value.cmdNode).Some?
  {
    if "cmd_format" !in c then None
    else
      var format := StoredFormat(c);
      match parser
      case None => None
      case Some(config) =>
        match ParseExample(config, ExampleCommand(format, config))
        case None => None
        case Some(node) =>
          Some(MappingEntry(OperationName(key, group), format, AnalyzeParameterMapping(node, format), node, FinalFormat(c)))
  }

  /** A quoted placeholder is stored, and analysed, without its quotes. */
  lemma {:induction false} QuotedPlaceholderStoredBare(q1: char, w: string, q2: char, rest: string)
    requires IsQuote(q1) && IsQuote(q2) && IsWord(w)
    ensures StoredFormat(map["cmd_format" := [q1] + Braced(w) + [q2] + rest]) == Braced(w) + StripQuotes(rest)
  {
    StripQuotesStep(q1, w, q2, rest);
  }

  // ---------------------------------------------------------------------------
  // The group

  /** The entries of a group's operations, in table order. */
  function GroupEntries(group: string, operations: seq<(string, map<string, string>)>, parser: Option<ParserConfig>): (r: seq<MappingEntry>)
    ensures |r| <= |operations|
    ensures parser.None? ==> r == []
  {
    CollectEntries(operations, (k: string, c: map<string, string>) => ProcessOperation(group, k, c, parser))
  }

  /**
   * `create_mappings` for one group: FileNotFound when the group's operation
   * file is missing; nothing when the group has no parser configuration or
   * its file cannot be read; otherwise the group's entries. `file` is the
   * file's operations table (empty when it has none) and `parser` the loaded
   * parser configuration.
   */
  function CreateMappings(group: string, groupFileExists: bool, parserConfigExists: bool,
                          file: Option<seq<(string, map<string, string>)>>, parser: Option<ParserConfig>): (r: Result<map<string, seq<MappingEntry>>>)
    ensures r.Err? <==> !groupFileExists
    ensures r.Err? ==> r.fault == FileNotFound
    ensures r.Ok? && (!parserConfigExists || file.None?) ==> r.value == map[]
    ensures r.Ok? && parserConfigExists && file.Some? ==> r.value.Keys == {group} && |r.value[group]| <= |file.value|
    ensures r.Ok? && parserConfigExists && file.Some? ==> r.value[group] == GroupEntries(group, file.value, parser)
  {
    if !groupFileExists then Err(FileNotFound)
    else if !parserConfigExists then Ok(map[])
    else
      match file
      case None => Ok(map[])
      case Some(operations) => Ok(map[group := GroupEntries(group, operations, parser)])
  }

  /** An operation without `cmd_format` adds nothing to its group. */
  lemma {:induction false} OperationWithoutFormatSkipped(group: string, operations: seq<(string, map<string, string>)>, key: string,
                                      c: map<string, string>, parser: Option<ParserConfig>)
    requires "cmd_format" !in c
    ensures GroupEntries(group, operations + [(key, c)], parser) == GroupEntries(group, operations, parser)
  {
    CollectEntriesSnoc(operations, key, c, (k: string, c: map<string, string>) => ProcessOperation(group, k, c, parser));
  }

  /** An operation whose example parses adds its entry after the others'. */
  lemma {:induction false} OperationEntryAppended(group: string, operations: seq<(string, map<string, string>)>, key: string,
                               c: map<string, string>, parser: Option<ParserConfig>)
    requires ProcessOperation(group, key, c, parser).Some?
    ensures GroupEntries(group, operations + [(key, c)], parser)
            == GroupEntries(group, operations, parser) + [ProcessOperation(group, key, c, parser).value]
  {
    CollectEntriesSnoc(operations, key, c, (k: string, c: map<string, string>) => ProcessOperation(group, k, c, parser));
  }
}

=== FILE: cmd_mapping_creator.dfy ===
// The configuration-side template builder over a directory of operation
// files, one program per file: the same example argument vector as the cache
// side (without quote stripping), after which the arguments holding a
// sentinel are marked and each parameter is located by its sentinel.

module CmdMappingCreator {
  import opened Util
  import opened Text
  import opened Tree
  import opened Dicts
  import opened Grammar
  import opened Synthesis
  import Parsers

  // ---------------------------------------------------------------------------
  // Marking the arguments that hold a sentinel

  /** The prefix a marked argument's option name gets. */
  const PlaceholderMark: string := "__placeholder__"

  /** Some value of the argument contains the sentinel marker of some parameter (a substring test). */
  predicate HasSentinel(arg: CommandArg, names: seq<string>)
  {
    exists j, k | 0 <= j < |arg.values| && 0 <= k < |names| :: Contains(arg.values[j], SentinelMarker(names[k]))
  }

  /**
   * One argument of `mark_node`: an argument holding a sentinel gets the
   * mark before its option name (or as its option name when it has none),
   * once however many of its values hold one; any other is left alone.
   */
  function MarkArg(arg: CommandArg, names: seq<string>): (r: CommandArg)
    ensures r.kind == arg.kind && r.values == arg.values && r.repeat == arg.repeat && r.placeholder == arg.placeholder
    ensures HasSentinel(arg, names) ==> r.optionName == Some(PlaceholderMark + OrElse(arg.optionName, ""))
    ensures !HasSentinel(arg, names) ==> r == arg
  {
    assert PlaceholderMark + "" == PlaceholderMark;
    if HasSentinel(arg, names) then
      arg.(optionName := Some(if Truthy(arg.optionName) then PlaceholderMark + arg.optionName.value else PlaceholderMark))
    else arg
  }

  function MarkArgs(args: seq<CommandArg>, names: seq<string>): (r: seq<CommandArg>)
    ensures |r| == |args| && forall i | 0 <= i < |args| :: r[i] == MarkArg(args[i], names)
  {
    seq(|args|, i requires 0 <= i < |args| => MarkArg(args[i], names))
  }

  /** `_mark_placeholder_args` on a tree: every argument of the node and of its subcommands. */
  function MarkNode(node: CommandNode, names: seq<string>): (r: CommandNode)
    ensures |Chain(r)| == |Chain(node)|
    ensures forall d | 0 <= d < |Chain(node)| ::
              Chain(r)[d].name == Chain(node)[d].name && Chain(r)[d].arguments == MarkArgs(Chain(node)[d].arguments, names)
    decreases node
  {
    match node.subcommand
    case None => CommandNode(node.name, MarkArgs(node.arguments, names), None)
    case Some(child) =>
      var marked := MarkNode(child, names);
      var r := CommandNode(node.name, MarkArgs(node.arguments, names), Some(marked));
      ChainStep(node, child);
      ChainStep(r, marked);
      r
  }

  /** The test is a substring test: the parameter `pkg` marks an argument holding `pkgs`'s sentinel. */
  lemma {:induction false} MarkMatchesLongerName()
    ensures MarkArg(CommandArg(PositionalArg, None, ["__param_pkgs__"], 1, None), ["pkg"]).optionName == Some(PlaceholderMark)
  {
    var arg := CommandArg(PositionalArg, None, ["__param_pkgs__"], 1, None);
    assert arg.values[0][0..|SentinelMarker("pkg")|] == SentinelMarker("pkg");
    assert OccursAt(arg.values[0], SentinelMarker("pkg"), 0);
    assert ["pkg"][0] == "pkg";
    assert Contains(arg.values[0], SentinelMarker(["pkg"][0]));
    assert HasSentinel(arg, ["pkg"]);
  }

  // ---------------------------------------------------------------------------
  // Locating a parameter by its sentinel

  /** The index of the first value containing the needle. */
  function ValueIndex(values: seq<string>, needle: string): (r: Option<nat>)
    ensures r.None? <==> forall j | 0 <= j < |values| :: !Contains(values[j], needle)
    ensures r.Some? ==> r.value < |values| && Contains(values[r.value], needle)
                        && forall j | 0 <= j < r.value :: !Contains(values[j], needle)
  {
    if |values| == 0 then None
    else if Contains(values[0], needle) then Some(0)
    else
      match ValueIndex(values[1..], needle)
      case None => None
      case Some(j) => Some(j + 1)
  }

  /** The first argument, in order, with a value containing the needle, and that value's index. */
  function LocateInArgs(args: seq<CommandArg>, needle: string): (r: Option<(CommandArg, nat)>)
    ensures r.None? <==> forall i | 0 <= i < |args| :: ValueIndex(args[i].values, needle).None?
    ensures r.Some? ==> exists i | 0 <= i < |args| ::
              args[i] == r.value.0 && ValueIndex(args[i].values, needle) == Some(r.value.1)
              && forall k | 0 <= k < i :: ValueIndex(args[k].values, needle).None?
  {
    if |args| == 0 then None
    else if ValueIndex(args[0].values, needle).Some? then Some((args[0], ValueIndex(args[0].values, needle).value))
    else
      var r := LocateInArgs(args[1..], needle);
      assert forall i | 1 <= i < |args| :: args[i] == args[1..][i - 1];
      if r.Some? then
        var i :| 0 <= i < |args[1..]| && args[1..][i] == r.value.0 && ValueIndex(args[1..][i].values, needle) == Some(r.value.1)
                 && forall k | 0 <= k < i :: ValueIndex(args[1..][k].values, needle).None?;
        assert args[i + 1] == r.value.0;
        assert forall k | 0 <= k < i + 1 :: ValueIndex(args[k].values, needle).None?;
        r
      else r
  }

  /** No argument of the node has a value containing the parameter's sentinel marker. */
  predicate NoSentinelIn(node: CommandNode, name: string)
  {
    forall i | 0 <= i < |node.arguments| :: ValueIndex(node.arguments[i].values, SentinelMarker(name)).None?
  }

  /** What a parameter was found as. */
  predicate LocatedAs(info: ParamInfo, name: string)
  {
    info.valueIndex.Some? && info.foundIn == info.cmdArg.kind
    && info.valueIndex.value < |info.cmdArg.values|
    && Contains(info.cmdArg.values[info.valueIndex.value], SentinelMarker(name))
  }

  /** The location a node's own arguments give: the argument, the value's index and the argument's kind. */
  function LocateIn(node: CommandNode, name: string): (r: Option<ParamInfo>)
    ensures r.None? <==> NoSentinelIn(node, name)
    ensures r.Some? ==> LocatedAs(r.value, name) && r.value.cmdArg in node.arguments
  {
    match LocateInArgs(node.arguments, SentinelMarker(name))
    case None => None
    case Some((a, j)) => Some(ParamInfo(a, Some(j), a.kind))
  }

  function Locator(name: string): CommandNode -> Option<ParamInfo>
  {
    (n: CommandNode) => LocateIn(n, name)
  }

  /**
   * `_find_parameter_in_node`: the first argument of the node with a value
   * containing `__param_<name>`, else the same search in the subcommand.
   */
  function FindParameterInNode(node: CommandNode, name: string): (r: Option<ParamInfo>)
    ensures r.None? <==> forall d | 0 <= d < |Chain(node)| :: NoSentinelIn(Chain(node)[d], name)
    ensures r.Some? ==> LocatedAs(r.value, name)
    ensures r.Some? ==> exists d | 0 <= d < |Chain(node)| ::
              (r.value.cmdArg in Chain(node)[d].arguments && forall e | 0 <= e < d :: NoSentinelIn(Chain(node)[e], name))
  {
    var r := FirstOnChain(node, Locator(name));
    FoundOnChain(node, name, r);
    r
  }

  lemma {:induction false} FoundOnChain(node: CommandNode, name: string, r: Option<ParamInfo>)
    requires r == FirstOnChain(node, Locator(name))
    ensures r.None? <==> forall d | 0 <= d < |Chain(node)| :: NoSentinelIn(Chain(node)[d], name)
    ensures r.Some? ==> LocatedAs(r.value, name)
    ensures r.Some? ==> exists d | 0 <= d < |Chain(node)| ::
              (r.value.cmdArg in Chain(node)[d].arguments && forall e | 0 <= e < d :: NoSentinelIn(Chain(node)[e], name))
  {
    if r.None? {
      NotFoundOnChain(node, name);
    } else {
      var d := FoundAtLevel(node, name, r);
    }
  }

  lemma {:induction false} NotFoundOnChain(node: CommandNode, name: string)
    requires FirstOnChain(node, Locator(name)).None?
    ensures forall d | 0 <= d < |Chain(node)| :: NoSentinelIn(Chain(node)[d], name)
  {
    var f := Locator(name);
    forall d | 0 <= d < |Chain(node)|
      ensures NoSentinelIn(Chain(node)[d], name)
    {
      assert f(Chain(node)[d]).None?;
    }
  }

  lemma {:induction false} FoundAtLevel(node: CommandNode, name: string, r: Option<ParamInfo>) returns (d: nat)
    requires r == FirstOnChain(node, Locator(name)) && r.Some?
    ensures d < |Chain(node)| && !NoSentinelIn(Chain(node)[d], name)
    ensures LocatedAs(r.value, name) && r.value.cmdArg in Chain(node)[d].arguments
    ensures forall e | 0 <= e < d :: NoSentinelIn(Chain(node)[e], name)
  {
    var f := Locator(name);
    d :| 0 <= d < |Chain(node)| && f(Chain(node)[d]) == r && forall e | 0 <= e < d :: f(Chain(node)[e]).None?;
    assert LocateIn(Chain(node)[d], name) == r;
    forall e | 0 <= e < d
      ensures NoSentinelIn(Chain(node)[e], name)
    {
      assert f(Chain(node)[e]).None?;
    }
  }

  /**
   * `_analyze_parameter_mapping`: each placeholder of the format is bound to
   * its location; a placeholder whose sentinel is nowhere in the tree is left
   * out.
   */
  function AnalyzeParameterMapping(node: CommandNode, format: string): (r: Dict<ParamInfo>)
    ensures forall p :: Get(r, p) == if p in Placeholders(format) then FindParameterInNode(node, p) else None
    ensures DistinctKeys(r)
  {
    BindEach(Placeholders(format), (p: string) => FindParameterInNode(node, p))
  }

  /** A sentinel the example generator produced for a parameter is found when it is among the tree's values. */
  lemma {:induction false} ExampleValueLocated(node: CommandNode, config: ParserConfig, name: string, d: nat, i: nat, j: nat)
    requires d < |Chain(node)| && i < |Chain(node)[d].arguments| && j < |Chain(node)[d].arguments[i].values|
    requires Chain(node)[d].arguments[i].values[j] in ExampleValues(name, config)
    ensures FindParameterInNode(node, name).Some?
  {
    var v := Chain(node)[d].arguments[i].values[j];
    assert StartsWith(v, SentinelMarker(name));
    assert OccursAt(v, SentinelMarker(name), 0);
    assert ValueIndex(Chain(node)[d].arguments[i].values, SentinelMarker(name)).Some?;
    assert !NoSentinelIn(Chain(node)[d], name);
  }

  /** The argument recorded for a parameter of the format carries the mark, since marking runs first. */
  lemma {:induction false} LocatedArgumentIsMarked(node: CommandNode, format: string, p: string)
    requires p in Placeholders(format)
    requires FindParameterInNode(MarkNode(node, Placeholders(format)), p).Some?
    ensures var a := FindParameterInNode(MarkNode(node, Placeholders(format)), p).value.cmdArg;
            a.optionName.Some? && StartsWith(a.optionName.value, PlaceholderMark)
  {
    var names := Placeholders(format);
    var marked := MarkNode(node, names);
    var info := FindParameterInNode(marked, p).value;
    var a := info.cmdArg;
    var d :| 0 <= d < |Chain(marked)| && a in Chain(marked)[d].arguments;
    var i :| 0 <= i < |Chain(marked)[d].arguments| && Chain(marked)[d].arguments[i] == a;
    var orig := Chain(node)[d].arguments[i];
    assert a == MarkArg(orig, names);
    var k :| 0 <= k < |names| && names[k] == p;
    assert LocatedAs(info, p);
    assert orig.values == a.values;
    assert Contains(orig.values[info.valueIndex.value], SentinelMarker(names[k]));
    assert HasSentinel(orig, names);
    var prefixed := PlaceholderMark + OrElse(orig.optionName, "");
    assert prefixed[..|PlaceholderMark|] == PlaceholderMark;
  }

  // ---------------------------------------------------------------------------
  // Operations and files

  /**
   * `_process_operation` for program `program`, whose parser configuration
   * is `parser` (none when it is missing or cannot be loaded). The format is
   * used as written; the stored tree is the marked one.
   */
  function ProcessOperation(program: string, key: string, c: map<string, string>, parser: Option<ParserConfig>): (r: Option<MappingEntry>)
    ensures r.Some? <==> "cmd_format" in c && parser.Some?
                         && Parsers.Parse(parser.value, ExampleCommand(c["cmd_format"], parser.value)).Ok?
    ensures r.Some? ==> r.value.operation == OperationName(key, program)
                        && r.value.cmdFormat == c["cmd_format"]
                        && r.value.finalCmdFormat.None?
                        && Parsers.Parse(parser.value, ExampleCommand(c["cmd_format"], parser.value)).Ok?
                        && r.value.cmdNode == MarkNode(Parsers.Parse(parser.value, ExampleCommand(c["cmd_format"], parser.value)).value, Placeholders(c["cmd_format"]))
    ensures r.Some? ==> forall p :: Get(r.value.params, p) == if p in Placeholders(r.value.cmdFormat) then FindParameterInNode(r.value.cmdNode, p) else None
  {
    if "cmd_format" !in c then None
    else
      var format := c["cmd_format"];
      match parser
      case None => None
      case Some(config) =>
        match ParseExample(config, ExampleCommand(format, config))
        case None => None
        case Some(node) =>
          var marked := MarkNode(node, Placeholders(format));
          Some(MappingEntry(OperationName(key, program), format, AnalyzeParameterMapping(marked, format), marked, None))
  }

  /** The entries of one program's operations, in table order. */
  function ProgramEntries(program: string, operations: seq<(string, map<string, string>)>, parser: Option<ParserConfig>): (r: seq<MappingEntry>)
    ensures |r| <= |operations|
    ensures parser.None? ==> r == []
    ensures forall k | 0 <= k < |r| :: r[k].finalCmdFormat.None?
  {
    CollectEntries(operations, (k: string, c: map<string, string>) => ProcessOperation(program, k, c, parser))
  }

  /** An operation without `cmd_format` adds nothing. */
  lemma {:induction false} OperationWithoutFormatSkipped(program: string, operations: seq<(string, map<string, string>)>, key: string,
                                      c: map<string, string>, parser: Option<ParserConfig>)
    requires "cmd_format" !in c
    ensures ProgramEntries(program, operations + [(key, c)], parser) == ProgramEntries(program, operations, parser)
  {
    CollectEntriesSnoc(operations, key, c, (k: string, c: map<string, string>) => ProcessOperation(program, k, c, parser));
  }

  /** An operation file: its stem and its operations table, or none when it cannot be parsed. */
  type OpsFile = (string, Option<seq<(string, map<string, string>)>>)

  /** The parser configuration of a program; a missing or unloadable one is absent. */
  function ParserFor(parsers: map<string, ParserConfig>, program: string): Option<ParserConfig>
  {
    if program in parsers then Some(parsers[program]) else None
  }

  /**
   * `_process_ops_file`: an unparseable file changes nothing; otherwise the
   * program named by the stem gets an entry list if it has none, and the
   * file's entries are appended to it.
   */
  function ProcessOpsFile(data: map<string, seq<MappingEntry>>, file: OpsFile, parsers: map<string, ParserConfig>): (r: map<string, seq<MappingEntry>>)
    ensures file.1.None? ==> r == data
    ensures file.1.Some? ==> r.Keys == data.Keys + {file.0}
    ensures forall p | p in data && p != file.0 :: p in r && r[p] == data[p]
  {
    match file.1
    case None => data
    case Some(operations) =>
      var program := file.0;
      var prior := if program in data then data[program] else [];
      data[program := prior + ProgramEntries(program, operations, ParserFor(parsers, program))]
  }

  function ProcessFiles(data: map<string, seq<MappingEntry>>, files: seq<OpsFile>, parsers: map<string, ParserConfig>): map<string, seq<MappingEntry>>
    decreases |files|
  {
    if |files| == 0 then data else ProcessFiles(ProcessOpsFile(data, files[0], parsers), files[1..], parsers)
  }

  /** The programs after processing files: those before, and the stem of every file that parsed. */
  lemma {:induction false} ProcessFilesKeys(data: map<string, seq<MappingEntry>>, files: seq<OpsFile>, parsers: map<string, ParserConfig>)
    ensures forall p :: p in ProcessFiles(data, files, parsers) <==>
              p in data || exists i | 0 <= i < |files| :: files[i].0 == p && files[i].1.Some?
    decreases |files|
  {
    if |files| > 0 {
      ProcessFilesKeys(ProcessOpsFile(data, files[0], parsers), files[1..], parsers);
      assert forall i | 1 <= i < |files| :: files[i] == files[1..][i - 1];
      forall p
        ensures p in ProcessFiles(data, files, parsers) <==> p in data || exists i | 0 <= i < |files| :: files[i].0 == p && files[i].1.Some?
      {
        if exists i | 0 <= i < |files| :: files[i].0 == p && files[i].1.Some? {
          var i :| 0 <= i < |files| && files[i].0 == p && files[i].1.Some?;
          if i > 0 {
            assert files[1..][i - 1].0 == p && files[1..][i - 1].1.Some?;
          }
        }
      }
    }
  }

  /**
   * `create_mappings`: FileNotFound when the operations directory is
   * missing; otherwise every file in listing order. `files` is the listing
   * of `*.toml` files with their parsed operations tables.
   */
  function CreateMappings(dirExists: bool, files: seq<OpsFile>, parsers: map<string, ParserConfig>): (r: Result<map<string, seq<MappingEntry>>>)
    ensures r.Err? <==> !dirExists
    ensures r.Err? ==> r.fault == FileNotFound
    ensures r.Ok? ==> forall p :: p in r.value <==> exists i | 0 <= i < |files| :: files[i].0 == p && files[i].1.Some?
  {
    if !dirExists then Err(FileNotFound)
    else
      var empty: map<string, seq<MappingEntry>> := map[];
      ProcessFilesKeys(empty, files, parsers);
      Ok(ProcessFiles(empty, files, parsers))
  }
}

=== FILE: config_loader.dfy ===
// Loading a program's parser configuration from its configuration data:
// defaults and error cases of the parser section and of each argument,
// subcommand templates registered by `id`, resolution of
// `include_arguments_and_subcmds` references between templates, and the
// recursive parsing of subcommands.

module ConfigLoader {
  import opened Util
  import opened Grammar
  import opened Dicts

  // ---------------------------------------------------------------------------
  // Configuration data as read from the file

  /** One `arguments` entry; an absent key is `None`. */
  datatype ArgData = ArgData(name: Option<string>, opt: Option<seq<string>>, nargs: Option<string>, required: Option<bool>)

  /** One `sub_commands` entry; an absent key is `None`. */
  datatype SubData = SubData(
    name: Option<string>,
    alias: Option<seq<string>>,
    description: Option<string>,
    id: Option<string>,
    includes: Option<string>,
    arguments: Option<seq<ArgData>>,
    subCommands: SubList)

  /** A `sub_commands` key: absent, or a list of entries. */
  datatype SubList = Absent | Present(items: seq<SubData>)
  {
    /** The entries, none when the key is absent. */
    function Items(): seq<SubData>
    {
      if Present? then items else []
    }
  }

  /** The `parser_config` section. */
  datatype ParserSection = ParserSection(parserType: Option<string>, programName: Option<string>)

  /** A program's section. */
  datatype ProgramData = ProgramData(parserConfig: Option<ParserSection>, arguments: Option<seq<ArgData>>, subCommands: SubList)

  /** The whole configuration data, by program section. */
  type ConfigData = map<string, ProgramData>

  /** How deeply subcommands may nest before the interpreter's recursion limit is taken to be hit. */
  const RecursionLimit: nat := 1000

  // ---------------------------------------------------------------------------
  // The parser section

  /** `ParserType(...)` after the empty or missing value defaulted to `argparse`. */
  function ReadParserType(s: Option<string>): (r: Result<ParserType>)
    ensures !Truthy(s) ==> r == Ok(Argparse)
    ensures Truthy(s) ==> (r == Ok(Argparse) <==> s.value == "argparse")
    ensures Truthy(s) ==> (r == Ok(Getopt) <==> s.value == "getopt")
    ensures r.Err? <==> Truthy(s) && s.value != "argparse" && s.value != "getopt"
    ensures r.Err? ==> r.fault == ValueError
  {
    var name := OrElse(s, "argparse");
    if name == "argparse" then Ok(Argparse)
    else if name == "getopt" then Ok(Getopt)
    else Err(ValueError)
  }

  // ---------------------------------------------------------------------------
  // Arguments

  /**
   * One argument: a missing or empty `nargs`, or one that is not a value
   * count, is a ValueError; `name` defaults to "", `opt` to none and
   * `required` to false.
   */
  function ParseArgument(a: ArgData): (r: Result<ArgumentConfig>)
    ensures r.Ok? <==> a.nargs.Some? && a.nargs.value != "" && ParseNArgs(a.nargs.value).Some?
    ensures r.Err? ==> r.fault == ValueError
    ensures r.Ok? ==> Some(r.value.nargs) == ParseNArgs(a.nargs.value)
    ensures r.Ok? ==> (a.name.None? ==> r.value.name == "") && (a.name.Some? ==> r.value.name == a.name.value)
    ensures r.Ok? ==> (a.opt.None? ==> r.value.opt == []) && (a.opt.Some? ==> r.value.opt == a.opt.value)
    ensures r.Ok? ==> (a.required.None? ==> !r.value.required) && (a.required.Some? ==> r.value.required == a.required.value)
  {
    if a.nargs.None? || a.nargs.value == "" then Err(ValueError)
    else
      match ParseNArgs(a.nargs.value)
      case None => Err(ValueError)
      case Some(nargs) => Ok(ArgumentConfig(a.name.GetOr(""), a.opt.GetOr([]), nargs, a.required.GetOr(false)))
  }

  /** `_parse_arguments`: every argument in order, failing at the first bad one. */
  function ParseArguments(args: seq<ArgData>): (r: Result<seq<ArgumentConfig>>)
    ensures r.Ok? <==> forall i | 0 <= i < |args| :: ParseArgument(args[i]).Ok?
    ensures r.Err? ==> r.fault == ValueError
    ensures r.Ok? ==> |r.value| == |args| && forall i | 0 <= i < |args| :: ParseArgument(args[i]) == Ok(r.value[i])
  {
    if |args| == 0 then Ok([])
    else
      var first :- ParseArgument(args[0]);
      var rest :- ParseArguments(args[1..]);
      assert forall i | 1 <= i < |args| :: args[i] == args[1..][i - 1];
      Ok([first] + rest)
  }

  // ---------------------------------------------------------------------------
  // Templates

  /** Every subcommand entry at every depth, each before its own subcommands. */
  function Flatten(subs: seq<SubData>): seq<SubData>
    decreases subs
  {
    if |subs| == 0 then [] else FlattenOne(subs[0]) + Flatten(subs[1..])
  }

  function FlattenOne(s: SubData): seq<SubData>
    decreases s
  {
    [s] + match s.subCommands case Absent => [] case Present(c) => Flatten(c)
  }

  /** The registrations of the entries that carry an `id`, in order. */
  function IdBindings(subs: seq<SubData>): seq<(string, SubData)>
  {
    if |subs| == 0 then []
    else (if subs[0].id.Some? then [(subs[0].id.value, subs[0])] else []) + IdBindings(subs[1..])
  }

  lemma {:induction false} IdBindingsAppend(a: seq<SubData>, b: seq<SubData>)
    ensures IdBindings(a + b) == IdBindings(a) + IdBindings(b)
    decreases |a|
  {
    if |a| == 0 {
      assert a + b == b;
    } else {
      var head := if a[0].id.Some? then [(a[0].id.value, a[0])] else [];
      assert (a + b)[0] == a[0];
      assert (a + b)[1..] == a[1..] + b;
      assert IdBindings(a + b) == head + IdBindings(a[1..] + b);
      IdBindingsAppend(a[1..], b);
      assert IdBindings(a) == head + IdBindings(a[1..]);
      assert head + (IdBindings(a[1..]) + IdBindings(b)) == (head + IdBindings(a[1..])) + IdBindings(b);
    }
  }

  /** `_collect_id_templates`: each entry with an `id`, depth first, registered under it. */
  function Collect(acc: Dict<SubData>, subs: seq<SubData>): Dict<SubData>
    decreases subs
  {
    if |subs| == 0 then acc else Collect(CollectOne(acc, subs[0]), subs[1..])
  }

  function CollectOne(acc: Dict<SubData>, s: SubData): Dict<SubData>
    decreases s
  {
    var registered := if s.id.Some? then Put(acc, s.id.value, s) else acc;
    match s.subCommands
    case Absent => registered
    case Present(c) => Collect(registered, c)
  }

  lemma {:induction false} PutAllSingle(d: Dict<SubData>, k: string, v: SubData)
    ensures PutAll(d, [(k, v)]) == Put(d, k, v)
  {
    assert [(k, v)][1..] == [];
  }

  /** Collecting is registering the flattened entries' ids one after the other. */
  lemma {:induction false} CollectIsPutAll(acc: Dict<SubData>, subs: seq<SubData>)
    ensures Collect(acc, subs) == PutAll(acc, IdBindings(Flatten(subs)))
    decreases subs
  {
    if |subs| > 0 {
      var one := CollectOne(acc, subs[0]);
      CollectOneIsPutAll(acc, subs[0]);
      CollectIsPutAll(one, subs[1..]);
      IdBindingsAppend(FlattenOne(subs[0]), Flatten(subs[1..]));
      PutAllAppend(acc, IdBindings(FlattenOne(subs[0])), IdBindings(Flatten(subs[1..])));
    }
  }

  lemma {:induction false} CollectOneIsPutAll(acc: Dict<SubData>, s: SubData)
    ensures CollectOne(acc, s) == PutAll(acc, IdBindings(FlattenOne(s)))
    decreases s
  {
    var registered := if s.id.Some? then Put(acc, s.id.value, s) else acc;
    assert registered == PutAll(acc, IdBindings([s])) by {
      if s.id.Some? {
        assert IdBindings([s]) == [(s.id.value, s)] by { assert [s][1..] == []; }
        PutAllSingle(acc, s.id.value, s);
      } else {
        assert IdBindings([s]) == [] by { assert [s][1..] == []; }
      }
    }
    match s.subCommands {
      case Absent =>
        assert FlattenOne(s) == [s];
      case Present(c) =>
        CollectIsPutAll(registered, c);
        IdBindingsAppend([s], Flatten(c));
        PutAllAppend(acc, IdBindings([s]), IdBindings(Flatten(c)));
    }
  }

  /** A template id names the last entry, at any depth, that carries it: a later duplicate replaces an earlier one. */
  lemma {:induction false} CollectedTemplate(subs: seq<SubData>, id: string)
    ensures var empty: Dict<SubData> := [];
            Get(Collect(empty, subs), id) == LastFor(IdBindings(Flatten(subs)), id)
  {
    var empty: Dict<SubData> := [];
    CollectIsPutAll(empty, subs);
    GetPutAll(empty, IdBindings(Flatten(subs)), id);
    assert IndexOf(empty, id).None?;
  }

  // ---------------------------------------------------------------------------
  // Resolving includes between templates

  /** A template absorbing the template it includes: that one's arguments, subcommands and description, where it has them. */
  function Absorb(data: SubData, included: SubData): (r: SubData)
    ensures r.includes.None?
    ensures r.arguments == if included.arguments.Some? then included.arguments else data.arguments
    ensures r.subCommands == if included.subCommands.Present? then included.subCommands else data.subCommands
    ensures r.description == if included.description.Some? then included.description else data.description
    ensures r.name == data.name && r.alias == data.alias && r.id == data.id
  {
    data.(arguments := if included.arguments.Some? then included.arguments else data.arguments,
          subCommands := if included.subCommands.Present? then included.subCommands else data.subCommands,
          description := if included.description.Some? then included.description else data.description,
          includes := None)
  }

  function KeySet(t: Dict<SubData>): set<string>
  {
    set i | 0 <= i < |t| :: t[i].0
  }

  lemma {:induction false} GetInKeySet(t: Dict<SubData>, k: string)
    requires Get(t, k).Some?
    ensures k in KeySet(t)
  {
    var i := IndexOf(t, k).value;
    assert t[i].0 == k;
  }

  /**
   * `preprocess_template`: a template not yet processed first has the
   * template it includes processed, then absorbs it; an include of an
   * unknown id is dropped. The ids whose processing is under way are
   * `stack`; reaching one of them again means the interpreter recurses
   * until its recursion limit, a RecursionError.
   */
  function Preprocess(t: Dict<SubData>, done: set<string>, id: string, stack: set<string>): (r: Result<(Dict<SubData>, set<string>)>)
    requires Get(t, id).Some?
    requires stack <= KeySet(t)
    ensures r.Ok? ==> Keys(r.value.0) == Keys(t)
    ensures r.Err? ==> r.fault == RecursionError
    decreases KeySet(t) - stack
  {
    if id in done then Ok((t, done))
    else if id in stack then Err(RecursionError)
    else
      var data := Get(t, id).value;
      match data.includes
      case None => Ok((t, done + {id}))
      case Some(ref) =>
        if Get(t, ref).Some? then
          GetInKeySet(t, id);
          assert KeySet(t) - (stack + {id}) < KeySet(t) - stack;
          var (t2, done2) :- Preprocess(t, done, ref, stack + {id});
          SameKeysSameIndex(t2, t, id);
          SameKeysSameIndex(t2, t, ref);
          Ok((Put(t2, id, Absorb(data, Get(t2, ref).value)), done2 + {id}))
        else
          Ok((Put(t, id, data.(includes := None)), done + {id}))
  }

  /** `_preprocess_template`'s loop: every id in turn. */
  function PreprocessEach(t: Dict<SubData>, done: set<string>, ids: seq<string>): (r: Result<(Dict<SubData>, set<string>)>)
    requires forall i | 0 <= i < |ids| :: Get(t, ids[i]).Some?
    ensures r.Ok? ==> Keys(r.value.0) == Keys(t)
    ensures r.Err? ==> r.fault == RecursionError
    decreases |ids|
  {
    if |ids| == 0 then Ok((t, done))
    else
      var (t2, done2) :- Preprocess(t, done, ids[0], {});
      assert forall i | 0 <= i < |ids| :: Get(t2, ids[i]).Some? by {
        forall i | 0 <= i < |ids|
          ensures Get(t2, ids[i]).Some?
        {
          SameKeysSameIndex(t2, t, ids[i]);
        }
      }
      PreprocessEach(t2, done2, ids[1..])
  }

  /** `_preprocess_id_templates`: all templates, in registration order. */
  function PreprocessTemplates(t: Dict<SubData>): (r: Result<Dict<SubData>>)
    ensures r.Ok? ==> Keys(r.value) == Keys(t)
    ensures r.Err? ==> r.fault == RecursionError
  {
    AllKeysPresent(t);
    var (t2, _) :- PreprocessEach(t, {}, Keys(t));
    Ok(t2)
  }

  lemma {:induction false} AllKeysPresent(t: Dict<SubData>)
    ensures forall i | 0 <= i < |Keys(t)| :: Get(t, Keys(t)[i]).Some?
  {
    forall i | 0 <= i < |Keys(t)|
      ensures Get(t, Keys(t)[i]).Some?
    {
      assert t[i].0 == Keys(t)[i];
      if IndexOf(t, Keys(t)[i]).None? {
        assert false;
      }
    }
  }

  /** Lookups depend only on the keys. */
  lemma {:induction false} SameKeysSameIndex(a: Dict<SubData>, b: Dict<SubData>, k: string)
    requires Keys(a) == Keys(b)
    ensures IndexOf(a, k) == IndexOf(b, k)
    ensures Get(a, k).Some? <==> Get(b, k).Some?
  {
    assert |a| == |Keys(a)| == |Keys(b)| == |b|;
    assert forall j | 0 <= j < |a| :: a[j].0 == Keys(a)[j] == Keys(b)[j] == b[j].0;
    if IndexOf(a, k).Some? {
      IndexOfIs(b, k, IndexOf(a, k).value);
    } else {
      IndexOfNone(b, k);
    }
  }

  // ---------------------------------------------------------------------------
  // What preprocessing computes

  /**
   * Template `k` as preprocessing leaves it, given what the others became:
   * it has absorbed the template it includes (which is itself processed),
   * or just dropped an include of an unknown id.
   */
  ghost predicate Resolved(orig: Dict<SubData>, t: Dict<SubData>, done: set<string>, k: string)
    requires Get(orig, k).Some?
  {
    var o := Get(orig, k).value;
    match o.includes
    case None => Get(t, k) == Some(o)
    case Some(ref) =>
      if Get(orig, ref).Some? then ref in done && Get(t, ref).Some? && Get(t, k) == Some(Absorb(o, Get(t, ref).value))
      else Get(t, k) == Some(o.(includes := None))
  }

  /** Unprocessed templates are as collected; processed ones are resolved. */
  ghost predicate Inv(orig: Dict<SubData>, t: Dict<SubData>, done: set<string>)
  {
    Keys(t) == Keys(orig)
    && (forall k | Get(orig, k).Some? && k !in done :: Get(t, k) == Get(orig, k))
    && (forall k | Get(orig, k).Some? && k in done :: Resolved(orig, t, done, k))
  }

  /** Changing only unprocessed templates, and processing more, keeps a processed template resolved. */
  lemma {:induction false} ResolvedFrame(orig: Dict<SubData>, t: Dict<SubData>, t': Dict<SubData>, done: set<string>, done': set<string>, k: string)
    requires Get(orig, k).Some? && k in done && done <= done'
    requires Resolved(orig, t, done, k)
    requires forall j | j in done :: Get(t', j) == Get(t, j)
    ensures Resolved(orig, t', done', k)
  {
  }

  /** One `preprocess_template` call keeps the invariant and processes its id, and never an id under way. */
  lemma {:induction false} PreprocessKeepsInv(orig: Dict<SubData>, t: Dict<SubData>, done: set<string>, id: string, stack: set<string>)
    requires Get(t, id).Some? && stack <= KeySet(t)
    requires Inv(orig, t, done)
    requires Preprocess(t, done, id, stack).Ok?
    ensures var (t', done') := Preprocess(t, done, id, stack).value;
            Inv(orig, t', done') && id in done' && done <= done'
            && (forall k | k in stack && k !in done :: k !in done')
            && (forall k | k in done :: Get(t', k) == Get(t, k))
    decreases KeySet(t) - stack
  {
    if id in done {
    } else {
      SameKeysSameIndex(t, orig, id);
      var data := Get(t, id).value;
      assert Get(orig, id) == Some(data);
      match data.includes {
        case None =>
          var done' := done + {id};
          forall k | Get(orig, k).Some? && k in done
            ensures Resolved(orig, t, done', k)
          {
            ResolvedFrame(orig, t, t, done, done', k);
          }
        case Some(ref) =>
          SameKeysSameIndex(t, orig, ref);
          if Get(t, ref).Some? {
            GetInKeySet(t, id);
            var (t2, done2) := Preprocess(t, done, ref, stack + {id}).value;
            PreprocessKeepsInv(orig, t, done, ref, stack + {id});
            assert id !in done2;
            SameKeysSameIndex(t2, t, id);
            SameKeysSameIndex(t2, t, ref);
            var t3 := Put(t2, id, Absorb(data, Get(t2, ref).value));
            var done3 := done2 + {id};
            assert Preprocess(t, done, id, stack).value == (t3, done3);
            assert ref in done2 && ref != id;
            forall k | k in done2
              ensures Get(t3, k) == Get(t2, k)
            {
            }
            forall k | Get(orig, k).Some? && k in done3
              ensures Resolved(orig, t3, done3, k)
            {
              if k != id {
                ResolvedFrame(orig, t2, t3, done2, done3, k);
              } else {
                assert Get(t3, ref) == Get(t2, ref);
              }
            }
          } else {
            var t3 := Put(t, id, data.(includes := None));
            var done3 := done + {id};
            forall k | Get(orig, k).Some? && k in done3
              ensures Resolved(orig, t3, done3, k)
            {
              if k != id {
                ResolvedFrame(orig, t, t3, done, done3, k);
              }
            }
          }
      }
    }
  }

  lemma {:induction false} PreprocessEachKeepsInv(orig: Dict<SubData>, t: Dict<SubData>, done: set<string>, ids: seq<string>)
    requires forall i | 0 <= i < |ids| :: Get(t, ids[i]).Some?
    requires Inv(orig, t, done)
    requires PreprocessEach(t, done, ids).Ok?
    ensures var (t', done') := PreprocessEach(t, done, ids).value;
            Inv(orig, t', done') && done <= done' && forall i | 0 <= i < |ids| :: ids[i] in done'
    decreases |ids|
  {
    if |ids| > 0 {
      var (t2, done2) := Preprocess(t, done, ids[0], {}).value;
      PreprocessKeepsInv(orig, t, done, ids[0], {});
      forall i | 0 <= i < |ids|
        ensures Get(t2, ids[i]).Some?
      {
        SameKeysSameIndex(t2, t, ids[i]);
      }
      PreprocessEachKeepsInv(orig, t2, done2, ids[1..]);
      var (t', done') := PreprocessEach(t, done, ids).value;
      assert forall i | 1 <= i < |ids| :: ids[i] == ids[1..][i - 1];
    }
  }

  /**
   * After preprocessing, every template has resolved its include: it holds
   * the included template's arguments, subcommands and description (as that
   * template was itself resolved) where that one has them, and no template
   * keeps an include.
   */
  lemma {:induction false} PreprocessedTemplatesResolved(orig: Dict<SubData>, k: string)
    requires PreprocessTemplates(orig).Ok? && Get(orig, k).Some?
    ensures var t := PreprocessTemplates(orig).value;
            Get(t, k).Some? && Get(t, k).value.includes.None? && Resolved(orig, t, set i | 0 <= i < |orig| :: orig[i].0, k)
  {
    AllKeysPresent(orig);
    var all := set i | 0 <= i < |orig| :: orig[i].0;
    var (t, done) := PreprocessEach(orig, {}, Keys(orig)).value;
    PreprocessEachKeepsInv(orig, orig, {}, Keys(orig));
    GetInKeySet(orig, k);
    var i :| 0 <= i < |orig| && orig[i].0 == k;
    assert Keys(orig)[i] == k;
    assert k in done;
    assert Resolved(orig, t, done, k);
    assert forall j | j in all :: j in done by {
      forall j | j in all
        ensures j in done
      {
        var n :| 0 <= n < |orig| && orig[n].0 == j;
        assert Keys(orig)[n] == j;
      }
    }
    ResolvedFrame(orig, t, t, done, done, k);
    var o := Get(orig, k).value;
    if o.includes.Some? && Get(orig, o.includes.value).Some? {
      GetInKeySet(orig, o.includes.value);
    }
  }

  /** A template that includes itself sends the processing into unbounded recursion. */
  lemma {:induction false} SelfIncludeRecurses(data: SubData)
    requires data.includes == Some("t")
    ensures PreprocessTemplates([("t", data)]) == Err(RecursionError)
  {
    var t := [("t", data)];
    assert IndexOf(t, "t") == Some(0);
    assert Keys(t) == ["t"];
    assert KeySet(t) == {"t"};
    assert Preprocess(t, {}, "t", {"t"}) == Err(RecursionError);
    assert Preprocess(t, {}, "t", {}) == Err(RecursionError);
  }

  // ---------------------------------------------------------------------------
  // Subcommands

  /** The keys of `over`, and of `base` where `over` lacks them (`{**base, **over}`). */
  function Overlay(base: SubData, over: SubData): SubData
  {
    SubData(
      if over.name.Some? then over.name else base.name,
      if over.alias.Some? then over.alias else base.alias,
      if over.description.Some? then over.description else base.description,
      if over.id.Some? then over.id else base.id,
      if over.includes.Some? then over.includes else base.includes,
      if over.arguments.Some? then over.arguments else base.arguments,
      if over.subCommands.Present? then over.subCommands else base.subCommands)
  }

  /**
   * `_get_final_sub_command_data`: an entry without an include is used as
   * it is; one with an include is laid over the (preprocessed) template,
   * its own keys winning and lists replaced rather than merged, then loses
   * `id` and the include; an unknown template id is a ValueError.
   */
  function FinalSubData(templates: Dict<SubData>, sub: SubData): (r: Result<SubData>)
    ensures sub.includes.None? ==> r == Ok(sub)
    ensures sub.includes.Some? ==> (r.Err? <==> Get(templates, sub.includes.value).None?)
    ensures r.Err? ==> r.fault == ValueError
    ensures sub.includes.Some? && r.Ok? ==> r.value.id.None? && r.value.includes.None?
    ensures sub.includes.Some? && r.Ok? ==>
              var base := Get(templates, sub.includes.value).value;
              (sub.name.Some? ==> r.value.name == sub.name) && (sub.name.None? ==> r.value.name == base.name)
              && (sub.arguments.Some? ==> r.value.arguments == sub.arguments) && (sub.arguments.None? ==> r.value.arguments == base.arguments)
              && (sub.subCommands.Present? ==> r.value.subCommands == sub.subCommands) && (sub.subCommands.Absent? ==> r.value.subCommands == base.subCommands)
              && (sub.alias.Some? ==> r.value.alias == sub.alias) && (sub.alias.None? ==> r.value.alias == base.alias)
  {
    match sub.includes
    case None => Ok(sub)
    case Some(tid) =>
      match Get(templates, tid)
      case None => Err(ValueError)
      case Some(base) => Ok(Overlay(base, sub).(id := None, includes := None))
  }

  /** `_parse_sub_commands`: each entry in order, failing at the first that fails. */
  function ParseSubCommands(templates: Dict<SubData>, subs: seq<SubData>, fuel: nat): (r: Result<seq<SubCommandConfig>>)
    ensures r.Ok? <==> forall i | 0 <= i < |subs| :: ParseSubCommand(templates, subs[i], fuel).Ok?
    ensures r.Ok? ==> |r.value| == |subs| && forall i | 0 <= i < |subs| :: ParseSubCommand(templates, subs[i], fuel) == Ok(r.value[i])
    decreases fuel, |subs|, 1
  {
    if |subs| == 0 then Ok([])
    else
      var first :- ParseSubCommand(templates, subs[0], fuel);
      var rest :- ParseSubCommands(templates, subs[1..], fuel);
      assert forall i | 1 <= i < |subs| :: subs[i] == subs[1..][i - 1];
      Ok([first] + rest)
  }

  /**
   * `_parse_single_sub_command`: the entry's final data must have a name
   * (a KeyError otherwise); `alias` defaults to none; its arguments and its
   * own subcommands are parsed in turn. Nesting deeper than `fuel` is a
   * RecursionError.
   */
  function ParseSubCommand(templates: Dict<SubData>, sub: SubData, fuel: nat): (r: Result<SubCommandConfig>)
    ensures fuel > 0 && FinalSubData(templates, sub).Err? ==> r == Err(ValueError)
    ensures fuel > 0 && FinalSubData(templates, sub).Ok? && FinalSubData(templates, sub).value.name.None? ==> r == Err(KeyError)
    ensures r.Ok? ==> FinalSubData(templates, sub).Ok? && var final := FinalSubData(templates, sub).value;
                      final.name == Some(r.value.name)
                      && (final.alias.None? ==> r.value.alias == []) && (final.alias.Some? ==> r.value.alias == final.alias.value)
                      && ParseArguments(final.arguments.GetOr([])) == Ok(r.value.arguments)
                      && |r.value.subCommands| == |final.subCommands.Items()|
    ensures r.Ok? ==> fuel > 0
    decreases fuel, 0, 0
  {
    if fuel == 0 then Err(RecursionError)
    else
      var final :- FinalSubData(templates, sub);
      if final.name.None? then Err(KeyError)
      else
        var args :- ParseArguments(final.arguments.GetOr([]));
        var subs :- ParseSubCommands(templates, final.subCommands.Items(), fuel - 1);
        Ok(SubCommandConfig(final.name.value, final.alias.GetOr([]), args, subs))
  }

  /**
   * When `_parse_single_sub_command` succeeds: exactly when the nesting is
   * within the limit, the final data exists and has a name, and its
   * arguments and subcommands parse; its subcommands are then the final
   * data's subcommands parsed one level deeper. Too deep a nesting is a
   * RecursionError and a failing argument a ValueError. (Stated apart from
   * the function, whose contract would otherwise unfold the nesting without
   * end in every proof that uses it.)
   */
  lemma {:induction false} ParseSubCommandOutcome(templates: Dict<SubData>, sub: SubData, fuel: nat)
    ensures fuel == 0 ==> ParseSubCommand(templates, sub, fuel) == Err(RecursionError)
    ensures ParseSubCommand(templates, sub, fuel).Ok? ==>
              fuel > 0 && FinalSubData(templates, sub).Ok?
              && ParseSubCommands(templates, FinalSubData(templates, sub).value.subCommands.Items(), fuel - 1)
                 == Ok(ParseSubCommand(templates, sub, fuel).value.subCommands)
    ensures ParseSubCommand(templates, sub, fuel).Ok?
            <==> fuel > 0 && FinalSubData(templates, sub).Ok? && FinalSubData(templates, sub).value.name.Some?
                 && ParseArguments(FinalSubData(templates, sub).value.arguments.GetOr([])).Ok?
                 && ParseSubCommands(templates, FinalSubData(templates, sub).value.subCommands.Items(), fuel - 1).Ok?
    ensures (fuel > 0 && FinalSubData(templates, sub).Ok? && FinalSubData(templates, sub).value.name.Some?
             && ParseArguments(FinalSubData(templates, sub).value.arguments.GetOr([])).Err?) ==> ParseSubCommand(templates, sub, fuel) == Err(ValueError)
  {
  }

  // ---------------------------------------------------------------------------
  // The whole section

  /**
   * `_parse_config_data`: a missing program section or `parser_config` is a
   * ValueError, and so is an unknown parser type; `program_name` defaults to
   * the section's key. Templates are collected and preprocessed before the
   * arguments and subcommands are parsed.
   */
  function LoadParserConfig(data: ConfigData, program: string): (r: Result<ParserConfig>)
    ensures program !in data ==> r == Err(ValueError)
    ensures program in data && data[program].parserConfig.None? ==> r == Err(ValueError)
    ensures program in data && data[program].parserConfig.Some? && ReadParserType(data[program].parserConfig.value.parserType).Err? ==> r == Err(ValueError)
    ensures r.Ok? ==> program in data && data[program].parserConfig.Some?
    ensures r.Ok? ==> var section := data[program].parserConfig.value;
                      Ok(r.value.parserType) == ReadParserType(section.parserType)
                      && r.value.programName == section.programName.GetOr(program)
                      && ParseArguments(data[program].arguments.GetOr([])) == Ok(r.value.arguments)
                      && |r.value.subCommands| == |data[program].subCommands.Items()|
    ensures (program in data && data[program].parserConfig.Some? && ReadParserType(data[program].parserConfig.value.parserType).Ok?
             && PreprocessTemplates(Collect([], data[program].subCommands.Items())).Err?) ==> r == Err(RecursionError)
    ensures r.Ok? ==> var templates := PreprocessTemplates(Collect([], data[program].subCommands.Items()));
                      templates.Ok? && ParseSubCommands(templates.value, data[program].subCommands.Items(), RecursionLimit) == Ok(r.value.subCommands)
    ensures r.Ok? <==> program in data && data[program].parserConfig.Some? && ReadParserType(data[program].parserConfig.value.parserType).Ok?
                       && PreprocessTemplates(Collect([], data[program].subCommands.Items())).Ok?
                       && ParseArguments(data[program].arguments.GetOr([])).Ok?
                       && ParseSubCommands(PreprocessTemplates(Collect([], data[program].subCommands.Items())).value,
                                           data[program].subCommands.Items(), RecursionLimit).Ok?
    ensures (program in data && data[program].parserConfig.Some? && ReadParserType(data[program].parserConfig.value.parserType).Ok?
             && PreprocessTemplates(Collect([], data[program].subCommands.Items())).Ok?
             && ParseArguments(data[program].arguments.GetOr([])).Err?) ==> r == Err(ValueError)
  {
    if program !in data then Err(ValueError)
    else
      var p := data[program];
      match p.parserConfig
      case None => Err(ValueError)
      case Some(section) =>
        var parserType :- ReadParserType(section.parserType);
        var empty: Dict<SubData> := [];
        var templates :- PreprocessTemplates(Collect(empty, p.subCommands.Items()));
        var arguments :- ParseArguments(p.arguments.GetOr([]));
        var subs :- ParseSubCommands(templates, p.subCommands.Items(), RecursionLimit);
        Ok(ParserConfig(parserType, section.programName.GetOr(program), arguments, subs))
  }

  /** A program whose only subcommand is a template including itself cannot be loaded: the include recurses without bound. */
  lemma {:induction false} SelfIncludeFailsLoading(data: ConfigData, program: string, sub: SubData)
    requires program in data && data[program].parserConfig.Some?
    requires ReadParserType(data[program].parserConfig.value.parserType).Ok?
    requires data[program].subCommands == Present([sub])
    requires sub.id == Some("t") && sub.includes == Some("t") && sub.subCommands.Absent?
    ensures LoadParserConfig(data, program) == Err(RecursionError)
  {
    var empty: Dict<SubData> := [];
    assert Collect(empty, [sub]) == [("t", sub)] by {
      assert CollectOne(empty, sub) == Put(empty, "t", sub);
      assert Put(empty, "t", sub) == [("t", sub)];
      assert [sub][1..] == [];
    }
    SelfIncludeRecurses(sub);
  }

  /** A program argument without `nargs` makes loading fail with a ValueError once the templates resolve. */
  lemma {:induction false} ArgumentWithoutNargsFailsLoading(data: ConfigData, program: string, k: nat)
    requires program in data && data[program].parserConfig.Some?
    requires ReadParserType(data[program].parserConfig.value.parserType).Ok?
    requires PreprocessTemplates(Collect([], data[program].subCommands.Items())).Ok?
    requires k < |data[program].arguments.GetOr([])| && data[program].arguments.GetOr([])[k].nargs.None?
    ensures LoadParserConfig(data, program) == Err(ValueError)
  {
    assert ParseArgument(data[program].arguments.GetOr([])[k]).Err?;
  }
}

=== FILE: dicts.dfy ===
// Python dictionaries whose insertion order is observable (parameter maps
// that are later iterated), as association lists.

module Dicts {
  import opened Util

  /** A Python `dict` with string keys, in insertion order. */
  type Dict<V> = seq<(string, V)>

  predicate DistinctKeys<V>(d: Dict<V>)
  {
    forall i, j | 0 <= i < j < |d| :: d[i].0 != d[j].0
  }

  function Keys<V>(d: Dict<V>): seq<string>
  {
    seq(|d|, i requires 0 <= i < |d| => d[i].0)
  }

  /** Position of the first entry with key `k`. */
  function IndexOf<V>(d: Dict<V>, k: string): (r: Option<nat>)
    ensures r.Some? ==> r.value < |d| && d[r.value].0 == k
    ensures r.Some? ==> forall j | 0 <= j < r.value :: d[j].0 != k
    ensures r.None? ==> forall j | 0 <= j < |d| :: d[j].0 != k
  {
    if |d| == 0 then None
    else if d[|d| - 1].0 == k && IndexOf(d[..|d| - 1], k).None? then Some(|d| - 1)
    else IndexOf(d[..|d| - 1], k)
  }

  lemma {:induction false} IndexOfIs<V>(d: Dict<V>, k: string, i: nat)
    requires i < |d| && d[i].0 == k
    requires forall j | 0 <= j < i :: d[j].0 != k
    ensures IndexOf(d, k) == Some(i)
  {
  }

  lemma {:induction false} IndexOfNone<V>(d: Dict<V>, k: string)
    requires forall j | 0 <= j < |d| :: d[j].0 != k
    ensures IndexOf(d, k).None?
  {
  }

  /** `d.get(k)`. */
  function Get<V>(d: Dict<V>, k: string): Option<V>
  {
    match IndexOf(d, k)
    case None => None
    case Some(i) => Some(d[i].1)
  }

  /** `d[k] = v`: an existing key keeps its position, a new key goes last. */
  function Put<V>(d: Dict<V>, k: string, v: V): (r: Dict<V>)
    ensures Get(r, k) == Some(v)
    ensures forall k' | k' != k :: Get(r, k') == Get(d, k')
    ensures IndexOf(d, k).Some? ==> Keys(r) == Keys(d)
    ensures IndexOf(d, k).None? ==> Keys(r) == Keys(d) + [k]
  {
    var r := if IndexOf(d, k).Some? then d[IndexOf(d, k).value := (k, v)] else d + [(k, v)];
    IndexOfIs(r, k, if IndexOf(d, k).Some? then IndexOf(d, k).value else |d|);
    forall k' | k' != k
      ensures Get(r, k') == Get(d, k')
    {
      PutOther(d, k, v, r, k');
    }
    r
  }

  lemma {:induction false} PutOther<V>(d: Dict<V>, k: string, v: V, r: Dict<V>, k': string)
    requires r == if IndexOf(d, k).Some? then d[IndexOf(d, k).value := (k, v)] else d + [(k, v)]
    requires k' != k
    ensures Get(r, k') == Get(d, k')
  {
    if IndexOf(d, k').Some? {
      IndexOfIs(r, k', IndexOf(d, k').value);
    } else {
      IndexOfNone(r, k');
    }
  }

  /** Updating keeps the keys distinct. */
  lemma {:induction false} PutDistinct<V>(d: Dict<V>, k: string, v: V)
    requires DistinctKeys(d)
    ensures DistinctKeys(Put(d, k, v))
  {
  }

  /** `d[k] = v` for each binding in turn. */
  function PutAll<V>(d: Dict<V>, bindings: seq<(string, V)>): Dict<V>
    decreases |bindings|
  {
    if |bindings| == 0 then d else PutAll(Put(d, bindings[0].0, bindings[0].1), bindings[1..])
  }

  /** The value of the last binding for `k`, if any. */
  function LastFor<V>(bindings: seq<(string, V)>, k: string): (r: Option<V>)
    ensures r.None? <==> forall i | 0 <= i < |bindings| :: bindings[i].0 != k
    ensures r.Some? ==> exists i | 0 <= i < |bindings| :: bindings[i] == (k, r.value) && forall j | i < j < |bindings| :: bindings[j].0 != k
  {
    if |bindings| == 0 then None
    else
      var r := LastFor(bindings[1..], k);
      if r.Some? then
        assert forall i | 0 <= i < |bindings[1..]| :: bindings[1..][i] == bindings[i + 1];
        r
      else if bindings[0].0 == k then Some(bindings[0].1)
      else None
  }

  /** After a run of updates a key holds the value it was last set to, or what it held before. */
  lemma {:induction false} GetPutAll<V>(d: Dict<V>, bindings: seq<(string, V)>, k: string)
    ensures Get(PutAll(d, bindings), k) == if LastFor(bindings, k).Some? then LastFor(bindings, k) else Get(d, k)
    decreases |bindings|
  {
    if |bindings| > 0 {
      GetPutAll(Put(d, bindings[0].0, bindings[0].1), bindings[1..], k);
    }
  }

  lemma {:induction false} PutAllAppend<V>(d: Dict<V>, a: seq<(string, V)>, b: seq<(string, V)>)
    ensures PutAll(d, a + b) == PutAll(PutAll(d, a), b)
    decreases |a|
  {
    if |a| == 0 {
      assert a + b == b;
    } else {
      assert (a + b)[0] == a[0] && (a + b)[1..] == a[1..] + b;
      PutAllAppend(Put(d, a[0].0, a[0].1), a[1..], b);
    }
  }

  /** The last binding for a key in two runs of bindings is the second run's, if it has one. */
  lemma {:induction false} LastForAppend<V>(a: seq<(string, V)>, b: seq<(string, V)>, k: string)
    ensures LastFor(a + b, k) == if LastFor(b, k).Some? then LastFor(b, k) else LastFor(a, k)
  {
    var empty: Dict<V> := [];
    GetPutAll(empty, a + b, k);
    PutAllAppend(empty, a, b);
    GetPutAll(PutAll(empty, a), b, k);
    GetPutAll(empty, a, k);
    assert IndexOf(empty, k).None?;
  }
}

=== FILE: getopt.dfy ===
// The getopt-style parser: one root node, short-flag bundles, `--long=value`,
// an option that may take the next argument as its value, and `--`.

module Getopt {
  import opened Util
  import opened Text
  import opened Grammar
  import opened Tree

  /** `_find_option_config`: the first argument configuration listing `name` among its option strings. */
  function FindOptionConfig(name: string, configs: seq<ArgumentConfig>): Option<ArgumentConfig>
  {
    FirstWhere(configs, (c: ArgumentConfig) => MatchesOption(c, name))
  }

  // ---------------------------------------------------------------------------
  // Tokenizer

  /** An option seen but not yet emitted: it may still take the next argument as its value. */
  datatype Pending = Pending(name: string, config: Option<ArgumentConfig>)

  predicate TakesValue(p: Pending)
  {
    p.config.Some? && AcceptsValues(p.config.value)
  }

  /** What a pending option becomes when no value arrives for it. */
  function Unresolved(p: Pending): (t: Token)
    ensures t.values == [p.name]
    ensures t.kind == (if TakesValue(p) then OptionNameTok else FlagTok)
  {
    if TakesValue(p) then Token(OptionNameTok, [p.name]) else Token(FlagTok, [p.name])
  }

  datatype ScanState = ScanState(inOptions: bool, pending: Option<Pending>)

  const Start := ScanState(true, None)

  function ShortFlag(c: char): Token
  {
    Token(FlagTok, [['-', c]])
  }

  /** One flag per letter, in order. */
  function Flags(letters: string): (r: seq<Token>)
    ensures |r| == |letters|
    ensures forall k | 0 <= k < |letters| :: r[k] == ShortFlag(letters[k])
  {
    if |letters| == 0 then [] else [ShortFlag(letters[0])] + Flags(letters[1..])
  }

  /** The loop over the letters of a bundle `-xyz`, from letter `k` on. */
  function BundleLoop(letters: string, k: nat, configs: seq<ArgumentConfig>): (seq<Token>, Option<Pending>)
    requires k <= |letters|
    decreases |letters| - k
  {
    if k == |letters| then ([], None)
    else
      var short := ['-', letters[k]];
      var c := FindOptionConfig(short, configs);
      if c.Some? && AcceptsValues(c.value) && k == |letters| - 1 then ([], Some(Pending(short, c)))
      else
        var rest := BundleLoop(letters, k + 1, configs);
        ([ShortFlag(letters[k])] + rest.0, rest.1)
  }

  /**
   * A bundle yields one flag per letter in order, except that a last letter
   * whose option takes values is left pending; unknown letters, and
   * value-taking letters that are not last, are flags too.
   */
  lemma {:induction false} BundleShape(letters: string, k: nat, configs: seq<ArgumentConfig>)
    requires k < |letters|
    ensures var last := ['-', letters[|letters| - 1]];
            var p := Pending(last, FindOptionConfig(last, configs));
            BundleLoop(letters, k, configs)
            == if TakesValue(p) then (Flags(letters[k..|letters| - 1]), Some(p)) else (Flags(letters[k..]), None)
    decreases |letters| - k
  {
    if k < |letters| - 1 {
      BundleShape(letters, k + 1, configs);
      assert letters[k..|letters| - 1] == [letters[k]] + letters[k + 1..|letters| - 1];
      assert letters[k..] == [letters[k]] + letters[k + 1..];
    } else {
      assert letters[k..] == [letters[k]];
      assert letters[k..|letters| - 1] == [];
    }
  }

  /** The tokens of one dash argument, and the option it leaves pending. */
  function DashArg(arg: string, configs: seq<ArgumentConfig>): (seq<Token>, Option<Pending>)
  {
    if StartsWith(arg, "--") then
      match SplitOnce(arg, '=')
      case Some((name, value)) => ([Token(OptionNameTok, [name]), Token(OptionValueTok, [value])], None)
      case None => ([], Some(Pending(arg, FindOptionConfig(arg, configs))))
    else if |arg| > 1 then BundleLoop(arg[1..], 0, configs)
    else ([], Some(Pending(arg, FindOptionConfig(arg, configs))))
  }

  /** `--name=value` is split at its first `=` into an option name and its value. */
  lemma {:induction false} LongOptionWithValue(name: string, value: string, configs: seq<ArgumentConfig>)
    requires StartsWith(name, "--") && '=' !in name
    ensures DashArg(name + "=" + value, configs) == ([Token(OptionNameTok, [name]), Token(OptionValueTok, [value])], None)
  {
    assert name + "=" + value == name + ['='] + value;
    assert (name + "=" + value)[..2] == name[..2];
    SplitOnceJoin(name, '=', value);
  }

  /** Every option value directly follows its option name. */
  predicate ValuesAttached(tokens: seq<Token>)
  {
    forall k | 0 <= k < |tokens| && tokens[k].kind == OptionValueTok :: k > 0 && tokens[k - 1].kind == OptionNameTok
  }

  /** Neither a program nor a subcommand token: getopt has no subcommands. */
  predicate ArgumentTokens(tokens: seq<Token>)
  {
    forall k | 0 <= k < |tokens| :: tokens[k].kind != ProgramTok && tokens[k].kind != SubcommandTok
  }

  predicate WellFormed(tokens: seq<Token>)
  {
    SingleValued(tokens) && ArgumentTokens(tokens) && ValuesAttached(tokens)
  }

  lemma {:induction false} WellFormedAppend(a: seq<Token>, b: seq<Token>)
    requires WellFormed(a) && WellFormed(b)
    ensures WellFormed(a + b)
  {
    var s := a + b;
    forall k | 0 <= k < |s| && s[k].kind == OptionValueTok
      ensures k > 0 && s[k - 1].kind == OptionNameTok
    {
      if k >= |a| {
        assert s[k] == b[k - |a|];
        assert s[k - 1] == b[k - |a| - 1];
      }
    }
  }

  lemma {:induction false} BundleWellFormed(letters: string, k: nat, configs: seq<ArgumentConfig>)
    requires k <= |letters|
    ensures WellFormed(BundleLoop(letters, k, configs).0)
    ensures forall t | t in BundleLoop(letters, k, configs).0 :: t.kind == FlagTok
    decreases |letters| - k
  {
    if k < |letters| {
      BundleWellFormed(letters, k + 1, configs);
    }
  }

  lemma {:induction false} DashArgWellFormed(arg: string, configs: seq<ArgumentConfig>)
    ensures WellFormed(DashArg(arg, configs).0)
  {
    if !StartsWith(arg, "--") && |arg| > 1 {
      BundleWellFormed(arg[1..], 0, configs);
    }
  }

  /** `_tokenize` from argument `i` on, in state `st`. */
  function Scan(args: seq<string>, i: nat, configs: seq<ArgumentConfig>, st: ScanState): (r: seq<Token>)
    requires i <= |args|
    ensures WellFormed(r)
    decreases |args| - i
  {
    if i == |args| then
      if st.pending.Some? then [Unresolved(st.pending.value)] else []
    else
      var arg := args[i];
      if arg == "--" then
        [Token(SeparatorTok, ["--"])] + Scan(args, i + 1, configs, st.(inOptions := false))
      else if st.inOptions && StartsWith(arg, "-") then
        // An option still waiting for a value gets none: it becomes a flag.
        var flushed := if st.pending.Some? then [Token(FlagTok, [st.pending.value.name])] else [];
        var d := DashArg(arg, configs);
        DashArgWellFormed(arg, configs);
        var rest := Scan(args, i + 1, configs, st.(pending := d.1));
        WellFormedAppend(flushed, d.0);
        WellFormedAppend(flushed + d.0, rest);
        flushed + d.0 + rest
      else if st.pending.Some? && TakesValue(st.pending.value) then
        var pair := [Token(OptionNameTok, [st.pending.value.name]), Token(OptionValueTok, [arg])];
        var rest := Scan(args, i + 1, configs, st.(pending := None));
        WellFormedAppend(pair, rest);
        pair + rest
      else
        // A pending option that takes no value stays pending.
        var rest := Scan(args, i + 1, configs, st);
        var t := Token(if st.inOptions then PositionalTok else ExtraTok, [arg]);
        WellFormedAppend([t], rest);
        [t] + rest
  }

  /** After `--`, with nothing pending, every argument is passed through verbatim. */
  lemma {:induction false} ScanAfterSeparator(args: seq<string>, i: nat, configs: seq<ArgumentConfig>, st: ScanState)
    requires i <= |args| && !st.inOptions && st.pending.None?
    ensures Scan(args, i, configs, st) == PassThrough(args[i..])
    decreases |args| - i
  {
    if i < |args| {
      ScanAfterSeparator(args, i + 1, configs, st);
      var t := Token(if args[i] == "--" then SeparatorTok else ExtraTok, [args[i]]);
      assert Scan(args, i, configs, st) == [t] + Scan(args, i + 1, configs, st) by {
        assert st.(inOptions := false) == st;
      }
      assert args[i..][1..] == args[i + 1..];
      assert PassThrough(args[i..]) == [t] + PassThrough(args[i + 1..]);
    }
  }

  /**
   * A plain argument that no pending option claims is a POSITIONAL_ARG
   * before `--` and an EXTRA_ARG after it; a pending option that takes no
   * value stays pending.
   */
  lemma {:induction false} PlainArgument(args: seq<string>, i: nat, configs: seq<ArgumentConfig>, st: ScanState)
    requires i < |args| && args[i] != "--" && !(st.inOptions && StartsWith(args[i], "-"))
    requires !(st.pending.Some? && TakesValue(st.pending.value))
    ensures Scan(args, i, configs, st) == [Token(if st.inOptions then PositionalTok else ExtraTok, [args[i]])] + Scan(args, i + 1, configs, st)
  {
  }

  /** A pending option that takes a value claims the next non-dash argument. */
  lemma {:induction false} PendingTakesNext(args: seq<string>, i: nat, configs: seq<ArgumentConfig>, st: ScanState)
    requires i < |args| && args[i] != "--" && !StartsWith(args[i], "-")
    requires st.pending.Some? && TakesValue(st.pending.value)
    ensures Scan(args, i, configs, st)[..2] == [Token(OptionNameTok, [st.pending.value.name]), Token(OptionValueTok, [args[i]])]
  {
  }

  /**
   * A dash argument that arrives while an option is pending gives that
   * option no value: it is emitted as a flag first, and the scan goes on as
   * if nothing had been pending.
   */
  lemma {:induction false} DashFlushesPending(args: seq<string>, i: nat, configs: seq<ArgumentConfig>, st: ScanState)
    requires i < |args| && args[i] != "--" && StartsWith(args[i], "-")
    requires st.inOptions && st.pending.Some?
    ensures Scan(args, i, configs, st) == [Token(FlagTok, [st.pending.value.name])] + Scan(args, i, configs, st.(pending := None))
  {
    var d := DashArg(args[i], configs);
    var rest := Scan(args, i + 1, configs, st.(pending := d.1));
    assert st.(pending := None).(pending := d.1) == st.(pending := d.1);
    assert Scan(args, i, configs, st.(pending := None)) == [] + d.0 + rest;
    assert [Token(FlagTok, [st.pending.value.name])] + ([] + d.0 + rest) == [Token(FlagTok, [st.pending.value.name])] + d.0 + rest;
  }

  /**
   * Before `--`, when the last argument is a dash argument that leaves an
   * option pending, the scan ends with that option unresolved: an OPTION_NAME
   * without a value if it takes values, a FLAG otherwise.
   */
  lemma {:induction false} PendingAtEnd(args: seq<string>, i: nat, configs: seq<ArgumentConfig>, st: ScanState, p: Pending)
    requires i < |args| && st.inOptions
    requires forall k | i <= k < |args| :: args[k] != "--"
    requires StartsWith(Last(args), "-") && DashArg(Last(args), configs).1 == Some(p)
    ensures |Scan(args, i, configs, st)| > 0
    ensures Last(Scan(args, i, configs, st)) == Token(if TakesValue(p) then OptionNameTok else FlagTok, [p.name])
    decreases |args| - i
  {
    var arg := args[i];
    var r := Scan(args, i, configs, st);
    if i == |args| - 1 {
      var flushed := if st.pending.Some? then [Token(FlagTok, [st.pending.value.name])] else [];
      var d := DashArg(arg, configs);
      assert Scan(args, i + 1, configs, st.(pending := d.1)) == [Unresolved(p)];
      assert r == flushed + d.0 + [Unresolved(p)];
      LastConcat(flushed + d.0, [Unresolved(p)]);
    } else {
      var next: ScanState, prefix: seq<Token>;
      if StartsWith(arg, "-") {
        var d := DashArg(arg, configs);
        next, prefix := st.(pending := d.1), (if st.pending.Some? then [Token(FlagTok, [st.pending.value.name])] else []) + d.0;
      } else if st.pending.Some? && TakesValue(st.pending.value) {
        next, prefix := st.(pending := None), [Token(OptionNameTok, [st.pending.value.name]), Token(OptionValueTok, [arg])];
      } else {
        next, prefix := st, [Token(PositionalTok, [arg])];
      }
      assert r == prefix + Scan(args, i + 1, configs, next);
      PendingAtEnd(args, i + 1, configs, next, p);
      LastConcat(prefix, Scan(args, i + 1, configs, next));
    }
  }

  /** `_tokenize`: the program name, then the scanned arguments. */
  function Tokenize(configs: seq<ArgumentConfig>, argv: seq<string>): (r: seq<Token>)
    ensures |argv| == 0 ==> r == []
    ensures |argv| > 0 ==> |r| > 0 && r[0] == Token(ProgramTok, [argv[0]]) && WellFormed(r[1..])
  {
    if |argv| == 0 then []
    else [Token(ProgramTok, [argv[0]])] + Scan(argv, 1, configs, Start)
  }

  // ---------------------------------------------------------------------------
  // Tree builder

  /** How many flag tokens are named `n`. */
  function FlagCount(tokens: seq<Token>, n: string): nat
  {
    if |tokens| == 0 then 0
    else (if tokens[0].kind == FlagTok && FirstValue(tokens[0]).GetOr("") == n then 1 else 0) + FlagCount(tokens[1..], n)
  }

  lemma {:induction false} FlagCountAppend(a: seq<Token>, b: seq<Token>, n: string)
    ensures FlagCount(a + b, n) == FlagCount(a, n) + FlagCount(b, n)
    decreases |a|
  {
    if |a| > 0 {
      assert (a + b)[1..] == a[1..] + b;
      FlagCountAppend(a[1..], b, n);
    } else {
      assert a + b == b;
    }
  }

  /** The number of option-value tokens at the front of `tokens`. */
  function LeadingValues(tokens: seq<Token>): (n: nat)
    ensures n <= |tokens|
    ensures forall k | 0 <= k < n :: tokens[k].kind == OptionValueTok
    ensures n < |tokens| ==> tokens[n].kind != OptionValueTok
  {
    if |tokens| > 0 && tokens[0].kind == OptionValueTok then 1 + LeadingValues(tokens[1..]) else 0
  }

  function FirstValues(tokens: seq<Token>): (r: seq<string>)
    ensures |r| == |tokens|
    ensures forall k | 0 <= k < |tokens| :: r[k] == FirstValue(tokens[k]).GetOr("")
  {
    if |tokens| == 0 then [] else [FirstValue(tokens[0]).GetOr("")] + FirstValues(tokens[1..])
  }

  /** The builder's state: arguments so far, flag counts, and the positional values collected. */
  datatype Acc = Acc(args: seq<CommandArg>, counts: map<string, nat>, positional: seq<string>)

  const EmptyAcc := Acc([], map[], [])

  /** One iteration of the loop of `_build_command_tree`: the tokens it leaves, and the new state. */
  function WalkStep(tokens: seq<Token>, acc: Acc): (r: (seq<Token>, Acc))
    requires |tokens| > 0
    ensures |r.0| < |tokens|
  {
    var t := tokens[0];
    if t.kind == FlagTok then
      var n := FirstValue(t).GetOr("");
      if n in acc.counts then (tokens[1..], acc.(counts := acc.counts[n := acc.counts[n] + 1]))
      else (tokens[1..], acc.(args := acc.args + [CommandArg(FlagArg, Some(n), [], 1, None)], counts := acc.counts[n := 1]))
    else if t.kind == OptionNameTok then
      // The option takes the values that follow it, and the loop resumes after them.
      var m := LeadingValues(tokens[1..]);
      var x := CommandArg(OptionArg, FirstValue(t), FirstValues(tokens[1..1 + m]), DefaultRepeat, None);
      (tokens[1 + m..], acc.(args := acc.args + [x]))
    else if t.kind == PositionalTok then
      (tokens[1..], acc.(positional := acc.positional + t.values))
    else if t.kind == ExtraTok then
      (tokens[1..], acc.(args := acc.args + [CommandArg(ExtraArg, None, t.values, DefaultRepeat, None)]))
    else (tokens[1..], acc)
  }

  /** The loop of `_build_command_tree` over the remaining tokens. */
  function Walk(tokens: seq<Token>, acc: Acc): Acc
    decreases |tokens|
  {
    if |tokens| == 0 then acc
    else
      var (rest, acc') := WalkStep(tokens, acc);
      Walk(rest, acc')
  }

  /** The pass that gives every flag argument its final count. */
  function SetRepeats(args: seq<CommandArg>, counts: map<string, nat>): (r: seq<CommandArg>)
    ensures |r| == |args|
    ensures forall i | 0 <= i < |args| :: r[i].kind == args[i].kind && r[i].optionName == args[i].optionName && r[i].values == args[i].values
  {
    if |args| == 0 then []
    else
      var a := args[0];
      var a' := if a.kind == FlagArg && a.optionName.Some? && a.optionName.value in counts then a.(repeat := counts[a.optionName.value]) else a;
      [a'] + SetRepeats(args[1..], counts)
  }

  lemma {:induction false} SetRepeatsOtherKind(args: seq<CommandArg>, counts: map<string, nat>, kind: ArgType)
    requires kind != FlagArg
    ensures OfKind(SetRepeats(args, counts), kind) == OfKind(args, kind)
    decreases |args|
  {
    if |args| > 0 {
      SetRepeatsOtherKind(args[1..], counts, kind);
    }
  }

  /** One option argument per option-name token, holding the run of values right after it. */
  function OptionArgs(tokens: seq<Token>): seq<CommandArg>
  {
    if |tokens| == 0 then []
    else if tokens[0].kind == OptionNameTok then
      var m := LeadingValues(tokens[1..]);
      [CommandArg(OptionArg, FirstValue(tokens[0]), FirstValues(tokens[1..1 + m]), DefaultRepeat, None)] + OptionArgs(tokens[1..])
    else OptionArgs(tokens[1..])
  }

  /** One extra argument per extra token. */
  function ExtraArgs(tokens: seq<Token>): seq<CommandArg>
  {
    if |tokens| == 0 then []
    else (if tokens[0].kind == ExtraTok then [CommandArg(ExtraArg, None, tokens[0].values, DefaultRepeat, None)] else [])
         + ExtraArgs(tokens[1..])
  }

  /** Option values carry no option argument of their own. */
  lemma {:induction false} SkipOptionValues(tokens: seq<Token>, m: nat)
    requires m <= |tokens| && forall k | 0 <= k < m :: tokens[k].kind == OptionValueTok
    ensures OptionArgs(tokens) == OptionArgs(tokens[m..])
    decreases m
  {
    if m > 0 {
      SkipOptionValues(tokens[1..], m - 1);
      assert tokens[1..][m - 1..] == tokens[m..];
    }
  }

  /** Option values carry no extra argument of their own. */
  lemma {:induction false} SkipExtraValues(tokens: seq<Token>, m: nat)
    requires m <= |tokens| && forall k | 0 <= k < m :: tokens[k].kind == OptionValueTok
    ensures ExtraArgs(tokens) == ExtraArgs(tokens[m..])
    decreases m
  {
    if m > 0 {
      SkipExtraValues(tokens[1..], m - 1);
      assert tokens[1..][m - 1..] == tokens[m..];
    }
  }

  /** Option values carry no positional value. */
  lemma {:induction false} SkipPositionalValues(tokens: seq<Token>, m: nat)
    requires m <= |tokens| && forall k | 0 <= k < m :: tokens[k].kind == OptionValueTok
    ensures ValuesOf(tokens, PositionalTok) == ValuesOf(tokens[m..], PositionalTok)
    decreases m
  {
    if m > 0 {
      SkipPositionalValues(tokens[1..], m - 1);
      assert tokens[1..][m - 1..] == tokens[m..];
      PositionalHead(tokens);
    }
  }

  lemma {:induction false} PositionalHead(tokens: seq<Token>)
    requires |tokens| > 0
    ensures ValuesOf(tokens, PositionalTok)
            == (if tokens[0].kind == PositionalTok then tokens[0].values else []) + ValuesOf(tokens[1..], PositionalTok)
  {
    ValuesOfAppend([tokens[0]], tokens[1..], PositionalTok);
    ValuesOfSingle(tokens[0], PositionalTok);
    assert [tokens[0]] + tokens[1..] == tokens;
  }

  lemma {:induction false} NameOptionStep(tokens: seq<Token>, acc: Acc)
    requires |tokens| > 0 && tokens[0].kind == OptionNameTok
    ensures OfKind(WalkStep(tokens, acc).1.args, OptionArg) + OptionArgs(WalkStep(tokens, acc).0) == OfKind(acc.args, OptionArg) + OptionArgs(tokens)
  {
    var m := LeadingValues(tokens[1..]);
    var x := CommandArg(OptionArg, FirstValue(tokens[0]), FirstValues(tokens[1..1 + m]), DefaultRepeat, None);
    assert WalkStep(tokens, acc) == (tokens[1 + m..], acc.(args := acc.args + [x]));
    assert OptionArgs(tokens[1..]) == OptionArgs(tokens[1 + m..]) by {
      SkipOptionValues(tokens[1..], m);
      assert tokens[1..][m..] == tokens[1 + m..];
    }
    OfKindAppend(acc.args, x, OptionArg);
  }

  lemma {:induction false} OtherOptionStep(tokens: seq<Token>, acc: Acc)
    requires |tokens| > 0 && tokens[0].kind != OptionNameTok
    ensures OfKind(WalkStep(tokens, acc).1.args, OptionArg) + OptionArgs(WalkStep(tokens, acc).0) == OfKind(acc.args, OptionArg) + OptionArgs(tokens)
  {
    var t := tokens[0];
    var acc' := WalkStep(tokens, acc).1;
    assert WalkStep(tokens, acc).0 == tokens[1..];
    assert OptionArgs(tokens) == OptionArgs(tokens[1..]);
    if t.kind == ExtraTok {
      var x := CommandArg(ExtraArg, None, t.values, DefaultRepeat, None);
      assert acc'.args == acc.args + [x];
      OfKindAppend(acc.args, x, OptionArg);
    } else if t.kind == FlagTok && FirstValue(t).GetOr("") !in acc.counts {
      var x := CommandArg(FlagArg, Some(FirstValue(t).GetOr("")), [], 1, None);
      assert acc'.args == acc.args + [x];
      OfKindAppend(acc.args, x, OptionArg);
    } else {
      assert acc'.args == acc.args;
    }
  }

  lemma {:induction false} NameExtraStep(tokens: seq<Token>, acc: Acc)
    requires |tokens| > 0 && tokens[0].kind == OptionNameTok
    ensures OfKind(WalkStep(tokens, acc).1.args, ExtraArg) + ExtraArgs(WalkStep(tokens, acc).0) == OfKind(acc.args, ExtraArg) + ExtraArgs(tokens)
  {
    var m := LeadingValues(tokens[1..]);
    var x := CommandArg(OptionArg, FirstValue(tokens[0]), FirstValues(tokens[1..1 + m]), DefaultRepeat, None);
    var w := WalkStep(tokens, acc);
    assert w == (tokens[1 + m..], acc.(args := acc.args + [x]));
    assert OfKind(w.1.args, ExtraArg) == OfKind(acc.args, ExtraArg) by {
      OfKindAppend(acc.args, x, ExtraArg);
    }
    assert ExtraArgs(w.0) == ExtraArgs(tokens) by {
      SkipExtraValues(tokens[1..], m);
      assert tokens[1..][m..] == tokens[1 + m..];
      assert ExtraArgs(tokens) == ExtraArgs(tokens[1..]);
    }
  }

  lemma {:induction false} OtherExtraStep(tokens: seq<Token>, acc: Acc)
    requires |tokens| > 0 && tokens[0].kind != OptionNameTok
    ensures OfKind(WalkStep(tokens, acc).1.args, ExtraArg) + ExtraArgs(WalkStep(tokens, acc).0) == OfKind(acc.args, ExtraArg) + ExtraArgs(tokens)
  {
    if tokens[0].kind == ExtraTok {
      ExtraTokExtraStep(tokens, acc);
    } else {
      NonExtraExtraStep(tokens, acc);
    }
  }

  /** An extra token becomes one extra argument. */
  lemma {:induction false} ExtraTokExtraStep(tokens: seq<Token>, acc: Acc)
    requires |tokens| > 0 && tokens[0].kind == ExtraTok
    ensures OfKind(WalkStep(tokens, acc).1.args, ExtraArg) + ExtraArgs(WalkStep(tokens, acc).0) == OfKind(acc.args, ExtraArg) + ExtraArgs(tokens)
  {
    var x := CommandArg(ExtraArg, None, tokens[0].values, DefaultRepeat, None);
    var w := WalkStep(tokens, acc);
    assert w == (tokens[1..], acc.(args := acc.args + [x]));
    assert OfKind(w.1.args, ExtraArg) == OfKind(acc.args, ExtraArg) + [x] by {
      OfKindAppend(acc.args, x, ExtraArg);
    }
    assert ExtraArgs(tokens) == [x] + ExtraArgs(w.0);
    assert (OfKind(acc.args, ExtraArg) + [x]) + ExtraArgs(w.0) == OfKind(acc.args, ExtraArg) + ([x] + ExtraArgs(w.0));
  }

  /** A flag, positional, separator or stray token adds no extra argument. */
  lemma {:induction false} NonExtraExtraStep(tokens: seq<Token>, acc: Acc)
    requires |tokens| > 0 && tokens[0].kind != OptionNameTok && tokens[0].kind != ExtraTok
    ensures OfKind(WalkStep(tokens, acc).1.args, ExtraArg) + ExtraArgs(WalkStep(tokens, acc).0) == OfKind(acc.args, ExtraArg) + ExtraArgs(tokens)
  {
    var t := tokens[0];
    var acc' := WalkStep(tokens, acc).1;
    assert WalkStep(tokens, acc).0 == tokens[1..];
    assert ExtraArgs(tokens) == ExtraArgs(tokens[1..]);
    assert OfKind(acc'.args, ExtraArg) == OfKind(acc.args, ExtraArg) by {
      if t.kind == FlagTok && FirstValue(t).GetOr("") !in acc.counts {
        var x := CommandArg(FlagArg, Some(FirstValue(t).GetOr("")), [], 1, None);
        assert acc'.args == acc.args + [x];
        OfKindAppend(acc.args, x, ExtraArg);
      } else {
        assert acc'.args == acc.args;
      }
    }
  }

  lemma {:induction false} NamePositionalStep(tokens: seq<Token>, acc: Acc)
    requires |tokens| > 0 && tokens[0].kind == OptionNameTok
    ensures OfKind(WalkStep(tokens, acc).1.args, PositionalArg) == OfKind(acc.args, PositionalArg)
    ensures WalkStep(tokens, acc).1.positional + ValuesOf(WalkStep(tokens, acc).0, PositionalTok) == acc.positional + ValuesOf(tokens, PositionalTok)
  {
    var m := LeadingValues(tokens[1..]);
    var x := CommandArg(OptionArg, FirstValue(tokens[0]), FirstValues(tokens[1..1 + m]), DefaultRepeat, None);
    var w := WalkStep(tokens, acc);
    NameStepSkips(tokens, acc);
    assert ValuesOf(tokens, PositionalTok) == ValuesOf(w.0, PositionalTok) by {
      PositionalHead(tokens);
      SkipPositionalValues(tokens[1..], m);
      assert tokens[1..][m..] == tokens[1 + m..];
    }
    assert OfKind(w.1.args, PositionalArg) == OfKind(acc.args, PositionalArg) by {
      OfKindAppend(acc.args, x, PositionalArg);
    }
    assert w.1.positional == acc.positional;
  }

  lemma {:induction false} OtherPositionalStep(tokens: seq<Token>, acc: Acc)
    requires |tokens| > 0 && tokens[0].kind != OptionNameTok
    ensures OfKind(WalkStep(tokens, acc).1.args, PositionalArg) == OfKind(acc.args, PositionalArg)
    ensures WalkStep(tokens, acc).1.positional + ValuesOf(WalkStep(tokens, acc).0, PositionalTok) == acc.positional + ValuesOf(tokens, PositionalTok)
  {
    var t := tokens[0];
    var acc' := WalkStep(tokens, acc).1;
    assert WalkStep(tokens, acc).0 == tokens[1..];
    PositionalHead(tokens);
    var later := ValuesOf(tokens[1..], PositionalTok);
    if t.kind == PositionalTok {
      assert acc'.args == acc.args && acc'.positional == acc.positional + t.values;
      assert ValuesOf(tokens, PositionalTok) == t.values + later;
      ConcatAssoc(acc.positional, t.values, later);
    } else {
      assert acc'.positional == acc.positional;
      assert ValuesOf(tokens, PositionalTok) == later by {
        assert [] + later == later;
      }
      if t.kind == ExtraTok {
        var x := CommandArg(ExtraArg, None, t.values, DefaultRepeat, None);
        assert acc'.args == acc.args + [x];
        OfKindAppend(acc.args, x, PositionalArg);
      } else if t.kind == FlagTok && FirstValue(t).GetOr("") !in acc.counts {
        var x := CommandArg(FlagArg, Some(FirstValue(t).GetOr("")), [], 1, None);
        assert acc'.args == acc.args + [x];
        OfKindAppend(acc.args, x, PositionalArg);
      } else {
        assert acc'.args == acc.args;
      }
    }
  }

  /** What the walk adds for option, extra and positional tokens, independently of the accumulator. */
  lemma {:induction false} WalkCollects(tokens: seq<Token>, acc: Acc)
    ensures OfKind(Walk(tokens, acc).args, OptionArg) == OfKind(acc.args, OptionArg) + OptionArgs(tokens)
    ensures OfKind(Walk(tokens, acc).args, ExtraArg) == OfKind(acc.args, ExtraArg) + ExtraArgs(tokens)
    ensures OfKind(Walk(tokens, acc).args, PositionalArg) == OfKind(acc.args, PositionalArg)
    ensures Walk(tokens, acc).positional == acc.positional + ValuesOf(tokens, PositionalTok)
    decreases |tokens|
  {
    if |tokens| > 0 {
      var (rest, acc') := WalkStep(tokens, acc);
      if tokens[0].kind == OptionNameTok {
        NameOptionStep(tokens, acc);
        NameExtraStep(tokens, acc);
        NamePositionalStep(tokens, acc);
      } else {
        OtherOptionStep(tokens, acc);
        OtherExtraStep(tokens, acc);
        OtherPositionalStep(tokens, acc);
      }
      WalkCollects(rest, acc');
    }
  }

  // ---------------------------------------------------------------------------
  // Flag counting

  /** How often `n` has been counted so far: 0 when it is not yet a key. */
  function Count(counts: map<string, nat>, n: string): nat
  {
    if n in counts then counts[n] else 0
  }

  function FlagName(t: Token): string
  {
    FirstValue(t).GetOr("")
  }

  /** The names of the flag tokens not in `seen`, each once, in order of first occurrence. */
  function FlagNames(tokens: seq<Token>, seen: set<string>): seq<string>
  {
    if |tokens| == 0 then []
    else if tokens[0].kind == FlagTok && FlagName(tokens[0]) !in seen then
      [FlagName(tokens[0])] + FlagNames(tokens[1..], seen + {FlagName(tokens[0])})
    else FlagNames(tokens[1..], seen)
  }

  /** The flag names are exactly the names flagged at least once and not seen before, without repetition. */
  lemma {:induction false} FlagNamesSpec(tokens: seq<Token>, seen: set<string>)
    ensures forall n :: n in FlagNames(tokens, seen) <==> n !in seen && FlagCount(tokens, n) > 0
    ensures forall i, j | 0 <= i < j < |FlagNames(tokens, seen)| :: FlagNames(tokens, seen)[i] != FlagNames(tokens, seen)[j]
    decreases |tokens|
  {
    if |tokens| > 0 {
      var t := tokens[0];
      if t.kind == FlagTok && FlagName(t) !in seen {
        FlagNamesSpec(tokens[1..], seen + {FlagName(t)});
      } else {
        FlagNamesSpec(tokens[1..], seen);
      }
    }
  }

  /** A fresh flag argument, counted once. */
  function NewFlag(n: string): CommandArg
  {
    CommandArg(FlagArg, Some(n), [], 1, None)
  }

  function NewFlags(names: seq<string>): (r: seq<CommandArg>)
    ensures |r| == |names|
  {
    if |names| == 0 then [] else [NewFlag(names[0])] + NewFlags(names[1..])
  }

  /** One flag argument per name, whose repeat is that name's count in `tokens`. */
  function CountedFlags(names: seq<string>, tokens: seq<Token>): (r: seq<CommandArg>)
    ensures |r| == |names|
  {
    if |names| == 0 then []
    else [CommandArg(FlagArg, Some(names[0]), [], FlagCount(tokens, names[0]), None)] + CountedFlags(names[1..], tokens)
  }

  /** The flag arguments `_build_command_tree` promises: one per flag name, at its first occurrence, with its count. */
  function FlagArgs(tokens: seq<Token>): seq<CommandArg>
  {
    CountedFlags(FlagNames(tokens, {}), tokens)
  }

  /** Option values are neither flags nor counted. */
  lemma {:induction false} SkipFlagValues(tokens: seq<Token>, m: nat, seen: set<string>)
    requires m <= |tokens| && forall k | 0 <= k < m :: tokens[k].kind == OptionValueTok
    ensures FlagNames(tokens, seen) == FlagNames(tokens[m..], seen)
    ensures forall n :: FlagCount(tokens, n) == FlagCount(tokens[m..], n)
    decreases m
  {
    if m > 0 {
      SkipFlagValues(tokens[1..], m - 1, seen);
      assert tokens[1..][m - 1..] == tokens[m..];
    }
  }

  /** A flag token: added as an argument when its name is new. */
  lemma {:induction false} FlagStepArgs(tokens: seq<Token>, acc: Acc)
    requires |tokens| > 0 && tokens[0].kind == FlagTok
    ensures OfKind(WalkStep(tokens, acc).1.args, FlagArg) + NewFlags(FlagNames(WalkStep(tokens, acc).0, WalkStep(tokens, acc).1.counts.Keys))
            == OfKind(acc.args, FlagArg) + NewFlags(FlagNames(tokens, acc.counts.Keys))
  {
    var n := FlagName(tokens[0]);
    var w := WalkStep(tokens, acc);
    if n in acc.counts {
      assert w.0 == tokens[1..] && w.1.args == acc.args && w.1.counts.Keys == acc.counts.Keys;
      assert FlagNames(tokens, acc.counts.Keys) == FlagNames(tokens[1..], acc.counts.Keys);
    } else {
      var keys := acc.counts.Keys + {n};
      var rest := FlagNames(tokens[1..], keys);
      assert w.0 == tokens[1..] && w.1.args == acc.args + [NewFlag(n)] && w.1.counts.Keys == keys;
      assert FlagNames(tokens, acc.counts.Keys) == [n] + rest;
      assert ([n] + rest)[1..] == rest;
      OfKindAppend(acc.args, NewFlag(n), FlagArg);
    }
  }

  /** A flag token: its name is counted once more. */
  lemma {:induction false} FlagStepCounts(tokens: seq<Token>, acc: Acc)
    requires |tokens| > 0 && tokens[0].kind == FlagTok
    ensures forall n :: Count(WalkStep(tokens, acc).1.counts, n) + FlagCount(WalkStep(tokens, acc).0, n) == Count(acc.counts, n) + FlagCount(tokens, n)
  {
    var f := FlagName(tokens[0]);
    assert WalkStep(tokens, acc).0 == tokens[1..];
    assert WalkStep(tokens, acc).1.counts == acc.counts[f := Count(acc.counts, f) + 1];
  }

  /** An option name with its values: no flag is added. */
  lemma {:induction false} NameFlagStepArgs(tokens: seq<Token>, acc: Acc)
    requires |tokens| > 0 && tokens[0].kind == OptionNameTok
    ensures OfKind(WalkStep(tokens, acc).1.args, FlagArg) + NewFlags(FlagNames(WalkStep(tokens, acc).0, WalkStep(tokens, acc).1.counts.Keys))
            == OfKind(acc.args, FlagArg) + NewFlags(FlagNames(tokens, acc.counts.Keys))
  {
    var m := LeadingValues(tokens[1..]);
    var x := CommandArg(OptionArg, FirstValue(tokens[0]), FirstValues(tokens[1..1 + m]), DefaultRepeat, None);
    var w := WalkStep(tokens, acc);
    assert w == (tokens[1 + m..], acc.(args := acc.args + [x]));
    assert OfKind(w.1.args, FlagArg) == OfKind(acc.args, FlagArg) by {
      OfKindAppend(acc.args, x, FlagArg);
    }
    assert FlagNames(tokens[1..], acc.counts.Keys) == FlagNames(w.0, acc.counts.Keys) by {
      SkipFlagValues(tokens[1..], m, acc.counts.Keys);
      assert tokens[1..][m..] == tokens[1 + m..];
    }
    assert FlagNames(tokens, acc.counts.Keys) == FlagNames(tokens[1..], acc.counts.Keys);
  }

  /** An option name with its values: no flag is counted. */
  lemma {:induction false} NameFlagStepCounts(tokens: seq<Token>, acc: Acc)
    requires |tokens| > 0 && tokens[0].kind == OptionNameTok
    ensures forall n :: Count(WalkStep(tokens, acc).1.counts, n) + FlagCount(WalkStep(tokens, acc).0, n) == Count(acc.counts, n) + FlagCount(tokens, n)
  {
    var m := LeadingValues(tokens[1..]);
    var w := WalkStep(tokens, acc);
    assert w.0 == tokens[1 + m..] && w.1.counts == acc.counts;
    SkipFlagValues(tokens[1..], m, acc.counts.Keys);
    assert tokens[1..][m..] == tokens[1 + m..];
    forall n ensures Count(w.1.counts, n) + FlagCount(w.0, n) == Count(acc.counts, n) + FlagCount(tokens, n) {
      assert FlagCount(tokens, n) == FlagCount(tokens[1..], n);
    }
  }

  /** A positional, extra, separator or stray token: no flag is counted or added. */
  lemma {:induction false} OtherFlagStep(tokens: seq<Token>, acc: Acc)
    requires |tokens| > 0 && tokens[0].kind != OptionNameTok && tokens[0].kind != FlagTok
    ensures OfKind(WalkStep(tokens, acc).1.args, FlagArg) + NewFlags(FlagNames(WalkStep(tokens, acc).0, WalkStep(tokens, acc).1.counts.Keys))
            == OfKind(acc.args, FlagArg) + NewFlags(FlagNames(tokens, acc.counts.Keys))
    ensures forall n :: Count(WalkStep(tokens, acc).1.counts, n) + FlagCount(WalkStep(tokens, acc).0, n) == Count(acc.counts, n) + FlagCount(tokens, n)
  {
    var acc' := WalkStep(tokens, acc).1;
    assert WalkStep(tokens, acc).0 == tokens[1..];
    assert acc'.counts == acc.counts;
    if |acc'.args| > |acc.args| {
      assert acc'.args == acc.args + [acc'.args[|acc.args|]];
      OfKindAppend(acc.args, acc'.args[|acc.args|], FlagArg);
    } else {
      assert acc'.args == acc.args;
    }
  }

  /** What the walk adds for flag tokens: each new name once, in order, and every occurrence counted. */
  lemma {:induction false} WalkFlags(tokens: seq<Token>, acc: Acc)
    ensures OfKind(Walk(tokens, acc).args, FlagArg) == OfKind(acc.args, FlagArg) + NewFlags(FlagNames(tokens, acc.counts.Keys))
    ensures forall n :: Count(Walk(tokens, acc).counts, n) == Count(acc.counts, n) + FlagCount(tokens, n)
    decreases |tokens|
  {
    if |tokens| > 0 {
      var (rest, acc') := WalkStep(tokens, acc);
      if tokens[0].kind == FlagTok {
        FlagStepArgs(tokens, acc);
        FlagStepCounts(tokens, acc);
      } else if tokens[0].kind == OptionNameTok {
        NameFlagStepArgs(tokens, acc);
        NameFlagStepCounts(tokens, acc);
      } else {
        OtherFlagStep(tokens, acc);
      }
      WalkFlags(rest, acc');
    }
  }

  lemma {:induction false} SetRepeatsFlags(args: seq<CommandArg>, counts: map<string, nat>)
    ensures OfKind(SetRepeats(args, counts), FlagArg) == SetRepeats(OfKind(args, FlagArg), counts)
    decreases |args|
  {
    if |args| > 0 {
      SetRepeatsFlags(args[1..], counts);
      var r := SetRepeats(args, counts);
      var tail := OfKind(args[1..], FlagArg);
      assert r == [r[0]] + SetRepeats(args[1..], counts);
      assert r[1..] == SetRepeats(args[1..], counts);
      assert OfKind(r, FlagArg) == (if r[0].kind == FlagArg then [r[0]] else []) + OfKind(r[1..], FlagArg);
      if args[0].kind == FlagArg {
        assert OfKind(args, FlagArg) == [args[0]] + tail;
        assert ([args[0]] + tail)[1..] == tail;
        assert SetRepeats([args[0]] + tail, counts) == [r[0]] + SetRepeats(tail, counts);
      } else {
        assert OfKind(args, FlagArg) == tail;
      }
    }
  }

  /** Giving the fresh flag arguments their counts yields one argument per name with that name's count. */
  lemma {:induction false} SetRepeatsCounted(names: seq<string>, counts: map<string, nat>, tokens: seq<Token>)
    requires forall k | 0 <= k < |names| :: names[k] in counts && counts[names[k]] == FlagCount(tokens, names[k])
    ensures SetRepeats(NewFlags(names), counts) == CountedFlags(names, tokens)
    decreases |names|
  {
    if |names| > 0 {
      SetRepeatsCounted(names[1..], counts, tokens);
      assert NewFlags(names)[1..] == NewFlags(names[1..]);
    }
  }

  // ---------------------------------------------------------------------------
  // The order of the arguments

  /**
   * The keys of the arguments the walk appends, in token order: a flag name
   * not in `seen` once, at its first occurrence; every option name; every
   * extra token.
   */
  function WalkKeys(tokens: seq<Token>, seen: set<string>): seq<ArgKey>
  {
    if |tokens| == 0 then []
    else
      var t := tokens[0];
      if t.kind == FlagTok && FlagName(t) !in seen then [(FlagArg, Some(FlagName(t)))] + WalkKeys(tokens[1..], seen + {FlagName(t)})
      else if t.kind == OptionNameTok then [(OptionArg, FirstValue(t))] + WalkKeys(tokens[1..], seen)
      else if t.kind == ExtraTok then [(ExtraArg, None)] + WalkKeys(tokens[1..], seen)
      else WalkKeys(tokens[1..], seen)
  }

  /** Option values add no key. */
  lemma {:induction false} SkipKeyValues(tokens: seq<Token>, m: nat, seen: set<string>)
    requires m <= |tokens| && forall k | 0 <= k < m :: tokens[k].kind == OptionValueTok
    ensures WalkKeys(tokens, seen) == WalkKeys(tokens[m..], seen)
    decreases m
  {
    if m > 0 {
      SkipKeyValues(tokens[1..], m - 1, seen);
      assert tokens[1..][m - 1..] == tokens[m..];
    }
  }

  /** An option name with its values appends the option's key. */
  lemma {:induction false} NameKeyStep(tokens: seq<Token>, acc: Acc)
    requires |tokens| > 0 && tokens[0].kind == OptionNameTok
    ensures ArgKeys(WalkStep(tokens, acc).1.args) + WalkKeys(WalkStep(tokens, acc).0, WalkStep(tokens, acc).1.counts.Keys)
            == ArgKeys(acc.args) + WalkKeys(tokens, acc.counts.Keys)
  {
    var x := CommandArg(OptionArg, FirstValue(tokens[0]), FirstValues(tokens[1..1 + LeadingValues(tokens[1..])]), DefaultRepeat, None);
    var w := WalkStep(tokens, acc);
    NameStepSkips(tokens, acc);
    assert w.1.args == acc.args + [x] && w.1.counts == acc.counts;
    assert WalkKeys(tokens, acc.counts.Keys) == [KeyOf(x)] + WalkKeys(tokens[1..], acc.counts.Keys);
    SnocKey(acc.args, x, WalkKeys(tokens[1..], acc.counts.Keys));
  }

  /** An option name consumes its values, which add no key, and leaves the seen names as they were. */
  lemma {:induction false} NameStepSkips(tokens: seq<Token>, acc: Acc)
    requires |tokens| > 0 && tokens[0].kind == OptionNameTok
    ensures var m := LeadingValues(tokens[1..]);
            WalkStep(tokens, acc)
            == (tokens[1 + m..], acc.(args := acc.args + [CommandArg(OptionArg, FirstValue(tokens[0]), FirstValues(tokens[1..1 + m]), DefaultRepeat, None)]))
    ensures WalkKeys(WalkStep(tokens, acc).0, acc.counts.Keys) == WalkKeys(tokens[1..], acc.counts.Keys)
  {
    var m := LeadingValues(tokens[1..]);
    SkipKeyValues(tokens[1..], m, acc.counts.Keys);
    assert tokens[1..][m..] == tokens[1 + m..];
  }

  /** A flag appends its key when its name is new; an extra token always does; other tokens add nothing. */
  lemma {:induction false} OtherKeyStep(tokens: seq<Token>, acc: Acc)
    requires |tokens| > 0 && tokens[0].kind != OptionNameTok
    ensures ArgKeys(WalkStep(tokens, acc).1.args) + WalkKeys(WalkStep(tokens, acc).0, WalkStep(tokens, acc).1.counts.Keys)
            == ArgKeys(acc.args) + WalkKeys(tokens, acc.counts.Keys)
  {
    var t := tokens[0];
    var w := WalkStep(tokens, acc);
    var seen := acc.counts.Keys;
    assert w.0 == tokens[1..];
    if t.kind == FlagTok && FlagName(t) !in acc.counts {
      var x := NewFlag(FlagName(t));
      assert w.1.args == acc.args + [x] && w.1.counts.Keys == seen + {FlagName(t)};
      assert WalkKeys(tokens, seen) == [KeyOf(x)] + WalkKeys(tokens[1..], seen + {FlagName(t)});
      SnocKey(acc.args, x, WalkKeys(tokens[1..], seen + {FlagName(t)}));
    } else if t.kind == FlagTok {
      assert w.1.args == acc.args && w.1.counts.Keys == seen;
      assert WalkKeys(tokens, seen) == WalkKeys(tokens[1..], seen);
    } else if t.kind == ExtraTok {
      var x := CommandArg(ExtraArg, None, t.values, DefaultRepeat, None);
      assert w.1.args == acc.args + [x] && w.1.counts == acc.counts;
      assert WalkKeys(tokens, seen) == [KeyOf(x)] + WalkKeys(tokens[1..], seen);
      SnocKey(acc.args, x, WalkKeys(tokens[1..], seen));
    } else {
      assert w.1.args == acc.args && w.1.counts == acc.counts;
      assert WalkKeys(tokens, seen) == WalkKeys(tokens[1..], seen);
    }
  }

  /** Appending one argument puts its key between the keys before it and whatever follows. */
  lemma {:induction false} SnocKey(args: seq<CommandArg>, x: CommandArg, rest: seq<ArgKey>)
    ensures ArgKeys(args + [x]) + rest == ArgKeys(args) + ([KeyOf(x)] + rest)
  {
    ArgKeysAppend(args, [x]);
  }

  /** The walk appends exactly the keys `WalkKeys` lists, in that order. */
  lemma {:induction false} WalkOrder(tokens: seq<Token>, acc: Acc)
    ensures ArgKeys(Walk(tokens, acc).args) == ArgKeys(acc.args) + WalkKeys(tokens, acc.counts.Keys)
    decreases |tokens|
  {
    if |tokens| > 0 {
      var (rest, acc') := WalkStep(tokens, acc);
      if tokens[0].kind == OptionNameTok {
        NameKeyStep(tokens, acc);
      } else {
        OtherKeyStep(tokens, acc);
      }
      WalkOrder(rest, acc');
    } else {
      assert WalkKeys(tokens, acc.counts.Keys) == [];
    }
  }

  // ---------------------------------------------------------------------------
  // The command tree

  /** The name of the merged positional argument: that of the first positional configuration, if any. */
  function PositionalName(configs: seq<ArgumentConfig>): (r: Option<string>)
    ensures r.None? <==> forall i | 0 <= i < |configs| :: !IsPositional(configs[i])
  {
    var ps := PositionalArguments(configs);
    if |ps| > 0 then Some(ps[0].name) else None
  }

  /** The name is taken from the first positional configuration in declaration order, whatever follows it. */
  lemma {:induction false} PositionalNameFirst(configs: seq<ArgumentConfig>, i: nat)
    requires i < |configs| && IsPositional(configs[i])
    requires forall j | 0 <= j < i :: !IsPositional(configs[j])
    ensures PositionalName(configs) == Some(configs[i].name)
  {
    var ps := PositionalArguments(configs);
    var k :| 0 <= k < |configs| && configs[k] == ps[0] && IsPositional(configs[k]) && forall j | 0 <= j < k :: !IsPositional(configs[j]);
    assert k == i;
  }

  /** All positional values as one argument, or nothing when there are none. */
  function PositionalTail(values: seq<string>, configs: seq<ArgumentConfig>): seq<CommandArg>
  {
    if |values| == 0 then [] else [CommandArg(PositionalArg, PositionalName(configs), values, DefaultRepeat, None)]
  }

  /**
   * `_build_command_tree`: a single root node named after the program; the
   * flag, option and extra arguments in token order, then the positional
   * values merged into one last argument.
   */
  function BuildCommandTree(tokens: seq<Token>, configs: seq<ArgumentConfig>): (r: Result<CommandNode>)
    ensures r.Err? <==> |tokens| == 0 || tokens[0].kind != ProgramTok
    ensures r.Err? ==> r.fault == ValueError
    ensures r.Ok? ==> r.value.name == FirstValue(tokens[0]).GetOr("") && r.value.subcommand.None?
  {
    if |tokens| == 0 || tokens[0].kind != ProgramTok then Err(ValueError)
    else
      var acc := Walk(tokens[1..], EmptyAcc);
      Ok(CommandNode(FirstValue(tokens[0]).GetOr(""), SetRepeats(acc.args, acc.counts) + PositionalTail(acc.positional, configs), None))
  }

  /** The flag arguments of a built tree: one per flag name, in order of first occurrence, repeated as often as it occurs. */
  lemma {:induction false} BuildCommandTreeFlags(tokens: seq<Token>, configs: seq<ArgumentConfig>)
    requires |tokens| > 0 && tokens[0].kind == ProgramTok
    ensures OfKind(BuildCommandTree(tokens, configs).value.arguments, FlagArg) == FlagArgs(tokens[1..])
  {
    var body := tokens[1..];
    var acc := Walk(body, EmptyAcc);
    var flags := SetRepeats(acc.args, acc.counts);
    var tail := PositionalTail(acc.positional, configs);
    assert BuildCommandTree(tokens, configs).value.arguments == flags + tail;
    WalkFlags(body, EmptyAcc);
    FlagNamesSpec(body, {});
    var names := FlagNames(body, {});
    assert EmptyAcc.counts.Keys == {};
    assert OfKind(acc.args, FlagArg) == NewFlags(names);
    forall k | 0 <= k < |names|
      ensures names[k] in acc.counts && acc.counts[names[k]] == FlagCount(body, names[k])
    {
      assert names[k] in names;
      assert Count(acc.counts, names[k]) == FlagCount(body, names[k]);
    }
    SetRepeatsFlags(acc.args, acc.counts);
    SetRepeatsCounted(names, acc.counts, body);
    if |tail| == 0 {
      assert flags + tail == flags;
    } else {
      OfKindAppend(flags, tail[0], FlagArg);
    }
  }

  /** The option, extra and positional arguments of a built tree. */
  lemma {:induction false} BuildCommandTreeCollects(tokens: seq<Token>, configs: seq<ArgumentConfig>)
    requires |tokens| > 0 && tokens[0].kind == ProgramTok
    ensures OfKind(BuildCommandTree(tokens, configs).value.arguments, OptionArg) == OptionArgs(tokens[1..])
    ensures OfKind(BuildCommandTree(tokens, configs).value.arguments, ExtraArg) == ExtraArgs(tokens[1..])
    ensures OfKind(BuildCommandTree(tokens, configs).value.arguments, PositionalArg) == PositionalTail(ValuesOf(tokens[1..], PositionalTok), configs)
  {
    var body := tokens[1..];
    var acc := Walk(body, EmptyAcc);
    var flags := SetRepeats(acc.args, acc.counts);
    var tail := PositionalTail(acc.positional, configs);
    assert BuildCommandTree(tokens, configs).value.arguments == flags + tail;
    WalkCollects(body, EmptyAcc);
    assert acc.positional == ValuesOf(body, PositionalTok);
    SetRepeatsOtherKind(acc.args, acc.counts, OptionArg);
    SetRepeatsOtherKind(acc.args, acc.counts, ExtraArg);
    SetRepeatsOtherKind(acc.args, acc.counts, PositionalArg);
    if |tail| == 0 {
      assert flags + tail == flags;
    } else {
      OfKindAppend(flags, tail[0], OptionArg);
      OfKindAppend(flags, tail[0], ExtraArg);
      OfKindAppend(flags, tail[0], PositionalArg);
    }
  }

  /**
   * The arguments of a built tree in order: flags at the first occurrence of
   * their names, options and extra arguments where their tokens are, and the
   * merged positional argument, if any, last.
   */
  lemma {:induction false} BuildCommandTreeOrder(tokens: seq<Token>, configs: seq<ArgumentConfig>)
    requires |tokens| > 0 && tokens[0].kind == ProgramTok
    ensures ArgKeys(BuildCommandTree(tokens, configs).value.arguments)
            == WalkKeys(tokens[1..], {})
               + (if ValuesOf(tokens[1..], PositionalTok) != [] then [(PositionalArg, PositionalName(configs))] else [])
  {
    var body := tokens[1..];
    var acc := Walk(body, EmptyAcc);
    var flags := SetRepeats(acc.args, acc.counts);
    var tail := PositionalTail(acc.positional, configs);
    assert BuildCommandTree(tokens, configs).value.arguments == flags + tail;
    assert ArgKeys(acc.args) == WalkKeys(body, {}) by {
      WalkOrder(body, EmptyAcc);
      assert EmptyAcc.counts.Keys == {} && ArgKeys(EmptyAcc.args) == [];
    }
    assert ArgKeys(flags) == ArgKeys(acc.args) by {
      forall k | 0 <= k < |flags|
        ensures ArgKeys(flags)[k] == ArgKeys(acc.args)[k]
      {
      }
    }
    assert ArgKeys(tail) == if ValuesOf(body, PositionalTok) != [] then [(PositionalArg, PositionalName(configs))] else [] by {
      WalkCollects(body, EmptyAcc);
    }
    ArgKeysAppend(flags, tail);
  }

  /** When there are positional values, their merged argument comes last. */
  lemma {:induction false} BuildCommandTreePositionalLast(tokens: seq<Token>, configs: seq<ArgumentConfig>)
    requires |tokens| > 0 && tokens[0].kind == ProgramTok && ValuesOf(tokens[1..], PositionalTok) != []
    ensures |BuildCommandTree(tokens, configs).value.arguments| > 0
    ensures Last(BuildCommandTree(tokens, configs).value.arguments)
            == CommandArg(PositionalArg, PositionalName(configs), ValuesOf(tokens[1..], PositionalTok), DefaultRepeat, None)
  {
    var acc := Walk(tokens[1..], EmptyAcc);
    var flags := SetRepeats(acc.args, acc.counts);
    var x := CommandArg(PositionalArg, PositionalName(configs), ValuesOf(tokens[1..], PositionalTok), DefaultRepeat, None);
    WalkCollects(tokens[1..], EmptyAcc);
    assert acc.positional == ValuesOf(tokens[1..], PositionalTok);
    assert PositionalTail(acc.positional, configs) == [x];
    assert BuildCommandTree(tokens, configs).value.arguments == flags + [x];
  }

  /** `parse`: tokenize the argument vector, then build the tree. */
  function Parse(config: ParserConfig, argv: seq<string>): (r: Result<CommandNode>)
    ensures r.Err? <==> |argv| == 0
    ensures r.Err? ==> r.fault == ValueError
    ensures r.Ok? ==> r.value.name == argv[0] && r.value.subcommand.None?
  {
    BuildCommandTree(Tokenize(config.arguments, argv), config.arguments)
  }

  // ---------------------------------------------------------------------------
  // Validation

  /** Whether `validate` counts the command argument `a` as given for the configuration `c`. */
  predicate ArgMatches(c: ArgumentConfig, a: CommandArg)
  {
    (Truthy(a.optionName) && a.optionName.value in c.opt)
    || (IsPositional(c) && a.kind == PositionalArg
        && (a.optionName == Some(c.name) || (!Truthy(a.optionName) && |c.opt| == 0)))
  }

  /** The first command argument given for `c`. */
  function FirstMatch(c: ArgumentConfig, args: seq<CommandArg>): Option<CommandArg>
  {
    FirstWhere(args, a => ArgMatches(c, a))
  }

  /** Extending the arguments keeps an earlier match, or else matches the new argument. */
  lemma {:induction false} FirstMatchSnoc(c: ArgumentConfig, args: seq<CommandArg>, a: CommandArg)
    ensures FirstMatch(c, args + [a]) == if FirstMatch(c, args).Some? then FirstMatch(c, args) else if ArgMatches(c, a) then Some(a) else None
  {
    FirstWhereSnoc(args, a, a => ArgMatches(c, a));
  }

  /** A configuration fails when its first matching argument has a value count it rejects, or when it is required and unmatched. */
  predicate Rejects(c: ArgumentConfig, args: seq<CommandArg>)
  {
    match FirstMatch(c, args)
    case Some(a) => !ValidateCount(c.nargs, |a.values|)
    case None => c.required
  }

  /** The scan over the root's arguments for one configuration, keeping the first match. */
  method FindFirstMatch(c: ArgumentConfig, args: seq<CommandArg>) returns (first: Option<CommandArg>)
    ensures first == FirstMatch(c, args)
  {
    first := None;
    var j := 0;
    while j < |args|
      invariant 0 <= j <= |args|
      invariant first == FirstMatch(c, args[..j])
    {
      FirstMatchSnoc(c, args[..j], args[j]);
      assert args[..j + 1] == args[..j] + [args[j]];
      if first.None? && ArgMatches(c, args[j]) {
        first := Some(args[j]);
      }
      j := j + 1;
    }
    assert args[..j] == args;
  }

  /** `validate`: every configuration is checked against the root's arguments; one failure fails the whole. */
  method Validate(configs: seq<ArgumentConfig>, node: CommandNode) returns (ok: bool)
    ensures ok <==> forall i | 0 <= i < |configs| :: !Rejects(configs[i], node.arguments)
  {
    ok := true;
    var i := 0;
    while i < |configs|
      invariant 0 <= i <= |configs|
      invariant ok <==> forall k | 0 <= k < i :: !Rejects(configs[k], node.arguments)
    {
      var c := configs[i];
      var first := FindFirstMatch(c, node.arguments);
      if first.Some? {
        if !ValidateCount(c.nargs, |first.value.values|) {
          ok := false;
        }
      } else if c.required {
        ok := false;
      }
      i := i + 1;
    }
  }
}

=== FILE: grammar.dfy ===
// A program's command-line grammar as the parser configuration describes it:
// argument configurations with their value counts (`nargs`), subcommand
// configurations that nest, and the parser style.
//
// The argument-count and argument-configuration classes are not part of this
// model; the predicates below give them the meaning their callers rely on
// (see README, "Left out").

module Grammar {
  import opened Util
  import Text

  /** An argument's value count: a fixed number, `?`, `+` or `*`. */
  datatype NArgs = Exactly(n: nat) | ZeroOrOne | OneOrMore | ZeroOrMore

  /** The textual form of a value count, as written in a parser configuration. */
  function NArgsSpec(nargs: NArgs): string
  {
    match nargs
    case Exactly(n) => Text.NatToString(n)
    case ZeroOrOne => "?"
    case OneOrMore => "+"
    case ZeroOrMore => "*"
  }

  /** Reading a value count: digits, `?`, `+` or `*`; anything else is rejected. */
  function ParseNArgs(spec: string): (r: Option<NArgs>)
    ensures r.Some? <==> Text.IsDigits(spec) || spec == "?" || spec == "+" || spec == "*"
    ensures Text.IsDigits(spec) ==> r == Some(Exactly(Text.ParseDigits(spec)))
  {
    if Text.IsDigits(spec) then Some(Exactly(Text.ParseDigits(spec)))
    else if spec == "?" then Some(ZeroOrOne)
    else if spec == "+" then Some(OneOrMore)
    else if spec == "*" then Some(ZeroOrMore)
    else None
  }

  /** Every value count reads back from its own textual form. */
  lemma {:induction false} ParseNArgsSpec(nargs: NArgs)
    ensures ParseNArgs(NArgsSpec(nargs)) == Some(nargs)
  {
    match nargs
    case Exactly(n) =>
      Text.ParseNatToString(n);
    case _ =>
  }

  /** Whether `count` values satisfy the value count. */
  predicate ValidateCount(nargs: NArgs, count: nat)
  {
    match nargs
    case Exactly(n) => count == n
    case ZeroOrOne => count <= 1
    case OneOrMore => count >= 1
    case ZeroOrMore => true
  }

  /** The fixed number of values, or 0 when the count is not fixed. */
  function ExactCount(nargs: NArgs): nat
  {
    if nargs.Exactly? then nargs.n else 0
  }

  /** The default `repeat` of an argument that is not a flag. */
  const DefaultRepeat: nat := 1

  datatype ArgumentConfig = ArgumentConfig(name: string, opt: seq<string>, nargs: NArgs, required: bool)

  predicate AcceptsValues(a: ArgumentConfig)
  {
    a.nargs != Exactly(0)
  }

  predicate IsPositional(a: ArgumentConfig)
  {
    |a.opt| == 0
  }

  predicate IsFlag(a: ArgumentConfig)
  {
    |a.opt| > 0 && a.nargs == Exactly(0)
  }

  predicate IsOption(a: ArgumentConfig)
  {
    |a.opt| > 0 && AcceptsValues(a)
  }

  predicate MatchesOption(a: ArgumentConfig, name: string)
  {
    name in a.opt
  }

  /** The option string every spelling of the argument is unified to. */
  function PrimaryOptionName(a: ArgumentConfig): string
  {
    if |a.opt| > 0 then a.opt[0] else a.name
  }

  datatype SubCommandConfig = SubCommandConfig(
    name: string,
    alias: seq<string>,
    arguments: seq<ArgumentConfig>,
    subCommands: seq<SubCommandConfig>)

  predicate MatchesSubcmdName(c: SubCommandConfig, name: string)
  {
    name == c.name || name in c.alias
  }

  datatype ParserType = Argparse | Getopt

  datatype ParserConfig = ParserConfig(
    parserType: ParserType,
    programName: string,
    arguments: seq<ArgumentConfig>,
    subCommands: seq<SubCommandConfig>)

  /** The positional argument configurations, in declaration order. */
  function PositionalArguments(configs: seq<ArgumentConfig>): (r: seq<ArgumentConfig>)
    ensures forall c :: c in r <==> c in configs && IsPositional(c)
    ensures |r| > 0 <==> exists i | 0 <= i < |configs| :: IsPositional(configs[i])
    ensures |r| > 0 ==> exists i | 0 <= i < |configs| ::
              configs[i] == r[0] && IsPositional(configs[i]) && forall j | 0 <= j < i :: !IsPositional(configs[j])
  {
    if |configs| == 0 then []
    else
      var rest := PositionalArguments(configs[1..]);
      PositionalShift(configs, rest);
      if IsPositional(configs[0]) then [configs[0]] + rest else rest
  }

  /** What the positional configurations after the first say about the whole list. */
  lemma {:induction false} PositionalShift(configs: seq<ArgumentConfig>, rest: seq<ArgumentConfig>)
    requires |configs| > 0
    requires forall c :: c in rest <==> c in configs[1..] && IsPositional(c)
    requires |rest| > 0 <==> exists i | 0 <= i < |configs[1..]| :: IsPositional(configs[1..][i])
    requires |rest| > 0 ==> exists i | 0 <= i < |configs[1..]| ::
               configs[1..][i] == rest[0] && IsPositional(configs[1..][i]) && forall j | 0 <= j < i :: !IsPositional(configs[1..][j])
    ensures forall c :: c in configs <==> c == configs[0] || c in configs[1..]
    ensures (exists i | 0 <= i < |configs| :: IsPositional(configs[i])) <==> IsPositional(configs[0]) || |rest| > 0
    ensures !IsPositional(configs[0]) && |rest| > 0 ==> exists i | 0 <= i < |configs| ::
              configs[i] == rest[0] && IsPositional(configs[i]) && forall j | 0 <= j < i :: !IsPositional(configs[j])
  {
    assert forall i | 0 <= i < |configs[1..]| :: configs[1..][i] == configs[i + 1];
    assert configs == [configs[0]] + configs[1..];
    if !IsPositional(configs[0]) && |rest| > 0 {
      var i :| 0 <= i < |configs[1..]| && configs[1..][i] == rest[0] && IsPositional(configs[1..][i])
               && forall j | 0 <= j < i :: !IsPositional(configs[1..][j]);
      forall j | 0 <= j < i + 1
        ensures !IsPositional(configs[j])
      {
        if j > 0 {
          assert configs[j] == configs[1..][j - 1];
        }
      }
    }
  }

  /** The positional configurations of two runs are those of the first run followed by those of the second: declaration order is kept. */
  lemma {:induction false} PositionalArgumentsAppend(a: seq<ArgumentConfig>, b: seq<ArgumentConfig>)
    ensures PositionalArguments(a + b) == PositionalArguments(a) + PositionalArguments(b)
    decreases |a|
  {
    if |a| == 0 {
      assert a + b == b;
    } else {
      assert (a + b)[0] == a[0];
      assert (a + b)[1..] == a[1..] + b;
      PositionalArgumentsAppend(a[1..], b);
      ConcatAssoc(if IsPositional(a[0]) then [a[0]] else [], PositionalArguments(a[1..]), PositionalArguments(b));
    }
  }
}

=== FILE: matcher.dfy ===
// Matching a parsed command against a program's stored command templates,
// and reading the template's placeholders back out of the parsed command.

module Matcher {
  import opened Util
  import opened Text
  import opened Tree
  import opened Dicts
  import Grammar
  import Parsers

  /** One stored command mapping: the operation and the tree its example command parses to. */
  datatype CmdMappingEntry = CmdMappingEntry(operation: string, cmdNode: CommandNode)

  /** The loaded mappings of one operation group: each program's `command_mappings`, a missing list read as empty. */
  type MappingConfig = map<string, seq<CmdMappingEntry>>

  /** The result of a successful mapping: `{operation_name, params}`. */
  datatype MappedOperation = MappedOperation(operationName: string, params: Dict<string>)

  // ---------------------------------------------------------------------------
  // Comparison

  /** Two value lists hold the same values, ignoring order and repetition. */
  ghost predicate SameValues(a: seq<string>, b: seq<string>)
  {
    forall v :: v in a <==> v in b
  }

  /** When two arguments count as the same: what each kind compares, and what it ignores. */
  ghost predicate ArgsAgree(a1: CommandArg, a2: CommandArg)
  {
    && a1.kind == a2.kind
    && (a1.kind == FlagArg ==> a1.optionName == a2.optionName && a1.repeat == a2.repeat)
    && (a1.kind == OptionArg ==> a1.optionName == a2.optionName)
    && ((a1.kind == OptionArg || a1.kind == PositionalArg) && !Truthy(a1.placeholder) && !Truthy(a2.placeholder)
        ==> SameValues(a1.values, a2.values))
  }

  function ValueSet(values: seq<string>): set<string>
  {
    set v | v in values
  }

  lemma {:induction false} ValueSetSame(a: seq<string>, b: seq<string>)
    ensures ValueSet(a) == ValueSet(b) <==> SameValues(a, b)
  {
    if SameValues(a, b) {
      assert forall v :: v in ValueSet(a) <==> v in ValueSet(b);
    } else {
      var v :| !(v in a <==> v in b);
      assert !(v in ValueSet(a) <==> v in ValueSet(b));
    }
  }

  /** `_compare_command_args`: the kinds, then per kind the name, the repeat count, or the set of values. */
  function CompareArgs(a1: CommandArg, a2: CommandArg): (r: bool)
    ensures r <==> ArgsAgree(a1, a2)
  {
    ValueSetSame(a1.values, a2.values);
    var free := Truthy(a1.placeholder) || Truthy(a2.placeholder);
    if a1.kind != a2.kind then false
    else if a1.kind == FlagArg then a1.optionName == a2.optionName && a1.repeat == a2.repeat
    else if a1.kind == OptionArg then a1.optionName == a2.optionName && (free || ValueSet(a1.values) == ValueSet(a2.values))
    else if a1.kind == PositionalArg then free || ValueSet(a1.values) == ValueSet(a2.values)
    else true
  }

  /** Argument comparison is reflexive and symmetric. */
  lemma {:induction false} CompareArgsEquivalence(a1: CommandArg, a2: CommandArg)
    ensures CompareArgs(a1, a1)
    ensures CompareArgs(a1, a2) == CompareArgs(a2, a1)
  {
  }

  /** The arguments of two nodes agree position by position. */
  predicate ArgsPairwise(args1: seq<CommandArg>, args2: seq<CommandArg>)
  {
    |args1| == |args2| && forall i | 0 <= i < |args1| :: CompareArgs(args1[i], args2[i])
  }

  /** `_compare_command_nodes_deep`: names, subcommand presence and subcommands, then the arguments by position. */
  function CompareNodes(n1: CommandNode, n2: CommandNode): bool
    decreases n1
  {
    if n1.name != n2.name then false
    else if n1.subcommand.None? != n2.subcommand.None? then false
    else if n1.subcommand.Some? && !CompareNodes(n1.subcommand.value, n2.subcommand.value) then false
    else ArgsPairwise(n1.arguments, n2.arguments)
  }

  /** One level of two chains: same name, and arguments that agree by position. */
  predicate LevelMatches(x: CommandNode, y: CommandNode)
  {
    x.name == y.name && ArgsPairwise(x.arguments, y.arguments)
  }

  /** Two commands match when their chains have the same length and match level by level. */
  predicate ChainsMatch(n1: CommandNode, n2: CommandNode)
  {
    |Chain(n1)| == |Chain(n2)| && forall d | 0 <= d < |Chain(n1)| :: LevelMatches(Chain(n1)[d], Chain(n2)[d])
  }

  lemma {:induction false} ChainOfChild(n: CommandNode)
    requires n.subcommand.Some?
    ensures Chain(n) == [n] + Chain(n.subcommand.value)
  {
  }

  /** Node comparison is exactly level-by-level matching of the two chains. */
  lemma {:induction false} CompareNodesChains(n1: CommandNode, n2: CommandNode)
    ensures CompareNodes(n1, n2) <==> ChainsMatch(n1, n2)
    decreases n1
  {
    if n1.subcommand.Some? && n2.subcommand.Some? {
      var c1 := n1.subcommand.value;
      var c2 := n2.subcommand.value;
      CompareNodesChains(c1, c2);
      ChainOfChild(n1);
      ChainOfChild(n2);
      if ChainsMatch(n1, n2) {
        forall d | 0 <= d < |Chain(c1)|
          ensures LevelMatches(Chain(c1)[d], Chain(c2)[d])
        {
          assert Chain(c1)[d] == Chain(n1)[d + 1];
          assert Chain(c2)[d] == Chain(n2)[d + 1];
        }
        assert LevelMatches(Chain(n1)[0], Chain(n2)[0]);
      }
      if CompareNodes(n1, n2) {
        forall d | 0 <= d < |Chain(n1)|
          ensures LevelMatches(Chain(n1)[d], Chain(n2)[d])
        {
          if d > 0 {
            assert Chain(n1)[d] == Chain(c1)[d - 1];
            assert Chain(n2)[d] == Chain(c2)[d - 1];
          }
        }
      }
    } else if n1.subcommand.None? && n2.subcommand.None? {
      assert Chain(n1) == [n1] && Chain(n2) == [n2];
    } else if n1.subcommand.Some? {
      ChainOfChild(n1);
      assert |Chain(n1)| >= 2 && Chain(n2) == [n2];
    } else {
      ChainOfChild(n2);
      assert |Chain(n2)| >= 2 && Chain(n1) == [n1];
    }
  }

  lemma {:induction false} CompareNodesReflexive(n: CommandNode)
    ensures CompareNodes(n, n)
    decreases n
  {
    if n.subcommand.Some? {
      CompareNodesReflexive(n.subcommand.value);
    }
    forall i | 0 <= i < |n.arguments|
      ensures CompareArgs(n.arguments[i], n.arguments[i])
    {
      CompareArgsEquivalence(n.arguments[i], n.arguments[i]);
    }
  }

  lemma {:induction false} CompareNodesSymmetric(n1: CommandNode, n2: CommandNode)
    ensures CompareNodes(n1, n2) == CompareNodes(n2, n1)
    decreases n1
  {
    if n1.subcommand.Some? && n2.subcommand.Some? {
      CompareNodesSymmetric(n1.subcommand.value, n2.subcommand.value);
    }
    if |n1.arguments| == |n2.arguments| {
      forall i | 0 <= i < |n1.arguments|
        ensures CompareArgs(n1.arguments[i], n2.arguments[i]) == CompareArgs(n2.arguments[i], n1.arguments[i])
      {
        CompareArgsEquivalence(n1.arguments[i], n2.arguments[i]);
      }
    }
  }

  /** The comparison is by position, not by multiset: swapping two arguments of different kinds breaks the match. */
  lemma {:induction false} CompareNodesOrderSensitive()
    ensures var f := CommandArg(FlagArg, Some("-y"), [], 1, None);
            var p := CommandArg(PositionalArg, None, ["vim"], 1, None);
            !CompareNodes(CommandNode("apt", [f, p], None), CommandNode("apt", [p, f], None))
  {
    var f := CommandArg(FlagArg, Some("-y"), [], 1, None);
    var p := CommandArg(PositionalArg, None, ["vim"], 1, None);
    assert !CompareArgs([f, p][0], [p, f][0]);
  }

  // ---------------------------------------------------------------------------
  // Finding the template

  /** `_find_matching_mapping`: the first of the program's templates that matches, tried in list order. */
  function FindMatchingMapping(mappings: MappingConfig, source: CommandNode): (r: Option<CmdMappingEntry>)
    ensures source.name !in mappings ==> r.None?
    ensures source.name in mappings ==>
              (r.None? <==> forall i | 0 <= i < |mappings[source.name]| :: !ChainsMatch(source, mappings[source.name][i].cmdNode))
    ensures r.Some? ==>
              source.name in mappings
              && exists i | 0 <= i < |mappings[source.name]| ::
                   mappings[source.name][i] == r.value && ChainsMatch(source, r.value.cmdNode)
                   && forall j | 0 <= j < i :: !ChainsMatch(source, mappings[source.name][j].cmdNode)
  {
    if source.name !in mappings then None
    else
      var entries := mappings[source.name];
      forall e: CmdMappingEntry
        ensures CompareNodes(source, e.cmdNode) <==> ChainsMatch(source, e.cmdNode)
      {
        CompareNodesChains(source, e.cmdNode);
      }
      FirstWhere(entries, (e: CmdMappingEntry) => CompareNodes(source, e.cmdNode))
  }

  // ---------------------------------------------------------------------------
  // Extraction

  /** The bindings one level yields: for each position both lists have, a placeholder with source values binds their join. */
  function ArgBindings(sargs: seq<CommandArg>, margs: seq<CommandArg>): (r: seq<(string, string)>)
    ensures forall b :: b in r <==>
              exists i | 0 <= i < |sargs| && i < |margs| ::
                Truthy(margs[i].placeholder) && |sargs[i].values| > 0
                && b == (margs[i].placeholder.value, Join(sargs[i].values, " "))
  {
    if |sargs| == 0 || |margs| == 0 then []
    else
      var rest := ArgBindings(sargs[1..], margs[1..]);
      assert forall b :: b in rest <==>
               exists i | 1 <= i < |sargs| && i < |margs| ::
                 Truthy(margs[i].placeholder) && |sargs[i].values| > 0
                 && b == (margs[i].placeholder.value, Join(sargs[i].values, " ")) by {
        forall b
          ensures b in rest ==>
                    exists i | 1 <= i < |sargs| && i < |margs| ::
                      Truthy(margs[i].placeholder) && |sargs[i].values| > 0
                      && b == (margs[i].placeholder.value, Join(sargs[i].values, " "))
        {
          if b in rest {
            var i :| 0 <= i < |sargs[1..]| && i < |margs[1..]|
                     && Truthy(margs[1..][i].placeholder) && |sargs[1..][i].values| > 0
                     && b == (margs[1..][i].placeholder.value, Join(sargs[1..][i].values, " "));
            assert margs[1..][i] == margs[i + 1] && sargs[1..][i] == sargs[i + 1];
          }
        }
        forall b, i | 1 <= i < |sargs| && i < |margs|
                      && Truthy(margs[i].placeholder) && |sargs[i].values| > 0
                      && b == (margs[i].placeholder.value, Join(sargs[i].values, " "))
          ensures b in rest
        {
          assert margs[1..][i - 1] == margs[i] && sargs[1..][i - 1] == sargs[i];
        }
      }
      if Truthy(margs[0].placeholder) && |sargs[0].values| > 0 then
        [(margs[0].placeholder.value, Join(sargs[0].values, " "))] + rest
      else rest
  }

  /** The bindings of all levels both chains reach, outermost first. */
  function LevelBindings(schain: seq<CommandNode>, mchain: seq<CommandNode>): seq<(string, string)>
  {
    if |schain| == 0 || |mchain| == 0 then []
    else ArgBindings(schain[0].arguments, mchain[0].arguments) + LevelBindings(schain[1..], mchain[1..])
  }

  /** Every binding extraction makes, in the order it makes them. */
  function Bindings(source: CommandNode, mapping: CommandNode): seq<(string, string)>
  {
    LevelBindings(Chain(source), Chain(mapping))
  }

  /** The loop over one level's argument pairs. */
  function BindArgs(sargs: seq<CommandArg>, margs: seq<CommandArg>, d: Dict<string>): Dict<string>
  {
    if |sargs| == 0 || |margs| == 0 then d
    else
      var m := margs[0];
      var d' := if Truthy(m.placeholder) && |sargs[0].values| > 0 then Put(d, m.placeholder.value, Join(sargs[0].values, " ")) else d;
      BindArgs(sargs[1..], margs[1..], d')
  }

  /** `extract_from_node`: bind this level, then descend while both nodes have a child. */
  function ExtractFrom(source: CommandNode, mapping: CommandNode, d: Dict<string>): Dict<string>
    decreases source
  {
    var d' := BindArgs(source.arguments, mapping.arguments, d);
    if source.subcommand.Some? && mapping.subcommand.Some? then ExtractFrom(source.subcommand.value, mapping.subcommand.value, d')
    else d'
  }

  lemma {:induction false} BindArgsPutAll(sargs: seq<CommandArg>, margs: seq<CommandArg>, d: Dict<string>)
    ensures BindArgs(sargs, margs, d) == PutAll(d, ArgBindings(sargs, margs))
    decreases |sargs|
  {
    if |sargs| > 0 && |margs| > 0 {
      var m := margs[0];
      var d' := if Truthy(m.placeholder) && |sargs[0].values| > 0 then Put(d, m.placeholder.value, Join(sargs[0].values, " ")) else d;
      BindArgsPutAll(sargs[1..], margs[1..], d');
      var rest := ArgBindings(sargs[1..], margs[1..]);
      if Truthy(m.placeholder) && |sargs[0].values| > 0 {
        var b := (m.placeholder.value, Join(sargs[0].values, " "));
        assert ([b] + rest)[0] == b && ([b] + rest)[1..] == rest;
      }
    }
  }

  lemma {:induction false} ExtractPutAll(source: CommandNode, mapping: CommandNode, d: Dict<string>)
    ensures ExtractFrom(source, mapping, d) == PutAll(d, Bindings(source, mapping))
    decreases source
  {
    var level := ArgBindings(source.arguments, mapping.arguments);
    var d' := BindArgs(source.arguments, mapping.arguments, d);
    BindArgsPutAll(source.arguments, mapping.arguments, d);
    var sc := Chain(source);
    var mc := Chain(mapping);
    if source.subcommand.Some? && mapping.subcommand.Some? {
      ExtractPutAll(source.subcommand.value, mapping.subcommand.value, d');
      ChainOfChild(source);
      ChainOfChild(mapping);
      assert sc[1..] == Chain(source.subcommand.value) && mc[1..] == Chain(mapping.subcommand.value);
      assert Bindings(source, mapping) == level + Bindings(source.subcommand.value, mapping.subcommand.value);
      PutAllAppend(d, level, Bindings(source.subcommand.value, mapping.subcommand.value));
    } else {
      assert sc == [source] || mc == [mapping];
      assert LevelBindings(sc[1..], mc[1..]) == [];
      assert Bindings(source, mapping) == level + [];
      assert level + [] == level;
    }
  }

  /** `_extract_parameter_values`: the parameters bound while walking both trees. */
  function ExtractParameterValues(source: CommandNode, mapping: CommandNode): (r: Dict<string>)
    ensures forall p :: Get(r, p) == LastFor(Bindings(source, mapping), p)
  {
    var empty: Dict<string> := [];
    var r := ExtractFrom(source, mapping, empty);
    ExtractPutAll(source, mapping, empty);
    forall p
      ensures Get(r, p) == LastFor(Bindings(source, mapping), p)
    {
      GetPutAll(empty, Bindings(source, mapping), p);
      assert Get(empty, p) == None;
    }
    r
  }

  // ---------------------------------------------------------------------------
  // Mapping a command line

  /**
   * `map_to_operation`: parse, validate, find the first matching template and
   * extract its parameters. A parse error propagates; a rejected command or
   * no match gives no result. The destination group is only logged.
   */
  function MapToOperation(mappings: MappingConfig, config: Grammar.ParserConfig, cmdline: seq<string>, dstGroup: string)
    : (r: Result<Option<MappedOperation>>)
    ensures r.Err? <==> Parsers.Parse(config, cmdline).Err?
    ensures r.Ok? && r.value.Some? ==>
              var node := Parsers.Parse(config, cmdline).value;
              && Parsers.Accepts(config, node)
              && node.name in mappings
              && exists e | e in mappings[node.name] ::
                   ChainsMatch(node, e.cmdNode) && r.value.value == MappedOperation(e.operation, ExtractParameterValues(node, e.cmdNode))
    ensures r.Ok? && r.value.Some? ==>
              var node := Parsers.Parse(config, cmdline).value;
              var first := FindMatchingMapping(mappings, node);
              first.Some? && r.value.value == MappedOperation(first.value.operation, ExtractParameterValues(node, first.value.cmdNode))
    ensures r.Ok? && r.value.None? ==>
              var node := Parsers.Parse(config, cmdline).value;
              !Parsers.Accepts(config, node) || FindMatchingMapping(mappings, node).None?
  {
    var node :- Parsers.Parse(config, cmdline);
    if !Parsers.Accepts(config, node) then Ok(None)
    else
      match FindMatchingMapping(mappings, node)
      case None => Ok(None)
      case Some(e) => Ok(Some(MappedOperation(e.operation, ExtractParameterValues(node, e.cmdNode))))
  }

  /** The destination group never changes the outcome. */
  lemma {:induction false} MapToOperationIgnoresGroup(mappings: MappingConfig, config: Grammar.ParserConfig, cmdline: seq<string>, g1: string, g2: string)
    ensures MapToOperation(mappings, config, cmdline, g1) == MapToOperation(mappings, config, cmdline, g2)
  {
  }
}

=== FILE: op_index.dfy ===
// The operation index of a domain: which programs implement each operation,
// and each program's command formats, built from the domain's operation
// files. The cache-side builder also records `final_cmd_format` under the
// operation's name with a `_final` suffix and returns the index; the older
// configuration-side builder records no final formats and only reports
// success.

module OpIndex {
  import opened Util
  import opened Dicts
  import opened Sorting
  import opened Synthesis

  /** An operation's settings (`cmd_format`, `final_cmd_format`, ...). */
  type OpConfig = map<string, string>

  /** A file's `operations` table, in file order. */
  type OpsTable = seq<(string, OpConfig)>

  /**
   * A `*.toml` file of the domain directory: its stem, and its operations
   * table, which is empty when the file has none and `None` when the file
   * cannot be parsed.
   */
  type DomainFile = (string, Option<OpsTable>)

  /** `operation_to_program` and `command_formats`, in insertion order. */
  datatype OperationIndex = OperationIndex(operationToProgram: Dict<seq<string>>, commandFormats: Dict<Dict<string>>)

  const EmptyIndex := OperationIndex([], [])

  /** The key a final command format is stored under is the operation name with this suffix. */
  const FinalSuffix := "_final"

  /** The programs listed for an operation, none when it is not indexed. */
  function ProgramsOf(ix: OperationIndex, op: string): seq<string>
  {
    Get(ix.operationToProgram, op).GetOr([])
  }

  // ---------------------------------------------------------------------------
  // Command formats

  /** `b` is a format the operation `entry` of `program` stores. */
  predicate FormatFrom(program: string, entry: (string, OpConfig), withFinal: bool, b: (string, string))
  {
    var name := OperationName(entry.0, program);
    ("cmd_format" in entry.1 && b == (name, entry.1["cmd_format"]))
    || (withFinal && "final_cmd_format" in entry.1 && b == (name + FinalSuffix, entry.1["final_cmd_format"]))
  }

  /** What one operation writes into its program's format map, in order. */
  function EntryFormats(program: string, entry: (string, OpConfig), withFinal: bool): (r: seq<(string, string)>)
    ensures forall b :: b in r <==> FormatFrom(program, entry, withFinal, b)
  {
    var name := OperationName(entry.0, program);
    (if "cmd_format" in entry.1 then [(name, entry.1["cmd_format"])] else [])
    + (if withFinal && "final_cmd_format" in entry.1 then [(name + FinalSuffix, entry.1["final_cmd_format"])] else [])
  }

  /** What a table writes into its program's format map, in order. */
  function FormatBindings(program: string, ops: OpsTable, withFinal: bool): (r: seq<(string, string)>)
    ensures forall b | b in r :: exists j | 0 <= j < |ops| :: FormatFrom(program, ops[j], withFinal, b)
    ensures forall j, b | 0 <= j < |ops| && FormatFrom(program, ops[j], withFinal, b) :: b in r
  {
    if |ops| == 0 then []
    else
      var r := FormatBindings(program, Init(ops), withFinal) + EntryFormats(program, Last(ops), withFinal);
      assert forall j | 0 <= j < |ops| - 1 :: Init(ops)[j] == ops[j];
      r
  }

  // ---------------------------------------------------------------------------
  // Building the index

  /** Indexing one operation of `program`. */
  function AddOperation(ix: OperationIndex, program: string, entry: (string, OpConfig), withFinal: bool): (r: OperationIndex)
    ensures var name := OperationName(entry.0, program);
            ProgramsOf(r, name) == (if program in ProgramsOf(ix, name) then ProgramsOf(ix, name) else ProgramsOf(ix, name) + [program])
            && Get(r.operationToProgram, name).Some?
            && (forall op | op != name :: Get(r.operationToProgram, op) == Get(ix.operationToProgram, op))
    ensures Get(r.commandFormats, program) == Some(PutAll(Get(ix.commandFormats, program).GetOr([]), EntryFormats(program, entry, withFinal)))
    ensures forall p | p != program :: Get(r.commandFormats, p) == Get(ix.commandFormats, p)
  {
    var name := OperationName(entry.0, program);
    var programs := ProgramsOf(ix, name);
    var otp := Put(ix.operationToProgram, name, if program in programs then programs else programs + [program]);
    var formats := Get(ix.commandFormats, program).GetOr([]);
    var withFormat := if "cmd_format" in entry.1 then Put(formats, name, entry.1["cmd_format"]) else formats;
    var withFinalFormat :=
      if withFinal && "final_cmd_format" in entry.1 then Put(withFormat, name + FinalSuffix, entry.1["final_cmd_format"]) else withFormat;
    assert withFinalFormat == PutAll(formats, EntryFormats(program, entry, withFinal)) by {
      var a := if "cmd_format" in entry.1 then [(name, entry.1["cmd_format"])] else [];
      var b := if withFinal && "final_cmd_format" in entry.1 then [(name + FinalSuffix, entry.1["final_cmd_format"])] else [];
      PutAllAppend(formats, a, b);
      assert PutAll(formats, a) == withFormat by { PutAllOne(formats, a); }
      PutAllOne(withFormat, b);
    }
    OperationIndex(otp, Put(ix.commandFormats, program, withFinalFormat))
  }

  lemma {:induction false} PutAllOne(d: Dict<string>, b: seq<(string, string)>)
    requires |b| <= 1
    ensures PutAll(d, b) == if |b| == 0 then d else Put(d, b[0].0, b[0].1)
  {
    if |b| == 1 {
      assert b[1..] == [];
    }
  }

  /** Some operation of the table is named `op` once its `.program` suffix is dropped. */
  predicate ImplementsIn(program: string, ops: OpsTable, op: string)
  {
    exists j | 0 <= j < |ops| :: OperationName(ops[j].0, program) == op
  }

  /** Indexing a parsed file's operations in order; a file without operations adds no program entry. */
  function AddTable(ix: OperationIndex, program: string, ops: OpsTable, withFinal: bool): (r: OperationIndex)
    ensures forall op :: ProgramsOf(r, op) == (if ImplementsIn(program, ops, op) && program !in ProgramsOf(ix, op) then ProgramsOf(ix, op) + [program] else ProgramsOf(ix, op))
    ensures forall op :: Get(r.operationToProgram, op).Some? <==> Get(ix.operationToProgram, op).Some? || ImplementsIn(program, ops, op)
    ensures Get(r.commandFormats, program) == if |ops| == 0 then Get(ix.commandFormats, program)
                                             else Some(PutAll(Get(ix.commandFormats, program).GetOr([]), FormatBindings(program, ops, withFinal)))
    ensures forall p | p != program :: Get(r.commandFormats, p) == Get(ix.commandFormats, p)
    decreases |ops|
  {
    if |ops| == 0 then ix
    else
      var prior := AddTable(ix, program, Init(ops), withFinal);
      var r := AddOperation(prior, program, Last(ops), withFinal);
      AddTableStep(ix, program, ops, withFinal, prior, r);
      r
  }

  lemma {:induction false} ImplementsInStep(program: string, ops: OpsTable, op: string)
    requires |ops| > 0
    ensures ImplementsIn(program, ops, op) <==> ImplementsIn(program, Init(ops), op) || op == OperationName(Last(ops).0, program)
  {
    if ImplementsIn(program, ops, op) {
      var j :| 0 <= j < |ops| && OperationName(ops[j].0, program) == op;
      if j < |ops| - 1 {
        assert Init(ops)[j] == ops[j];
      }
    }
    if ImplementsIn(program, Init(ops), op) {
      var j :| 0 <= j < |Init(ops)| && OperationName(Init(ops)[j].0, program) == op;
      assert Init(ops)[j] == ops[j];
    }
    assert ops[|ops| - 1] == Last(ops);
  }

  lemma {:induction false} AddTableStep(ix: OperationIndex, program: string, ops: OpsTable, withFinal: bool, prior: OperationIndex, r: OperationIndex)
    requires |ops| > 0
    requires forall op :: ProgramsOf(prior, op) == (if ImplementsIn(program, Init(ops), op) && program !in ProgramsOf(ix, op) then ProgramsOf(ix, op) + [program] else ProgramsOf(ix, op))
    requires forall op :: Get(prior.operationToProgram, op).Some? <==> Get(ix.operationToProgram, op).Some? || ImplementsIn(program, Init(ops), op)
    requires Get(prior.commandFormats, program) == if |Init(ops)| == 0 then Get(ix.commandFormats, program)
                                                   else Some(PutAll(Get(ix.commandFormats, program).GetOr([]), FormatBindings(program, Init(ops), withFinal)))
    requires r == AddOperation(prior, program, Last(ops), withFinal)
    ensures forall op :: ProgramsOf(r, op) == (if ImplementsIn(program, ops, op) && program !in ProgramsOf(ix, op) then ProgramsOf(ix, op) + [program] else ProgramsOf(ix, op))
    ensures forall op :: Get(r.operationToProgram, op).Some? <==> Get(ix.operationToProgram, op).Some? || ImplementsIn(program, ops, op)
    ensures Get(r.commandFormats, program) == Some(PutAll(Get(ix.commandFormats, program).GetOr([]), FormatBindings(program, ops, withFinal)))
  {
    forall op
      ensures ProgramsOf(r, op) == (if ImplementsIn(program, ops, op) && program !in ProgramsOf(ix, op) then ProgramsOf(ix, op) + [program] else ProgramsOf(ix, op))
      ensures Get(r.operationToProgram, op).Some? <==> Get(ix.operationToProgram, op).Some? || ImplementsIn(program, ops, op)
    {
      ImplementsInStep(program, ops, op);
      ProgramsStep(ix, program, Init(ops), Last(ops), withFinal, prior, r, op);
    }
    TableFormatsStep(ix, program, ops, withFinal, prior, r);
  }

  lemma {:induction false} ProgramsStep(ix: OperationIndex, program: string, init: OpsTable, last: (string, OpConfig), withFinal: bool,
                     prior: OperationIndex, r: OperationIndex, op: string)
    requires ProgramsOf(prior, op) == (if ImplementsIn(program, init, op) && program !in ProgramsOf(ix, op) then ProgramsOf(ix, op) + [program] else ProgramsOf(ix, op))
    requires Get(prior.operationToProgram, op).Some? <==> Get(ix.operationToProgram, op).Some? || ImplementsIn(program, init, op)
    requires r == AddOperation(prior, program, last, withFinal)
    ensures var now := ImplementsIn(program, init, op) || op == OperationName(last.0, program);
            ProgramsOf(r, op) == (if now && program !in ProgramsOf(ix, op) then ProgramsOf(ix, op) + [program] else ProgramsOf(ix, op))
            && (Get(r.operationToProgram, op).Some? <==> Get(ix.operationToProgram, op).Some? || now)
  {
    if op != OperationName(last.0, program) {
      assert Get(r.operationToProgram, op) == Get(prior.operationToProgram, op);
    }
  }

  lemma {:induction false} TableFormatsStep(ix: OperationIndex, program: string, ops: OpsTable, withFinal: bool, prior: OperationIndex, r: OperationIndex)
    requires |ops| > 0
    requires Get(prior.commandFormats, program) == if |Init(ops)| == 0 then Get(ix.commandFormats, program)
                                                   else Some(PutAll(Get(ix.commandFormats, program).GetOr([]), FormatBindings(program, Init(ops), withFinal)))
    requires r == AddOperation(prior, program, Last(ops), withFinal)
    ensures Get(r.commandFormats, program) == Some(PutAll(Get(ix.commandFormats, program).GetOr([]), FormatBindings(program, ops, withFinal)))
  {
    var base := Get(ix.commandFormats, program).GetOr([]);
    assert FormatBindings(program, ops, withFinal) == FormatBindings(program, Init(ops), withFinal) + EntryFormats(program, Last(ops), withFinal);
    if |Init(ops)| == 0 {
      assert FormatBindings(program, Init(ops), withFinal) == [];
      assert FormatBindings(program, ops, withFinal) == EntryFormats(program, Last(ops), withFinal);
    } else {
      PutAllAppend(base, FormatBindings(program, Init(ops), withFinal), EntryFormats(program, Last(ops), withFinal));
    }
  }

  /** Indexing one file; an unparseable file is skipped. */
  function AddFile(ix: OperationIndex, f: DomainFile, withFinal: bool): OperationIndex
  {
    match f.1
    case None => ix
    case Some(ops) => AddTable(ix, f.0, ops, withFinal)
  }

  /** The file implements `op`. */
  predicate Implements(f: DomainFile, op: string)
  {
    f.1.Some? && ImplementsIn(f.0, f.1.value, op)
  }

  /** Every format stored for `program` under `key` was written by an operation of a parsed file of that program. */
  ghost predicate Sourced(files: seq<DomainFile>, program: string, b: (string, string), withFinal: bool)
  {
    exists i, j | 0 <= i < |files| && files[i].0 == program && files[i].1.Some? && 0 <= j < |files[i].1.value| ::
      FormatFrom(program, files[i].1.value[j], withFinal, b)
  }

  ghost predicate FormatsSourced(ix: OperationIndex, files: seq<DomainFile>, withFinal: bool)
  {
    forall p, k | Get(ix.commandFormats, p).Some? && Get(Get(ix.commandFormats, p).value, k).Some? ::
      Sourced(files, p, (k, Get(Get(ix.commandFormats, p).value, k).value), withFinal)
  }

  /**
   * The index-building loop of `create_mappings`, over the directory's files
   * in order.
   */
  function BuildIndex(files: seq<DomainFile>, withFinal: bool): (r: OperationIndex)
    ensures forall op :: Distinct(ProgramsOf(r, op))
    ensures forall op, p :: p in ProgramsOf(r, op) <==> exists i | 0 <= i < |files| :: files[i].0 == p && Implements(files[i], op)
    ensures forall op :: Get(r.operationToProgram, op).Some? <==> exists i | 0 <= i < |files| :: Implements(files[i], op)
    decreases |files|
  {
    if |files| == 0 then EmptyIndex
    else
      var prior := BuildIndex(Init(files), withFinal);
      var r := AddFile(prior, Last(files), withFinal);
      BuildIndexStep(files, withFinal, prior, r);
      r
  }

  lemma {:induction false} BuildIndexStep(files: seq<DomainFile>, withFinal: bool, prior: OperationIndex, r: OperationIndex)
    requires |files| > 0
    requires forall op :: Distinct(ProgramsOf(prior, op))
    requires forall op, p :: p in ProgramsOf(prior, op) <==> exists i | 0 <= i < |Init(files)| :: Init(files)[i].0 == p && Implements(Init(files)[i], op)
    requires forall op :: Get(prior.operationToProgram, op).Some? <==> exists i | 0 <= i < |Init(files)| :: Implements(Init(files)[i], op)
    requires r == AddFile(prior, Last(files), withFinal)
    ensures forall op :: Distinct(ProgramsOf(r, op))
    ensures forall op, p :: p in ProgramsOf(r, op) <==> exists i | 0 <= i < |files| :: files[i].0 == p && Implements(files[i], op)
    ensures forall op :: Get(r.operationToProgram, op).Some? <==> exists i | 0 <= i < |files| :: Implements(files[i], op)
  {
    forall op
      ensures Distinct(ProgramsOf(r, op))
      ensures Get(r.operationToProgram, op).Some? <==> exists i | 0 <= i < |files| :: Implements(files[i], op)
    {
      FileIndexedAfter(files, withFinal, prior, r, op);
      ImplementsSnoc(files, op);
      DistinctSnoc(ProgramsOf(prior, op), Last(files).0);
    }
    forall op, p
      ensures p in ProgramsOf(r, op) <==> exists i | 0 <= i < |files| :: files[i].0 == p && Implements(files[i], op)
    {
      FileIndexedAfter(files, withFinal, prior, r, op);
      ListedSnoc(files, op, p);
      var before := ProgramsOf(prior, op);
      var f := Last(files);
      assert p in before <==> exists i | 0 <= i < |Init(files)| :: Init(files)[i].0 == p && Implements(Init(files)[i], op);
      InSnoc(before, f.0, p);
    }
  }

  lemma {:induction false} InSnoc(s: seq<string>, x: string, p: string)
    ensures p in s + [x] <==> p in s || p == x
  {
  }

  lemma {:induction false} DistinctSnoc(s: seq<string>, x: string)
    requires Distinct(s)
    ensures x !in s ==> Distinct(s + [x])
  {
  }

  /** What one more file does to an operation's program list. */
  lemma {:induction false} FileIndexedAfter(files: seq<DomainFile>, withFinal: bool, prior: OperationIndex, r: OperationIndex, op: string)
    requires |files| > 0
    requires r == AddFile(prior, Last(files), withFinal)
    ensures var f := Last(files);
            ProgramsOf(r, op) == (if Implements(f, op) && f.0 !in ProgramsOf(prior, op) then ProgramsOf(prior, op) + [f.0] else ProgramsOf(prior, op))
            && (Get(r.operationToProgram, op).Some? <==> Get(prior.operationToProgram, op).Some? || Implements(f, op))
  {
  }

  lemma {:induction false} ImplementsSnoc(files: seq<DomainFile>, op: string)
    requires |files| > 0
    ensures (exists i | 0 <= i < |files| :: Implements(files[i], op))
            <==> (exists i | 0 <= i < |Init(files)| :: Implements(Init(files)[i], op)) || Implements(Last(files), op)
  {
    assert forall i | 0 <= i < |Init(files)| :: Init(files)[i] == files[i];
    assert files[|files| - 1] == Last(files);
  }

  lemma {:induction false} ListedSnoc(files: seq<DomainFile>, op: string, p: string)
    requires |files| > 0
    ensures (exists i | 0 <= i < |files| :: files[i].0 == p && Implements(files[i], op))
            <==> (exists i | 0 <= i < |Init(files)| :: Init(files)[i].0 == p && Implements(Init(files)[i], op)) || (Last(files).0 == p && Implements(Last(files), op))
  {
    assert forall i | 0 <= i < |Init(files)| :: Init(files)[i] == files[i];
    assert files[|files| - 1] == Last(files);
  }

  /** The operations of each file are indexed after those of the files before it, each program listed once, in file order. */
  lemma {:induction false} BuildIndexSnoc(files: seq<DomainFile>, f: DomainFile, withFinal: bool, op: string)
    ensures var before := ProgramsOf(BuildIndex(files, withFinal), op);
            ProgramsOf(BuildIndex(files + [f], withFinal), op)
            == if Implements(f, op) && f.0 !in before then before + [f.0] else before
  {
    assert Init(files + [f]) == files && Last(files + [f]) == f;
  }

  /** An unparseable file contributes nothing, and the other files are still indexed. */
  lemma {:induction false} UnparseableFileSkipped(files: seq<DomainFile>, stem: string, withFinal: bool)
    ensures BuildIndex(files + [(stem, None)], withFinal) == BuildIndex(files, withFinal)
  {
    assert Init(files + [(stem, None)]) == files && Last(files + [(stem, None)]) == (stem, None);
  }

  /** Every stored format was written by an operation of that program; without final formats, only `cmd_format`s are stored. */
  lemma {:induction false} BuildIndexFormatsSourced(files: seq<DomainFile>, withFinal: bool)
    ensures FormatsSourced(BuildIndex(files, withFinal), files, withFinal)
    decreases |files|
  {
    if |files| > 0 {
      var prior := BuildIndex(Init(files), withFinal);
      BuildIndexFormatsSourced(Init(files), withFinal);
      var r := BuildIndex(files, withFinal);
      assert r == AddFile(prior, Last(files), withFinal);
      assert forall i | 0 <= i < |Init(files)| :: Init(files)[i] == files[i];
      forall p, k | Get(r.commandFormats, p).Some? && Get(Get(r.commandFormats, p).value, k).Some?
        ensures Sourced(files, p, (k, Get(Get(r.commandFormats, p).value, k).value), withFinal)
      {
        var v := Get(Get(r.commandFormats, p).value, k).value;
        var f := Last(files);
        assert files[|files| - 1] == f;
        if f.1.Some? && f.0 == p && |f.1.value| > 0 {
          var ops := f.1.value;
          var bs := FormatBindings(p, ops, withFinal);
          GetPutAll(Get(prior.commandFormats, p).GetOr([]), bs, k);
          if LastFor(bs, k).Some? {
            var n :| 0 <= n < |bs| && bs[n] == (k, v);
            assert (k, v) in bs;
            var j :| 0 <= j < |ops| && FormatFrom(p, ops[j], withFinal, (k, v));
            assert files[|files| - 1].1.value[j] == ops[j];
          } else {
            assert Get(Get(prior.commandFormats, p).value, k) == Some(v);
            SourcedGrows(Init(files), files, p, (k, v), withFinal);
          }
        } else {
          assert Get(r.commandFormats, p) == Get(prior.commandFormats, p);
          SourcedGrows(Init(files), files, p, (k, v), withFinal);
        }
      }
    }
  }

  lemma {:induction false} SourcedGrows(files: seq<DomainFile>, more: seq<DomainFile>, program: string, b: (string, string), withFinal: bool)
    requires |files| <= |more| && forall i | 0 <= i < |files| :: files[i] == more[i]
    requires Sourced(files, program, b, withFinal)
    ensures Sourced(more, program, b, withFinal)
  {
    var i, j :| 0 <= i < |files| && files[i].0 == program && files[i].1.Some? && 0 <= j < |files[i].1.value|
                && FormatFrom(program, files[i].1.value[j], withFinal, b);
    assert more[i] == files[i];
  }

  /** The older builder stores only `cmd_format`s, under operation names. */
  lemma {:induction false} NoFinalFormatsStored(files: seq<DomainFile>, program: string, key: string)
    requires var cf := BuildIndex(files, false).commandFormats;
             Get(cf, program).Some? && Get(Get(cf, program).value, key).Some?
    ensures exists i, j | 0 <= i < |files| && files[i].0 == program && files[i].1.Some? && 0 <= j < |files[i].1.value| ::
              OperationName(files[i].1.value[j].0, program) == key && "cmd_format" in files[i].1.value[j].1
  {
    BuildIndexFormatsSourced(files, false);
  }

  /**
   * An example, for one file with one operation: a final command format is
   * stored under the operation name with the `_final` suffix, next to the
   * command format. `BuildIndexFormats` states this for every index.
   */
  lemma {:induction false} FinalFormatStored(program: string, key: string, c: OpConfig)
    requires "cmd_format" in c && "final_cmd_format" in c
    ensures var formats := Get(BuildIndex([(program, Some([(key, c)]))], true).commandFormats, program);
            var name := OperationName(key, program);
            formats.Some? && Get(formats.value, name) == Some(c["cmd_format"])
            && Get(formats.value, name + FinalSuffix) == Some(c["final_cmd_format"])
  {
    var files: seq<DomainFile> := [(program, Some([(key, c)]))];
    var name := OperationName(key, program);
    assert Init(files) == [] && Last(files) == files[0];
    var ops: OpsTable := [(key, c)];
    assert Init(ops) == [] && Last(ops) == (key, c);
    assert |name + FinalSuffix| != |name|;
    var empty: Dict<string> := [];
    var bs := FormatBindings(program, ops, true);
    assert bs == FormatBindings(program, Init(ops), true) + EntryFormats(program, Last(ops), true);
    assert bs == [(name, c["cmd_format"]), (name + FinalSuffix, c["final_cmd_format"])];
    GetPutAll(empty, bs, name);
    GetPutAll(empty, bs, name + FinalSuffix);
  }

  /** Everything the parsed files of `program` write into its format map, file after file. */
  function ProgramBindings(files: seq<DomainFile>, program: string, withFinal: bool): seq<(string, string)>
    decreases |files|
  {
    if |files| == 0 then []
    else
      var f := Last(files);
      ProgramBindings(Init(files), program, withFinal)
      + (if f.0 == program && f.1.Some? then FormatBindings(program, f.1.value, withFinal) else [])
  }

  /**
   * The format an index holds for a program under a key is the one the
   * last operation writing that key wrote, over all of the program's files
   * in order; a key nobody wrote is absent.
   */
  lemma {:induction false} BuildIndexFormats(files: seq<DomainFile>, withFinal: bool, program: string, key: string)
    ensures Get(Get(BuildIndex(files, withFinal).commandFormats, program).GetOr([]), key) == LastFor(ProgramBindings(files, program, withFinal), key)
    decreases |files|
  {
    if |files| > 0 {
      var prior := BuildIndex(Init(files), withFinal);
      var f := Last(files);
      BuildIndexFormats(Init(files), withFinal, program, key);
      assert BuildIndex(files, withFinal) == AddFile(prior, f, withFinal);
      var before := ProgramBindings(Init(files), program, withFinal);
      if f.0 == program && f.1.Some? {
        var bs := FormatBindings(program, f.1.value, withFinal);
        assert ProgramBindings(files, program, withFinal) == before + bs;
        LastForAppend(before, bs, key);
        if |f.1.value| > 0 {
          GetPutAll(Get(prior.commandFormats, program).GetOr([]), bs, key);
        } else {
          assert bs == [];
        }
      } else {
        assert ProgramBindings(files, program, withFinal) == before + [];
        assert before + [] == before;
      }
    }
  }

  /** Every format an operation of a parsed file of the program writes is among the program's bindings. */
  lemma {:induction false} WrittenFormatBound(files: seq<DomainFile>, withFinal: bool, i: nat, j: nat, b: (string, string))
    requires i < |files| && files[i].1.Some? && j < |files[i].1.value|
    requires FormatFrom(files[i].0, files[i].1.value[j], withFinal, b)
    ensures b in ProgramBindings(files, files[i].0, withFinal)
    decreases |files|
  {
    var program := files[i].0;
    var before := ProgramBindings(Init(files), program, withFinal);
    var f := Last(files);
    if i == |files| - 1 {
      assert f == files[i];
      assert b in FormatBindings(program, f.1.value, withFinal);
    } else {
      assert Init(files)[i] == files[i];
      WrittenFormatBound(Init(files), withFinal, i, j, b);
    }
  }

  /** The builder stores a format under every key an operation of the program writes. */
  lemma {:induction false} WrittenFormatStored(files: seq<DomainFile>, withFinal: bool, i: nat, j: nat, b: (string, string))
    requires i < |files| && files[i].1.Some? && j < |files[i].1.value|
    requires FormatFrom(files[i].0, files[i].1.value[j], withFinal, b)
    ensures Get(Get(BuildIndex(files, withFinal).commandFormats, files[i].0).GetOr([]), b.0).Some?
  {
    WrittenFormatBound(files, withFinal, i, j, b);
    BuildIndexFormats(files, withFinal, files[i].0, b.0);
  }

  // ---------------------------------------------------------------------------
  // The two builders

  /**
   * `create_mappings` of the cache-side builder: the empty result (`None`)
   * when the domain directory is missing or the cache files cannot be
   * written; otherwise the index with final formats.
   */
  function CreateMappings(dirExists: bool, writeOk: bool, files: seq<DomainFile>): (r: Option<OperationIndex>)
    ensures r.None? <==> !dirExists || !writeOk
    ensures r.Some? ==> r.value == BuildIndex(files, true)
    ensures r.Some? && |files| == 0 ==> r.value == EmptyIndex
  {
    if !dirExists || !writeOk then None else Some(BuildIndex(files, true))
  }

  /** `create_operation_mappings_for_domain` (cache side): the result is non-empty. */
  function CreateForDomain(dirExists: bool, writeOk: bool, files: seq<DomainFile>): (r: bool)
    ensures r <==> dirExists && writeOk
  {
    CreateMappings(dirExists, writeOk, files).Some?
  }

  /** What the older builder writes to the cache: the index without final formats, or nothing when it fails. */
  function CreatorWrites(dirExists: bool, writeOk: bool, files: seq<DomainFile>): (r: Option<OperationIndex>)
    ensures r.None? <==> !dirExists || !writeOk
    ensures r.Some? ==> r.value == BuildIndex(files, false)
  {
    if !dirExists || !writeOk then None else Some(BuildIndex(files, false))
  }

  /** `create_mappings` of the older builder: whether it wrote the index. */
  function CreatorCreateMappings(dirExists: bool, writeOk: bool, files: seq<DomainFile>): (r: bool)
    ensures r <==> dirExists && writeOk
    ensures r <==> CreatorWrites(dirExists, writeOk, files).Some?
  {
    dirExists && writeOk
  }

  /** One domain's inputs: whether its directory exists, whether writing succeeds, and its files. */
  datatype DomainInput = DomainInput(dirExists: bool, writeOk: bool, files: seq<DomainFile>)

  /** `create_operation_mappings_for_all_domains`: every domain is attempted, and the result says whether all succeeded. */
  function AllDomains(domains: seq<DomainInput>): (r: bool)
    ensures r <==> forall i | 0 <= i < |domains| :: CreatorCreateMappings(domains[i].dirExists, domains[i].writeOk, domains[i].files)
    ensures r <==> forall i | 0 <= i < |domains| :: domains[i].dirExists && domains[i].writeOk
  {
    if |domains| == 0 then true
    else
      var d := domains[0];
      var rest := AllDomains(domains[1..]);
      assert forall i | 1 <= i < |domains| :: domains[i] == domains[1..][i - 1];
      CreatorCreateMappings(d.dirExists, d.writeOk, d.files) && rest
  }
}

=== FILE: parsers.dfy ===
// Choosing the parser a program's configuration asks for, and validating
// what it produced with the same parser.

module Parsers {
  import opened Util
  import opened Grammar
  import opened Tree
  import Argparse
  import Getopt

  /** Parse an argument vector with the configured parser style. */
  function Parse(config: ParserConfig, argv: seq<string>): (r: Result<CommandNode>)
    ensures |argv| == 0 ==> r == Err(ValueError)
    ensures r.Ok? ==> r.value.name == argv[0]
    ensures config.parserType == Getopt ==> (r.Ok? <==> |argv| > 0) && (r.Err? ==> r.fault == ValueError)
  {
    match config.parserType
    case Argparse => Argparse.Parse(config, argv)
    case Getopt => Getopt.Parse(config, argv)
  }

  /** What the configured parser's `validate` answers for a tree. */
  predicate Accepts(config: ParserConfig, node: CommandNode)
  {
    match config.parserType
    case Argparse => Argparse.Validate(node)
    case Getopt => forall i | 0 <= i < |config.arguments| :: !Getopt.Rejects(config.arguments[i], node.arguments)
  }

  method Validate(config: ParserConfig, node: CommandNode) returns (ok: bool)
    ensures ok <==> Accepts(config, node)
    ensures config.parserType == Argparse ==> ok
  {
    match config.parserType
    case Argparse =>
      ok := Argparse.Validate(node);
    case Getopt =>
      ok := Getopt.Validate(config.arguments, node);
  }
}

=== FILE: paths.dfy ===
// Where configuration and cache live: the root directories and their
// defaults, the paths of domain, group and parser files, and the listings of
// domains and operation groups computed from directory contents.

module Paths {
  import opened Util
  import opened Text
  import opened Sorting

  // ---------------------------------------------------------------------------
  // Paths and roots

  /** A path: the string it starts from and the components appended to it. */
  datatype Path = Path(base: string, parts: seq<string>)

  /** `p / name` */
  function Child(p: Path, name: string): (r: Path)
    ensures r.base == p.base && r.parts == p.parts + [name]
  {
    p.(parts := p.parts + [name])
  }

  const AppDir := "cmdbridge"
  const DomainSuffix := ".domain"
  const TomlSuffix := ".toml"
  const BaseGroup := "base"

  /**
   * A root directory: the explicit argument when it is non-empty, else the
   * environment variable when it is set, else `fallback` under the home
   * directory; `cmdbridge` is appended in every case.
   */
  function Root(explicit: Option<string>, env: map<string, string>, variable: string, home: string, fallback: string): (r: Path)
    ensures |r.parts| > 0 && Last(r.parts) == AppDir
    ensures Truthy(explicit) ==> r == Path(explicit.value, [AppDir])
    ensures !Truthy(explicit) && variable in env ==> r == Path(env[variable], [AppDir])
    ensures !Truthy(explicit) && variable !in env ==> r == Path(home, [fallback, AppDir])
  {
    if Truthy(explicit) then Path(explicit.value, [AppDir])
    else if variable in env then Path(env[variable], [AppDir])
    else Path(home, [fallback, AppDir])
  }

  /** The three directories of a path manager. */
  datatype Dirs = Dirs(config: Path, cache: Path, parsers: Path)

  /** `PathManager.__init__`: the roots from the arguments, the XDG variables and the home directory. */
  function MakeDirs(configArg: Option<string>, cacheArg: Option<string>, parserArg: Option<string>,
                    env: map<string, string>, home: string): (r: Dirs)
    ensures r.config == Root(configArg, env, "XDG_CONFIG_HOME", home, ".config")
    ensures r.cache == Root(cacheArg, env, "XDG_CACHE_HOME", home, ".cache")
    ensures Truthy(parserArg) ==> r.parsers == Path(parserArg.value, [])
    ensures !Truthy(parserArg) ==> r.parsers == Child(r.config, "program_parser_configs")
  {
    var config := Root(configArg, env, "XDG_CONFIG_HOME", home, ".config");
    Dirs(config,
         Root(cacheArg, env, "XDG_CACHE_HOME", home, ".cache"),
         if Truthy(parserArg) then Path(parserArg.value, []) else Child(config, "program_parser_configs"))
  }

  /** With no arguments and no XDG variables, everything lives under `~/.config/cmdbridge` and `~/.cache/cmdbridge`. */
  lemma {:induction false} DefaultDirs(home: string)
    ensures var d := MakeDirs(None, None, None, map[], home);
            d.config == Path(home, [".config", "cmdbridge"])
            && d.cache == Path(home, [".cache", "cmdbridge"])
            && d.parsers == Path(home, [".config", "cmdbridge", "program_parser_configs"])
  {
  }

  // ---------------------------------------------------------------------------
  // File paths

  /** `get_config_operation_group_path`: `<config>/<domain>.domain`. */
  function DomainDir(d: Dirs, domain: string): Path
  {
    Child(d.config, domain + DomainSuffix)
  }

  /** `get_operation_group_config_path`: `<config>/<domain>.domain/<group>.toml`. */
  function GroupConfigPath(d: Dirs, domain: string, group: string): (r: Path)
    ensures r.base == d.config.base && r.parts == d.config.parts + [domain + DomainSuffix, group + TomlSuffix]
  {
    Child(DomainDir(d, domain), group + TomlSuffix)
  }

  /** `get_base_operation_config_path`: `<config>/<domain>.domain/base.toml`. */
  function BaseConfigPath(d: Dirs, domain: string): (r: Path)
    ensures r == GroupConfigPath(d, domain, BaseGroup)
  {
    assert BaseGroup + TomlSuffix == "base.toml";
    Child(DomainDir(d, domain), "base.toml")
  }

  /** `get_program_parser_config_path`: `<parsers>/<program>.toml`. */
  function ParserConfigPath(d: Dirs, program: string): (r: Path)
    ensures r.base == d.parsers.base && r.parts == d.parsers.parts + [program + TomlSuffix]
  {
    Child(d.parsers, program + TomlSuffix)
  }

  // ---------------------------------------------------------------------------
  // Listings

  /** A directory entry: its name and whether it is a directory. */
  type Entry = (string, bool)

  /** The domain a `<domain>.domain` directory name names: the last seven characters removed. */
  function DomainOfDirName(name: string): string
    requires EndsWith(name, DomainSuffix)
  {
    name[..|name| - 7]
  }

  /**
   * `Path.stem` of a `<stem>.toml` file name. A name's suffix starts at its
   * last dot only when that dot is not the first character, so the file
   * `.toml` has no suffix and is its own stem.
   */
  function StemOfToml(name: string): (r: string)
    requires EndsWith(name, TomlSuffix)
    ensures name == TomlSuffix ==> r == name
    ensures name != TomlSuffix ==> r + TomlSuffix == name && r != ""
  {
    if name == TomlSuffix then name else name[..|name| - 5]
  }

  /** Naming a domain's directory and reading the name back gives the domain. */
  lemma {:induction false} DomainDirRoundTrip(d: Dirs, domain: string)
    ensures var name := Last(DomainDir(d, domain).parts);
            EndsWith(name, DomainSuffix) && DomainOfDirName(name) == domain
  {
    var name := domain + DomainSuffix;
    assert name[|name| - 7..] == DomainSuffix;
    assert name[..|name| - 7] == domain;
  }

  /** Naming a group's file and reading the stem back gives the group, unless the group is empty. */
  lemma {:induction false} GroupFileRoundTrip(d: Dirs, domain: string, group: string)
    requires group != ""
    ensures var name := Last(GroupConfigPath(d, domain, group).parts);
            EndsWith(name, TomlSuffix) && StemOfToml(name) == group
  {
    var name := group + TomlSuffix;
    assert Last(GroupConfigPath(d, domain, group).parts) == name;
    assert name[|name| - 5..] == TomlSuffix;
    assert name[..|name| - 5] == group;
  }

  function DomainNames(entries: seq<Entry>): (r: seq<string>)
    ensures forall x :: x in r <==> exists i | 0 <= i < |entries| :: entries[i].1 && EndsWith(entries[i].0, DomainSuffix) && x == DomainOfDirName(entries[i].0)
  {
    if |entries| == 0 then []
    else
      var e := Last(entries);
      assert forall i | 0 <= i < |entries| - 1 :: Init(entries)[i] == entries[i];
      assert entries[|entries| - 1] == e;
      DomainNames(Init(entries)) + (if e.1 && EndsWith(e.0, DomainSuffix) then [DomainOfDirName(e.0)] else [])
  }

  /** `list_domains`: the sorted names of the `*.domain` directories with the suffix removed; none when the configuration directory is missing. */
  function ListDomains(configExists: bool, entries: seq<Entry>): (r: seq<string>)
    ensures Sorted(r)
    ensures !configExists ==> r == []
    ensures configExists ==> multiset(r) == multiset(DomainNames(entries))
    ensures configExists ==> forall x :: x in r <==> exists i | 0 <= i < |entries| :: entries[i].1 && EndsWith(entries[i].0, DomainSuffix) && x == DomainOfDirName(entries[i].0)
  {
    if !configExists then []
    else
      var r := Sort(DomainNames(entries));
      assert forall x :: x in r <==> x in DomainNames(entries) by {
        forall x
          ensures x in r <==> x in DomainNames(entries)
        {
          assert x in r <==> x in multiset(r);
          assert x in DomainNames(entries) <==> x in multiset(DomainNames(entries));
        }
      }
      r
  }

  function GroupNames(files: seq<string>): (r: seq<string>)
    ensures forall g :: g in r <==> exists i | 0 <= i < |files| :: EndsWith(files[i], TomlSuffix) && g == StemOfToml(files[i]) && g != BaseGroup
  {
    if |files| == 0 then []
    else
      var f := Last(files);
      assert forall i | 0 <= i < |files| - 1 :: Init(files)[i] == files[i];
      assert files[|files| - 1] == f;
      GroupNames(Init(files)) + (if EndsWith(f, TomlSuffix) && StemOfToml(f) != BaseGroup then [StemOfToml(f)] else [])
  }

  /** `list_operation_groups`: the sorted stems of the domain's `*.toml` files except `base`; none when the directory is missing. */
  function ListOperationGroups(dirExists: bool, files: seq<string>): (r: seq<string>)
    ensures Sorted(r)
    ensures !dirExists ==> r == []
    ensures dirExists ==> multiset(r) == multiset(GroupNames(files))
    ensures BaseGroup !in r
    ensures dirExists ==> forall g :: g in r <==> exists i | 0 <= i < |files| :: EndsWith(files[i], TomlSuffix) && g == StemOfToml(files[i]) && g != BaseGroup
  {
    if !dirExists then []
    else
      var r := Sort(GroupNames(files));
      assert forall g :: g in r <==> g in GroupNames(files) by {
        forall g
          ensures g in r <==> g in GroupNames(files)
        {
          assert g in r <==> g in multiset(r);
          assert g in GroupNames(files) <==> g in multiset(GroupNames(files));
        }
      }
      r
  }

  /** A group whose file is in its domain's directory is listed. */
  lemma {:induction false} GroupFileListed(d: Dirs, domain: string, group: string, files: seq<string>)
    requires group != BaseGroup && group != ""
    requires Last(GroupConfigPath(d, domain, group).parts) in files
    ensures group in ListOperationGroups(true, files)
  {
    GroupFileRoundTrip(d, domain, group);
  }

  /** The file of the empty group, `.toml`, is listed under its own name rather than as the empty group. */
  lemma {:induction false} EmptyGroupListedAsFileName(d: Dirs, domain: string)
    ensures Last(GroupConfigPath(d, domain, "").parts) == TomlSuffix
    ensures ListOperationGroups(true, [TomlSuffix]) == [TomlSuffix]
  {
    assert "" + TomlSuffix == TomlSuffix;
    assert GroupNames([TomlSuffix]) == [TomlSuffix] by {
      assert Init([TomlSuffix]) == [];
    }
  }

  /**
   * The groups of each listed domain, in domain order; `groupFiles` gives the
   * `*.toml` file names of each domain directory that exists.
   */
  function GroupsOfDomains(domains: seq<string>, groupFiles: map<string, seq<string>>): seq<string>
  {
    if |domains| == 0 then []
    else ListOperationGroups(domains[0] in groupFiles, FilesOf(groupFiles, domains[0])) + GroupsOfDomains(domains[1..], groupFiles)
  }

  /** A group is collected exactly when some domain of the list lists it. */
  lemma {:induction false} GroupsOfDomainsMembers(domains: seq<string>, groupFiles: map<string, seq<string>>, g: string)
    ensures g in GroupsOfDomains(domains, groupFiles) <==> exists i | 0 <= i < |domains| :: g in ListOperationGroups(domains[i] in groupFiles, FilesOf(groupFiles, domains[i]))
  {
    if |domains| > 0 {
      GroupsOfDomainsMembers(domains[1..], groupFiles, g);
      if g in GroupsOfDomains(domains[1..], groupFiles) {
        var i :| 0 <= i < |domains[1..]| && g in ListOperationGroups(domains[1..][i] in groupFiles, FilesOf(groupFiles, domains[1..][i]));
        assert domains[1..][i] == domains[i + 1];
      }
      if exists i | 0 <= i < |domains| :: g in ListOperationGroups(domains[i] in groupFiles, FilesOf(groupFiles, domains[i])) {
        var i :| 0 <= i < |domains| && g in ListOperationGroups(domains[i] in groupFiles, FilesOf(groupFiles, domains[i]));
        if i > 0 {
          assert domains[1..][i - 1] == domains[i];
        }
      }
    }
  }

  function FilesOf(groupFiles: map<string, seq<string>>, domain: string): seq<string>
  {
    if domain in groupFiles then groupFiles[domain] else []
  }

  /** `list_all_operation_groups`: the groups of every domain, each once, sorted. */
  function ListAllOperationGroups(configExists: bool, entries: seq<Entry>, groupFiles: map<string, seq<string>>): (r: seq<string>)
    ensures Sorted(r) && Distinct(r)
    ensures forall g :: g in r <==> exists x | x in ListDomains(configExists, entries) :: g in ListOperationGroups(x in groupFiles, FilesOf(groupFiles, x))
  {
    var domains := ListDomains(configExists, entries);
    var r := SortedSet(GroupsOfDomains(domains, groupFiles));
    assert forall g :: g in r <==> exists x | x in domains :: g in ListOperationGroups(x in groupFiles, FilesOf(groupFiles, x)) by {
      forall g
        ensures g in r <==> exists x | x in domains :: g in ListOperationGroups(x in groupFiles, FilesOf(groupFiles, x))
      {
        GroupsOfDomainsMembers(domains, groupFiles, g);
        if exists x | x in domains :: g in ListOperationGroups(x in groupFiles, FilesOf(groupFiles, x)) {
          var x :| x in domains && g in ListOperationGroups(x in groupFiles, FilesOf(groupFiles, x));
          var i :| 0 <= i < |domains| && domains[i] == x;
        }
      }
    }
    r
  }
}

=== FILE: renderer.dfy ===
// Rendering an operation into a command line of the destination program:
// finding the operation's entry in the program's operation file, and
// substituting the parameters into its `cmd_format`.

module Renderer {
  import opened Util
  import opened Text
  import opened Dicts

  // ---------------------------------------------------------------------------
  // Parameter substitution

  /** One parameter: every occurrence of `{name}` in `s` becomes `value`, when there is one. */
  function ReplaceOne(s: string, name: string, value: string): (r: string)
    ensures r == Join(Split(s, Braced(name)), value)
    ensures s == Join(Split(s, Braced(name)), Braced(name))
    ensures !Contains(s, Braced(name)) ==> r == s
  {
    ReplaceIsJoinOfSplit(s, Braced(name), value);
    JoinSplit(s, Braced(name));
    if Contains(s, Braced(name)) then Replace(s, Braced(name), value) else s
  }

  /** `_replace_parameters`: the parameters in dictionary order, each applied to the result of the ones before. */
  function ReplaceParameters(format: string, params: Dict<string>): string
    decreases |params|
  {
    if |params| == 0 then format
    else ReplaceParameters(ReplaceOne(format, params[0].0, params[0].1), params[1..])
  }

  /** Substitution is sequential: the last parameter is applied to what the others produced. */
  lemma {:induction false} ReplaceParametersSnoc(format: string, params: Dict<string>, name: string, value: string)
    ensures ReplaceParameters(format, params + [(name, value)]) == ReplaceOne(ReplaceParameters(format, params), name, value)
    decreases |params|
  {
    if |params| == 0 {
      assert params + [(name, value)] == [(name, value)];
    } else {
      assert (params + [(name, value)])[0] == params[0];
      assert (params + [(name, value)])[1..] == params[1..] + [(name, value)];
      ReplaceParametersSnoc(ReplaceOne(format, params[0].0, params[0].1), params[1..], name, value);
    }
  }

  /** With no parameters the format is returned unchanged. */
  lemma {:induction false} ReplaceParametersNone(format: string)
    ensures ReplaceParameters(format, []) == format
  {
  }

  /** Two braced words at the same place are the same word. */
  lemma {:induction false} SameBracedAt(s: string, p: string, w: string, k: nat)
    requires IsWord(p) && IsWord(w) && OccursAt(s, Braced(p), k) && OccursAt(s, Braced(w), k)
    ensures p == w
  {
    assert OccursAt(s[k..], Braced(p), 0) by { assert s[k..][0..|Braced(p)|] == s[k..k + |Braced(p)|]; }
    assert OccursAt(s[k..], Braced(w), 0) by { assert s[k..][0..|Braced(w)|] == s[k..k + |Braced(w)|]; }
    BracedWordAtOccurrence(s[k..], p);
    BracedWordAtOccurrence(s[k..], w);
  }

  /** A braced word that starts after another braced word's `{` starts after its `}`. */
  lemma {:induction false} BracedAfter(s: string, a: string, b: string, i: nat, k: nat)
    requires IsWord(a) && IsWord(b) && OccursAt(s, Braced(a), i) && OccursAt(s, Braced(b), k) && i < k
    ensures i + |Braced(a)| <= k
  {
    assert OccursAt(s[i..], Braced(a), 0) by { assert s[i..][0..|Braced(a)|] == s[i..i + |Braced(a)|]; }
    assert OccursAt(s[i..], Braced(b), k - i) by { assert s[i..][k - i..k - i + |Braced(b)|] == s[k..k + |Braced(b)|]; }
    BracedWordAtOccurrence(s[i..], a);
    OccurrenceAfterMatch(s[i..], b, k - i);
  }

  /** An occurrence wholly before `k` is kept by anything that keeps the first `k` characters. */
  lemma {:induction false} KeptBefore(s: string, sub: string, i: nat, k: nat, mid: string, tail: string)
    requires OccursAt(s, sub, i) && i + |sub| <= k <= |s|
    ensures OccursAt(s[..k] + mid + tail, sub, i)
  {
    assert (s[..k] + mid + tail)[i..i + |sub|] == s[i..i + |sub|];
  }

  /** An occurrence in the replaced remainder is an occurrence in the whole. */
  lemma {:induction false} KeptAfter(head: string, r: string, sub: string)
    requires Contains(r, sub)
    ensures Contains(head + r, sub)
  {
    var j :| 0 <= j <= |r| - |sub| && OccursAt(r, sub, j);
    assert (head + r)[|head| + j..|head| + j + |sub|] == r[j..j + |sub|];
    assert OccursAt(head + r, sub, |head| + j);
  }

  /** `Replace` at its first occurrence `k`. */
  lemma {:induction false} ReplaceAt(s: string, n: string, value: string, k: nat)
    requires |n| > 0 && Find(s, n, 0) == Some(k)
    ensures k + |n| <= |s|
    ensures Replace(s, n, value) == s[..k] + value + Replace(s[k + |n|..], n, value)
  {
  }

  /** An occurrence of `{w}` before the replaced `{p}` ends before it, and is kept. */
  lemma {:induction false} KeptBeforeMatch(s: string, p: string, w: string, i: nat, k: nat, mid: string, tail: string)
    requires IsWord(p) && IsWord(w) && OccursAt(s, Braced(w), i) && OccursAt(s, Braced(p), k) && i < k
    ensures Contains(s[..k] + mid + tail, Braced(w))
  {
    BracedAfter(s, w, p, i, k);
    KeptBefore(s, Braced(w), i, k, mid, tail);
  }

  /** An occurrence of `{w}` after the replaced `{p}`'s `{` lies in what follows the `}`. */
  lemma {:induction false} InRestAfterMatch(s: string, p: string, w: string, i: nat, k: nat)
    requires IsWord(p) && IsWord(w) && OccursAt(s, Braced(w), i) && OccursAt(s, Braced(p), k) && k < i
    ensures Contains(s[k + |Braced(p)|..], Braced(w))
  {
    BracedAfter(s, p, w, k, i);
    ShiftOccurrence(s, Braced(w), i, k + |Braced(p)|);
  }

  /**
   * A `{w}` that is not in what follows the `{p}` at `k` lies before it, and
   * survives whatever replaces that `{p}` and what follows it.
   */
  lemma {:induction false} KeptBeforeFirst(s: string, p: string, w: string, k: nat, value: string, tail: string)
    requires IsWord(p) && IsWord(w) && p != w && Contains(s, Braced(w)) && OccursAt(s, Braced(p), k)
    requires !Contains(s[k + |Braced(p)|..], Braced(w))
    ensures Contains(s[..k] + value + tail, Braced(w))
  {
    var i :| 0 <= i <= |s| - |Braced(w)| && OccursAt(s, Braced(w), i);
    if i == k {
      SameBracedAt(s, p, w, k);
      assert false;
    } else if k < i {
      InRestAfterMatch(s, p, w, i, k);
      assert false;
    }
    KeptBeforeMatch(s, p, w, i, k, value, tail);
  }

  /**
   * Replacing from the first `{p}`, at `k`, keeps a `{w}` as long as replacing
   * in what follows that `{p}` keeps the ones there.
   */
  lemma {:induction false} SurvivesFirstMatch(s: string, p: string, w: string, k: nat, value: string)
    requires IsWord(p) && IsWord(w) && p != w && Contains(s, Braced(w)) && Find(s, Braced(p), 0) == Some(k)
    requires k + |Braced(p)| <= |s|
    requires Contains(s[k + |Braced(p)|..], Braced(w)) ==> Contains(Replace(s[k + |Braced(p)|..], Braced(p), value), Braced(w))
    ensures Contains(Replace(s, Braced(p), value), Braced(w))
  {
    var rest := s[k + |Braced(p)|..];
    var tail := Replace(rest, Braced(p), value);
    ReplaceAt(s, Braced(p), value, k);
    if Contains(rest, Braced(w)) {
      KeptAfter(s[..k] + value, tail, Braced(w));
    } else {
      KeptBeforeFirst(s, p, w, k, value, tail);
    }
  }

  /** Replacing one placeholder leaves every other placeholder's occurrence in place. */
  lemma {:induction false} OtherPlaceholderSurvives(s: string, p: string, value: string, w: string)
    requires IsWord(p) && IsWord(w) && p != w && Contains(s, Braced(w))
    ensures Contains(Replace(s, Braced(p), value), Braced(w))
    decreases |s|
  {
    match Find(s, Braced(p), 0)
    case None =>
      assert Replace(s, Braced(p), value) == s;
    case Some(k) =>
      if Contains(s[k + |Braced(p)|..], Braced(w)) {
        OtherPlaceholderSurvives(s[k + |Braced(p)|..], p, value, w);
      }
      SurvivesFirstMatch(s, p, w, k, value);
  }

  /** The keys of the parameters. */
  predicate NamedBy(params: Dict<string>, w: string)
  {
    exists i | 0 <= i < |params| :: params[i].0 == w
  }

  /** A placeholder with no parameter of its name is left in the output as written. */
  lemma {:induction false} UnboundPlaceholderRemains(format: string, params: Dict<string>, w: string)
    requires forall i | 0 <= i < |params| :: IsWord(params[i].0)
    requires w in Placeholders(format) && !NamedBy(params, w)
    ensures w in Placeholders(ReplaceParameters(format, params))
    decreases |params|
  {
    PlaceholdersIff(format, w);
    if |params| > 0 {
      var (p, v) := params[0];
      assert p != w;
      var next := ReplaceOne(format, p, v);
      if Contains(format, Braced(p)) {
        OtherPlaceholderSurvives(format, p, v, w);
      }
      PlaceholdersIff(next, w);
      assert forall i | 0 <= i < |params[1..]| :: params[1..][i] == params[i + 1];
      UnboundPlaceholderRemains(next, params[1..], w);
    }
  }

  // ---------------------------------------------------------------------------
  // The operation file and `generate_command`

  /** An operation's entry in a program's operation file: its string-valued keys. */
  type OperationConfig = map<string, string>

  /** A program's operation file, or `None` when it is missing or unreadable. */
  type OperationFile = Option<Dict<OperationConfig>>

  /** An operation key is `operation` or `operation.program`. */
  predicate KeyMatches(key: string, operation: string, program: string)
  {
    var parts := Split(key, ".");
    (|parts| == 2 && parts[0] == operation && parts[1] == program) || (|parts| == 1 && parts[0] == operation)
  }

  /** A key matches exactly when it is the operation, or the operation and program joined by a dot. */
  lemma {:induction false} KeyMatchesIff(key: string, operation: string, program: string)
    requires '.' !in operation && '.' !in program
    ensures KeyMatches(key, operation, program) <==> key == operation || key == operation + "." + program
  {
    var parts := Split(key, ".");
    JoinSplit(key, ".");
    if key == operation + "." + program {
      assert key == operation + ['.'] + program;
      SplitAtSeparator(operation, '.', program);
      SplitNoSeparator(operation, '.');
      SplitNoSeparator(program, '.');
    } else if key == operation {
      SplitNoSeparator(operation, '.');
    }
    if |parts| == 2 {
      JoinCons(parts[0], parts[1..], ".");
      assert parts[1..] == [parts[1]];
    }
  }

  /** The first key of the operations table that matches, in file order. */
  function FindOperationKey(operations: Dict<OperationConfig>, operation: string, program: string): (r: Option<string>)
    ensures r.Some? <==> exists i | 0 <= i < |operations| :: KeyMatches(operations[i].0, operation, program)
    ensures r.Some? ==> exists i | 0 <= i < |operations| ::
              operations[i].0 == r.value && KeyMatches(r.value, operation, program)
              && forall j | 0 <= j < i :: !KeyMatches(operations[j].0, operation, program)
  {
    if |operations| == 0 then None
    else if KeyMatches(operations[0].0, operation, program) then Some(operations[0].0)
    else
      var r := FindOperationKey(operations[1..], operation, program);
      assert forall i | 0 <= i < |operations[1..]| :: operations[1..][i] == operations[i + 1];
      r
  }

  /** `_load_operation_config`: the entry under the first matching key; none for a missing file, no match, or an empty key. */
  function LoadOperationConfig(file: OperationFile, operation: string, program: string): (r: Option<OperationConfig>)
    ensures r.Some? ==> file.Some? && exists i | 0 <= i < |file.value| ::
              KeyMatches(file.value[i].0, operation, program) && file.value[i].0 != "" && Get(file.value, file.value[i].0) == r
    ensures file.None? ==> r.None?
    ensures file.Some? && (forall i | 0 <= i < |file.value| :: !KeyMatches(file.value[i].0, operation, program)) ==> r.None?
  {
    match file
    case None => None
    case Some(operations) =>
      match FindOperationKey(operations, operation, program)
      case None => None
      case Some(key) => if key != "" then Get(operations, key) else None
  }

  /**
   * The first matching key decides: its entry is loaded when the key is
   * non-empty, and nothing is loaded when it is empty, whatever later keys
   * also match.
   */
  lemma {:induction false} LoadOperationConfigFirst(file: OperationFile, operation: string, program: string, i: nat)
    requires file.Some? && i < |file.value| && KeyMatches(file.value[i].0, operation, program)
    requires forall j | 0 <= j < i :: !KeyMatches(file.value[j].0, operation, program)
    ensures file.value[i].0 != "" ==> LoadOperationConfig(file, operation, program) == Some(file.value[i].1)
    ensures file.value[i].0 == "" ==> LoadOperationConfig(file, operation, program).None?
  {
    var operations := file.value;
    var key := FindOperationKey(operations, operation, program);
    assert key.Some?;
    var i' :| 0 <= i' < |operations| && operations[i'].0 == key.value && KeyMatches(key.value, operation, program)
              && forall j | 0 <= j < i' :: !KeyMatches(operations[j].0, operation, program);
    assert i' == i;
    if key.value != "" {
      IndexOfIs(operations, key.value, i);
    }
  }

  /**
   * `generate_command`: ValueError when there is no operation entry, an empty
   * one, or no non-empty `cmd_format`; otherwise the format with the
   * parameters substituted.
   */
  function GenerateCommand(file: OperationFile, operation: string, params: Dict<string>, program: string): (r: Result<string>)
    ensures r.Err? ==> r.fault == ValueError
    ensures r.Err? <==> match LoadOperationConfig(file, operation, program)
                        case None => true
                        case Some(c) => |c| == 0 || "cmd_format" !in c || c["cmd_format"] == ""
    ensures r.Ok? ==> r.value == ReplaceParameters(LoadOperationConfig(file, operation, program).value["cmd_format"], params)
  {
    match LoadOperationConfig(file, operation, program)
    case None => Err(ValueError)
    case Some(config) =>
      if |config| == 0 then Err(ValueError)
      else if "cmd_format" !in config || config["cmd_format"] == "" then Err(ValueError)
      else Ok(ReplaceParameters(config["cmd_format"], params))
  }

  /** The parameter names `generate_command` declares, in order. */
  const GenerateCommandParameters := ["operation_name", "params", "dst_operation_groups_name", "dst_operation_group_name"]

  /**
   * Whether a call passing every argument by the keyword names `keywords`
   * binds to `generate_command`: each keyword is a declared parameter, and
   * each declared parameter (none has a default) is given.
   */
  predicate KeywordsBind(keywords: seq<string>)
  {
    && (forall k | 0 <= k < |keywords| :: keywords[k] in GenerateCommandParameters)
    && (forall p | 0 <= p < |GenerateCommandParameters| :: GenerateCommandParameters[p] in keywords)
  }

  /**
   * A call of `generate_command` by keywords: a TypeError, before anything
   * is loaded, when the keywords do not bind; otherwise the command itself.
   */
  function GenerateCommandByKeywords(keywords: seq<string>, file: OperationFile, operation: string, params: Dict<string>,
                                     program: string): (r: Result<string>)
    ensures r == Err(TypeError) <==> !KeywordsBind(keywords)
    ensures KeywordsBind(keywords) ==> r == GenerateCommand(file, operation, params, program)
  {
    if KeywordsBind(keywords) then GenerateCommand(file, operation, params, program) else Err(TypeError)
  }

  /** A call naming the declared parameters is the call itself; one naming a parameter that is not declared raises TypeError. */
  lemma {:induction false} DeclaredKeywordsBind(file: OperationFile, operation: string, params: Dict<string>, program: string,
                                                keywords: seq<string>, k: nat)
    requires k < |keywords| && keywords[k] !in GenerateCommandParameters
    ensures GenerateCommandByKeywords(GenerateCommandParameters, file, operation, params, program)
            == GenerateCommand(file, operation, params, program)
    ensures GenerateCommandByKeywords(keywords, file, operation, params, program) == Err(TypeError)
  {
    assert KeywordsBind(GenerateCommandParameters) by {
      forall k | 0 <= k < |GenerateCommandParameters|
        ensures GenerateCommandParameters[k] in GenerateCommandParameters
      {
      }
    }
  }

  /** A call naming exactly the declared parameters is the call itself. */
  lemma {:induction false} DeclaredParametersBind(file: OperationFile, operation: string, params: Dict<string>, program: string)
    ensures GenerateCommandByKeywords(GenerateCommandParameters, file, operation, params, program)
            == GenerateCommand(file, operation, params, program)
  {
    assert KeywordsBind(GenerateCommandParameters) by {
      forall k | 0 <= k < |GenerateCommandParameters|
        ensures GenerateCommandParameters[k] in GenerateCommandParameters
      {
      }
    }
  }
}

=== FILE: sorting.dfy ===
// Python's `sorted` on strings (code-point lexicographic order) and
// `sorted(set(...))`, as an insertion sort with an ordered-permutation contract.

module Sorting {

  /** Python's `a <= b` on strings. */
  predicate LexLe(a: string, b: string)
    decreases |a|
  {
    |a| == 0 || (|b| > 0 && (a[0] < b[0] || (a[0] == b[0] && LexLe(a[1..], b[1..]))))
  }

  lemma {:induction false} LexLeTotal(a: string, b: string)
    ensures LexLe(a, b) || LexLe(b, a)
    decreases |a|
  {
    if |a| > 0 && |b| > 0 && a[0] == b[0] {
      LexLeTotal(a[1..], b[1..]);
    }
  }

  lemma {:induction false} LexLeTrans(a: string, b: string, c: string)
    requires LexLe(a, b) && LexLe(b, c)
    ensures LexLe(a, c)
    decreases |a|
  {
    if |a| > 0 && a[0] == b[0] && b[0] == c[0] {
      LexLeTrans(a[1..], b[1..], c[1..]);
    }
  }

  lemma {:induction false} LexLeAntisym(a: string, b: string)
    requires LexLe(a, b) && LexLe(b, a)
    ensures a == b
    decreases |a|
  {
    if |a| > 0 {
      LexLeAntisym(a[1..], b[1..]);
      assert a == [a[0]] + a[1..];
      assert b == [b[0]] + b[1..];
    }
  }

  predicate Sorted(s: seq<string>)
  {
    forall i, j | 0 <= i < j < |s| :: LexLe(s[i], s[j])
  }

  predicate Distinct(s: seq<string>)
  {
    forall i, j | 0 <= i < j < |s| :: s[i] != s[j]
  }

  function Insert(x: string, s: seq<string>): (r: seq<string>)
    requires Sorted(s)
    ensures Sorted(r)
    ensures multiset(r) == multiset(s) + multiset{x}
  {
    if |s| == 0 then [x]
    else if LexLe(x, s[0]) then
      forall y | y in s ensures LexLe(x, y) {
        var j :| 0 <= j < |s| && s[j] == y;
        if j > 0 {
          LexLeTrans(x, s[0], s[j]);
        }
      }
      ConsSorted(x, s);
      assert multiset([x] + s) == multiset{x} + multiset(s);
      [x] + s
    else
      LexLeTotal(x, s[0]);
      var t := Insert(x, s[1..]);
      assert s == [s[0]] + s[1..];
      forall y | y in t ensures LexLe(s[0], y) {
        assert y in multiset(t);
        if y != x {
          assert y in multiset(s[1..]);
          assert y in s[1..];
        }
      }
      ConsSorted(s[0], t);
      assert multiset([s[0]] + t) == multiset{s[0]} + multiset(t);
      [s[0]] + t
  }

  lemma {:induction false} ConsSorted(h: string, t: seq<string>)
    requires Sorted(t)
    requires forall y | y in t :: LexLe(h, y)
    ensures Sorted([h] + t)
  {
    forall i, j | 0 <= i < j < |[h] + t|
      ensures LexLe(([h] + t)[i], ([h] + t)[j])
    {
      if i == 0 {
        assert ([h] + t)[j] == t[j - 1];
      } else {
        assert ([h] + t)[i] == t[i - 1];
        assert ([h] + t)[j] == t[j - 1];
      }
    }
  }

  lemma {:induction false} LexLeRefl(a: string)
    ensures LexLe(a, a)
    decreases |a|
  {
    if |a| > 0 {
      LexLeRefl(a[1..]);
    }
  }

  /** Python's `sorted(s)`: the ordered permutation of `s`. */
  function Sort(s: seq<string>): (r: seq<string>)
    ensures Sorted(r)
    ensures multiset(r) == multiset(s)
  {
    if |s| == 0 then []
    else
      assert s == [s[0]] + s[1..];
      Insert(s[0], Sort(s[1..]))
  }

  /** There is only one ordered permutation, so any sorted rearrangement of `s` is `Sort(s)`. */
  lemma {:induction false} SortUnique(r: seq<string>, s: seq<string>)
    requires Sorted(r) && multiset(r) == multiset(s)
    ensures r == Sort(s)
  {
    SortedSameElements(r, Sort(s));
  }

  lemma {:induction false} SortedSameElements(a: seq<string>, b: seq<string>)
    requires Sorted(a) && Sorted(b) && multiset(a) == multiset(b)
    ensures a == b
    decreases |a|
  {
    if |a| > 0 {
      assert |b| == |multiset(b)| == |multiset(a)| == |a|;
      assert a[0] in multiset(b);
      assert b[0] in multiset(a);
      var i :| 0 <= i < |b| && b[i] == a[0];
      var j :| 0 <= j < |a| && a[j] == b[0];
      LexLeRefl(a[0]);
      LexLeRefl(b[0]);
      assert LexLe(b[0], a[0]) by {
        if i > 0 {
          assert LexLe(b[0], b[i]);
        }
      }
      assert LexLe(a[0], b[0]) by {
        if j > 0 {
          assert LexLe(a[0], a[j]);
        }
      }
      LexLeAntisym(a[0], b[0]);
      assert a == [a[0]] + a[1..];
      assert b == [b[0]] + b[1..];
      assert multiset(a) == multiset{a[0]} + multiset(a[1..]);
      assert multiset(b) == multiset{b[0]} + multiset(b[1..]);
      assert multiset(a[1..]) == multiset(a) - multiset{a[0]};
      assert multiset(b[1..]) == multiset(b) - multiset{b[0]};
      SortedSameElements(a[1..], b[1..]);
    }
  }

  /** The elements of `s` in order of first occurrence, each once. */
  function Dedupe(s: seq<string>): (r: seq<string>)
    ensures Distinct(r)
    ensures forall x :: x in r <==> x in s
  {
    if |s| == 0 then []
    else
      var t := Dedupe(s[..|s| - 1]);
      assert s == s[..|s| - 1] + [s[|s| - 1]];
      if s[|s| - 1] in t then t else t + [s[|s| - 1]]
  }

  lemma {:induction false} DistinctMultiset(s: seq<string>, x: string)
    requires Distinct(s) && x in s
    ensures multiset(s)[x] == 1
    decreases |s|
  {
    if s[0] == x {
      assert x !in s[1..];
      assert s == [s[0]] + s[1..];
    } else {
      assert s == [s[0]] + s[1..];
      DistinctMultiset(s[1..], x);
    }
  }

  lemma {:induction false} PermutationKeepsDistinct(a: seq<string>, b: seq<string>)
    requires Distinct(a) && multiset(a) == multiset(b)
    ensures Distinct(b)
  {
    forall i, j | 0 <= i < j < |b|
      ensures b[i] != b[j]
    {
      if b[i] == b[j] {
        var x := b[i];
        assert b == b[..i] + [b[i]] + b[i + 1..j] + [b[j]] + b[j + 1..];
        assert multiset(b)[x] >= 2;
        assert x in multiset(a);
        DistinctMultiset(a, x);
      }
    }
  }

  /** Python's `sorted(set(s))`. */
  function SortedSet(s: seq<string>): (r: seq<string>)
    ensures Sorted(r) && Distinct(r)
    ensures forall x :: x in r <==> x in s
  {
    var d := Dedupe(s);
    var r := Sort(d);
    PermutationKeepsDistinct(d, r);
    assert forall x :: x in r <==> x in multiset(r);
    assert forall x :: x in d <==> x in multiset(d);
    r
  }
}

=== FILE: synthesis.dfy ===
// Template synthesis shared by the two mapping builders: the operation name
// an operations-table key stands for, the sentinel values that stand in for
// a placeholder, the example argument vector built from a command format,
// and lookups along a parsed tree's chain of subcommands.

module Synthesis {
  import opened Util
  import opened Text
  import opened Grammar
  import opened Tree
  import opened Dicts
  import Parsers

  // ---------------------------------------------------------------------------
  // Operation names

  /** A key whose last dot-separated segment is `program` is its other segments, a dot and `program`. */
  lemma {:induction false} LastSegmentEnds(key: string, program: string)
    requires var parts := Split(key, "."); |parts| > 1 && Last(parts) == program
    ensures '.' !in program && EndsWith(key, "." + program)
    ensures Join(Init(Split(key, ".")), ".") + "." + program == key
  {
    var parts := Split(key, ".");
    var head := Join(Init(parts), ".");
    assert '.' !in program by {
      SplitPiecesFree(key, ".");
      assert !Contains(parts[|parts| - 1], ".");
      if '.' in program {
        CharContains(program, '.');
        assert false;
      }
    }
    assert key == head + "." + program by {
      JoinSplit(key, ".");
      assert parts == Init(parts) + [Last(parts)];
      JoinSnoc(Init(parts), Last(parts), ".");
    }
    assert key == head + ("." + program);
    assert key[|key| - |"." + program|..] == "." + program;
  }

  /** A key ending in `.program`, for a dot-free `program`, has `program` as its last segment. */
  lemma {:induction false} SuffixIsLastSegment(key: string, program: string)
    requires '.' !in program && EndsWith(key, "." + program)
    ensures var parts := Split(key, "."); |parts| > 1 && Last(parts) == program
  {
    var base := key[..|key| - |program| - 1];
    assert key == base + ['.'] + program;
    SplitAtSeparator(base, '.', program);
    SplitNoSeparator(program, '.');
    assert Split(key, ".") == Split(base, ".") + [program];
  }

  /** The last dot-separated segment of a key is `program` exactly when the key ends in `.program`. */
  lemma {:induction false} LastSegment(key: string, program: string)
    ensures var parts := Split(key, ".");
            (|parts| > 1 && Last(parts) == program) <==> ('.' !in program && EndsWith(key, "." + program))
    ensures var parts := Split(key, ".");
            |parts| > 1 && Last(parts) == program ==> Join(Init(parts), ".") + "." + program == key
  {
    var parts := Split(key, ".");
    if |parts| > 1 && Last(parts) == program {
      LastSegmentEnds(key, program);
    }
    if '.' !in program && EndsWith(key, "." + program) {
      SuffixIsLastSegment(key, program);
    }
  }

  /**
   * The operation an operations-table key names: a key `op.program` whose
   * last dot-separated segment is the program (or group) stands for `op`;
   * any other key stands for itself.
   */
  function OperationName(key: string, program: string): (r: string)
    ensures '.' !in program && EndsWith(key, "." + program) ==> r + "." + program == key
    ensures !('.' !in program && EndsWith(key, "." + program)) ==> r == key
  {
    LastSegment(key, program);
    var parts := Split(key, ".");
    if |parts| > 1 && Last(parts) == program then Join(Init(parts), ".") else key
  }

  /** Qualifying an operation with the program and reading the name back gives the operation. */
  lemma {:induction false} OperationNameOfQualified(operation: string, program: string)
    requires '.' !in program
    ensures OperationName(operation + "." + program, program) == operation
  {
    var key := operation + "." + program;
    assert key[|key| - |"." + program|..] == "." + program;
    var r := OperationName(key, program);
    assert r + "." + program == key;
    assert r == key[..|r|] && operation == key[..|operation|];
  }

  // ---------------------------------------------------------------------------
  // Sentinel values

  /** What every sentinel of a parameter starts with; the marker the locating step searches for. */
  function SentinelMarker(name: string): string
  {
    "__param_" + name
  }

  /** The one-value sentinel `__param_<name>__`. */
  function Sentinel(name: string): string
  {
    SentinelMarker(name) + "__"
  }

  /** The numbered sentinel `__param_<name>_<i>__`. */
  function NumberedSentinel(name: string, i: nat): string
  {
    SentinelMarker(name) + "_" + NatToString(i) + "__"
  }

  /** The numbered sentinels 1 to `count`, in order. */
  function NumberedSentinels(name: string, count: nat): (r: seq<string>)
    ensures |r| == count
    ensures forall k | 0 <= k < count :: r[k] == NumberedSentinel(name, k + 1)
  {
    if count == 0 then [] else NumberedSentinels(name, count - 1) + [NumberedSentinel(name, count)]
  }

  /** Different numbers give different sentinels. */
  lemma {:induction false} NumberedSentinelInjective(name: string, i: nat, j: nat)
    requires NumberedSentinel(name, i) == NumberedSentinel(name, j)
    ensures i == j
  {
    var head := SentinelMarker(name) + "_";
    var si := NumberedSentinel(name, i);
    var sj := NumberedSentinel(name, j);
    assert si == head + NatToString(i) + "__";
    assert sj == head + NatToString(j) + "__";
    assert si[|head|..|head| + |NatToString(i)|] == NatToString(i);
    assert sj[|head|..|head| + |NatToString(j)|] == NatToString(j);
    NatToStringInjective(i, j);
  }

  /** The numbered sentinels of one parameter are pairwise different. */
  lemma {:induction false} NumberedSentinelsDistinct(name: string, count: nat)
    ensures forall a, b | 0 <= a < b < count :: NumberedSentinels(name, count)[a] != NumberedSentinels(name, count)[b]
  {
    forall a, b | 0 <= a < b < count
      ensures NumberedSentinels(name, count)[a] != NumberedSentinels(name, count)[b]
    {
      if NumberedSentinels(name, count)[a] == NumberedSentinels(name, count)[b] {
        NumberedSentinelInjective(name, a + 1, b + 1);
      }
    }
  }

  /** The first argument configuration named `name`. */
  function ArgumentNamed(configs: seq<ArgumentConfig>, name: string): Option<ArgumentConfig>
  {
    FirstWhere(configs, (a: ArgumentConfig) => a.name == name)
  }

  /** The first named argument configuration among the subcommands, in declaration order. */
  function NamedInSubcommands(subs: seq<SubCommandConfig>, name: string): (r: Option<ArgumentConfig>)
    ensures r.None? <==> forall s | 0 <= s < |subs| :: ArgumentNamed(subs[s].arguments, name).None?
    ensures r.Some? ==> exists s | 0 <= s < |subs| ::
              ArgumentNamed(subs[s].arguments, name) == r && forall t | 0 <= t < s :: ArgumentNamed(subs[t].arguments, name).None?
  {
    if |subs| == 0 then None
    else if ArgumentNamed(subs[0].arguments, name).Some? then ArgumentNamed(subs[0].arguments, name)
    else
      var r := NamedInSubcommands(subs[1..], name);
      assert forall s | 1 <= s < |subs| :: subs[s] == subs[1..][s - 1];
      if r.Some? then
        var s :| 0 <= s < |subs[1..]| && ArgumentNamed(subs[1..][s].arguments, name) == r
                 && forall t | 0 <= t < s :: ArgumentNamed(subs[1..][t].arguments, name).None?;
        assert ArgumentNamed(subs[s + 1].arguments, name) == r;
        assert forall t | 0 <= t < s + 1 :: ArgumentNamed(subs[t].arguments, name).None?;
        r
      else r
  }

  /**
   * `_find_param_config`: an argument configuration with the parameter's
   * name, looked for among the program's own arguments first and then in the
   * first-level subcommands; deeper subcommands are never searched.
   */
  function FindParamConfig(name: string, config: ParserConfig): (r: Option<ArgumentConfig>)
    ensures r.Some? ==> r.value.name == name
    ensures r.None? <==> (forall i | 0 <= i < |config.arguments| :: config.arguments[i].name != name)
                         && forall s, i | 0 <= s < |config.subCommands| && 0 <= i < |config.subCommands[s].arguments| ::
                              config.subCommands[s].arguments[i].name != name
    ensures ArgumentNamed(config.arguments, name).Some? ==> r == ArgumentNamed(config.arguments, name)
  {
    var subs := config.subCommands;
    if ArgumentNamed(config.arguments, name).Some? then ArgumentNamed(config.arguments, name)
    else
      var r := NamedInSubcommands(subs, name);
      assert r.None? ==> forall s, i | 0 <= s < |subs| && 0 <= i < |subs[s].arguments| :: subs[s].arguments[i].name != name by {
        if r.None? {
          forall s, i | 0 <= s < |subs| && 0 <= i < |subs[s].arguments|
            ensures subs[s].arguments[i].name != name
          {
            assert ArgumentNamed(subs[s].arguments, name).None?;
          }
        }
      }
      assert r.Some? ==> r.value.name == name by {
        if r.Some? {
          var s :| 0 <= s < |subs| && ArgumentNamed(subs[s].arguments, name) == r;
        }
      }
      r
  }

  /** How many sentinels a parameter gets for the value count of its configuration. */
  function SentinelCount(nargs: NArgs): nat
  {
    match nargs
    case Exactly(n) => n
    case ZeroOrOne => 1
    case OneOrMore => 2
    case ZeroOrMore => 2
  }

  /**
   * `_generate_param_example_values`: two numbered sentinels for `+` and
   * `*`, `n` numbered ones for a fixed count `n`, and the single sentinel for
   * `?` or when no configuration has the parameter's name.
   */
  function ExampleValues(name: string, config: ParserConfig): (r: seq<string>)
    ensures forall k | 0 <= k < |r| :: StartsWith(r[k], SentinelMarker(name))
    ensures FindParamConfig(name, config).None? ==> r == [Sentinel(name)]
    ensures FindParamConfig(name, config).Some? ==> |r| == SentinelCount(FindParamConfig(name, config).value.nargs)
  {
    SentinelsMarked(name, if FindParamConfig(name, config).Some? then SentinelCount(FindParamConfig(name, config).value.nargs) else 0);
    match FindParamConfig(name, config)
    case None => [Sentinel(name)]
    case Some(c) =>
      match c.nargs
      case OneOrMore => NumberedSentinels(name, 2)
      case ZeroOrMore => NumberedSentinels(name, 2)
      case Exactly(n) => NumberedSentinels(name, n)
      case ZeroOrOne => [Sentinel(name)]
  }

  /** Every sentinel of a parameter, numbered or not, begins with that parameter's marker. */
  lemma {:induction false} SentinelsMarked(name: string, count: nat)
    ensures StartsWith(Sentinel(name), SentinelMarker(name))
    ensures forall k | 0 <= k < count :: StartsWith(NumberedSentinels(name, count)[k], SentinelMarker(name))
  {
    var m := SentinelMarker(name);
    assert (m + "__")[..|m|] == m;
    forall k | 0 <= k < count
      ensures StartsWith(NumberedSentinels(name, count)[k], m)
    {
      var t := "_" + NatToString(k + 1) + "__";
      assert NumberedSentinel(name, k + 1) == m + t;
      assert (m + t)[..|m|] == m;
    }
  }

  /** A parameter with a configuration gets as many example values as that configuration accepts. */
  lemma {:induction false} ExampleValuesAccepted(name: string, config: ParserConfig)
    requires FindParamConfig(name, config).Some?
    ensures ValidateCount(FindParamConfig(name, config).value.nargs, |ExampleValues(name, config)|)
  {
  }

  /** Example values of a parameter with more than one are pairwise different. */
  lemma {:induction false} ExampleValuesDistinct(name: string, config: ParserConfig)
    ensures forall a, b | 0 <= a < b < |ExampleValues(name, config)| :: ExampleValues(name, config)[a] != ExampleValues(name, config)[b]
  {
    var r := ExampleValues(name, config);
    if |r| > 1 {
      var c := FindParamConfig(name, config).value;
      NumberedSentinelsDistinct(name, SentinelCount(c.nargs));
    }
  }

  // ---------------------------------------------------------------------------
  // The example argument vector

  /** A whitespace-separated part written as a whole-part placeholder `{...}`. */
  predicate IsPlaceholderPart(part: string)
  {
    |part| >= 2 && StartsWith(part, "{") && EndsWith(part, "}")
  }

  /** The example values a part becomes: its sentinels when it is a placeholder, itself otherwise. */
  function PartValues(part: string, config: ParserConfig): seq<string>
  {
    if IsPlaceholderPart(part) then ExampleValues(part[1..|part| - 1], config) else [part]
  }

  /** The parts expanded one after the other. */
  function Expand(parts: seq<string>, config: ParserConfig): seq<string>
    decreases |parts|
  {
    if |parts| == 0 then [] else PartValues(parts[0], config) + Expand(parts[1..], config)
  }

  /** `_generate_example_command`: the format split on whitespace, each part expanded. */
  function ExampleCommand(format: string, config: ParserConfig): (r: seq<string>)
    ensures IsBlank(format) ==> r == []
  {
    WordsEmptyIffBlank(format);
    Expand(Words(format), config)
  }

  /** Expansion works part by part: expanding two runs of parts concatenates their expansions. */
  lemma {:induction false} ExpandAppend(a: seq<string>, b: seq<string>, config: ParserConfig)
    ensures Expand(a + b, config) == Expand(a, config) + Expand(b, config)
    decreases |a|
  {
    if |a| == 0 {
      assert a + b == b;
    } else {
      assert (a + b)[0] == a[0];
      assert (a + b)[1..] == a[1..] + b;
      ExpandAppend(a[1..], b, config);
      ConcatAssoc(PartValues(a[0], config), Expand(a[1..], config), Expand(b, config));
    }
  }

  /** Parts that are not placeholders are kept, in order. */
  lemma {:induction false} ExpandLiterals(parts: seq<string>, config: ParserConfig)
    requires forall k | 0 <= k < |parts| :: !IsPlaceholderPart(parts[k])
    ensures Expand(parts, config) == parts
    decreases |parts|
  {
    if |parts| > 0 {
      ExpandLiterals(parts[1..], config);
    }
  }

  /** A part `{name}` becomes the parameter's example values. */
  lemma {:induction false} ExpandPlaceholder(name: string, config: ParserConfig)
    ensures Expand([Braced(name)], config) == ExampleValues(name, config)
  {
    var part := Braced(name);
    assert part[..1] == "{" && part[|part| - 1..] == "}";
    assert part[1..|part| - 1] == name;
    var none: seq<string> := [];
    assert [part][1..] == none;
  }

  /** A format written as words separated by single spaces expands those very words. */
  lemma {:induction false} ExampleCommandOfWords(words: seq<string>, config: ParserConfig)
    requires forall k | 0 <= k < |words| :: words[k] != "" && NoSpace(words[k])
    ensures ExampleCommand(Join(words, " "), config) == Expand(words, config)
  {
    WordsOfJoin(words);
  }

  /** `_parse_command`: the parse tree, or none when the parser raises. */
  function ParseExample(config: ParserConfig, argv: seq<string>): (r: Option<CommandNode>)
    ensures r.Some? <==> Parsers.Parse(config, argv).Ok?
    ensures |argv| == 0 ==> r.None?
    ensures r.Some? ==> r.value.name == argv[0]
  {
    match Parsers.Parse(config, argv)
    case Ok(node) => Some(node)
    case Err(_) => None
  }

  // ---------------------------------------------------------------------------
  // Lookups along the chain of subcommands

  /** Where a parameter was found: the argument, the value's index when recorded, and the argument's kind. */
  datatype ParamInfo = ParamInfo(cmdArg: CommandArg, valueIndex: Option<nat>, foundIn: ArgType)

  lemma {:induction false} ChainStep(node: CommandNode, child: CommandNode)
    requires node.subcommand == Some(child)
    ensures Chain(node) == [node] + Chain(child)
    ensures forall d | 1 <= d < |Chain(node)| :: Chain(node)[d] == Chain(child)[d - 1]
  {
  }

  /**
   * The first answer a per-node lookup gives, trying the node before its
   * subcommand: the shape of every `search here, else recurse into the
   * subcommand` function of the synthesizers.
   */
  function FirstOnChain<T(==)>(node: CommandNode, f: CommandNode -> Option<T>): (r: Option<T>)
    ensures r.None? <==> forall d | 0 <= d < |Chain(node)| :: f(Chain(node)[d]).None?
    ensures r.Some? ==> exists d | 0 <= d < |Chain(node)| ::
              f(Chain(node)[d]) == r && forall e | 0 <= e < d :: f(Chain(node)[e]).None?
    decreases node
  {
    match f(node)
    case Some(x) =>
      assert f(Chain(node)[0]) == Some(x);
      Some(x)
    case None =>
      match node.subcommand
      case None => None
      case Some(child) =>
        var r := FirstOnChain(child, f);
        ChainStep(node, child);
        if r.Some? then
          var d :| 0 <= d < |Chain(child)| && f(Chain(child)[d]) == r && forall e | 0 <= e < d :: f(Chain(child)[e]).None?;
          assert f(Chain(node)[d + 1]) == r;
          assert forall e | 0 <= e < d + 1 :: f(Chain(node)[e]).None? by {
            forall e | 0 <= e < d + 1
              ensures f(Chain(node)[e]).None?
            {
              if e > 0 {
                assert Chain(node)[e] == Chain(child)[e - 1];
              }
            }
          }
          r
        else
          assert forall d | 0 <= d < |Chain(node)| :: f(Chain(node)[d]).None? by {
            forall d | 0 <= d < |Chain(node)|
              ensures f(Chain(node)[d]).None?
            {
              if d > 0 {
                assert Chain(node)[d] == Chain(child)[d - 1];
              }
            }
          }
          r
  }

  /**
   * `_analyze_parameter_mapping`: each name in turn gets the location the
   * lookup gives, if any; a name that occurs twice is looked up twice.
   */
  function BindEach(names: seq<string>, locate: string -> Option<ParamInfo>): (r: Dict<ParamInfo>)
    ensures forall p :: Get(r, p) == if p in names then locate(p) else None
    ensures DistinctKeys(r)
    decreases |names|
  {
    if |names| == 0 then
      var empty: Dict<ParamInfo> := [];
      assert forall p :: Get(empty, p) == None;
      empty
    else
      var d := BindEach(Init(names), locate);
      var p := Last(names);
      assert names == Init(names) + [p];
      assert forall q :: q in names <==> q in Init(names) || q == p;
      match locate(p)
      case None => d
      case Some(info) =>
        PutDistinct(d, p, info);
        Put(d, p, info)
  }

  // ---------------------------------------------------------------------------
  // Mapping entries

  /** One entry of a program's `command_mappings`. */
  datatype MappingEntry = MappingEntry(
    operation: string,
    cmdFormat: string,
    params: Dict<ParamInfo>,
    cmdNode: CommandNode,
    finalCmdFormat: Option<string>)

  /** The entries the operations of a table give, in table order, skipping those that give none. */
  function CollectEntries(operations: seq<(string, map<string, string>)>, process: (string, map<string, string>) -> Option<MappingEntry>): (r: seq<MappingEntry>)
    ensures |r| <= |operations|
    ensures (forall i | 0 <= i < |operations| :: process(operations[i].0, operations[i].1).None?) ==> r == []
    ensures forall k | 0 <= k < |r| :: exists i | 0 <= i < |operations| :: process(operations[i].0, operations[i].1) == Some(r[k])
    decreases |operations|
  {
    if |operations| == 0 then []
    else
      (match process(operations[0].0, operations[0].1) case None => [] case Some(e) => [e])
      + CollectEntries(operations[1..], process)
  }

  /** One more operation adds its entry, if it gives one, after the others'. */
  lemma {:induction false} CollectEntriesSnoc(operations: seq<(string, map<string, string>)>, key: string, c: map<string, string>,
                                             process: (string, map<string, string>) -> Option<MappingEntry>)
    ensures CollectEntries(operations + [(key, c)], process)
            == CollectEntries(operations, process) + match process(key, c) case None => [] case Some(e) => [e]
    decreases |operations|
  {
    var last := match process(key, c) case None => [] case Some(e) => [e];
    if |operations| == 0 {
      assert operations + [(key, c)] == [(key, c)];
      assert CollectEntries([(key, c)], process) == last + CollectEntries([], process);
    } else {
      var all := operations + [(key, c)];
      var first := match process(operations[0].0, operations[0].1) case None => [] case Some(e) => [e];
      assert all[0] == operations[0] && all[1..] == operations[1..] + [(key, c)];
      calc {
        CollectEntries(all, process);
        first + CollectEntries(operations[1..] + [(key, c)], process);
        { CollectEntriesSnoc(operations[1..], key, c, process); }
        first + (CollectEntries(operations[1..], process) + last);
        (first + CollectEntries(operations[1..], process)) + last;
        CollectEntries(operations, process) + last;
      }
    }
  }
}

=== FILE: text.dfy ===
// The string operations of Python's `str` and `re` that the modelled code
// relies on, written out over `seq<char>`: prefix and suffix tests, substring
// search, `split(sep)`, `sep.join(...)`, `replace`, `split()` on whitespace,
// the placeholder pattern `\{(\w+)\}` and decimal numerals.

module Text {
  import opened Util

  predicate StartsWith(s: string, p: string)
  {
    |p| <= |s| && s[..|p|] == p
  }

  predicate EndsWith(s: string, p: string)
  {
    |p| <= |s| && s[|s| - |p|..] == p
  }

  /** `sub` occurs in `s` starting at index `i`. */
  predicate OccursAt(s: string, sub: string, i: int)
  {
    0 <= i && i + |sub| <= |s| && s[i..i + |sub|] == sub
  }

  /** Python's `sub in s`. */
  predicate Contains(s: string, sub: string)
  {
    exists i | 0 <= i <= |s| - |sub| :: OccursAt(s, sub, i)
  }

  /** Index of the first occurrence of `n` in `s` at or after `from`. */
  function Find(s: string, n: string, from: nat): (r: Option<nat>)
    ensures r.Some? ==> from <= r.value && OccursAt(s, n, r.value)
    ensures r.Some? ==> forall j | from <= j < r.value :: !OccursAt(s, n, j)
    ensures r.None? ==> forall j | from <= j :: !OccursAt(s, n, j)
    decreases |s| - from
  {
    if from + |n| > |s| then None
    else if s[from..from + |n|] == n then Some(from)
    else Find(s, n, from + 1)
  }

  lemma {:induction false} FindNoneNotContains(s: string, n: string)
    requires Find(s, n, 0).None?
    ensures !Contains(s, n)
  {
  }

  /** A prefix that ends before the first occurrence has no occurrence. */
  lemma {:induction false} PrefixBeforeFirst(s: string, n: string, k: nat)
    requires |n| > 0 && k <= |s|
    requires forall j | 0 <= j < k :: !OccursAt(s, n, j)
    ensures !Contains(s[..k], n)
  {
    forall i | 0 <= i <= k - |n|
      ensures !OccursAt(s[..k], n, i)
    {
      if OccursAt(s[..k], n, i) {
        assert s[..k][i..i + |n|] == s[i..i + |n|];
        assert OccursAt(s, n, i);
      }
    }
  }

  /** Python's `s.split(sep)` for a non-empty separator. */
  function Split(s: string, sep: string): (r: seq<string>)
    requires |sep| > 0
    ensures |r| >= 1
    decreases |s|
  {
    match Find(s, sep, 0)
    case None => [s]
    case Some(k) => [s[..k]] + Split(s[k + |sep|..], sep)
  }

  /** No piece of a split contains the separator. */
  lemma {:induction false} SplitPiecesFree(s: string, sep: string)
    requires |sep| > 0
    ensures forall k | 0 <= k < |Split(s, sep)| :: !Contains(Split(s, sep)[k], sep)
    decreases |s|
  {
    match Find(s, sep, 0)
    case None =>
      FindNoneNotContains(s, sep);
    case Some(k) =>
      PrefixBeforeFirst(s, sep, k);
      SplitPiecesFree(s[k + |sep|..], sep);
  }

  /** Python's `sep.join(parts)`. */
  function Join(parts: seq<string>, sep: string): string
  {
    if |parts| == 0 then ""
    else if |parts| == 1 then parts[0]
    else parts[0] + sep + Join(parts[1..], sep)
  }

  lemma {:induction false} JoinCons(p: string, rest: seq<string>, sep: string)
    requires |rest| >= 1
    ensures Join([p] + rest, sep) == p + sep + Join(rest, sep)
  {
    assert ([p] + rest)[1..] == rest;
  }

  lemma {:induction false} JoinSnoc(parts: seq<string>, p: string, sep: string)
    requires |parts| >= 1
    ensures Join(parts + [p], sep) == Join(parts, sep) + sep + p
    decreases |parts|
  {
    if |parts| == 1 {
      assert (parts + [p])[1..] == [p];
    } else {
      assert (parts + [p])[1..] == parts[1..] + [p];
      JoinSnoc(parts[1..], p, sep);
    }
  }

  /** A character of `s` is a one-character substring of it. */
  lemma {:induction false} CharContains(s: string, c: char)
    requires c in s
    ensures Contains(s, [c])
  {
    var i :| 0 <= i < |s| && s[i] == c;
    assert s[i..i + 1] == [c];
    assert OccursAt(s, [c], i);
  }

  /** Joining the pieces of a split with the same separator gives back the string. */
  lemma {:induction false} JoinSplit(s: string, sep: string)
    requires |sep| > 0
    ensures Join(Split(s, sep), sep) == s
    decreases |s|
  {
    match Find(s, sep, 0)
    case None =>
    case Some(k) =>
      var rest := s[k + |sep|..];
      assert Split(s, sep) == [s[..k]] + Split(rest, sep);
      JoinSplit(rest, sep);
      JoinCons(s[..k], Split(rest, sep), sep);
      assert s[k..k + |sep|] == sep;
      assert s == s[..k] + sep + rest;
  }

  /** Python's `s.replace(needle, repl)`: every non-overlapping occurrence, left to right. */
  function Replace(s: string, needle: string, repl: string): string
    requires |needle| > 0
    decreases |s|
  {
    match Find(s, needle, 0)
    case None => s
    case Some(k) => s[..k] + repl + Replace(s[k + |needle|..], needle, repl)
  }

  /**
   * Replacing is splitting at the needle and joining with the replacement;
   * together with JoinSplit this says every occurrence, and nothing else,
   * is replaced.
   */
  lemma {:induction false} ReplaceIsJoinOfSplit(s: string, needle: string, repl: string)
    requires |needle| > 0
    ensures Replace(s, needle, repl) == Join(Split(s, needle), repl)
    decreases |s|
  {
    match Find(s, needle, 0)
    case None =>
    case Some(k) =>
      var rest := s[k + |needle|..];
      assert Split(s, needle) == [s[..k]] + Split(rest, needle);
      assert Replace(s, needle, repl) == s[..k] + repl + Replace(rest, needle, repl);
      ReplaceIsJoinOfSplit(rest, needle, repl);
      JoinCons(s[..k], Split(rest, needle), repl);
  }

  /** A one-character needle occurs exactly where that character is. */
  lemma {:induction false} OccursOne(s: string, c: char, j: int)
    ensures OccursAt(s, [c], j) <==> 0 <= j < |s| && s[j] == c
  {
    if 0 <= j < |s| {
      assert s[j..j + 1] == [s[j]];
    }
  }

  /** `Find` of a one-character needle is the first index holding it. */
  lemma {:induction false} FindOne(s: string, c: char, k: nat)
    requires k < |s| && s[k] == c
    requires forall j | 0 <= j < k :: s[j] != c
    ensures Find(s, [c], 0) == Some(k)
  {
    OccursOne(s, c, k);
    forall j | 0 <= j < k
      ensures !OccursAt(s, [c], j)
    {
      OccursOne(s, c, j);
    }
    FindFirst(s, [c], k);
  }

  /** Splitting at the first occurrence of a one-character separator. */
  lemma {:induction false} SplitAtFirstSeparator(x: string, c: char, y: string)
    requires c !in x
    ensures Split(x + [c] + y, [c]) == [x] + Split(y, [c])
  {
    var s := x + [c] + y;
    forall j | 0 <= j < |x|
      ensures s[j] != c
    {
      assert s[j] == x[j];
    }
    FindOne(s, c, |x|);
    assert s[..|x|] == x && s[|x| + 1..] == y;
  }

  /** Splitting at a one-character separator distributes over an occurrence of it. */
  lemma {:induction false} SplitAtSeparator(x: string, c: char, y: string)
    ensures Split(x + [c] + y, [c]) == Split(x, [c]) + Split(y, [c])
    decreases |x|
  {
    match Find(x, [c], 0)
    case None =>
      forall j | 0 <= j < |x|
        ensures x[j] != c
      {
        OccursOne(x, c, j);
      }
      SplitAtFirstSeparator(x, c, y);
      SplitNoSeparator(x, c);
    case Some(k) =>
      OccursOne(x, c, k);
      var front, back := x[..k], x[k + 1..];
      forall j | 0 <= j < k
        ensures front[j] != c
      {
        OccursOne(x, c, j);
      }
      assert x == front + [c] + back;
      assert x + [c] + y == front + [c] + (back + [c] + y);
      var rest, tail := Split(back, [c]), Split(y, [c]);
      calc {
        Split(x + [c] + y, [c]);
        Split(front + [c] + (back + [c] + y), [c]);
        { SplitAtFirstSeparator(front, c, back + [c] + y); }
        [front] + Split(back + [c] + y, [c]);
        { SplitAtSeparator(back, c, y); }
        [front] + (rest + tail);
        ([front] + rest) + tail;
        { SplitAtFirstSeparator(front, c, back); }
        Split(x, [c]) + tail;
      }
  }

  /** `Find` returns the first occurrence. */
  lemma {:induction false} FindFirst(s: string, n: string, k: nat)
    requires OccursAt(s, n, k)
    requires forall j | 0 <= j < k :: !OccursAt(s, n, j)
    ensures Find(s, n, 0) == Some(k)
  {
  }

  /** A string without the one-character separator splits into itself. */
  lemma {:induction false} SplitNoSeparator(x: string, c: char)
    requires c !in x
    ensures Split(x, [c]) == [x]
  {
    forall j | 0 <= j < |x|
      ensures !OccursAt(x, [c], j)
    {
      assert x[j] in x;
    }
  }

  // ---------------------------------------------------------------------------
  // Whitespace and `str.split()`

  /** Python's `str.isspace` for one character. */
  predicate IsSpace(c: char)
  {
    ('\t' <= c <= '\r') || ('\U{1C}' <= c <= ' ') || c == '\U{85}' || c == '\U{A0}'
    || c == '\U{1680}' || ('\U{2000}' <= c <= '\U{200A}') || c == '\U{2028}' || c == '\U{2029}'
    || c == '\U{202F}' || c == '\U{205F}' || c == '\U{3000}'
  }

  predicate NoSpace(s: string)
  {
    forall i | 0 <= i < |s| :: !IsSpace(s[i])
  }

  predicate IsBlank(s: string)
  {
    forall i | 0 <= i < |s| :: IsSpace(s[i])
  }

  /** Length of the leading run of non-whitespace characters. */
  function WordLength(s: string): (n: nat)
    ensures n <= |s|
    ensures forall i | 0 <= i < n :: !IsSpace(s[i])
    ensures n < |s| ==> IsSpace(s[n])
  {
    if |s| == 0 || IsSpace(s[0]) then 0 else 1 + WordLength(s[1..])
  }

  /** Python's `s.split()`: maximal runs of non-whitespace, in order. */
  function Words(s: string): (r: seq<string>)
    ensures forall k | 0 <= k < |r| :: r[k] != "" && NoSpace(r[k])
    decreases |s|
  {
    if |s| == 0 then []
    else if IsSpace(s[0]) then Words(s[1..])
    else
      var n := WordLength(s);
      [s[..n]] + Words(s[n..])
  }

  /** A string splits into no words exactly when it is blank (so `s.strip()` is empty). */
  lemma {:induction false} WordsEmptyIffBlank(s: string)
    ensures Words(s) == [] <==> IsBlank(s)
    decreases |s|
  {
    if |s| > 0 && IsSpace(s[0]) {
      WordsEmptyIffBlank(s[1..]);
      if IsBlank(s[1..]) {
        forall i | 0 <= i < |s|
          ensures IsSpace(s[i])
        {
          if i > 0 {
            assert s[i] == s[1..][i - 1];
          }
        }
      }
    }
  }

  lemma {:induction false} WordLengthOfWord(w: string, rest: string)
    requires NoSpace(w)
    requires |rest| > 0 && IsSpace(rest[0])
    ensures WordLength(w + rest) == |w|
    decreases |w|
  {
    if |w| > 0 {
      assert (w + rest)[1..] == w[1..] + rest;
      WordLengthOfWord(w[1..], rest);
    }
  }

  /** Splitting on whitespace undoes joining non-empty words with single spaces. */
  lemma {:induction false} WordsOfJoin(ws: seq<string>)
    requires forall k | 0 <= k < |ws| :: ws[k] != "" && NoSpace(ws[k])
    ensures Words(Join(ws, " ")) == ws
    decreases |ws|
  {
    if |ws| == 1 {
      var w := ws[0];
      WordsOfSingle(w);
    } else if |ws| > 1 {
      var w := ws[0];
      var rest := Join(ws[1..], " ");
      var s := w + " " + rest;
      assert Join(ws, " ") == s;
      WordLengthOfWord(w, " " + rest);
      assert s == w + (" " + rest);
      assert s[..|w|] == w;
      assert s[|w|..] == " " + rest;
      assert (" " + rest)[1..] == rest;
      WordsOfJoin(ws[1..]);
      assert [w] + ws[1..] == ws;
    }
  }

  lemma {:induction false} WordsOfSingle(w: string)
    requires w != "" && NoSpace(w)
    ensures Words(w) == [w]
  {
    WordLengthAll(w);
    assert w[..|w|] == w;
    assert w[|w|..] == [];
  }

  lemma {:induction false} WordLengthAll(w: string)
    requires NoSpace(w)
    ensures WordLength(w) == |w|
    decreases |w|
  {
    if |w| > 0 {
      WordLengthAll(w[1..]);
    }
  }

  // ---------------------------------------------------------------------------
  // The placeholder pattern `\{(\w+)\}`

  /** A character of the regular-expression class `\w` (ASCII part). */
  predicate IsWordChar(c: char)
  {
    ('a' <= c <= 'z') || ('A' <= c <= 'Z') || ('0' <= c <= '9') || c == '_'
  }

  predicate IsWord(s: string)
  {
    |s| > 0 && forall i | 0 <= i < |s| :: IsWordChar(s[i])
  }

  /** Length of the leading run of word characters. */
  function WordPrefix(s: string): (n: nat)
    ensures n <= |s|
    ensures forall i | 0 <= i < n :: IsWordChar(s[i])
    ensures n < |s| ==> !IsWordChar(s[n])
  {
    if |s| == 0 || !IsWordChar(s[0]) then 0 else 1 + WordPrefix(s[1..])
  }

  /** `s` starts with `{`, a non-empty run of word characters and `}`. */
  predicate BracedWordAt(s: string)
  {
    |s| >= 3 && s[0] == '{' && 0 < WordPrefix(s[1..]) && WordPrefix(s[1..]) + 1 < |s|
    && s[WordPrefix(s[1..]) + 1] == '}'
  }

  /** Python's `re.findall(r'\{(\w+)\}', s)`. */
  function Placeholders(s: string): (r: seq<string>)
    ensures forall k | 0 <= k < |r| :: IsWord(r[k])
    decreases |s|
  {
    if |s| == 0 then []
    else if BracedWordAt(s) then
      var n := WordPrefix(s[1..]);
      [s[1..n + 1]] + Placeholders(s[n + 2..])
    else Placeholders(s[1..])
  }

  function Braced(w: string): string
  {
    "{" + w + "}"
  }

  lemma {:induction false} WordPrefixOfWord(w: string, rest: string)
    requires forall i | 0 <= i < |w| :: IsWordChar(w[i])
    requires |rest| > 0 && !IsWordChar(rest[0])
    ensures WordPrefix(w + rest) == |w|
    decreases |w|
  {
    if |w| > 0 {
      assert (w + rest)[0] == w[0] && (w + rest)[1..] == w[1..] + rest;
      WordPrefixOfWord(w[1..], rest);
    } else {
      assert w + rest == rest;
    }
  }

  /** An occurrence of `{w}` at index 0 is what the pattern matches there. */
  lemma {:induction false} BracedWordAtOccurrence(s: string, w: string)
    requires IsWord(w) && OccursAt(s, Braced(w), 0)
    ensures BracedWordAt(s) && WordPrefix(s[1..]) == |w| && s[1..|w| + 1] == w
  {
    assert s[..|w| + 2] == "{" + w + "}";
    assert s[1..] == w + s[|w| + 1..];
    assert s[|w| + 1] == '}';
    WordPrefixOfWord(w, s[|w| + 1..]);
  }

  /**
   * The names the pattern finds are exactly the words that occur in braces:
   * the left-to-right scan never steps over an occurrence of `{w}`.
   */
  lemma {:induction false} PlaceholdersIff(s: string, w: string)
    ensures w in Placeholders(s) <==> IsWord(w) && Contains(s, Braced(w))
    decreases |s|
  {
    if |s| == 0 {
    } else if BracedWordAt(s) {
      var n := WordPrefix(s[1..]);
      var v := s[1..n + 1];
      var tail := s[n + 2..];
      PlaceholdersIff(tail, w);
      assert Placeholders(s) == [v] + Placeholders(tail);
      if w == v {
        assert s[0..|Braced(w)|] == Braced(w) by {
          assert s[0] == '{' && s[n + 1] == '}';
          assert s[0..n + 2] == [s[0]] + s[1..n + 1] + [s[n + 1]];
        }
        assert OccursAt(s, Braced(w), 0);
      }
      if IsWord(w) && Contains(s, Braced(w)) && w != v {
        var i :| 0 <= i <= |s| - |Braced(w)| && OccursAt(s, Braced(w), i);
        if i == 0 {
          BracedWordAtOccurrence(s, w);
          assert false;
        } else {
          OccurrenceAfterMatch(s, w, i);
          ShiftOccurrence(s, Braced(w), i, n + 2);
        }
      }
      if w in Placeholders(tail) {
        var i :| 0 <= i <= |tail| - |Braced(w)| && OccursAt(tail, Braced(w), i);
        UnshiftOccurrence(s, Braced(w), i, n + 2);
      }
    } else {
      var tail := s[1..];
      PlaceholdersIff(tail, w);
      if IsWord(w) && Contains(s, Braced(w)) {
        var i :| 0 <= i <= |s| - |Braced(w)| && OccursAt(s, Braced(w), i);
        if i == 0 {
          BracedWordAtOccurrence(s, w);
          assert false;
        } else {
          ShiftOccurrence(s, Braced(w), i, 1);
        }
      }
      if w in Placeholders(tail) {
        var i :| 0 <= i <= |tail| - |Braced(w)| && OccursAt(tail, Braced(w), i);
        UnshiftOccurrence(s, Braced(w), i, 1);
      }
    }
  }

  /** An occurrence of a braced word cannot start strictly inside a match. */
  lemma {:induction false} OccurrenceAfterMatch(s: string, w: string, i: nat)
    requires BracedWordAt(s) && IsWord(w) && OccursAt(s, Braced(w), i) && i > 0
    ensures i >= WordPrefix(s[1..]) + 2
  {
    var n := WordPrefix(s[1..]);
    assert s[i] == Braced(w)[0];
    forall k | 1 <= k <= n
      ensures s[k] != '{'
    {
      assert s[k] == s[1..][k - 1];
    }
  }

  lemma {:induction false} ShiftOccurrence(s: string, sub: string, i: nat, d: nat)
    requires d <= i && OccursAt(s, sub, i)
    ensures Contains(s[d..], sub)
  {
    assert s[d..][i - d..i - d + |sub|] == s[i..i + |sub|];
    assert OccursAt(s[d..], sub, i - d);
  }

  lemma {:induction false} UnshiftOccurrence(s: string, sub: string, i: nat, d: nat)
    requires d <= |s| && OccursAt(s[d..], sub, i)
    ensures Contains(s, sub)
  {
    assert s[d..][i..i + |sub|] == s[i + d..i + d + |sub|];
    assert OccursAt(s, sub, i + d);
  }

  // ---------------------------------------------------------------------------
  // The quote-stripping substitution  ['"]\{(\w+)\}['"]  ->  {\1}

  predicate IsQuote(c: char)
  {
    c == '\'' || c == '"'
  }

  /** `s` starts with a quote, a braced word and a quote. */
  predicate QuotedPlaceholderAt(s: string)
  {
    |s| >= 1 && IsQuote(s[0]) && BracedWordAt(s[1..])
    && WordPrefix(s[2..]) + 3 < |s| && IsQuote(s[WordPrefix(s[2..]) + 3])
  }

  /** Python's `re.sub(r"""['"]\{(\w+)\}['"]""", r'{\1}', s)`. */
  function StripQuotes(s: string): (r: string)
    ensures |r| <= |s|
    decreases |s|
  {
    if |s| == 0 then ""
    else if QuotedPlaceholderAt(s) then
      var n := WordPrefix(s[2..]);
      "{" + s[2..n + 2] + "}" + StripQuotes(s[n + 4..])
    else [s[0]] + StripQuotes(s[1..])
  }

  /** A quoted placeholder loses its quotes and the scan goes on after it. */
  lemma {:induction false} StripQuotesStep(q1: char, w: string, q2: char, rest: string)
    requires IsQuote(q1) && IsQuote(q2) && IsWord(w)
    ensures StripQuotes([q1] + Braced(w) + [q2] + rest) == Braced(w) + StripQuotes(rest)
  {
    var s := [q1] + Braced(w) + [q2] + rest;
    assert s[1..] == Braced(w) + [q2] + rest;
    assert OccursAt(s[1..], Braced(w), 0);
    BracedWordAtOccurrence(s[1..], w);
    assert s[2..] == s[1..][1..];
    assert s[|w| + 3] == q2;
    assert s[2..|w| + 2] == w;
    assert s[|w| + 4..] == rest;
  }

  /** A string without quote characters is left as it is. */
  lemma {:induction false} StripQuotesNoQuotes(s: string)
    requires forall i | 0 <= i < |s| :: !IsQuote(s[i])
    ensures StripQuotes(s) == s
    decreases |s|
  {
    if |s| > 0 {
      StripQuotesNoQuotes(s[1..]);
    }
  }

  // ---------------------------------------------------------------------------
  // Decimal numerals

  predicate IsDigit(c: char)
  {
    '0' <= c <= '9'
  }

  /** Python's `s.isdigit()` (ASCII digits). */
  predicate IsDigits(s: string)
  {
    |s| > 0 && forall i | 0 <= i < |s| :: IsDigit(s[i])
  }

  /** Python's `str(n)` for a natural number. */
  function NatToString(n: nat): (r: string)
    ensures IsDigits(r)
  {
    if n < 10 then ["0123456789"[n]]
    else NatToString(n / 10) + ["0123456789"[n % 10]]
  }

  /** Python's `int(s)` for a string of digits. */
  function ParseDigits(s: string): nat
    requires forall i | 0 <= i < |s| :: IsDigit(s[i])
  {
    if |s| == 0 then 0
    else
      var d := s[|s| - 1];
      assert IsDigit(d);
      ParseDigits(s[..|s| - 1]) * 10 + (d as int - '0' as int)
  }

  /** Reading back a numeral gives the number. */
  lemma {:induction false} ParseNatToString(n: nat)
    ensures ParseDigits(NatToString(n)) == n
  {
    if n >= 10 {
      ParseNatToString(n / 10);
      var s := NatToString(n);
      assert s[..|s| - 1] == NatToString(n / 10);
    }
  }

  lemma {:induction false} NatToStringInjective(a: nat, b: nat)
    requires NatToString(a) == NatToString(b)
    ensures a == b
  {
    ParseNatToString(a);
    ParseNatToString(b);
  }

  /** Python's `s.split(c, 1)` when `c` occurs in `s`: the text before the first `c` and after it. */
  function SplitOnce(s: string, c: char): (r: Option<(string, string)>)
    ensures r.None? <==> c !in s
    ensures r.Some? ==> s == r.value.0 + [c] + r.value.1 && c !in r.value.0
  {
    if |s| == 0 then None
    else if s[0] == c then
      assert s == [] + [c] + s[1..];
      Some(([], s[1..]))
    else
      match SplitOnce(s[1..], c)
      case None => None
      case Some((x, y)) =>
        assert s == [s[0]] + s[1..];
        Some(([s[0]] + x, y))
  }

  /** The split is at the first `c`, so it undoes joining around one `c`. */
  lemma {:induction false} SplitOnceJoin(x: string, c: char, y: string)
    requires c !in x
    ensures SplitOnce(x + [c] + y, c) == Some((x, y))
  {
    var r := SplitOnce(x + [c] + y, c);
    assert c in x + [c] + y;
    var (a, b) := r.value;
    var s := x + [c] + y;
    assert s[|x|] == c && s[|a|] == c;
    assert forall k | 0 <= k < |x| :: s[k] == x[k];
    assert forall k | 0 <= k < |a| :: s[k] == a[k];
    assert |a| == |x|;
    assert a == s[..|a|] == x;
    assert b == s[|a| + 1..] == y;
  }
}

=== FILE: tree.dfy ===
// The parsers' intermediate and final forms: typed tokens, and the command
// tree whose nodes carry arguments and at most one chained subcommand.

module Tree {
  import opened Util

  datatype TokenType =
    | ProgramTok
    | SubcommandTok
    | PositionalTok
    | OptionNameTok
    | OptionValueTok
    | FlagTok
    | SeparatorTok
    | ExtraTok

  datatype Token = Token(kind: TokenType, values: seq<string>)

  function FirstValue(t: Token): Option<string>
  {
    if |t.values| > 0 then Some(t.values[0]) else None
  }

  /** Every token carries exactly one value, as both tokenizers produce them. */
  predicate SingleValued(tokens: seq<Token>)
  {
    forall k | 0 <= k < |tokens| :: |tokens[k].values| == 1
  }

  datatype ArgType = PositionalArg | OptionArg | FlagArg | ExtraArg

  datatype CommandArg = CommandArg(
    kind: ArgType,
    optionName: Option<string>,
    values: seq<string>,
    repeat: nat,
    placeholder: Option<string>)

  datatype CommandNode = CommandNode(name: string, arguments: seq<CommandArg>, subcommand: Option<CommandNode>)

  /** The node and its chain of subcommands, outermost first. */
  function Chain(node: CommandNode): (r: seq<CommandNode>)
    ensures |r| >= 1 && r[0] == node
    decreases node
  {
    match node.subcommand
    case None => [node]
    case Some(child) => [node] + Chain(child)
  }

  function ChainNames(node: CommandNode): (r: seq<string>)
    ensures |r| == |Chain(node)|
    ensures forall d | 0 <= d < |r| :: r[d] == Chain(node)[d].name
    decreases node
  {
    match node.subcommand
    case None => [node.name]
    case Some(child) => [node.name] + ChainNames(child)
  }

  /** The arguments of one kind, in order. */
  function OfKind(args: seq<CommandArg>, kind: ArgType): (r: seq<CommandArg>)
    ensures forall a :: a in r <==> a in args && a.kind == kind
  {
    if |args| == 0 then []
    else (if args[0].kind == kind then [args[0]] else []) + OfKind(args[1..], kind)
  }

  lemma {:induction false} OfKindAppend(args: seq<CommandArg>, x: CommandArg, kind: ArgType)
    ensures OfKind(args + [x], kind) == OfKind(args, kind) + (if x.kind == kind then [x] else [])
    decreases |args|
  {
    if |args| > 0 {
      assert (args + [x])[1..] == args[1..] + [x];
      OfKindAppend(args[1..], x, kind);
    }
  }

  /** Replacing an argument of another kind by another one of another kind changes nothing. */
  lemma {:induction false} OfKindUpdateOther(args: seq<CommandArg>, i: nat, x: CommandArg, kind: ArgType)
    requires i < |args| && args[i].kind != kind && x.kind != kind
    ensures OfKind(args[i := x], kind) == OfKind(args, kind)
    decreases |args|
  {
    if i > 0 {
      assert args[i := x][1..] == args[1..][i - 1 := x];
      OfKindUpdateOther(args[1..], i - 1, x, kind);
    } else {
      assert args[i := x][1..] == args[1..];
    }
  }

  /** The only argument of its kind, replaced by another of that kind. */
  lemma {:induction false} OfKindReplaceSole(args: seq<CommandArg>, i: nat, x: CommandArg, kind: ArgType)
    requires i < |args| && args[i].kind == kind && x.kind == kind && |OfKind(args, kind)| == 1
    ensures OfKind(args, kind) == [args[i]]
    ensures OfKind(args[i := x], kind) == [x]
    decreases |args|
  {
    if i > 0 {
      assert args[i := x][1..] == args[1..][i - 1 := x];
      assert args[1..][i - 1] == args[i];
      assert args[i] in OfKind(args[1..], kind);
      OfKindReplaceSole(args[1..], i - 1, x, kind);
    } else {
      assert args[i := x][1..] == args[1..];
    }
  }

  /** What tells the arguments of a node apart: their kind and option name. */
  type ArgKey = (ArgType, Option<string>)

  function KeyOf(a: CommandArg): ArgKey
  {
    (a.kind, a.optionName)
  }

  /** The keys of the arguments, position by position. */
  function ArgKeys(args: seq<CommandArg>): (r: seq<ArgKey>)
    ensures |r| == |args|
    ensures forall k | 0 <= k < |args| :: r[k] == KeyOf(args[k])
  {
    seq(|args|, k requires 0 <= k < |args| => KeyOf(args[k]))
  }

  lemma {:induction false} ArgKeysAppend(a: seq<CommandArg>, b: seq<CommandArg>)
    ensures ArgKeys(a + b) == ArgKeys(a) + ArgKeys(b)
  {
    assert forall k | 0 <= k < |b| :: (a + b)[|a| + k] == b[k];
  }

  /** What every argument after `--` becomes: another separator or an extra argument. */
  function PassThrough(rest: seq<string>): (r: seq<Token>)
    ensures |r| == |rest|
    ensures forall k | 0 <= k < |rest| :: r[k] == Token(if rest[k] == "--" then SeparatorTok else ExtraTok, [rest[k]])
  {
    if |rest| == 0 then []
    else [Token(if rest[0] == "--" then SeparatorTok else ExtraTok, [rest[0]])] + PassThrough(rest[1..])
  }

  predicate Occurs(tokens: seq<Token>, kind: TokenType)
  {
    exists k | 0 <= k < |tokens| :: tokens[k].kind == kind
  }

  /** The values of all tokens of `kind`, in order. */
  function ValuesOf(tokens: seq<Token>, kind: TokenType): seq<string>
    decreases |tokens|
  {
    if |tokens| == 0 then []
    else ValuesOf(Init(tokens), kind) + (if Last(tokens).kind == kind then Last(tokens).values else [])
  }

  /** The tokens of `kind` gathered from two runs of tokens are those of each, in order. */
  lemma {:induction false} ValuesOfAppend(a: seq<Token>, c: seq<Token>, kind: TokenType)
    ensures ValuesOf(a + c, kind) == ValuesOf(a, kind) + ValuesOf(c, kind)
    decreases |c|
  {
    if |c| > 0 {
      assert Init(a + c) == a + Init(c) && Last(a + c) == Last(c);
      ValuesOfAppend(a, Init(c), kind);
    } else {
      assert a + c == a;
    }
  }

  lemma {:induction false} ValuesOfSingle(t: Token, kind: TokenType)
    ensures ValuesOf([t], kind) == if t.kind == kind then t.values else []
  {
    assert Init([t]) == [] && Last([t]) == t;
  }
}

=== FILE: util.dfy ===
// Optional values, Python-style exceptions as results, and Python truthiness
// of optional strings, shared by every other module.

module Util {

  /** A value that may be absent (Python `None`). */
  datatype Option<T> = None | Some(value: T)
  {
    function GetOr(default: T): T
    {
      if Some? then value else default
    }
  }

  /** The exception classes the modelled code raises or lets escape. */
  datatype Fault =
    | ValueError
    | KeyError
    | AttributeError
    | RecursionError
    | FileNotFound
    | TypeError

  /** The outcome of a call that may raise. */
  datatype Result<T> = Ok(value: T) | Err(fault: Fault)
  {
    predicate IsFailure()
    {
      Err?
    }

    function PropagateFailure<U>(): Result<U>
      requires Err?
    {
      Err(fault)
    }

    function Extract(): T
      requires Ok?
    {
      value
    }
  }

  /** The first element satisfying `p`: the shape of every `for ... if ...: return` lookup. */
  function FirstWhere<T>(xs: seq<T>, p: T -> bool): (r: Option<T>)
    ensures r.None? <==> forall i | 0 <= i < |xs| :: !p(xs[i])
    ensures r.Some? ==> exists i | 0 <= i < |xs| :: xs[i] == r.value && p(xs[i]) && forall j | 0 <= j < i :: !p(xs[j])
  {
    if |xs| == 0 then None
    else if p(xs[0]) then Some(xs[0])
    else
      var r := FirstWhere(xs[1..], p);
      FirstWhereShift(xs, p, r);
      r
  }

  lemma {:induction false} FirstWhereShift<T>(xs: seq<T>, p: T -> bool, r: Option<T>)
    requires |xs| > 0 && !p(xs[0])
    requires r.Some? ==> exists i | 0 <= i < |xs[1..]| :: xs[1..][i] == r.value && p(xs[1..][i]) && forall j | 0 <= j < i :: !p(xs[1..][j])
    ensures r.Some? ==> exists i | 0 <= i < |xs| :: xs[i] == r.value && p(xs[i]) && forall j | 0 <= j < i :: !p(xs[j])
  {
    if r.Some? {
      var i :| 0 <= i < |xs[1..]| && xs[1..][i] == r.value && p(xs[1..][i]) && forall j | 0 <= j < i :: !p(xs[1..][j]);
      assert xs[i + 1] == r.value;
      assert forall j | 0 <= j < i + 1 :: !p(xs[j]) by {
        forall j | 0 <= j < i + 1 ensures !p(xs[j]) {
          if j > 0 {
            assert xs[j] == xs[1..][j - 1];
          }
        }
      }
    }
  }

  /** Extending the sequence only matters when nothing before satisfied `p`. */
  lemma {:induction false} FirstWhereSnoc<T>(xs: seq<T>, x: T, p: T -> bool)
    ensures FirstWhere(xs + [x], p) == if FirstWhere(xs, p).Some? then FirstWhere(xs, p) else if p(x) then Some(x) else None
    decreases |xs|
  {
    if |xs| == 0 {
      assert xs + [x] == [x];
      assert [x][1..] == [];
    } else {
      assert (xs + [x])[0] == xs[0];
      assert (xs + [x])[1..] == xs[1..] + [x];
      FirstWhereSnoc(xs[1..], x, p);
    }
  }

  /** All but the last element. */
  function Init<T>(s: seq<T>): seq<T>
    requires |s| > 0
  {
    s[..|s| - 1]
  }

  function Last<T>(s: seq<T>): T
    requires |s| > 0
  {
    s[|s| - 1]
  }

  /** The last element of a concatenation comes from its non-empty right part. */
  lemma {:induction false} LastConcat<T>(a: seq<T>, b: seq<T>)
    requires |b| > 0
    ensures |a + b| > 0 && Last(a + b) == Last(b)
  {
    assert (a + b)[|a + b| - 1] == b[|b| - 1];
  }

  /** Concatenation regroups freely; stated once so that long proofs need not rediscover it. */
  lemma {:induction false} ConcatAssoc<T>(x: seq<T>, y: seq<T>, z: seq<T>)
    ensures x + (y + z) == (x + y) + z
  {
  }

  /** Python truthiness of an optional string: present and non-empty. */
  predicate Truthy(s: Option<string>)
  {
    s.Some? && s.value != ""
  }

  /** `a or b` on optional strings. */
  function OrElse(a: Option<string>, b: string): string
  {
    if Truthy(a) then a.value else b
  }
}
